=== FILE: README.md ===
# Blog post and highlight reel tools, modelled in Dafny

A model of the text-processing core of a Python toolkit with two jobs.

**Blog posts.** It turns a blog post containing media markers such as
`[CLIP timestamp="1:30" duration="20" align="left"] caption` into
Medium-ready HTML, and extracts the matching screenshots and clips from a
video.

**Highlight reels.** It builds highlight reels from three sources:
- a text or JSON list of segments;
- a tagged instruction script;
- a desktop dialog.

The model covers the parts of these tools that are pure string and
integer logic:
- the timestamp parsers and formatters of every tool;
- the four marker grammars of the document reader and its line loop;
- the duplicate-timestamp check;
- the HTML splicer and paragraph wrapper;
- the file names every tool derives for its output;
- the media extractor's path tracking and cleanup;
- the segment grammars of the two highlight-reel extractors;
- the tagged instruction parser and the card/clip assembly plan of the reel processor;
- the title-card reel's file list, concat list, filter graph and total duration;
- the JSON segment conversion of the command-line and desktop front ends;
- the markdown clean-up patched into the HTML generator.

Every regular expression is written out as a hand-made matcher over `seq<char>`. Each matcher follows Python's
backtracking for its own pattern, and `re.finditer` / `re.sub` are
modelled as left-to-right scans over the anchored matcher. Each ffmpeg,
ffprobe, OpenCV and moviepy call, and each directory the media helpers
create, is a parameter (an oracle that may succeed or fail); the file
system calls still taken to succeed are listed under "## Left out".
Python exceptions are the `Err`/`Fail` values of a `Result` type.

Modules: `Wrappers` (Option, Result, the Python exception names),
`PyStr` and `PyInt` (the `str` and `int` operations the source relies on:
`strip`, `split`, `join`, `replace`, `splitlines`, `int()`, `%0Nd`,
`str(timedelta)`), `Paths` (POSIX `os.path`), `TimeParse` (every
timestamp parser), then one module per source file.

## Model

| member | source | states |
|---|---|---|
| `TimeParse.ParseTimestamp` | src/highlight_reel_extractor.py:32-48 | `parse_timestamp` (and the identical `parse_time` of the command-line tool): every failure is a ValueError, and a colon-free text that parses was a digit string whose value is the result |
| `TimeParse.ParseTimestampClock` | examples/highlight_reel_example.py:39-46 | `"H:M:S"` and `"M:S"` texts, for any integers and zero padding, read back as `H*3600+M*60+S` and `M*60+S` |
| `TimeParse.ParseTimestampSeconds` | examples/highlight_reel_example.py:34-36 | a zero-padded digit string reads back as its value |
| `TimeParse.DecimalSeconds` | src/blog_processor/docx_reader.py:43-45 | with at most 15 significant digits, `"A.B"` is truncated to `A` by the document reader's `parse_time` and rejected by the highlight-reel `parse_timestamp` |
| `TimeParse.DecimalLiteral` | src/blog_processor/docx_reader.py:44-45 | in the model, `"A.B"` reads as `A` truncated exactly below the first integer a double rounds to infinity, and as an OverflowError from there on; this equals `int(float("A.B"))` only up to 15 significant digits (see `DecimalSeconds`) |
| `TimeParse.DecimalOverflows` | src/blog_processor/docx_reader.py:44-58 | a decimal literal too large for a double escapes `parse_time` as an OverflowError, which its `except ValueError` does not catch |
| `TimeParse.DocxParseTime` | src/blog_processor/docx_reader.py:40-60 | the document reader's `parse_time`: a '.' text goes through `float`, two or three ':' pieces are a clock, otherwise `int()`; every failure is a ValueError or, from the `float` branch only, an OverflowError |
| `TimeParse.DocxParseTimeClock` | src/blog_processor/docx_reader.py:48-54 | `"1:30"`-style and `"00:01:30"`-style texts read as `M*60+S` and `H*3600+M*60+S` |
| `TimeParse.DocxParseTimeSeconds` | src/blog_processor/docx_reader.py:57 | the plain-integer fallback reads a formatted integer back |
| `TimeParse.ParseDecimalTrunc` | src/blog_processor/docx_reader.py:45 | `int(float(s))` for a decimal literal: the integer part, an OverflowError once `float` is infinite, and a ValueError for anything that is not a literal |
| `TimeParse.ClipStartTime` | src/highlight_reel_maker/highlight_reel_processor.py:279-280 | the processor's `map(int, timestamp.split(':'))`: exactly three integers, every failure a ValueError |
| `TimeParse.ClipStartTimeClock` | src/highlight_reel_maker/highlight_reel_processor.py:279-280 | a three-piece clock text gives `H*3600+M*60+S`; a two-piece one is a ValueError |
| `TimeParse.TimedeltaIsClock` | src/videoclipper.py:34-35 | below a day `str(timedelta(seconds=n))` (`PyInt.TimedeltaStr`) is the `H:MM:SS` clock of `n` with unpadded hours |
| `TimeParse.TimedeltaParsesBack` | src/highlight_reel_extractor.py:39-43 | a sub-day `timedelta` text is read back by `parse_timestamp` as the same seconds |
| `TimeParse.TimeTagParsesBack` | src/blog_processor/media_extractor.py:63 | the `H-MM-SS` tag (`str(timedelta)` with ':' replaced by '-') reads back as the seconds it came from |
| `TimeParse.TimeTagInjective` | src/screenshot_extractor.py:56-59 | below a day, distinct timestamps get distinct `H-MM-SS` tags |
| `PyInt.ParseInt` | src/blog_processor/docx_reader.py:50 | Python's `int(str)`: surrounding whitespace, an optional sign and single underscores between digits are accepted; any other text is a ValueError |
| `PyInt.ParseFormatPadded` | src/blog_processor/docx_reader.py:50-51 | `int()` reads back every integer formatted with `str()` or `%0Nd` (`IntToString` and `FormatPadded`) |
| `PyInt.TimeTag` | src/blog_processor/media_extractor.py:63 | `str(timedelta(...)).replace(':', '-')` leaves no ':' in the tag (`TimeTagParsesBack` and `TimeTagInjective` state that it reads back) |
| `PyInt.Trunc` | src/videoclipper.py:34-35 | `int(x)` of a float truncates toward zero |
| `PyStr.Upper` | examples/highlight_reel_example.py:85 | `str.upper()` never shortens a string, and upper-cases an all-ASCII string letter for letter |
| `PyStr.UpperText` | examples/highlight_reel_example.py:85 | a character's uppercase is never empty; an ASCII character's is one character |
| `PyStr.UpperAppend` | examples/highlight_reel_example.py:95-96 | upper-casing distributes over concatenation |
| `HighlightReelExample.DotlessTitleHeader` | examples/highlight_reel_example.py:85 | `tıtle:` opens a segment, because the dotless `ı` upper-cases to `I` |
| `HighlightReelExample.LigatureTimestamp` | examples/highlight_reel_example.py:95-96 | `time` followed by `ﬆamp:` is a timestamp field, because the ligature upper-cases to `ST` |
| `Paths.DotComponentDropped` | src/highlight_reel_maker/highlight_reel_processor.py:129 | `Path(p)` drops a trailing `.` component, so `p/.` has the name of `p` |
| `Paths.PathJoin` | src/screenshot_extractor.py:27 | POSIX `os.path.join`: an absolute second part replaces the first; otherwise one '/' separates them unless the first is empty or ends in '/' |
| `Paths.StemOfJoined` | src/screenshot_extractor.py:24 | `os.path.splitext(os.path.basename(p))[0]` of `dir/stem.ext` is `stem` |
| `Paths.StemsAgree` | src/highlight_reel_maker/highlight_reel_processor.py:129 | `Path(p).stem` and the `splitext`/`basename` stem agree on a video name with an extension |
| `Utils.ValidateTimestamps` | src/utils.py:11-21 | passes exactly for a non-empty list of non-negative numbers without repeats; every failure is a ValueError, and a falsy argument always fails |
| `Utils.DistinctIffFullSet` | src/utils.py:20-21 | `len(set(values)) == len(values)` holds exactly when no value repeats |
| `Utils.CallValidateTimestamps` | src/utils.py:1 | the function takes no keyword arguments: a call with any keyword is a TypeError, one without is the validator |
| `Utils.ValidateTimestampsAllowing` | src/utils.py:17-21 | the validator with duplicates tolerated, as the two video helpers mean to call it; without tolerance it is the validator |
| `ScreenshotExtractor.ExtractScreenshots` | src/screenshot_extractor.py:17-65 | a missing video is a FileNotFoundError first, then a bad list a ValueError, then a failing `os.makedirs` its own error, then a zero frame rate a ZeroDivisionError and a duration of a billion days or more an OverflowError; the call succeeds exactly when none of these happens; images land in `output_dir/<stem>` named by their position in the full list, and timestamps past the end are skipped |
| `ScreenshotExtractor.ShotsFrom` | src/screenshot_extractor.py:41-65 | the loop keeps list positions in increasing order, and only for timestamps within the video whose frame was read |
| `ScreenshotExtractor.ShotsFromComplete` | src/screenshot_extractor.py:41-65 | every in-range timestamp whose frame is read gets its image |
| `ScreenshotExtractor.ScreenshotName` | src/screenshot_extractor.py:55-59 | `<stem>_screenshot_{i:03d}_at_<H-MM-SS>.jpg` reads back as position `i`, whatever the timestamp |
| `ScreenshotExtractor.ScreenshotNamesDistinct` | src/screenshot_extractor.py:59 | different positions never share a name, even for equal timestamps |
| `ScreenshotExtractor.ExtractScreenshotsAsWritten` | src/screenshot_extractor.py:21 | as written, every call on an existing video raises TypeError |
| `ScreenshotExtractor.AllowDuplicatesRejected` | src/screenshot_extractor.py:20-21 | a concrete call the intended code serves and the written code rejects |
| `ScreenshotExtractor.ShotsAsWritten` | src/screenshot_extractor.py:56-65 | the loop as written: its only extra failure is UnboundLocalError |
| `ScreenshotExtractor.AsWrittenRaises` | src/screenshot_extractor.py:65 | the loop as written raises exactly when the first in-range frame cannot be read |
| `ScreenshotExtractor.AsWrittenOnceBound` | src/screenshot_extractor.py:56-65 | once a frame has been saved, the loop as written behaves as intended |
| `VideoClipper.ExtractVideoClip` | src/videoclipper.py:19-57 | missing video first, then a bad start (ValueError), a non-number duration (TypeError) or one ≤ 0 (ValueError), then a failing `os.makedirs` (its own error), a start or duration past `timedelta`'s range (OverflowError), a missing ffmpeg executable (FileNotFoundError, not caught) and a failed ffmpeg run (RuntimeError); success exactly when none of these happens, and it returns the derived path |
| `VideoClipper.ExtractVideoClipAsWritten` | src/videoclipper.py:23 | as written, every call on an existing video raises TypeError |
| `VideoClipper.ClipKeywordRejected` | src/videoclipper.py:23-25 | a concrete call the intended code serves and the written code rejects |
| `VideoClipper.ClipName` | src/videoclipper.py:34-36 | `<stem>_clip_from_<H-MM-SS>_duration_<H-MM-SS>.mp4` reads back as the whole seconds of start and duration when both are below a day |
| `VideoClipper.ClipNamesDistinct` | src/videoclipper.py:34-36 | two clips share a name only when their whole-second start and duration agree |
| `VideoClipper.ClipPathName` | src/videoclipper.py:28-37 | the returned path's last component is the clip name built from the video's stem |
| `DocxReader.MatchAt` | src/blog_processor/docx_reader.py:33-38 | a match of one of the four marker patterns anchored at `i` starts at `i` and ends inside the text |
| `DocxReader.MatchAtShape` | src/blog_processor/docx_reader.py:33-38 | every match starts with its `[KIND` lead, has a non-empty quote-free timestamp, a duration exactly for CLIP, an align value exactly for the align patterns, and a caption running to the next '[' |
| `DocxReader.AlignClose` | src/blog_processor/docx_reader.py:33-34 | the align clause, with the backtracking of `[="]*` into the value, yields a value and ends after a ']' |
| `DocxReader.FindAll` | src/blog_processor/docx_reader.py:65-66 | `re.finditer`: every reported match is the anchored match at its start, in order, without overlap |
| `DocxReader.FindAllCovers` | src/blog_processor/docx_reader.py:65-66 | no match is missed: every index where the pattern matches lies inside a reported match |
| `DocxReader.PatternsExclusive` | src/blog_processor/docx_reader.py:33-38 | at any index at most one of the four patterns matches, so no marker is recorded twice |
| `DocxReader.ToMarker` | src/blog_processor/docx_reader.py:67-78 | one match becomes a marker, or a ValueError or OverflowError exactly when its timestamp or duration does not convert (the OverflowError comes from the `float` branch) |
| `DocxReader.ToMarkers` | src/blog_processor/docx_reader.py:65-78 | on success one marker per match, in match order, each the conversion of its match; every failure is the ValueError or OverflowError of a conversion |
| `DocxReader.ToMarkersFail` | src/blog_processor/docx_reader.py:66-68 | a pattern's loop fails exactly when some match does not convert: a bad marker aborts, it is never skipped |
| `DocxReader.MarkerOfMatch` | src/blog_processor/docx_reader.py:71-125 | a marker carries its pattern's kind and its exact matched text; its caption holds no '['; clips have a duration and screenshots none; markers without `align` are centred |
| `DocxReader.LineMarkers` | src/blog_processor/docx_reader.py:157-158 | the markers of one stripped line; a failure is always a time conversion error (what the line yields is stated by `LineMarkersShape` and `LineMarkersFail`) |
| `DocxReader.LineMarkersFail` | src/blog_processor/docx_reader.py:157-158 | a line fails exactly when some match of its four patterns fails to convert |
| `DocxReader.LineMarkersShape` | src/blog_processor/docx_reader.py:62-126 | every marker of a line comes from the line, and all CLIP markers precede all SCREENSHOT markers whatever their textual order |
| `DocxReader.StripAll` | src/blog_processor/docx_reader.py:146-160 | the rebuilt text has one stripped line per input line |
| `DocxReader.StripAllLines` | src/blog_processor/docx_reader.py:147-149 | a line becomes `''` exactly when it is blank; otherwise it has no whitespace at either end |
| `DocxReader.ExtractedTextLines` | src/blog_processor/docx_reader.py:166 | the returned text split at '\n' gives back the stripped lines, one per input line |
| `DocxReader.ExtractMarkers` | src/blog_processor/docx_reader.py:146-166 | `extract_markers`: a failure is always a time conversion error (line order, failure and text are stated by `ExtractMarkersAppend`, `ExtractMarkersFail` and `ExtractedTextLines`) |
| `DocxReader.ExtractMarkersAppend` | src/blog_processor/docx_reader.py:146-160 | markers keep line order: a document's markers are those of its first lines followed by those of the rest |
| `DocxReader.ExtractMarkersFail` | src/blog_processor/docx_reader.py:146-160 | extraction fails exactly when some line's markers fail; blank lines never do |
| `DocxReader.CollectFail` | src/blog_processor/docx_reader.py:146-160 | the line loop fails exactly when some line fails |
| `DocxReader.MarkerTextMatches` | src/blog_processor/docx_reader.py:33-38 | a marker written with readable pieces is matched from its first character to the end by the pattern of its kind and align form, and the match gives the pieces back |
| `DocxReader.ValidateMarkers` | src/blog_processor/docx_reader.py:168-181 | the per-type dictionary loop yields one warning per marker whose (type, timestamp) occurred before, in marker order |
| `DocxReader.WarningCount` | src/blog_processor/docx_reader.py:172-179 | warnings plus distinct (type, timestamp) keys equal the number of markers |
| `DocxReader.NoWarningsIffDistinct` | src/blog_processor/docx_reader.py:168-181 | no warnings exactly when no two markers share type and timestamp |
| `HtmlGenerator.AlignClassRoundTrip` | src/blog_processor/html_generator.py:15 | the class is empty exactly for `center`, and every alignment is recovered from its class |
| `HtmlGenerator.VideoElementShows` | src/blog_processor/html_generator.py:13-24 | a clip's figure carries its class, its source path and its caption verbatim |
| `HtmlGenerator.ImageElementShows` | src/blog_processor/html_generator.py:26-34 | a screenshot's figure carries its class, its path, and its caption verbatim as alt text and figure caption |
| `HtmlGenerator.MediaFilename` | src/blog_processor/html_generator.py:44-48 | `clip_{i+1:03d}.mp4` / `screenshot_{i+1:03d}.jpg` read back as the kind and list position |
| `HtmlGenerator.MediaFilenamesDistinct` | src/blog_processor/html_generator.py:42-50 | numbering is shared across kinds: different positions never share a file name |
| `HtmlGenerator.Element` | src/blog_processor/html_generator.py:42-50 | the element of the marker at position `i` points into the media folder at that position's file and shows the caption |
| `HtmlGenerator.ReplaceMarkersStep` | src/blog_processor/html_generator.py:53 | one replacement step keeps the text between occurrences and puts the element at each occurrence |
| `HtmlGenerator.ReplaceInsertsElement` | src/blog_processor/html_generator.py:53 | a marker text that occurs when its turn comes is replaced and its element occurs afterwards |
| `HtmlGenerator.ReplaceMarkersAbsent` | src/blog_processor/html_generator.py:53 | a marker whose text no longer occurs (e.g. an identical earlier marker took it) changes nothing |
| `HtmlGenerator.WrapCount` | src/blog_processor/html_generator.py:56-57 | one `<p>` per non-blank chunk |
| `HtmlGenerator.WrapShape` | src/blog_processor/html_generator.py:57 | every paragraph is `<p>` + a stripped non-blank chunk + `</p>`, figures included |
| `HtmlGenerator.ParagraphsSplitBack` | src/blog_processor/html_generator.py:56-59 | the output splits at blank lines back into exactly the wrapped paragraphs, one per non-blank chunk; empty when there is none |
| `HtmlGenerator.GenerateHtml` | src/blog_processor/html_generator.py:52-59 | the page is empty or splits at blank lines into `<p>` paragraphs only (what each paragraph holds is stated by `ParagraphsSplitBack`, `WrapShape` and `ReplaceInsertsElement`) |
| `HtmlGenerator.GenerateCss` | src/blog_processor/html_generator.py:61-89 | the constant style sheet styles the classes of left- and right-aligned figures |
| `MediaExtractor.NewExtractor` | src/blog_processor/media_extractor.py:16-24 | a fresh extractor tracks nothing |
| `MediaExtractor.OfKind` | src/blog_processor/media_extractor.py:35 | the markers of one kind, and only those |
| `MediaExtractor.KindsPartition` | src/blog_processor/media_extractor.py:35-40 | every marker is in exactly one of the two sublists |
| `MediaExtractor.TrackedScreenshots` | src/blog_processor/media_extractor.py:62-66 | screenshot `i` of the sublist is tracked as `output_dir/screenshot_{i+1:03d}_at_<H-MM-SS>.jpg`, in order, up to the first timestamp `timedelta` cannot hold (999,999,999 days or more), which raises; the whole list is tracked exactly when every timestamp fits |
| `MediaExtractor.RecordScreenshots` | src/blog_processor/media_extractor.py:56-70 | a failing batch tracks nothing and fails; a returning batch tracks the screenshots up to the first timestamp outside `timedelta`'s range, and the step succeeds exactly when there is none |
| `MediaExtractor.ClipsFrom` | src/blog_processor/media_extractor.py:75-83 | the clip loop records the returned path of each successful call, in order, and stops at the first failure |
| `MediaExtractor.ClipsTracked` | src/blog_processor/media_extractor.py:75-87 | the clip loop succeeds exactly when no call fails |
| `MediaExtractor.RecordClips` | src/blog_processor/media_extractor.py:72-87 | if clip `k` fails exactly clips before `k` are added to the tracked list; screenshots are untouched |
| `MediaExtractor.ExtractAllMedia` | src/blog_processor/media_extractor.py:26-48 | never raises; a missing video or a failing `os.makedirs` gives `false` with nothing tracked; screenshots come first, a failing batch stops before any clip, and a `timedelta` overflow while tracking stops before any clip with the paths tracked before it kept |
| `MediaExtractor.ExtractionSucceeds` | src/blog_processor/media_extractor.py:28-44 | success exactly when the video exists, the output directory is made, the screenshot batch (if any) returns, every screenshot timestamp fits a `timedelta` and every clip call succeeds |
| `MediaExtractor.HugeScreenshotFails` | src/blog_processor/media_extractor.py:59-70 | a screenshot at 86,400,000,000,000 s makes extraction return `false` even when the batch returns, with nothing tracked |
| `MediaExtractor.NoMarkersNoMedia` | src/blog_processor/media_extractor.py:28-44 | an empty marker list tracks nothing, and succeeds exactly when the video exists and the output directory is made |
| `MediaExtractor.MediaFailsAsWritten` | src/blog_processor/media_extractor.py:37-42 | with the video helpers as written, any document with a marker fails and tracks nothing |
| `MediaExtractor.RemoveAll` | src/blog_processor/media_extractor.py:97-99 | with every removal working, exactly the existing files not among the paths remain |
| `MediaExtractor.RemoveEach` | src/blog_processor/media_extractor.py:97-99 | the loop over one list finishes exactly when every existing path can be removed; otherwise it stops at the first existing path `os.remove` raises on, which stays, with the paths before it deleted |
| `MediaExtractor.RemoveEachAllRemovable` | src/blog_processor/media_extractor.py:97-99 | with every removal working the loop deletes what `RemoveAll` deletes |
| `MediaExtractor.Cleanup` | src/blog_processor/media_extractor.py:92-101 | never deletes an untracked file; empties both lists exactly when every existing tracked path can be removed; a raising removal leaves its own list and the later one tracked and the unremovable path in place |
| `MediaExtractor.CleanupRetries` | src/blog_processor/media_extractor.py:92-101 | after a cleanup stopped by a failing removal, a cleanup in which removals work ends where one clean run would have |
| `MediaExtractor.WrittenNameOfTracked` | src/blog_processor/media_extractor.py:64 | the screenshot helper's file name is the tracked name behind the video stem and '_' |
| `MediaExtractor.TrackedScreenshotNotWritten` | src/blog_processor/media_extractor.py:63-65 | the tracked screenshot path never names the file the helper writes, so the naming schemes stay apart as written |
| `HighlightReelExtractor.HeaderAt` | src/highlight_reel_extractor.py:64 | `#{1,6}\s*Segment \d` at `i`: starts with '#' and locates the `Segment` word followed by a digit |
| `HighlightReelExtractor.BlockEnd` | src/highlight_reel_extractor.py:64 | a block runs to the first '#' after its digit or to the end of the text |
| `HighlightReelExtractor.Spans` | src/highlight_reel_extractor.py:69 | `re.finditer`: matches in order, not overlapping |
| `HighlightReelExtractor.SpansComplete` | src/highlight_reel_extractor.py:69 | no header position is skipped by the scan |
| `HighlightReelExtractor.SpansFindFirst` | src/highlight_reel_extractor.py:69 | the first match reported is the first position where the header pattern matches; none is reported only when it matches nowhere |
| `HighlightReelExtractor.BlockShape` | src/highlight_reel_extractor.py:71-72 | every stripped block starts with `Segment ` and a digit and holds no '#' |
| `HighlightReelExtractor.Title` | src/highlight_reel_extractor.py:75-76 | the title has no '(' and no newline |
| `HighlightReelExtractor.TitleBeforeParen` | src/highlight_reel_extractor.py:75 | on a first line with '(' the title is the text before it |
| `HighlightReelExtractor.TitleSkipsLine` | src/highlight_reel_extractor.py:75 | a paren-free first line that is not the last line is passed over: `.` cannot reach `$` across a newline |
| `HighlightReelExtractor.TitleOfPlainLine` | src/highlight_reel_extractor.py:75 | a single paren-free line is its own title |
| `HighlightReelExtractor.TimestampFrom` | src/highlight_reel_extractor.py:65 | the captured timestamp is a non-empty run of digits and ':' |
| `HighlightReelExtractor.TimestampAfterLabel` | src/highlight_reel_extractor.py:79-84 | the run after the first `STARTING TIMESTAMP:` and its spaces is the timestamp |
| `HighlightReelExtractor.TooManyParts` | src/highlight_reel_extractor.py:84-85 | a captured value with four or more ':' parts is a ValueError |
| `HighlightReelExtractor.DurationOf` | src/highlight_reel_extractor.py:88-95 | 60 × N for the first `(N minute(s))`, else 120; always a whole number of minutes |
| `HighlightReelExtractor.DurationOfText` | src/highlight_reel_extractor.py:66 | `(N minutes)` with no earlier '(' gives `60*N` |
| `HighlightReelExtractor.KeptLines` | src/highlight_reel_extractor.py:98-105 | kept description lines are non-blank and stripped |
| `HighlightReelExtractor.Filtered` | src/highlight_reel_extractor.py:101-105 | the indices of lines lacking the title and the label and not blank, all of them, in order |
| `HighlightReelExtractor.KeptLinesExact` | src/highlight_reel_extractor.py:98-107 | the kept lines are exactly the filtered lines, stripped, in order |
| `HighlightReelExtractor.DescriptionSplitsBack` | src/highlight_reel_extractor.py:107 | the description splits back into exactly the kept lines |
| `HighlightReelExtractor.SegmentOf` | src/highlight_reel_extractor.py:72-115 | a block without a timestamp is skipped; an unparsable one is a ValueError; otherwise its title and duration are the block's |
| `HighlightReelExtractor.Collect` | src/highlight_reel_extractor.py:71-117 | the block loop succeeds exactly when every block does; the first failure is the error |
| `HighlightReelExtractor.CollectAppend` | src/highlight_reel_extractor.py:71-117 | segments come out in document order |
| `HighlightReelExtractor.ExtractSegments` | src/highlight_reel_extractor.py:51-117 | at most one segment per block; succeeds exactly when every block does; failures are ValueErrors |
| `HighlightReelExtractor.SegmentFileNameRoundTrip` | src/highlight_reel_extractor.py:146 | `segment_{i+1:03d}.mp4` reads back as position `i` |
| `HighlightReelExtractor.SegmentFileNamesDistinct` | src/highlight_reel_extractor.py:146-148 | different positions write different temporary files |
| `HighlightReelExtractor.SegmentStep` | src/highlight_reel_extractor.py:140-160 | one segment passes exactly when it is valid and its cut runs; an invalid one is a ValueError, a failed cut of a valid one a RuntimeError; the file is `segment_NNN.mp4` in the temporary folder |
| `HighlightReelExtractor.SegmentFiles` | src/highlight_reel_extractor.py:140-163 | the loop succeeds exactly when every segment is valid (non-negative start, positive duration) and cut; temp files are named in order |
| `HighlightReelExtractor.CreateHighlightReel` | src/highlight_reel_extractor.py:132-192 | missing video first, then the temporary directory, the per-segment loop, the list file, the output's directory and the concatenation, each failure propagating; success exactly when all of them work, and it returns the output path |
| `HighlightReelExtractor.ConcatListInOrder` | src/highlight_reel_extractor.py:166-169 | the concat list names one file per segment, in segment order |
| `HighlightReelExample.ValueAfterColon` | examples/highlight_reel_example.py:124-134 | the text after the first ':', stripped, or the default when there is no ':' |
| `HighlightReelExample.FirstField` | examples/highlight_reel_example.py:116-121 | the first part the field test accepts, or the default when none does |
| `HighlightReelExample.DurationValue` | examples/highlight_reel_example.py:140-148 | 60 × N for the first `N minute(s)`, else the integer value, else 120 |
| `HighlightReelExample.DurationOfSeconds` | examples/highlight_reel_example.py:145-146 | a bare number of seconds is taken as it is |
| `HighlightReelExample.DurationOfMinutes` | examples/highlight_reel_example.py:140-142 | `N minutes` is `60*N` seconds |
| `HighlightReelExample.DefaultDurationText` | examples/highlight_reel_example.py:110 | the default duration field is two minutes |
| `HighlightReelExample.DescriptionRun` | examples/highlight_reel_example.py:150-157 | the description is the stripped lines up to the first blank or field line |
| `HighlightReelExample.Finish` | examples/highlight_reel_example.py:136-172 | an unparsable timestamp drops only this segment and scanning resumes on the next line |
| `HighlightReelExample.MultiLineStep` | examples/highlight_reel_example.py:91-110 | without a following `TIME:` line nothing is emitted and scanning moves on; without a `DURATION:` line the duration is 120 |
| `HighlightReelExample.PipeStep` | examples/highlight_reel_example.py:111-121 | fields are found by prefix among the '|' parts; without a duration part the duration is 120 |
| `HighlightReelExample.SimpleStep` | examples/highlight_reel_example.py:88-121 | a line without '|' takes the multi-line form, one with '|' the one-line form |
| `HighlightReelExample.SplitBar` | examples/highlight_reel_example.py:88-91 | `split('|')` has one part exactly when there is no '|' |
| `HighlightReelExample.StampValue` | examples/highlight_reel_example.py:196-198 | the `STARTING TIMESTAMP:` value is parsed; failures are ValueErrors |
| `HighlightReelExample.MarkdownBody` | examples/highlight_reel_example.py:192-205 | the block runs to the next blank line; the time is from the last timestamp line that parses; other lines become stripped description |
| `HighlightReelExample.AnyStampMeans` | examples/highlight_reel_example.py:192-205 | the body yields a start time exactly when some line before the blank line is a timestamp line that parses |
| `HighlightReelExample.MarkdownStep` | examples/highlight_reel_example.py:175-219 | a `####` block emits a segment exactly when a timestamp parsed, titled by the header and timed from `(N minutes)` or 120 |
| `HighlightReelExample.StepAt` | examples/highlight_reel_example.py:76-226 | every iteration moves the line index strictly forward; only segment-start lines emit |
| `HighlightReelExample.Scan` | examples/highlight_reel_example.py:76-226 | the loop ends, and segments come out in the order of their starting lines |
| `HighlightReelExample.ExtractSegmentsFromText` | examples/highlight_reel_example.py:51-229 | every segment is the one the loop builds at a segment-start line of `splitlines()`, each line gives at most one, and they come out in strictly increasing line order, so there are at most as many segments as lines |
| `HighlightReelProcessor.StepLine` | src/highlight_reel_maker/highlight_reel_processor.py:162-205 | one line of the loop never drops or changes a segment already closed, and closes at most one (the previous segment, at a `[Segment]` line) |
| `HighlightReelProcessor.Run` | src/highlight_reel_maker/highlight_reel_processor.py:159-205 | the `while` loop over the stripped lines keeps the segments closed before it, in order, and closes at most one per line |
| `HighlightReelProcessor.StepIgnores` | src/highlight_reel_maker/highlight_reel_processor.py:185-192 | a description outside a segment and a clip line with no pending description change nothing |
| `HighlightReelProcessor.StepClipMatch` | src/highlight_reel_maker/highlight_reel_processor.py:192-201 | a matching clip line with an open segment and a pending description appends the clip and clears the pending one |
| `HighlightReelProcessor.LastTitleWins` | src/highlight_reel_maker/highlight_reel_processor.py:168-169 | the main title comes from the last `[Title]` line |
| `HighlightReelProcessor.ParseInstructions` | src/highlight_reel_maker/highlight_reel_processor.py:151-223 | every returned segment has a clip and every clip a valid timestamp and duration; it fails with ValueError exactly when no segment survives |
| `HighlightReelProcessor.ClipLineRead` | src/highlight_reel_maker/highlight_reel_processor.py:193-196 | a written clip line matches its own timestamp and duration |
| `HighlightReelProcessor.ParseWritten` | src/highlight_reel_maker/highlight_reel_processor.py:159-213 | instructions written from a title and segments parse back to exactly them |
| `HighlightReelProcessor.DescribedAll` | src/highlight_reel_maker/highlight_reel_processor.py:67-76 | fewer description cards than clips exactly when some description is empty |
| `HighlightReelProcessor.CardsMatch` | src/highlight_reel_maker/highlight_reel_processor.py:43-76 | the cards made equal the cards the assembly takes exactly when every description is non-empty |
| `HighlightReelProcessor.ClipFiles` | src/highlight_reel_maker/highlight_reel_processor.py:79-89 | one clip file per clip, in order |
| `HighlightReelProcessor.ClipCut` | src/highlight_reel_maker/highlight_reel_processor.py:276-284 | a clip starts at its `H:M:S` time and lasts its duration; a non-clock timestamp is a ValueError |
| `HighlightReelProcessor.Cuts` | src/highlight_reel_maker/highlight_reel_processor.py:78-90 | one cut per clip exactly when every timestamp reads |
| `HighlightReelProcessor.AsWrittenNeedsDescriptions` | src/highlight_reel_maker/highlight_reel_processor.py:97-120 | as written, assembly succeeds exactly when every clip has a non-empty description |
| `HighlightReelProcessor.AssemblyAgrees` | src/highlight_reel_maker/highlight_reel_processor.py:101-120 | with every description non-empty the written assembly is the intended one |
| `HighlightReelProcessor.AssemblyInOrder` | src/highlight_reel_maker/highlight_reel_processor.py:92-120 | the corrected assembly puts main title, then per segment its title card and per clip its description card (if made) and clip |
| `HighlightReelProcessor.WriteAll` | src/highlight_reel_maker/highlight_reel_processor.py:42-75 | phase 1 writes every title card exactly when no write raises, and otherwise fails with the error of a card it wrote |
| `HighlightReelProcessor.ClipStep` | src/highlight_reel_maker/highlight_reel_processor.py:79-88 | one clip is cut exactly when its timestamp parses, the video opens and its file is written; a video that does not open is an OSError |
| `HighlightReelProcessor.SegmentSteps` | src/highlight_reel_maker/highlight_reel_processor.py:78-90 | a segment's clips are all cut exactly when every timestamp parses, the video opens (if the segment has a clip) and every clip file is written |
| `HighlightReelProcessor.PhaseTwo` | src/highlight_reel_maker/highlight_reel_processor.py:77-90 | phase 2 gives the cuts of every clip in reel order exactly when every timestamp parses, the video opens and every clip file is written; its failures are the reel's errors |
| `HighlightReelProcessor.ProcessReel` | src/highlight_reel_maker/highlight_reel_processor.py:28-149 | `process_reel` as written: every failure is a ValueError, the OSError of a video that does not open, an error a moviepy write raised, or IndexError; success wrote every card, clip and the reel |
| `HighlightReelProcessor.ProcessReelCorrected` | src/highlight_reel_maker/highlight_reel_processor.py:28-149 | with the corrected assembly: succeeds exactly when the instructions parse, every card is written, every timestamp parses, the video opens, every clip is written and the reel is written; names the reel after the video's stem |
| `HighlightReelProcessor.WorkingMovie` | src/highlight_reel_maker/highlight_reel_processor.py:28-149 | when moviepy works, the corrected reel is built exactly when parsing and every timestamp succeed, and every failure is a ValueError |
| `HighlightReelProcessor.MissingVideoFails` | src/highlight_reel_maker/highlight_reel_processor.py:283 | a video moviepy cannot open fails the reel, both as written and corrected |
| `HighlightReelProcessor.ReelWriteFails` | src/highlight_reel_maker/highlight_reel_processor.py:132-137 | a failing final write fails an otherwise sound reel with the error it raised |
| `HighlightReelProcessor.ProcessReelAgrees` | src/highlight_reel_maker/highlight_reel_processor.py:113-115 | the two differ only where an undescribed clip makes the written code read past its title cards, which happens after every card and clip was written and before the final write |
| `HighlightReelProcessor.AgreesOnFailure` | src/highlight_reel_maker/highlight_reel_processor.py:36-90 | a failure in parsing, phase 1 or phase 2 is the same failure in both |
| `HighlightReelProcessor.AgreesAfterPhases` | src/highlight_reel_maker/highlight_reel_processor.py:92-120 | after phases 1 and 2 the written code fails exactly on an undescribed clip and otherwise does what the corrected code does |
| `HighlightReelProcessor.UndescribedClipFails` | src/highlight_reel_maker/highlight_reel_processor.py:68-76 | with moviepy working, sound instructions with an empty description raise IndexError as written and succeed when corrected |
| `HighlightReelProcessor.UndescribedClipWitness` | src/highlight_reel_maker/highlight_reel_processor.py:186-189 | one segment with one undescribed clip raises IndexError as written |
| `TitledHighlightReel.EscapedTitleReads` | src/titled_highlight_reel.py:75 | the escaped title between quotes reads back as the title under one level of ffmpeg's quote parsing |
| `TitledHighlightReel.DrawTextCarriesTitle` | src/titled_highlight_reel.py:86-87 | after one level of ffmpeg's quote parsing, the `text=` option of the drawtext filter reads back as exactly the title, whatever it holds, followed by the other options |
| `TitledHighlightReel.EscapeTitle` | src/titled_highlight_reel.py:75 | the escaped title, put between single quotes, reads back as exactly the title under one level of ffmpeg's quote parsing |
| `TitledHighlightReel.EscapeConcatPath` | src/titled_highlight_reel.py:232 | the two `replace` calls escape each backslash and each quote with a backslash and leave every other character alone |
| `TitledHighlightReel.TwoPassesChars` | src/titled_highlight_reel.py:232 | doubling backslashes and then escaping quotes is a per-character escape |
| `TitledHighlightReel.ConcatList` | src/titled_highlight_reel.py:229-233 | paths without a quote, a backslash or a line end read back from the concat file as written; these are the paths the source's escape leaves alone |
| `TitledHighlightReel.QuoteMangled` | src/titled_highlight_reel.py:231-233 | as written, ffmpeg reads the listed path `a'b` back as `a\b` |
| `TitledHighlightReel.BackslashMangled` | src/titled_highlight_reel.py:231-233 | as written, ffmpeg reads the listed path `a\b` back as `a\\b` |
| `TitledHighlightReel.QuotedConcatListReads` | src/titled_highlight_reel.py:229-233 | with ffmpeg's own quoting (a quote becomes `'\''`, nothing else changes), every list of one-line paths reads back as written |
| `ConcatDemuxer.QuotedRunStep` | src/titled_highlight_reel.py:233 | ffmpeg copies a quoted stretch literally: a backslash inside quotes is an ordinary character |
| `ConcatDemuxer.EscapedQuoteStep` | src/titled_highlight_reel.py:233 | outside quotes, ffmpeg reads a backslash and a quote as the quote |
| `ConcatDemuxer.LineThenRest` | src/titled_highlight_reel.py:233 | each `file` line of the list gives one entry, before the entries of the lines after it |
| `TitledHighlightReel.Pieces` | src/titled_highlight_reel.py:270-293 | the intermediate list is title_001, segment_001, title_002, …: length 2n |
| `TitledHighlightReel.InputArgs` | src/titled_highlight_reel.py:311-312 | `-i <file>` for each file, in order |
| `TitledHighlightReel.FilterComplex` | src/titled_highlight_reel.py:311-315 | the filter graph takes video and audio of every input once, in order, and concatenates all of them |
| `TitledHighlightReel.TotalIsPieces` | src/titled_highlight_reel.py:336 | the reported total (Σ durations + n × title duration) is the running time of the joined files |
| `TitledHighlightReel.MakePieces` | src/titled_highlight_reel.py:270-297 | the segment loop succeeds exactly when every card and cut succeeds; a failed cut is a RuntimeError |
| `TitledHighlightReel.PlannedFiles` | src/titled_highlight_reel.py:267-315 | the planned files are in order, the filter graph reads back to them, and so does the (ffmpeg-quoted) concat list when the temporary directory's path is on one line |
| `TitledHighlightReel.CreateHighlightReel` | src/titled_highlight_reel.py:252-374 | missing video, then empty list, before any work; then the probe, the output's directory and the temporary directory, each failure propagating; success exactly when every step works; the filter graph path reports the total, the fallback does not; the concat list reads back as the planned files when the temporary directory's path is on one line |
| `TitledHighlightReel.TitledOutputStem` | src/titled_highlight_reel.py:403-405 | the output is `output_dir/<stem>_titled_highlight.mp4` |
| `TitledHighlightReel.CreateTitledHighlightReel` | src/titled_highlight_reel.py:395-409 | missing video first, then the output directory (its failure propagates), then ffmpeg availability, then the reel |
| `HighlightReelCli.OtherShapesRejected` | examples/highlight_reel_cli.py:41-42 | a text that is neither digits nor 2 or 3 ':' pieces is a ValueError |
| `HighlightReelCli.EmptyRejected` | examples/highlight_reel_cli.py:26-42 | `""` is a ValueError |
| `HighlightReelCli.ClockAndSecondsAgree` | examples/highlight_reel_cli.py:101-103 | `"M:SS"` and the same seconds written plainly convert to the same value |
| `HighlightReelCli.ConvertTime` | examples/highlight_reel_cli.py:96-103 | strings go through `parse_time`, anything else is kept |
| `HighlightReelCli.ConvertEntry` | examples/highlight_reel_cli.py:93-109 | defaults `'Untitled'`, 0 and 30; fails exactly when start or duration fails |
| `HighlightReelCli.EmptyEntryDefaults` | examples/highlight_reel_cli.py:93-101 | an empty dictionary gives the default segment |
| `HighlightReelCli.ConvertEntries` | examples/highlight_reel_cli.py:91-109 | one segment per dictionary, in order; fails exactly when one entry does |
| `HighlightReelCli.SegmentsFromJson` | examples/highlight_reel_cli.py:88-114 | no argument gives no segments; a non-iterable value is a TypeError; otherwise the dictionaries convert |
| `HighlightReelCli.NonDictIgnored` | examples/highlight_reel_cli.py:92 | a non-dictionary anywhere in the list changes nothing |
| `HighlightReelCli.ClockSegmentConverts` | examples/highlight_reel_cli.py:96-103 | clock-text start and duration convert to seconds |
| `HighlightReelCli.IntegerSegmentsConvert` | examples/highlight_reel_cli.py:91-109 | integer-valued segment objects convert to the same segments, in order |
| `SegmentJson.Dicts` | examples/highlight_reel_gui.py:542-543 | iterating a list keeps its dictionaries; a string or object yields none; a number, boolean or null is a TypeError |
| `SegmentJson.ObjectsIn` | examples/highlight_reel_cli.py:91-92 | exactly the dictionaries of the list |
| `SegmentJson.NonDictSkipped` | examples/highlight_reel_gui.py:543 | non-dictionaries are skipped wherever they stand |
| `HighlightReelGui.FormatStart` | examples/highlight_reel_gui.py:153-157 | the start shows as three zero-padded fields that split back at ':' |
| `HighlightReelGui.FormatDuration` | examples/highlight_reel_gui.py:162-165 | the duration shows as `MM:SS` with minutes = d // 60, possibly over 59 |
| `HighlightReelGui.ClockFieldsRecombine` | examples/highlight_reel_gui.py:154-156 | the three clock fields put back together give the time |
| `HighlightReelGui.ReadClock` | examples/highlight_reel_gui.py:193-212 | only 3- or 2-piece colon texts are accepted; anything else is a ValueError |
| `HighlightReelGui.ColonFreeRejected` | examples/highlight_reel_gui.py:200-201 | a text with no ':' is never a time in the dialog |
| `HighlightReelGui.GetSegment` | examples/highlight_reel_gui.py:185-221 | a blank title or an unreadable time gives `None`; otherwise the stripped title and the read times |
| `HighlightReelGui.DialogRoundTrip` | examples/highlight_reel_gui.py:152-218 | opening the dialog on a segment and saving unchanged gives the segment back |
| `HighlightReelGui.BlankTitleRefused` | examples/highlight_reel_gui.py:188-190 | a blank title gives `None` |
| `HighlightReelGui.Export` | examples/highlight_reel_gui.py:583-615 | nothing for an empty list; otherwise one object per segment, in order, with exactly the keys `title`, `start_time` and `duration`: the title, the `HH:MM:SS` start and the `MM:SS` duration |
| `HighlightReelGui.ImportTime` | examples/highlight_reel_gui.py:547-566 | a 3- or 2-piece string is read as a clock, other strings and non-strings are kept |
| `HighlightReelGui.ColonFreeKept` | examples/highlight_reel_gui.py:548-555 | a string with no ':' is imported unparsed |
| `HighlightReelGui.ImportEntry` | examples/highlight_reel_gui.py:543-572 | defaults `'Untitled'`, 0 and 30 |
| `HighlightReelGui.ImportLoop` | examples/highlight_reel_gui.py:542-572 | entries are appended in order; the first failure stops the loop keeping the ones before it |
| `HighlightReelGui.Import` | examples/highlight_reel_gui.py:534-579 | a load failure keeps the current list; otherwise the list is cleared first; when every entry imports, the table refresh shows an error exactly when some start or duration is not an integer or boolean, and the imported list stays |
| `HighlightReelGui.RefreshTable` | examples/highlight_reel_gui.py:625-647 | the table is filled exactly when every start and duration is an integer or boolean, and a failure is the error of the first row that cannot be formatted, start before duration |
| `HighlightReelGui.TableTime` | examples/highlight_reel_gui.py:637-646 | `//`, `%` and `:02d` take an integer or a boolean; a float is a ValueError and anything else a TypeError |
| `HighlightReelGui.UnparsedStartShown` | examples/highlight_reel_gui.py:547-579 | a colon-free start text is kept as a string, and importing it shows a TypeError with the segment kept |
| `HighlightReelGui.ExportImportRoundTrip` | examples/highlight_reel_gui.py:602-609 | exporting and re-importing non-negative integer times gives back every segment, in order |
| `MarkdownFix.SpacesThenLine` | test_markdown_fix.py:44 | `\s+(.+?)$` in MULTILINE mode: matches exactly when whitespace is followed later by a non-newline; the group runs to the end of a line, and it starts after all the whitespace when that run stops before the end of the text (when the run reaches the end, backtracking starts the group at the run's last non-newline character) |
| `MarkdownFix.HeaderAt` | test_markdown_fix.py:44-47 | `\\#{n}\s+(.+?)$` matches exactly after a backslash and `n` hashes |
| `MarkdownFix.NumberAt` | test_markdown_fix.py:50 | `\\(\d+)\.\s+(.+?)$` starts at a backslash followed by a digit run and '.' |
| `MarkdownFix.EmphasisAt` | test_markdown_fix.py:53 | the single asterisk pattern starts at a lone '*' and closes at the first later lone '*' on the line |
| `MarkdownFix.StrongAt` | test_markdown_fix.py:56 | the double asterisk pattern starts at `**` and closes at the first later `**` on the line |
| `MarkdownFix.MatchAt` | test_markdown_fix.py:44-56 | a match of any rule begins at its lead character and ends inside the text |
| `MarkdownFix.SubNoMatch` | test_markdown_fix.py:44-56 | `re.sub` copies every stretch where no match starts |
| `MarkdownFix.SubWithoutLead` | test_markdown_fix.py:44-56 | a rule leaves text without its lead character alone |
| `MarkdownFix.SubAround` | test_markdown_fix.py:44-56 | with exactly one match, the text around it is copied |
| `MarkdownFix.ProcessMarkdown` | test_markdown_fix.py:41-58 | text without '\\' and '*' is returned unchanged |
| `MarkdownFix.NewGenerateHtml` | test_markdown_fix.py:64-69 | for such text the patched generator gives the original's page |
| `MarkdownFix.HeadingOtherLevel` | test_markdown_fix.py:44-47 | another heading level does not match |
| `MarkdownFix.HeadingUnescaped` | test_markdown_fix.py:44-47 | `\##…` + whitespace + text becomes `##…` + one space + text for the four levels, whitespace runs with newlines included |
| `MarkdownFix.ItemUnescaped` | test_markdown_fix.py:50 | `\N.` + whitespace + text becomes `N. ` + text |
| `MarkdownFix.EmphasisWord` | test_markdown_fix.py:53 | a word between single asterisks becomes `<em>word</em>` |
| `MarkdownFix.StrongSkipsEmphasis` | test_markdown_fix.py:53-56 | the italics pass leaves `**word**` alone |
| `MarkdownFix.StrongWord` | test_markdown_fix.py:53-56 | `**word**` becomes `<strong>word</strong>` |

## Left out

- Reading documents: python-docx and the `.txt` branch of `extract_markers` are replaced by the list of lines they give.
- Decoding JSON text: the front ends receive the decoded value.
- Qt widgets, the Streamlit and other front ends, worker threads, and the command line's `argparse` and interactive `input()` loop.
- ffmpeg, ffprobe, OpenCV and moviepy calls: they are success/failure oracles, and title cards and clips are file names only.
- HighlightReelProcessor.ProcessReel: `tempfile.mkdtemp`, the phase 3 loads of the files just written, `concatenate_videoclips` and the creation of `highlight_reels` are taken to succeed; the source video's opening and every write are the oracles.
- HighlightReelProcessor.ProcessReelCorrected: the same calls are taken to succeed.
- Floating point: the screenshot helper's duration and frame index are an opaque integer bound and a per-position read oracle (a zero frame rate is modelled); the frame-rate parse of the titled reel is part of the probe oracle.
- `float()` in the document reader: only `[sign] digits '.' digits` literals are modelled, not exponents, `inf` or `nan`.
- TimeParse.DocxParseTime: rounding to the nearest double is not modelled; the integer part is taken exactly, which agrees with `int(float(s))` up to 15 significant digits (the bound `DecimalSeconds` requires) and can differ beyond, where `float` may round up to the next integer. The OverflowError past the largest double is modelled.
- TimeParse.ParseDecimalTrunc: the same exact truncation in place of rounding to the nearest double.
- TitledHighlightReel.CreateHighlightReel: writes the concat list with ffmpeg's own quoting instead of the source's backslash escape (see Findings); its round trip is promised only when the temporary directory's path has no line end.
- TitledHighlightReel.PlannedFiles: the same condition on the temporary directory for the concat list's round trip.
- ffmpeg's concat reader is modelled only for `file` lines, blank lines and `#` comments; every other directive is read as an error.
- `int()`, `str.isdigit()` and the regular-expression class `\d` accept ASCII digits only; Python also accepts other Unicode decimal digits.
- PyStr.Upper: a character outside ASCII whose uppercase starts outside ASCII is kept as it is rather than replaced by that uppercase. Every use in the source tests the result against an ASCII prefix, which fails at that character either way.
- HighlightReelExample.DescriptionRun: its field-line test goes through `PyStr.Upper`, so it is exact for the ASCII prefixes the source tests and says nothing about the upper-cased text itself.
- HighlightReelExample.MultiLineStep: the same, for the `TIME:`, `TIMESTAMP:` and `DURATION:` tests.
- HighlightReelExample.PipeStep: the same, for the field tests on the '|' parts.
- HighlightReelExample.StepAt: the same, for the `SEGMENT:` and `TITLE:` header tests.
- `get_media_mapping`: a plain accessor of the tracked lists.
- Logging and printed messages.
- Blog pipeline orchestration, repair and diagnostic scripts, and runner scripts.
- The reel processor's card rendering (fonts, sizes, durations) and the output directory creation; the plan is the order of named files.
- Export of segments whose times were imported as non-integers: the desktop front end would format them with `//` on a string; only integer times are exported.
- HighlightReelGui.Import: the title cell of the table is not modelled; a title that is not a string reaches `QTableWidgetItem`, whose overloads are Qt's and not part of this model.
- `str(timedelta)` formatting is modelled in full (`N day(s), ` prefix included) and the round-trip lemmas about it hold below one day. Its range limit (an OverflowError past 999,999,999 days) is modelled wherever the value becomes a file name or a tracked path (the clip helper, the media extractor's screenshot tracking) and for the screenshot duration (`PyInt.TimedeltaFits`); it is left out only where the value is just printed.
- HighlightReelExtractor.CreateHighlightReel: a missing ffmpeg executable is not modelled (the first run would raise a FileNotFoundError that `except ffmpeg.Error` does not catch), nor is the OverflowError of the printed `timedelta` of a start, duration or total past 999,999,999 days.
- TitledHighlightReel.CreateHighlightReel: the OverflowError of the printed `timedelta` of a total past 999,999,999 days is not modelled.
- TimeParse.DecimalLiteral: the exact truncation below `FloatInfinity` is the model's reading of `float()`, not the source's result: `int(float("9007199254740993.0"))` is 9007199254740992, one less. The two agree up to 15 significant digits, which `DecimalSeconds` states.
- TitledHighlightReel.DrawTextCarriesTitle: ffmpeg unquotes a filter argument twice (the filter-graph parser, then the option parser), and drawtext then expands '%' sequences and backslashes. The model reads the `text=` option through one level only. Under the second level the source's escape is not enough: "Part 1: Intro" is cut at the ':' and "It's" leaves an unmatched quote. Nothing is promised about the text drawtext finally renders.
- TitledHighlightReel.EscapeTitle: the same single level of quoting as `DrawTextCarriesTitle`.
- TitledHighlightReel.EscapedTitleReads: the same single level of quoting as `DrawTextCarriesTitle`.

## Findings

| source | as written | input that shows it | evidently intended | confidence | as-written member | corrected member |
|---|---|---|---|---|---|---|
| src/screenshot_extractor.py:21 | calls `validate_timestamps(timestamps, allow_duplicates=True)`; the validator takes no such keyword | any call on an existing video, e.g. `extract_screenshots_at_times("talk.mp4", "shots", [0])` | validate with duplicates allowed, then take the screenshots | high, not executed | `ScreenshotExtractor.ExtractScreenshotsAsWritten` | `ScreenshotExtractor.ExtractScreenshots` |
| src/videoclipper.py:23 | calls `validate_timestamps([start_time], allow_duplicates=True)` | any call on an existing video, e.g. a 10-second clip from 0 | validate the start, then cut the clip | high, not executed | `VideoClipper.ExtractVideoClipAsWritten` | `VideoClipper.ExtractVideoClip` |
| src/screenshot_extractor.py:65 | the failure message uses `time_str`, bound only after a frame was saved | the first in-range frame cannot be read | report the failure and go on | high, not executed | `ScreenshotExtractor.AsWrittenRaises` | `ScreenshotExtractor.ShotsFrom` |
| src/highlight_reel_maker/highlight_reel_processor.py:113-115 | assembly takes one description card per clip, but cards are made only for non-empty descriptions | `[Segment] S` / `[Description]` / `[CLIP timestamp="00:00:01" duration="10"]` | take a description card only for a described clip | high, not executed | `HighlightReelProcessor.UndescribedClipWitness` | `HighlightReelProcessor.AssemblyInOrder` |
| src/titled_highlight_reel.py:231-232 | escapes `\` and `'` with backslashes inside a single-quoted word, but ffmpeg copies quoted text literally | a segment file whose path holds a quote, `a'b`, which ffmpeg reads back as `a\b` | a list that ffmpeg reads back as the written paths: close the quote, write `\'`, reopen it | medium, not executed | `TitledHighlightReel.QuoteMangled` | `TitledHighlightReel.QuotedConcatListReads` |

=== FILE: cli.dfy ===
/** The command-line front end of the titled highlight reel: its
    `parse_time`, which is `TimeParse.ParseTimestamp`, and the conversion of
    the `--segments` JSON into segment records. Argument parsing, the file
    or inline-string choice, the interactive prompt loop and the final call
    into the reel builder are not modelled. */
module HighlightReelCli {
  import opened Wrappers
  import opened PyStr
  import opened PyInt
  import opened TimeParse
  import opened SegmentJson

  /** `parse_time` keeps exactly three shapes: a digit string, three
      ':'-separated pieces and two; every other text, the empty one
      included, is a ValueError. */
  lemma OtherShapesRejected(t: string)
    requires !IsDigitStr(Strip(t))
    requires |Split(Strip(t), ":")| != 2 && |Split(Strip(t), ":")| != 3
    ensures ParseTimestamp(t) == Err(ValueError)
  {
  }

  lemma EmptyRejected()
    ensures ParseTimestamp("") == Err(ValueError)
  {
    ColonFreeSplit("");
    OtherShapesRejected("");
  }

  /** A duration written `"M:SS"` and the same duration written as plain
      seconds convert to the same value (`"2:00"` and `"120"`). */
  lemma ClockAndSecondsAgree(m: int, s: int, w: nat, n: nat, width: nat)
    requires n == m * 60 + s
    ensures ParseTimestamp(Clock2(m, s, w)) == ParseTimestamp(ZeroPad(NatToString(n), width))
    ensures ParseTimestamp(Clock2(m, s, w)) == Ok(n)
  {
    ParseTimestampClock2(m, s, w);
    ParseTimestampSeconds(n, width);
  }

  /** A start time or duration as converted: a string goes through
      `parse_time`, any other value is kept as it is. */
  function ConvertTime(v: Json): (r: Result<Json>)
    ensures !v.JString? ==> r == Ok(v)
    ensures v.JString? ==> (r.Ok? <==> ParseTimestamp(v.s).Ok?)
    ensures v.JString? && r.Ok? ==> r.value == JInt(ParseTimestamp(v.s).value)
    ensures r.Err? ==> r.error == ValueError
  {
    match v
    case JString(text) =>
      var n :- ParseTimestamp(text);
      Ok(JInt(n))
    case _ => Ok(v)
  }

  /** One dictionary of the segment list, with the defaults `'Untitled'`,
      0 and 30 for missing keys; the start time is converted before the
      duration. */
  function ConvertEntry(d: map<string, Json>): (r: Result<Entry>)
    ensures r.Err? ==> r.error == ValueError
    ensures r.Ok? <==> ConvertTime(StartOf(d)).Ok? && ConvertTime(DurationOf(d)).Ok?
    ensures r.Ok? ==> r.value.title == TitleOf(d)
    ensures r.Ok? ==> r.value.startTime == ConvertTime(StartOf(d)).value
    ensures r.Ok? ==> r.value.duration == ConvertTime(DurationOf(d)).value
  {
    var start :- ConvertTime(StartOf(d));
    var duration :- ConvertTime(DurationOf(d));
    Ok(Entry(TitleOf(d), start, duration))
  }

  /** A dictionary with none of the three keys becomes the default segment. */
  lemma EmptyEntryDefaults()
    ensures ConvertEntry(map[]) == Ok(Entry(JString(DefaultTitle), JInt(DefaultStart), JInt(DefaultDuration)))
  {
  }

  /** The loop over the dictionaries: any conversion error aborts the whole
      list. */
  function ConvertEntries(ds: seq<map<string, Json>>): (r: Result<seq<Entry>>)
    ensures r.Err? <==> exists k :: 0 <= k < |ds| && ConvertEntry(ds[k]).Err?
    ensures r.Err? ==> r.error == ValueError
    ensures r.Ok? ==> |r.value| == |ds|
    ensures r.Ok? ==> forall k :: 0 <= k < |ds| ==> ConvertEntry(ds[k]) == Ok(r.value[k])
  {
    if |ds| == 0 then Ok([])
    else
      var init :- ConvertEntries(ds[..|ds| - 1]);
      var last :- ConvertEntry(ds[|ds| - 1]);
      assert forall k :: 0 <= k < |ds| - 1 ==> ds[..|ds| - 1][k] == ds[k];
      Ok(init + [last])
  }

  /** `main`'s segment handling for a decoded `--segments` value, or none:
      the dictionaries of the list are converted in order, anything else in
      the list is skipped, and a value that cannot be iterated is an error
      too (the tool then exits with status 1). */
  function SegmentsFromJson(arg: Option<Json>): (r: Result<seq<Entry>>)
    ensures arg.None? ==> r == Ok([])
    ensures r.Err? ==> r.error == ValueError || r.error == TypeError
    ensures arg.Some? && Dicts(arg.value).Err? ==> r == Err(TypeError)
    ensures arg.Some? && Dicts(arg.value).Ok? ==> r == ConvertEntries(Dicts(arg.value).value)
  {
    match arg
    case None => Ok([])
    case Some(data) =>
      var ds :- Dicts(data);
      ConvertEntries(ds)
  }

  /** Inserting a non-dictionary anywhere in the list changes nothing. */
  lemma NonDictIgnored(a: seq<Json>, x: Json, b: seq<Json>)
    requires !x.JObject?
    ensures SegmentsFromJson(Some(JArray(a + [x] + b))) == SegmentsFromJson(Some(JArray(a + b)))
  {
    NonDictSkipped(a, x, b);
  }

  /** A segment written with integer fields, as the usage text shows it. */
  function SegmentObject(title: string, start: int, duration: int): Json
  {
    JObject(SegmentFields(title, start, duration))
  }

  function SegmentFields(title: string, start: int, duration: int): map<string, Json>
  {
    map["title" := JString(title), "start_time" := JInt(start), "duration" := JInt(duration)]
  }

  /** A segment written with a clock-text start (`"00:01:30"`) and a
      `"M:SS"` duration. */
  function ClockSegmentObject(title: string, h: nat, m: nat, s: nat, dm: nat, ds: nat): Json
  {
    JObject(map["title" := JString(title), "start_time" := JString(Clock3(h, m, s, 2, 2)),
                "duration" := JString(Clock2(dm, ds, 2))])
  }

  /** A segment whose start and duration are texts that both parse. */
  lemma ConvertTextSegment(title: string, start: string, duration: string, a: int, b: int)
    requires ParseTimestamp(start) == Ok(a) && ParseTimestamp(duration) == Ok(b)
    ensures ConvertEntry(map["title" := JString(title), "start_time" := JString(start), "duration" := JString(duration)])
         == Ok(Entry(JString(title), JInt(a), JInt(b)))
  {
  }

  /** The clock texts are read as seconds. */
  lemma ClockSegmentConverts(title: string, h: nat, m: nat, s: nat, dm: nat, ds: nat)
    ensures ConvertEntry(ClockSegmentObject(title, h, m, s, dm, ds).fields)
         == Ok(Entry(JString(title), JInt(ClockSeconds(h, m, s)), JInt(dm * 60 + ds)))
  {
    var d := ClockSegmentObject(title, h, m, s, dm, ds).fields;
    assert TitleOf(d) == JString(title);
    ClockStartConverts(title, h, m, s, dm, ds);
    ClockDurationConverts(title, h, m, s, dm, ds);
  }

  lemma ClockStartConverts(title: string, h: nat, m: nat, s: nat, dm: nat, ds: nat)
    ensures ConvertTime(StartOf(ClockSegmentObject(title, h, m, s, dm, ds).fields)) == Ok(JInt(ClockSeconds(h, m, s)))
  {
    assert StartOf(ClockSegmentObject(title, h, m, s, dm, ds).fields) == JString(Clock3(h, m, s, 2, 2));
    ClockTextConverts(h, m, s);
  }

  lemma ClockDurationConverts(title: string, h: nat, m: nat, s: nat, dm: nat, ds: nat)
    ensures ConvertTime(DurationOf(ClockSegmentObject(title, h, m, s, dm, ds).fields)) == Ok(JInt(dm * 60 + ds))
  {
    assert DurationOf(ClockSegmentObject(title, h, m, s, dm, ds).fields) == JString(Clock2(dm, ds, 2));
    MinuteTextConverts(dm, ds);
  }

  lemma ClockTextConverts(h: nat, m: nat, s: nat)
    ensures ConvertTime(JString(Clock3(h, m, s, 2, 2))) == Ok(JInt(ClockSeconds(h, m, s)))
  {
    ParseTimestampClock3(h, m, s, 2, 2);
    TextConverts(Clock3(h, m, s, 2, 2), ClockSeconds(h, m, s));
  }

  lemma MinuteTextConverts(m: nat, s: nat)
    ensures ConvertTime(JString(Clock2(m, s, 2))) == Ok(JInt(m * 60 + s))
  {
    var t, v := Clock2(m, s, 2), m * 60 + s;
    ParseTimestampClock2(m, s, 2);
    assert ParseTimestamp(t) == Ok(v);
    TextConverts(t, v);
    assert ConvertTime(JString(t)) == Ok(JInt(v));
  }

  /** A text that parses converts to its number of seconds. */
  lemma TextConverts(t: string, v: int)
    requires ParseTimestamp(t) == Ok(v)
    ensures ConvertTime(JString(t)) == Ok(JInt(v))
  {
  }

  /** An integer-valued segment object converts to its own fields. */
  lemma IntegerSegmentConverts(title: string, start: int, duration: int)
    ensures ConvertEntry(SegmentFields(title, start, duration)) == Ok(Entry(JString(title), JInt(start), JInt(duration)))
  {
  }

  /** Dictionaries that each convert give the list of their entries. */
  lemma EntriesConvert(ms: seq<map<string, Json>>, es: seq<Entry>)
    requires |ms| == |es| && forall k :: 0 <= k < |ms| ==> ConvertEntry(ms[k]) == Ok(es[k])
    ensures ConvertEntries(ms) == Ok(es)
  {
    var r := ConvertEntries(ms);
    assert forall k :: 0 <= k < |ms| ==> ConvertEntry(ms[k]).Ok?;
    assert r.Ok?;
    assert forall k :: 0 <= k < |es| ==> r.value[k] == es[k];
    assert r.value == es;
  }

  /** A list of integer-valued segment objects converts to the same
      segments, in order. */
  lemma IntegerSegmentsConvert(titles: seq<string>, starts: seq<int>, durations: seq<int>)
    requires |titles| == |starts| == |durations|
    ensures var items := seq(|titles|, k requires 0 <= k < |titles| => SegmentObject(titles[k], starts[k], durations[k]));
            var r := SegmentsFromJson(Some(JArray(items)));
            && r.Ok? && |r.value| == |titles|
            && forall k :: 0 <= k < |titles| ==> r.value[k] == Entry(JString(titles[k]), JInt(starts[k]), JInt(durations[k]))
  {
    var items := seq(|titles|, k requires 0 <= k < |titles| => SegmentObject(titles[k], starts[k], durations[k]));
    var ms := seq(|titles|, k requires 0 <= k < |titles| => SegmentFields(titles[k], starts[k], durations[k]));
    var es := seq(|titles|, k requires 0 <= k < |titles| => Entry(JString(titles[k]), JInt(starts[k]), JInt(durations[k])));
    ObjectsOfObjects(ms, items);
    forall k | 0 <= k < |titles| ensures ConvertEntry(ms[k]) == Ok(es[k]) {
      IntegerSegmentConverts(titles[k], starts[k], durations[k]);
    }
    EntriesConvert(ms, es);
  }
}

=== FILE: concat.dfy ===
/** What ffmpeg's concat demuxer makes of a list file: the lines it reads
    and, on each `file` line, the path `av_get_token` takes from it. This is
    the reader the concat list of `src/titled_highlight_reel.py` is written
    for; it belongs to ffmpeg, not to the repository. */
module ConcatDemuxer {
  import opened Wrappers
  import opened PyStr

  /** The characters ffmpeg skips between the words of a script line; an
      unquoted one ends a word. */
  predicate IsScriptBlank(c: char) {
    c == ' ' || c == '\t' || c == '\r' || c == '\n'
  }

  predicate NotScriptBlank(c: char) { !IsScriptBlank(c) }

  predicate NotQuote(c: char) { c != '\'' }

  /** A line of the list ends at a line feed, a carriage return or a NUL. */
  predicate NotScriptLineEnd(c: char) {
    c != '\n' && c != '\r' && c != '\0'
  }

  /** A path that fits on one line of the list. */
  predicate OnOneLine(p: string) {
    '\n' !in p && '\r' !in p && '\0' !in p
  }

  /** Drops the blanks at the end of `s`. */
  function TrimBlanks(s: string): (r: string)
    ensures |r| <= |s| && r == s[..|r|]
    ensures |r| > 0 ==> !IsScriptBlank(r[|r| - 1])
    ensures forall k :: |r| <= k < |s| ==> IsScriptBlank(s[k])
    decreases |s|
  {
    if |s| > 0 && IsScriptBlank(s[|s| - 1]) then TrimBlanks(s[..|s| - 1]) else s
  }

  /** ffmpeg's `av_get_token` with the blanks as terminators, on text whose
      leading blanks are already skipped. Outside quotes a backslash takes
      the next character literally and a blank ends the word; from a quote
      to the next one every character is copied as it is, backslashes
      included. A quote left open runs to the end of the line and loses its
      trailing blanks. */
  function ScriptToken(s: string): (r: string)
    ensures |r| <= |s|
    decreases |s|
  {
    if |s| == 0 || IsScriptBlank(s[0]) then []
    else if s[0] == '\\' && |s| >= 2 then [s[1]] + ScriptToken(s[2..])
    else if s[0] == '\'' then
      var q := RunWhile(s, 1, NotQuote);
      if q == |s| then TrimBlanks(s[1..])
      else s[1..q] + ScriptToken(s[q + 1..])
    else [s[0]] + ScriptToken(s[1..])
  }

  /** One line of the list as the concat demuxer reads it: a blank line or
      a `#` comment gives no entry, `file <path>` gives the path, and every
      other directive reads as a failure (they are outside this model). */
  function ReadConcatLine(line: string): (r: Option<Option<string>>)
    ensures r == Some(None) <==> RunWhile(line, 0, IsScriptBlank) == |line| || line[RunWhile(line, 0, IsScriptBlank)] == '#'
  {
    var i := RunWhile(line, 0, IsScriptBlank);
    var j := RunWhile(line, i, NotScriptBlank);
    if i == j || line[i] == '#' then Some(None)
    else if line[i..j] != "file" then None
    else Some(Some(ScriptToken(line[RunWhile(line, j, IsScriptBlank)..])))
  }

  /** The entry a read line contributes: its path, or nothing. */
  function Entries(entry: Option<string>): seq<string> {
    if entry.Some? then [entry.value] else []
  }

  /** Reads a concat list back into its paths, line after line; `\r\n`
      ends one line. */
  function ReadConcatList(text: string): (r: Option<seq<string>>)
    decreases |text|
  {
    if |text| == 0 then Some([])
    else
      var e := RunWhile(text, 0, NotScriptLineEnd);
      var next :=
        if e == |text| then []
        else if text[e] == '\r' && e + 1 < |text| && text[e + 1] == '\n' then text[e + 2..]
        else text[e + 1..];
      var entry :- ReadConcatLine(text[..e]);
      var rest :- ReadConcatList(next);
      Some(Entries(entry) + rest)
  }

  /** A `file` line whose path starts with a quote is read as that word. */
  lemma FileLineRead(word: string)
    requires |word| > 0 && word[0] == '\''
    ensures ReadConcatLine("file " + word) == Some(Some(ScriptToken(word)))
  {
    var line := "file " + word;
    RunWhileStops(line, 0, 0, IsScriptBlank);
    RunWhileStops(line, 0, 4, NotScriptBlank);
    RunWhileStops(line, 4, 5, IsScriptBlank);
    assert line[0..4] == "file";
    assert line[5..] == word;
  }

  /** A line on its own, ended by a line feed, is read before the rest. */
  lemma LineThenRest(line: string, rest: string, path: string)
    requires OnOneLine(line) && ReadConcatLine(line) == Some(Some(path))
    ensures ReadConcatList(line + "\n" + rest) ==
      if ReadConcatList(rest).Some? then Some([path] + ReadConcatList(rest).value) else None
  {
    var text := line + "\n" + rest;
    assert forall k :: 0 <= k < |line| ==> text[k] == line[k] && text[k] in line;
    RunWhileStops(text, 0, |line|, NotScriptLineEnd);
    assert text[..|line|] == line;
    assert text[|line| + 1..] == rest;
  }

  /** A quoted stretch with no quote inside is copied as it is. */
  lemma QuotedRunStep(a: string, t: string)
    requires '\'' !in a
    ensures ScriptToken("'" + a + "'" + t) == a + ScriptToken(t)
  {
    var s := "'" + a + "'" + t;
    assert forall k :: 1 <= k < |a| + 1 ==> s[k] == a[k - 1] && s[k] in a;
    RunWhileStops(s, 1, |a| + 1, NotQuote);
    assert s[1..|a| + 1] == a;
    assert s[|a| + 2..] == t;
  }

  /** Outside quotes, a backslash takes the quote after it literally. */
  lemma EscapedQuoteStep(t: string)
    ensures ScriptToken("\\'" + t) == "'" + ScriptToken(t)
  {
    assert ("\\'" + t)[2..] == t;
  }

  /** Between quotes, text with no quote reads back as itself. */
  lemma QuotedWordRead(p: string)
    requires '\'' !in p
    ensures ScriptToken("'" + p + "'") == p
  {
    QuotedRunStep(p, []);
    assert "'" + p + "'" + [] == "'" + p + "'";
  }
}

=== FILE: docx.dfy ===
/** `BlogDocumentReader`: the four media-marker grammars, the line loop that
    collects markers and the document text, and the duplicate-timestamp
    validator. Reading the `.docx` / `.txt` file is abstracted to the
    sequence of its lines (paragraph texts). */
module DocxReader {
  import opened Wrappers
  import opened PyStr
  import opened PyInt
  import opened TimeParse

  datatype MarkerKind = Clip | Screenshot

  /** The `type` string the source stores in a marker. */
  function KindName(k: MarkerKind): string
  {
    match k
    case Clip => "CLIP"
    case Screenshot => "SCREENSHOT"
  }

  /** `MediaMarker`: `duration` is `None` for screenshots, `align` defaults
      to `"center"`. */
  datatype MediaMarker = MediaMarker(
    kind: MarkerKind,
    timestamp: int,
    duration: Option<int>,
    align: string,
    caption: string,
    originalText: string)

  // ---------------------------------------------------------------------
  // The four marker patterns as hand-written matchers.
  //
  //   [CLIP\s+timestamp="([^"]+)"\s+duration="([^"]+)"\s+align\s*[="]*([^"\]\s]+)["]?\]([^\[]*)
  //   [SCREENSHOT\s+timestamp="([^"]+)"\s+align\s*[="]*([^"\]\s]+)["]?\]([^\[]*)
  //   [CLIP\s+timestamp="([^"]+)"\s+duration="([^"]+)"\]([^\[]*)
  //   [SCREENSHOT\s+timestamp="([^"]+)"\]([^\[]*)
  //
  // Every `\s+`, `\s*` and `[^"]+` is followed by a character it cannot
  // match, so backtracking into them never helps and each takes its
  // maximal run. The one real choice is how many characters `[="]*` takes
  // before the align value: the engine tries the longest run first.

  datatype CharClass = Whitespace | NotQuote | EqualsOrQuote | AlignChar | NotOpenBracket

  predicate InClass(c: char, cls: CharClass) {
    match cls
    case Whitespace => IsSpace(c)
    case NotQuote => c != '"'
    case EqualsOrQuote => c == '=' || c == '"'
    case AlignChar => c != '"' && c != ']' && !IsSpace(c)
    case NotOpenBracket => c != '['
  }

  /** End of the maximal run of `cls` characters starting at `i`. */
  function RunEnd(s: string, i: nat, cls: CharClass): (r: nat)
    requires i <= |s|
    ensures i <= r <= |s|
    ensures forall k :: i <= k < r ==> InClass(s[k], cls)
    ensures r < |s| ==> !InClass(s[r], cls)
    decreases |s| - i
  {
    if i == |s| || !InClass(s[i], cls) then i else RunEnd(s, i + 1, cls)
  }

  /** The literal `lit` occurs in `s` at `k`, checked character by
      character. */
  predicate LiteralAt(s: string, k: nat, lit: string)
    decreases |lit|
  {
    k + |lit| <= |s| && (|lit| == 0 || (s[k] == lit[0] && LiteralAt(s, k + 1, lit[1..])))
  }

  lemma LiteralAtIsAt(s: string, k: nat, lit: string)
    ensures LiteralAt(s, k, lit) <==> IsAt(s, lit, k)
    decreases |lit|
  {
    if |lit| > 0 && k < |s| {
      LiteralAtIsAt(s, k + 1, lit[1..]);
      if k + |lit| <= |s| {
        assert s[k..k + |lit|] == [s[k]] + s[k + 1..k + 1 + |lit[1..]|];
        assert lit == [lit[0]] + lit[1..];
      }
    }
  }

  /** One of the four patterns: a marker kind, with or without `align`. */
  datatype Pattern = Pattern(kind: MarkerKind, withAlign: bool)

  /** A successful match: its span `[start, stop)` and its groups. */
  datatype MarkerMatch = MarkerMatch(
    start: nat,
    stop: nat,
    time: string,
    duration: Option<string>,
    align: Option<string>,
    tail: string)

  /** `\s+<name>="([^"]+)"` at `i`: the value and the index after the
      closing quote. */
  function Attribute(s: string, i: nat, name: string): (r: Option<(string, nat)>)
    requires i <= |s|
    ensures r.Some? ==> var (v, p) := r.value;
      && i + |v| < p <= |s| && |v| > 0 && '"' !in v
  {
    var k := RunEnd(s, i, Whitespace);
    if k == i || !LiteralAt(s, k, name + "=\"") then None
    else
      var a := k + |name| + 2;
      var b := RunEnd(s, a, NotQuote);
      if b == a || b == |s| then None
      else Some((s[a..b], b + 1))
  }

  /** The `duration` attribute, present in the CLIP patterns only. */
  function DurationPart(s: string, p: nat, kind: MarkerKind): (r: Option<(Option<string>, nat)>)
    requires p <= |s|
    ensures r.Some? ==> p <= r.value.1 <= |s| && (r.value.0.Some? <==> kind == Clip)
  {
    match kind
    case Screenshot => Some((None, p))
    case Clip =>
      match Attribute(s, p, "duration")
      case None => None
      case Some((v, q)) => Some((Some(v), q))
  }

  /** `([^"\]\s]+)["]?\]` after `[="]*` has taken `r` characters from `q`;
      on failure the engine retries with one character fewer. */
  function AlignValue(s: string, q: nat, r: nat): (res: Option<(string, nat)>)
    requires q + r <= |s|
    ensures res.Some? ==> q < res.value.1 <= |s| && |res.value.0| > 0 && s[res.value.1 - 1] == ']'
    decreases r
  {
    var g := q + r;
    var e := RunEnd(s, g, AlignChar);
    if e > g && e + 1 < |s| && s[e] == '"' && s[e + 1] == ']' then Some((s[g..e], e + 2))
    else if e > g && e < |s| && s[e] == ']' then Some((s[g..e], e + 1))
    else if r == 0 then None
    else AlignValue(s, q, r - 1)
  }

  /** `\s+align\s*[="]*([^"\]\s]+)["]?\]` */
  function AlignClose(s: string, p: nat): (r: Option<(Option<string>, nat)>)
    requires p <= |s|
    ensures r.Some? ==> p < r.value.1 <= |s| && r.value.0.Some?
  {
    var k := RunEnd(s, p, Whitespace);
    if k == p || !LiteralAt(s, k, "align") then None
    else
      var q := RunEnd(s, k + 5, Whitespace);
      match AlignValue(s, q, RunEnd(s, q, EqualsOrQuote) - q)
      case None => None
      case Some((v, e)) => Some((Some(v), e))
  }

  /** The `\]` that closes a marker without `align`. */
  function PlainClose(s: string, p: nat): (r: Option<(Option<string>, nat)>)
    requires p <= |s|
    ensures r.Some? ==> r.value == (None, p + 1) && p < |s| && s[p] == ']'
  {
    if p < |s| && s[p] == ']' then Some((None, p + 1)) else None
  }

  /** The opening `[CLIP` / `[SCREENSHOT` of a pattern. */
  function Lead(kind: MarkerKind): string
  {
    "[" + KindName(kind)
  }

  /** What a kind's two patterns share: `[KIND`, the timestamp attribute
      and, for clips, the duration attribute. Gives the timestamp text, the
      duration text and the index after the last closing quote. */
  function Head(s: string, i: nat, kind: MarkerKind): (r: Option<(string, Option<string>, nat)>)
    requires i <= |s|
    ensures r.Some? ==> var (time, duration, q) := r.value;
      && i < q <= |s| && |time| > 0 && '"' !in time
      && (duration.Some? <==> kind == Clip) && LiteralAt(s, i, Lead(kind))
  {
    var lead := Lead(kind);
    if !LiteralAt(s, i, lead) then None
    else
      match Attribute(s, i + |lead|, "timestamp")
      case None => None
      case Some((time, p)) =>
        match DurationPart(s, p, kind)
        case None => None
        case Some((duration, q)) => Some((time, duration, q))
  }

  /** What closes the marker: the align clause and ']', or ']' alone. */
  function Close(s: string, q: nat, withAlign: bool): (r: Option<(Option<string>, nat)>)
    requires q <= |s|
    ensures r.Some? ==> q < r.value.1 <= |s| && (r.value.0.Some? <==> withAlign)
  {
    if withAlign then AlignClose(s, q) else PlainClose(s, q)
  }

  /** `pattern.match(s, i)`: the pattern anchored at `i`. The trailing
      caption group runs to the next '[' or the end of the text. */
  function MatchAt(s: string, i: nat, pat: Pattern): (r: Option<MarkerMatch>)
    requires i <= |s|
    ensures r.Some? ==> r.value.start == i && i < r.value.stop <= |s|
  {
    match Head(s, i, pat.kind)
    case None => None
    case Some((time, duration, q)) =>
      match Close(s, q, pat.withAlign)
      case None => None
      case Some((align, e)) =>
        var c := RunEnd(s, e, NotOpenBracket);
        Some(MarkerMatch(i, c, time, duration, align, s[e..c]))
  }

  /** What every match of a marker pattern looks like. */
  predicate MatchShape(s: string, m: MarkerMatch, pat: Pattern) {
    && m.start < m.stop <= |s| && LiteralAt(s, m.start, Lead(pat.kind))
    && (m.align.Some? <==> pat.withAlign)
    && (m.duration.Some? <==> pat.kind == Clip)
    && |m.time| > 0 && '"' !in m.time
    && |m.tail| <= m.stop - m.start && m.tail == s[m.stop - |m.tail|..m.stop] && '[' !in m.tail
    && (m.stop == |s| || s[m.stop] == '[')
  }

  /** A match starts with its `[KIND` lead, has a non-empty quote-free
      timestamp, a duration exactly for clips, an align value exactly for
      the align patterns, and a caption that runs up to the next '['. */
  lemma MatchAtShape(s: string, i: nat, pat: Pattern)
    requires i <= |s| && MatchAt(s, i, pat).Some?
    ensures MatchShape(s, MatchAt(s, i, pat).value, pat)
  {
  }

  /** The outcome of `pattern.match(s, j)` at every index of `s`. */
  function MatchTable(s: string, pat: Pattern): (t: seq<Option<MarkerMatch>>)
    ensures |t| == |s|
    ensures forall j :: 0 <= j < |s| ==> t[j] == MatchAt(s, j, pat)
  {
    seq(|s|, j requires 0 <= j < |s| => MatchAt(s, j, pat))
  }

  /** A table of anchored matches: the match found at `j` starts at `j`
      and ends within the text. */
  predicate ValidTable(t: seq<Option<MarkerMatch>>) {
    forall j :: 0 <= j < |t| && t[j].Some? ==> t[j].value.start == j && j < t[j].value.stop <= |t|
  }

  /** The `re.finditer` scan over a table of anchored matches from index
      `i`: after a match it resumes at the match's end, otherwise one
      character further on. */
  function Scan(t: seq<Option<MarkerMatch>>, i: nat): (r: seq<MarkerMatch>)
    requires ValidTable(t) && i <= |t|
    ensures forall k :: 0 <= k < |r| ==> i <= r[k].start < |t| && t[r[k].start] == Some(r[k])
    ensures forall k :: 0 <= k < |r| - 1 ==> r[k].stop <= r[k + 1].start
    decreases |t| - i
  {
    if i == |t| then []
    else
      match t[i]
      case Some(m) => [m] + Scan(t, m.stop)
      case None => Scan(t, i + 1)
  }

  /** `re.finditer(pattern, s)`: the matches in order, none overlapping. */
  function FindAll(s: string, pat: Pattern): (r: seq<MarkerMatch>)
    ensures forall k :: 0 <= k < |r| ==> r[k].start < |s| && MatchAt(s, r[k].start, pat) == Some(r[k])
    ensures forall k :: 0 <= k < |r| - 1 ==> r[k].stop <= r[k + 1].start
  {
    Scan(MatchTable(s, pat), 0)
  }

  /** No possible match is missed: every index where the pattern matches
      lies inside one of the matches the scan reports. */
  lemma {:induction false} ScanCovers(t: seq<Option<MarkerMatch>>, i: nat, j: nat)
    requires ValidTable(t) && i <= j < |t| && t[j].Some?
    ensures exists k :: 0 <= k < |Scan(t, i)| && Scan(t, i)[k].start <= j < Scan(t, i)[k].stop
    decreases |t| - i
  {
    var r := Scan(t, i);
    match t[i]
    case Some(m) =>
      if j < m.stop {
        assert r[0] == m;
      } else {
        ScanCovers(t, m.stop, j);
        var rest := Scan(t, m.stop);
        var k :| 0 <= k < |rest| && rest[k].start <= j < rest[k].stop;
        assert r[k + 1] == rest[k];
      }
    case None =>
      assert j != i;
      ScanCovers(t, i + 1, j);
  }

  /** Every index where the pattern matches is covered by a reported
      match. */
  lemma FindAllCovers(s: string, pat: Pattern, j: nat)
    requires j < |s| && MatchAt(s, j, pat).Some?
    ensures exists k :: 0 <= k < |FindAll(s, pat)| && FindAll(s, pat)[k].start <= j < FindAll(s, pat)[k].stop
  {
    var t := MatchTable(s, pat);
    assert ValidTable(t) && t[j].Some? by {}
    assert FindAll(s, pat) == Scan(t, 0);
    ScanCovers(t, 0, j);
  }

  // ---------------------------------------------------------------------
  // From matches to markers.

  /** The matches whose groups convert: `parse_time(timestamp)` and, for a
      clip, `int(duration)`. */
  predicate Converts(m: MarkerMatch) {
    && DocxParseTime(m.time).Ok?
    && (m.duration.Some? ==> ParseInt(m.duration.value).Ok?)
  }

  /** The `MediaMarker(...)` built for one match; `original_text` is the
      whole match. */
  function ToMarker(s: string, m: MarkerMatch, kind: MarkerKind): (r: Result<MediaMarker>)
    requires m.start <= m.stop <= |s|
    ensures r.Err? <==> !Converts(m)
    ensures r.Err? ==> ParseTimeError(r.error)
  {
    var t :- DocxParseTime(m.time);
    var d :- match m.duration
      case None => Ok(None)
      case Some(text) => (var v :- ParseInt(text); Ok(Some(v)));
    Ok(MediaMarker(kind, t, d, m.align.GetOr("center"), Strip(m.tail), s[m.start..m.stop]))
  }

  /** The loop body over one pattern's matches: the first failing
      conversion raises out of the whole extraction. */
  function ToMarkers(s: string, ms: seq<MarkerMatch>, kind: MarkerKind): (r: Result<seq<MediaMarker>>)
    requires forall k :: 0 <= k < |ms| ==> ms[k].start <= ms[k].stop <= |s|
    ensures r.Err? ==> ParseTimeError(r.error)
    ensures r.Ok? ==> |r.value| == |ms|
    ensures r.Ok? ==> forall k :: 0 <= k < |ms| ==> ToMarker(s, ms[k], kind) == Ok(r.value[k])
  {
    if |ms| == 0 then Ok([])
    else
      var first :- ToMarker(s, ms[0], kind);
      var rest :- ToMarkers(s, ms[1..], kind);
      assert forall k :: 1 <= k < |ms| ==> ms[k] == ms[1..][k - 1];
      Ok([first] + rest)
  }

  /** The conversion fails exactly when some match does not convert. */
  lemma {:induction false} ToMarkersFail(s: string, ms: seq<MarkerMatch>, kind: MarkerKind)
    requires WithinText(s, ms)
    ensures ToMarkers(s, ms, kind).Err? <==> !AllConvert(ms)
  {
    if |ms| > 0 {
      ToMarkersFail(s, ms[1..], kind);
      assert AllConvert(ms) <==> Converts(ms[0]) && AllConvert(ms[1..]) by {
        if Converts(ms[0]) && AllConvert(ms[1..]) {
          forall k | 0 <= k < |ms| ensures Converts(ms[k]) {
            if k > 0 { assert ms[k] == ms[1..][k - 1]; }
          }
        }
      }
    }
  }

  /** The matches lie within the text. */
  predicate WithinText(s: string, ms: seq<MarkerMatch>) {
    forall k :: 0 <= k < |ms| ==> ms[k].start <= ms[k].stop <= |s|
  }

  /** Every match converts. */
  predicate AllConvert(ms: seq<MarkerMatch>) {
    forall k :: 0 <= k < |ms| ==> Converts(ms[k])
  }

  /** The marker list of a line from the matches of its four patterns, in
      pattern-group order: CLIP with align, CLIP, SCREENSHOT with align,
      SCREENSHOT. */
  function Assemble(text: string, a: seq<MarkerMatch>, b: seq<MarkerMatch>,
                    c: seq<MarkerMatch>, d: seq<MarkerMatch>): (r: Result<seq<MediaMarker>>)
    requires WithinText(text, a) && WithinText(text, b) && WithinText(text, c) && WithinText(text, d)
    ensures r.Err? ==> ParseTimeError(r.error)
    ensures r.Ok? ==> |r.value| == |a| + |b| + |c| + |d|
  {
    var x :- ToMarkers(text, a, Clip);
    var y :- ToMarkers(text, b, Clip);
    var z :- ToMarkers(text, c, Screenshot);
    var w :- ToMarkers(text, d, Screenshot);
    Ok((x + y) + (z + w))
  }

  lemma AssembleFail(text: string, a: seq<MarkerMatch>, b: seq<MarkerMatch>, c: seq<MarkerMatch>, d: seq<MarkerMatch>)
    requires WithinText(text, a) && WithinText(text, b) && WithinText(text, c) && WithinText(text, d)
    ensures Assemble(text, a, b, c, d).Err? <==> !(AllConvert(a) && AllConvert(b) && AllConvert(c) && AllConvert(d))
  {
    ToMarkersFail(text, a, Clip);
    ToMarkersFail(text, b, Clip);
    ToMarkersFail(text, c, Screenshot);
    ToMarkersFail(text, d, Screenshot);
  }

  /** `_process_clip_markers` then `_process_screenshot_markers` on one
      stripped line. */
  function LineMarkers(text: string): (r: Result<seq<MediaMarker>>)
    ensures r.Err? ==> ParseTimeError(r.error)
  {
    Assemble(text, FindAll(text, Pattern(Clip, true)), FindAll(text, Pattern(Clip, false)),
             FindAll(text, Pattern(Screenshot, true)), FindAll(text, Pattern(Screenshot, false)))
  }

  /** A line fails exactly when some match of its four patterns does not
      convert: a bad marker aborts the extraction, it is never skipped. */
  lemma LineMarkersFail(text: string)
    ensures LineMarkers(text).Err? <==>
      !(AllConvert(FindAll(text, Pattern(Clip, true))) && AllConvert(FindAll(text, Pattern(Clip, false)))
        && AllConvert(FindAll(text, Pattern(Screenshot, true))) && AllConvert(FindAll(text, Pattern(Screenshot, false))))
  {
    AssembleFail(text, FindAll(text, Pattern(Clip, true)), FindAll(text, Pattern(Clip, false)),
                 FindAll(text, Pattern(Screenshot, true)), FindAll(text, Pattern(Screenshot, false)));
  }

  /** The document text as `extract_markers` rebuilds it: one stripped line
      per input line. */
  function StripAll(lines: seq<string>): (r: seq<string>)
    ensures |r| == |lines|
    ensures forall k :: 0 <= k < |lines| ==> r[k] == Strip(lines[k])
  {
    seq(|lines|, k requires 0 <= k < |lines| => Strip(lines[k]))
  }

  /** What one line contributes: nothing for a blank line, otherwise the
      markers of its stripped text or the error they raise. */
  function LineOutcome(line: string): (r: Result<seq<MediaMarker>>)
    ensures r.Err? ==> ParseTimeError(r.error)
  {
    var text := Strip(line);
    if text == "" then Ok([]) else LineMarkers(text)
  }

  /** The outcome of every line under a per-line conversion `f`. */
  function Outcomes(lines: seq<string>, f: string -> Result<seq<MediaMarker>>): (r: seq<Result<seq<MediaMarker>>>)
    ensures |r| == |lines|
    ensures forall k :: 0 <= k < |lines| ==> r[k] == f(lines[k])
  {
    seq(|lines|, k requires 0 <= k < |lines| => f(lines[k]))
  }

  /** The loop over the lines: markers accumulate in line order and the
      first failing line aborts. */
  function Collect(outcomes: seq<Result<seq<MediaMarker>>>): (r: Result<seq<MediaMarker>>)
    ensures r.Err? ==> exists k :: 0 <= k < |outcomes| && outcomes[k] == Err(r.error)
  {
    if |outcomes| == 0 then Ok([])
    else
      var here :- outcomes[0];
      var rest :- Collect(outcomes[1..]);
      Ok(here + rest)
  }

  /** `extract_markers` on the lines of a document: the markers and the
      text joined with '\n'. */
  function ExtractMarkers(lines: seq<string>): (r: Result<(seq<MediaMarker>, string)>)
    ensures r.Err? ==> ParseTimeError(r.error)
  {
    var markers :- Collect(Outcomes(lines, LineOutcome));
    Ok((markers, Join(StripAll(lines), "\n")))
  }

  // ---------------------------------------------------------------------
  // Properties of the marker grammars.

  lemma LeadsDiffer(s: string, i: nat)
    ensures !(LiteralAt(s, i, Lead(Clip)) && LiteralAt(s, i, Lead(Screenshot)))
  {
    if LiteralAt(s, i, Lead(Clip)) {
      assert Lead(Clip)[1..][0] == 'C';
      assert Lead(Screenshot)[1..][0] == 'S';
    }
  }

  /** The align clause begins with whitespace, the plain close with ']'. */
  lemma ClosesExclusive(s: string, q: nat)
    requires q <= |s|
    ensures Close(s, q, true).None? || Close(s, q, false).None?
  {
    if PlainClose(s, q).Some? {
      assert RunEnd(s, q, Whitespace) == q;
    }
  }

  /** At any index at most one of the four patterns matches: the marker
      kinds start differently, and after the last attribute the align
      patterns need whitespace where the plain ones need ']'. */
  lemma PatternsExclusive(s: string, i: nat, p1: Pattern, p2: Pattern)
    requires i <= |s| && p1 != p2
    ensures MatchAt(s, i, p1).None? || MatchAt(s, i, p2).None?
  {
    if p1.kind != p2.kind {
      LeadsDiffer(s, i);
      assert Head(s, i, p1.kind).None? || Head(s, i, p2.kind).None?;
    } else if Head(s, i, p1.kind).Some? {
      ClosesExclusive(s, Head(s, i, p1.kind).value.2);
    }
  }

  /** `c not in s` survives `strip()`. */
  lemma StripKeepsOut(s: string, c: char)
    requires c !in s
    ensures c !in Strip(s)
  {
    StripFacts(s);
  }

  /** The marker built from a match: its kind is the pattern's, its
      `original_text` is the matched span of the line, its caption holds no
      '[', clips carry a duration and screenshots none, and the patterns
      without `align` give `"center"`. */
  lemma MarkerOfMatch(s: string, m: MarkerMatch, pat: Pattern)
    requires MatchShape(s, m, pat) && ToMarker(s, m, pat.kind).Ok?
    ensures var mk := ToMarker(s, m, pat.kind).value;
      && mk.kind == pat.kind
      && IsAt(s, mk.originalText, m.start) && |mk.originalText| > 0
      && '[' !in mk.caption
      && (mk.duration.Some? <==> pat.kind == Clip)
      && (!pat.withAlign ==> mk.align == "center")
      && mk.timestamp == DocxParseTime(m.time).value
  {
    ToMarkerFields(s, m, pat.kind);
    StripKeepsOut(m.tail, '[');
  }

  /** Where each field of a converted marker comes from. */
  lemma ToMarkerFields(s: string, m: MarkerMatch, kind: MarkerKind)
    requires m.start <= m.stop <= |s| && ToMarker(s, m, kind).Ok?
    ensures var mk := ToMarker(s, m, kind).value;
      && mk.kind == kind && mk.timestamp == DocxParseTime(m.time).value
      && (mk.duration.Some? <==> m.duration.Some?) && mk.align == m.align.GetOr("center")
      && mk.caption == Strip(m.tail) && mk.originalText == s[m.start..m.stop]
  {
  }

  /** What every marker of a line satisfies. */
  predicate FromLine(text: string, mk: MediaMarker) {
    && Contains(text, mk.originalText) && |mk.originalText| > 0
    && '[' !in mk.caption
    && (mk.duration.Some? <==> mk.kind == Clip)
  }

  /** Every match in `ms` has the shape of `pat`. */
  predicate AllShaped(s: string, ms: seq<MarkerMatch>, pat: Pattern) {
    forall k :: 0 <= k < |ms| ==> MatchShape(s, ms[k], pat)
  }

  lemma FindAllShaped(s: string, pat: Pattern)
    ensures AllShaped(s, FindAll(s, pat), pat)
  {
    var ms := FindAll(s, pat);
    forall k | 0 <= k < |ms| ensures MatchShape(s, ms[k], pat) {
      MatchAtShape(s, ms[k].start, pat);
    }
  }

  predicate AllFromLine(text: string, ms: seq<MediaMarker>) {
    forall k :: 0 <= k < |ms| ==> FromLine(text, ms[k])
  }

  predicate AllOfKind(ms: seq<MediaMarker>, kind: MarkerKind) {
    forall k :: 0 <= k < |ms| ==> ms[k].kind == kind
  }

  predicate AllCentred(ms: seq<MediaMarker>) {
    forall k :: 0 <= k < |ms| ==> ms[k].align == "center"
  }

  /** No SCREENSHOT marker precedes a CLIP marker. */
  predicate ClipsFirst(ms: seq<MediaMarker>) {
    forall i, j :: 0 <= i < j < |ms| && ms[j].kind == Clip ==> ms[i].kind == Clip
  }

  /** The markers one pattern yields all come from the line, have the
      pattern's kind and, without `align`, are centred. */
  lemma PatternMarkers(text: string, ms: seq<MarkerMatch>, pat: Pattern)
    requires AllShaped(text, ms, pat) && ToMarkers(text, ms, pat.kind).Ok?
    ensures AllFromLine(text, ToMarkers(text, ms, pat.kind).value)
    ensures AllOfKind(ToMarkers(text, ms, pat.kind).value, pat.kind)
    ensures !pat.withAlign ==> AllCentred(ToMarkers(text, ms, pat.kind).value)
  {
    var r := ToMarkers(text, ms, pat.kind).value;
    forall k | 0 <= k < |r|
      ensures FromLine(text, r[k]) && r[k].kind == pat.kind && (!pat.withAlign ==> r[k].align == "center")
    {
      MarkerOfMatch(text, ms[k], pat);
    }
  }

  lemma FromLineConcat(text: string, x: seq<MediaMarker>, y: seq<MediaMarker>)
    requires AllFromLine(text, x) && AllFromLine(text, y)
    ensures AllFromLine(text, x + y)
  {
    forall k | 0 <= k < |x + y| ensures FromLine(text, (x + y)[k]) {
      if k >= |x| { assert (x + y)[k] == y[k - |x|]; }
    }
  }

  lemma KindsConcat(x: seq<MediaMarker>, y: seq<MediaMarker>)
    requires AllOfKind(x, Clip) && AllOfKind(y, Screenshot)
    ensures ClipsFirst(x + y)
  {
    forall i, j | 0 <= i < j < |x + y| && (x + y)[j].kind == Clip ensures (x + y)[i].kind == Clip {
      if i < |x| { assert (x + y)[i] == x[i]; }
    }
  }

  lemma SameKindConcat(x: seq<MediaMarker>, y: seq<MediaMarker>, kind: MarkerKind)
    requires AllOfKind(x, kind) && AllOfKind(y, kind)
    ensures AllOfKind(x + y, kind)
  {
    forall k | 0 <= k < |x + y| ensures (x + y)[k].kind == kind {
      if k >= |x| { assert (x + y)[k] == y[k - |x|]; }
    }
  }

  /** The two halves of an assembled line: its CLIP markers and its
      SCREENSHOT markers. */
  lemma AssembleHalves(text: string, a: seq<MarkerMatch>, b: seq<MarkerMatch>, c: seq<MarkerMatch>, d: seq<MarkerMatch>)
    returns (clips: seq<MediaMarker>, shots: seq<MediaMarker>)
    requires AllShaped(text, a, Pattern(Clip, true)) && AllShaped(text, b, Pattern(Clip, false))
    requires AllShaped(text, c, Pattern(Screenshot, true)) && AllShaped(text, d, Pattern(Screenshot, false))
    requires Assemble(text, a, b, c, d).Ok?
    ensures Assemble(text, a, b, c, d).value == clips + shots
    ensures AllFromLine(text, clips) && AllOfKind(clips, Clip)
    ensures AllFromLine(text, shots) && AllOfKind(shots, Screenshot)
  {
    var x := ToMarkers(text, a, Clip).value;
    var y := ToMarkers(text, b, Clip).value;
    var z := ToMarkers(text, c, Screenshot).value;
    var w := ToMarkers(text, d, Screenshot).value;
    clips, shots := x + y, z + w;
    PatternMarkers(text, a, Pattern(Clip, true));
    PatternMarkers(text, b, Pattern(Clip, false));
    PatternMarkers(text, c, Pattern(Screenshot, true));
    PatternMarkers(text, d, Pattern(Screenshot, false));
    FromLineConcat(text, x, y);
    FromLineConcat(text, z, w);
    SameKindConcat(x, y, Clip);
    SameKindConcat(z, w, Screenshot);
  }

  lemma AssembleShape(text: string, a: seq<MarkerMatch>, b: seq<MarkerMatch>, c: seq<MarkerMatch>, d: seq<MarkerMatch>)
    requires AllShaped(text, a, Pattern(Clip, true)) && AllShaped(text, b, Pattern(Clip, false))
    requires AllShaped(text, c, Pattern(Screenshot, true)) && AllShaped(text, d, Pattern(Screenshot, false))
    requires Assemble(text, a, b, c, d).Ok?
    ensures AllFromLine(text, Assemble(text, a, b, c, d).value)
    ensures ClipsFirst(Assemble(text, a, b, c, d).value)
  {
    var clips, shots := AssembleHalves(text, a, b, c, d);
    FromLineConcat(text, clips, shots);
    KindsConcat(clips, shots);
  }

  /** Within a line every marker comes from the line, and all CLIP markers
      come before all SCREENSHOT markers, whatever their order in the
      text. */
  lemma LineMarkersShape(text: string)
    requires LineMarkers(text).Ok?
    ensures AllFromLine(text, LineMarkers(text).value)
    ensures ClipsFirst(LineMarkers(text).value)
  {
    FindAllShaped(text, Pattern(Clip, true));
    FindAllShaped(text, Pattern(Clip, false));
    FindAllShaped(text, Pattern(Screenshot, true));
    FindAllShaped(text, Pattern(Screenshot, false));
    AssembleShape(text, FindAll(text, Pattern(Clip, true)), FindAll(text, Pattern(Clip, false)),
                  FindAll(text, Pattern(Screenshot, true)), FindAll(text, Pattern(Screenshot, false)));
  }

  // ---------------------------------------------------------------------
  // Properties of the line loop.

  /** `line.strip()` is empty exactly for a blank line, and a non-empty
      stripped line has no whitespace at either end. */
  lemma StripAllLines(lines: seq<string>, k: nat)
    requires k < |lines|
    ensures StripAll(lines)[k] == "" <==> IsBlank(lines[k])
    ensures StripAll(lines)[k] != "" ==> !IsSpace(StripAll(lines)[k][0])
  {
    StripFacts(lines[k]);
  }

  /** The returned text has one line per input line: split at '\n' it gives
      back the stripped lines, provided no line holds a '\n' of its own. */
  lemma ExtractedTextLines(lines: seq<string>)
    requires |lines| > 0
    requires forall k :: 0 <= k < |lines| ==> '\n' !in Strip(lines[k])
    requires ExtractMarkers(lines).Ok?
    ensures Split(ExtractMarkers(lines).value.1, "\n") == StripAll(lines)
  {
    SplitJoinCharFree(StripAll(lines), '\n');
  }

  /** Lines contribute their markers in line order: collecting two runs of
      lines gives the markers of the first followed by those of the
      second, and fails when either fails. */
  lemma {:induction false} CollectAppend(o1: seq<Result<seq<MediaMarker>>>, o2: seq<Result<seq<MediaMarker>>>)
    ensures Collect(o1 + o2).Ok? <==> Collect(o1).Ok? && Collect(o2).Ok?
    ensures Collect(o1 + o2).Ok? ==> Collect(o1 + o2).value == Collect(o1).value + Collect(o2).value
  {
    if |o1| == 0 {
      assert o1 + o2 == o2;
    } else {
      assert (o1 + o2)[0] == o1[0];
      assert (o1 + o2)[1..] == o1[1..] + o2;
      CollectAppend(o1[1..], o2);
    }
  }

  /** Collecting fails exactly when some line fails. */
  lemma {:induction false} CollectFail(o: seq<Result<seq<MediaMarker>>>)
    ensures Collect(o).Err? <==> exists k :: 0 <= k < |o| && o[k].Err?
  {
    if |o| > 0 {
      CollectFail(o[1..]);
      if exists k :: 0 <= k < |o| && o[k].Err? {
        var k :| 0 <= k < |o| && o[k].Err?;
        if k > 0 { assert o[1..][k - 1] == o[k]; }
      }
    }
  }

  /** The outcomes of a document are those of its parts, in order. */
  lemma OutcomesAppend(l1: seq<string>, l2: seq<string>, f: string -> Result<seq<MediaMarker>>)
    ensures Outcomes(l1 + l2, f) == Outcomes(l1, f) + Outcomes(l2, f)
  {
    var r, r1, r2 := Outcomes(l1 + l2, f), Outcomes(l1, f), Outcomes(l2, f);
    forall k | 0 <= k < |r| ensures r[k] == (r1 + r2)[k] {
      if k < |l1| { assert (l1 + l2)[k] == l1[k]; } else { assert (l1 + l2)[k] == l2[k - |l1|]; }
    }
  }

  /** Markers keep line order: a document's markers are those of its first
      lines followed by those of the rest. */
  lemma ExtractMarkersAppend(l1: seq<string>, l2: seq<string>)
    ensures ExtractMarkers(l1 + l2).Ok? <==> ExtractMarkers(l1).Ok? && ExtractMarkers(l2).Ok?
    ensures ExtractMarkers(l1 + l2).Ok? ==>
      ExtractMarkers(l1 + l2).value.0 == ExtractMarkers(l1).value.0 + ExtractMarkers(l2).value.0
  {
    OutcomesAppend(l1, l2, LineOutcome);
    CollectAppend(Outcomes(l1, LineOutcome), Outcomes(l2, LineOutcome));
  }

  /** Extraction fails exactly when some line fails; blank lines never
      do. */
  lemma ExtractMarkersFail(lines: seq<string>)
    ensures ExtractMarkers(lines).Err? <==> exists k :: 0 <= k < |lines| && LineOutcome(lines[k]).Err?
  {
    CollectFail(Outcomes(lines, LineOutcome));
  }

  // ---------------------------------------------------------------------
  // `validate_markers`: duplicate timestamps within one marker type.

  /** The warning text for a marker whose type and timestamp occurred
      before. */
  function DuplicateWarning(m: MediaMarker): string
  {
    "Duplicate timestamp " + IntToString(m.timestamp) + "s found for " + KindName(m.kind) + " markers"
  }

  /** The (type, timestamp) key the validator groups markers by. */
  function Key(m: MediaMarker): (MarkerKind, int)
  {
    (m.kind, m.timestamp)
  }

  /** Some marker before index `k` has the same key as `ms[k]`. */
  predicate SeenBefore(ms: seq<MediaMarker>, k: nat)
    requires k < |ms|
  {
    exists j :: 0 <= j < k && Key(ms[j]) == Key(ms[k])
  }

  /** The warnings in marker order: one for every marker whose key already
      occurred. */
  function DuplicateWarnings(ms: seq<MediaMarker>): seq<string>
  {
    if |ms| == 0 then []
    else
      DuplicateWarnings(ms[..|ms| - 1])
      + (if SeenBefore(ms, |ms| - 1) then [DuplicateWarning(ms[|ms| - 1])] else [])
  }

  /** The distinct keys of a marker list. */
  function Keys(ms: seq<MediaMarker>): set<(MarkerKind, int)>
  {
    set k | 0 <= k < |ms| :: Key(ms[k])
  }

  /** `validate_markers`: a dictionary per marker type records the
      timestamps seen so far; a timestamp already present gives a
      warning. */
  method ValidateMarkers(markers: seq<MediaMarker>) returns (warnings: seq<string>)
    ensures warnings == DuplicateWarnings(markers)
  {
    warnings := [];
    var seen: map<MarkerKind, set<int>> := map[];
    for i := 0 to |markers|
      invariant warnings == DuplicateWarnings(markers[..i])
      invariant forall kind, t :: kind in seen && t in seen[kind] <==> (kind, t) in Keys(markers[..i])
    {
      var m := markers[i];
      if m.kind !in seen {
        seen := seen[m.kind := {}];
      }
      var prefix := markers[..i + 1];
      assert prefix[..i] == markers[..i] && prefix[i] == m;
      KeysStep(prefix);
      if m.timestamp in seen[m.kind] {
        warnings := warnings + [DuplicateWarning(m)];
      }
      seen := seen[m.kind := seen[m.kind] + {m.timestamp}];
    }
    assert markers[..|markers|] == markers;
  }

  lemma KeysStep(ms: seq<MediaMarker>)
    requires |ms| > 0
    ensures Keys(ms) == Keys(ms[..|ms| - 1]) + {Key(ms[|ms| - 1])}
    ensures SeenBefore(ms, |ms| - 1) <==> Key(ms[|ms| - 1]) in Keys(ms[..|ms| - 1])
  {
    var p := ms[..|ms| - 1];
    forall x | x in Keys(ms) ensures x in Keys(p) + {Key(ms[|ms| - 1])} {
      var k :| 0 <= k < |ms| && Key(ms[k]) == x;
      if k < |p| { assert ms[k] == p[k]; }
    }
    forall x | x in Keys(p) ensures x in Keys(ms) {
      var k :| 0 <= k < |p| && Key(p[k]) == x;
      assert ms[k] == p[k];
    }
    if Key(ms[|ms| - 1]) in Keys(p) {
      var k :| 0 <= k < |p| && Key(p[k]) == Key(ms[|ms| - 1]);
      assert Key(ms[k]) == Key(ms[|ms| - 1]);
    }
  }

  /** Every marker either introduces a new (type, timestamp) key or draws
      exactly one warning. */
  lemma {:induction false} WarningCount(ms: seq<MediaMarker>)
    ensures |DuplicateWarnings(ms)| + |Keys(ms)| == |ms|
  {
    if |ms| > 0 {
      WarningCount(ms[..|ms| - 1]);
      KeysStep(ms);
    }
  }

  lemma {:induction false} NoWarningsIffFresh(ms: seq<MediaMarker>)
    ensures DuplicateWarnings(ms) == [] <==> forall k :: 0 <= k < |ms| ==> !SeenBefore(ms, k)
  {
    if |ms| > 0 {
      var p := ms[..|ms| - 1];
      NoWarningsIffFresh(p);
      forall k | 0 <= k < |p| ensures SeenBefore(p, k) <==> SeenBefore(ms, k) {
        if SeenBefore(ms, k) {
          var j :| 0 <= j < k && Key(ms[j]) == Key(ms[k]);
          assert Key(p[j]) == Key(p[k]);
        }
        if SeenBefore(p, k) {
          var j :| 0 <= j < k && Key(p[j]) == Key(p[k]);
          assert Key(ms[j]) == Key(ms[k]);
        }
      }
    }
  }

  /** No warnings exactly when no two markers share type and timestamp. */
  lemma NoWarningsIffDistinct(ms: seq<MediaMarker>)
    ensures DuplicateWarnings(ms) == [] <==>
      forall i, j :: 0 <= i < j < |ms| ==> Key(ms[i]) != Key(ms[j])
  {
    NoWarningsIffFresh(ms);
    if forall k :: 0 <= k < |ms| ==> !SeenBefore(ms, k) {
      forall i, j | 0 <= i < j < |ms| ensures Key(ms[i]) != Key(ms[j]) {
        assert !SeenBefore(ms, j);
      }
    }
  }

  // ---------------------------------------------------------------------
  // Marker texts the grammars accept.

  /** ` <name>="<value>"` */
  function AttributeText(name: string, value: string): string
  {
    " " + name + "=\"" + value + "\""
  }

  /** `[KIND timestamp="…"`, and for a clip ` duration="…"`. */
  function HeadText(kind: MarkerKind, time: string, duration: string): string
  {
    Lead(kind) + AttributeText("timestamp", time)
    + (if kind == Clip then AttributeText("duration", duration) else "")
  }

  /** The optional ` align="…"` clause. */
  function AlignText(align: Option<string>): string
  {
    match align
    case Some(a) => AttributeText("align", a)
    case None => ""
  }

  /** The marker text an author writes: the head, the optional align
      clause, then `]` and the caption. */
  function MarkerText(kind: MarkerKind, time: string, duration: string, align: Option<string>, caption: string): string
  {
    HeadText(kind, time, duration) + AlignText(align) + "]" + caption
  }

  lemma RunEndAt(s: string, i: nat, cls: CharClass, j: nat)
    requires i <= j <= |s|
    requires forall k :: i <= k < j ==> InClass(s[k], cls)
    requires j == |s| || !InClass(s[j], cls)
    ensures RunEnd(s, i, cls) == j
    decreases j - i
  {
    if i < j {
      RunEndAt(s, i + 1, cls, j);
    }
  }

  lemma AttributeTextParts(name: string, v: string)
    ensures var t := AttributeText(name, v); var n := |name| + 2;
      && |t| == n + |v| + 2 && t[0] == ' '
      && t[1..1 + n] == name + "=\"" && t[1 + n..1 + n + |v|] == v && t[|t| - 1] == '"'
  {
  }

  /** A slice of `t`, copied into `s` at `i`, is the same slice of `s`. */
  lemma SliceInside(s: string, i: nat, t: string, p: nat, q: nat)
    requires i + |t| <= |s| && s[i..i + |t|] == t && p <= q <= |t|
    ensures s[i + p..i + q] == t[p..q]
  {
    forall k | 0 <= k < q - p ensures s[i + p..i + q][k] == t[p..q][k] {
      assert s[i + p + k] == s[i..i + |t|][p + k];
    }
  }

  /** Reading an attribute whose pieces sit where `Attribute` looks for
      them. */
  lemma AttributeReads(s: string, i: nat, name: string, v: string, a: nat)
    requires i < |s| && IsSpace(s[i]) && i + 1 < |s| && !IsSpace(s[i + 1])
    requires LiteralAt(s, i + 1, name + "=\"") && a == i + 1 + |name| + 2
    requires |v| > 0 && '"' !in v && a + |v| < |s| && s[a..a + |v|] == v && s[a + |v|] == '"'
    ensures Attribute(s, i, name) == Some((v, a + |v| + 1))
  {
    RunEndAt(s, i, Whitespace, i + 1);
    forall k | a <= k < a + |v| ensures s[k] != '"' {
      assert s[k] == v[k - a];
    }
    RunEndAt(s, a, NotQuote, a + |v|);
  }

  /** An attribute written as ` name="value"` at `i` is read back. */
  lemma AttributeAt(s: string, i: nat, name: string, v: string)
    requires |name| > 0 && !IsSpace(name[0]) && |v| > 0 && '"' !in v
    requires i + |AttributeText(name, v)| <= |s| && s[i..i + |AttributeText(name, v)|] == AttributeText(name, v)
    ensures Attribute(s, i, name) == Some((v, i + |AttributeText(name, v)|))
  {
    var t := AttributeText(name, v);
    var lit := name + "=\"";
    var n := |lit|;
    AttributeTextParts(name, v);
    SliceInside(s, i, t, 0, 1);
    SliceInside(s, i, t, 1, 1 + n);
    SliceInside(s, i, t, 1 + n, 1 + n + |v|);
    SliceInside(s, i, t, |t| - 1, |t|);
    assert s[i + 1..i + 1 + n] == lit;
    assert s[i + 1] == name[0];
    LiteralAtIsAt(s, i + 1, lit);
    AttributeReads(s, i, name, v, i + 1 + n);
  }

  /** The two halves of a piece written at `i`. */
  lemma IsAtParts(s: string, i: nat, x: string, y: string)
    requires IsAt(s, x + y, i)
    ensures IsAt(s, x, i) && IsAt(s, y, i + |x|)
  {
    SliceInside(s, i, x + y, 0, |x|);
    SliceInside(s, i, x + y, |x|, |x| + |y|);
    assert (x + y)[0..|x|] == x && (x + y)[|x|..|x| + |y|] == y;
  }

  /** Where the pieces of a head written at `i` lie. */
  lemma HeadPieces(s: string, i: nat, kind: MarkerKind, time: string, duration: string)
    requires IsAt(s, HeadText(kind, time, duration), i)
    ensures var p := i + |Lead(kind)| + |AttributeText("timestamp", time)|;
      && LiteralAt(s, i, Lead(kind)) && IsAt(s, AttributeText("timestamp", time), i + |Lead(kind)|)
      && (kind == Clip ==> (IsAt(s, AttributeText("duration", duration), p)
                          && |HeadText(kind, time, duration)| == p - i + |AttributeText("duration", duration)|))
      && (kind == Screenshot ==> |HeadText(kind, time, duration)| == p - i)
  {
    var lead, ts := Lead(kind), AttributeText("timestamp", time);
    var d := if kind == Clip then AttributeText("duration", duration) else "";
    IsAtParts(s, i, lead + ts, d);
    IsAtParts(s, i, lead, ts);
    LiteralAtIsAt(s, i, lead);
  }

  /** `Head` reads the lead and the attributes it finds in turn. */
  lemma HeadReads(s: string, i: nat, kind: MarkerKind, time: string, duration: string, p: nat, q: nat)
    requires i <= |s| && LiteralAt(s, i, Lead(kind))
    requires i + |Lead(kind)| <= |s| && Attribute(s, i + |Lead(kind)|, "timestamp") == Some((time, p))
    requires kind == Clip ==> p <= |s| && Attribute(s, p, "duration") == Some((duration, q))
    requires kind == Screenshot ==> q == p
    ensures Head(s, i, kind) == Some((time, if kind == Clip then Some(duration) else None, q))
  {
  }

  /** The timestamp attribute written after the lead is read back. */
  lemma TimestampAt(s: string, i: nat, kind: MarkerKind, time: string, p: nat)
    requires |time| > 0 && '"' !in time
    requires IsAt(s, AttributeText("timestamp", time), i + |Lead(kind)|)
    requires p == i + |Lead(kind)| + |AttributeText("timestamp", time)|
    ensures Attribute(s, i + |Lead(kind)|, "timestamp") == Some((time, p))
  {
    AttributeAt(s, i + |Lead(kind)|, "timestamp", time);
  }

  /** The duration attribute written at `p` is read back. */
  lemma DurationAt(s: string, p: nat, duration: string, q: nat)
    requires |duration| > 0 && '"' !in duration
    requires IsAt(s, AttributeText("duration", duration), p) && q == p + |AttributeText("duration", duration)|
    ensures Attribute(s, p, "duration") == Some((duration, q))
  {
    AttributeAt(s, p, "duration", duration);
  }

  /** The head of a marker whose pieces lie at `i` is read back. */
  lemma HeadAt(s: string, i: nat, kind: MarkerKind, time: string, duration: string, p: nat, q: nat)
    requires |time| > 0 && '"' !in time && (kind == Clip ==> |duration| > 0 && '"' !in duration)
    requires LiteralAt(s, i, Lead(kind)) && IsAt(s, AttributeText("timestamp", time), i + |Lead(kind)|)
    requires p == i + |Lead(kind)| + |AttributeText("timestamp", time)|
    requires kind == Clip ==> IsAt(s, AttributeText("duration", duration), p) && q == p + |AttributeText("duration", duration)|
    requires kind == Screenshot ==> q == p
    ensures Head(s, i, kind) == Some((time, if kind == Clip then Some(duration) else None, q))
  {
    TimestampAt(s, i, kind, time, p);
    if kind == Clip {
      DurationAt(s, p, duration, q);
    }
    HeadReads(s, i, kind, time, duration, p, q);
  }

  /** An align value the align patterns read back whole: non-empty, free of
      quotes, ']' and whitespace, and not starting with '='. */
  predicate PlainAlign(a: string) {
    |a| > 0 && a[0] != '=' && forall k :: 0 <= k < |a| ==> InClass(a[k], AlignChar)
  }

  /** Reading an align clause whose pieces sit where `AlignClose` looks
      for them. */
  lemma AlignReads(s: string, p: nat, a: string)
    requires PlainAlign(a) && p + 9 + |a| < |s|
    requires IsSpace(s[p]) && LiteralAt(s, p + 1, "align") && s[p + 6] == '=' && s[p + 7] == '"'
    requires s[p + 8..p + 8 + |a|] == a && s[p + 8 + |a|] == '"' && s[p + 9 + |a|] == ']'
    ensures AlignClose(s, p) == Some((Some(a), p + 10 + |a|))
  {
    RunEndAt(s, p, Whitespace, p + 1);
    RunEndAt(s, p + 6, Whitespace, p + 6);
    assert s[p + 8] == a[0];
    RunEndAt(s, p + 6, EqualsOrQuote, p + 8);
    forall k | p + 8 <= k < p + 8 + |a| ensures InClass(s[k], AlignChar) {
      assert s[k] == a[k - p - 8];
    }
    RunEndAt(s, p + 8, AlignChar, p + 8 + |a|);
  }

  /** Where the characters of ` align="<a>"` written at `p` lie. */
  lemma AlignPieces(s: string, p: nat, a: string)
    requires |a| > 0 && IsAt(s, AttributeText("align", a), p)
    ensures |AttributeText("align", a)| == 9 + |a| && p + 9 + |a| <= |s|
    ensures IsSpace(s[p]) && LiteralAt(s, p + 1, "align") && s[p + 6] == '=' && s[p + 7] == '"'
    ensures s[p + 8..p + 8 + |a|] == a && s[p + 8 + |a|] == '"'
  {
    var t := AttributeText("align", a);
    var lit := "align=\"";
    AttributeTextParts("align", a);
    SliceInside(s, p, t, 0, 1);
    SliceInside(s, p, t, 1, 8);
    SliceInside(s, p, t, 8, 8 + |a|);
    SliceInside(s, p, t, |t| - 1, |t|);
    SliceInside(s, p + 1, lit, 0, 5);
    assert lit[0..5] == "align";
    assert s[p + 6] == lit[5] && s[p + 7] == lit[6];
    LiteralAtIsAt(s, p + 1, "align");
  }

  /** The clause ` align="<a>"]` written at `p` is read back. */
  lemma AlignCloseAt(s: string, p: nat, a: string)
    requires PlainAlign(a)
    requires IsAt(s, AttributeText("align", a), p) && p + |AttributeText("align", a)| < |s|
    requires s[p + |AttributeText("align", a)|] == ']'
    ensures AlignClose(s, p) == Some((Some(a), p + |AttributeText("align", a)| + 1))
  {
    AlignPieces(s, p, a);
    AlignReads(s, p, a);
  }

  /** A caption free of '[' written at the end of the text runs to the
      end. */
  lemma CaptionAt(s: string, e: nat, caption: string)
    requires IsAt(s, caption, e) && e + |caption| == |s| && '[' !in caption
    ensures RunEnd(s, e, NotOpenBracket) == |s| && s[e..|s|] == caption
  {
    forall k | e <= k < |s| ensures s[k] != '[' {
      assert s[k] == caption[k - e];
    }
    RunEndAt(s, e, NotOpenBracket, |s|);
  }

  /** The requirements on the pieces of a marker text that the patterns
      read back unchanged. */
  predicate Readable(kind: MarkerKind, time: string, duration: string, align: Option<string>, caption: string) {
    && |time| > 0 && '"' !in time
    && (kind == Clip ==> |duration| > 0 && '"' !in duration)
    && (align.Some? ==> PlainAlign(align.value))
    && '[' !in caption
  }

  /** The close of a marker, with or without its align clause, is read
      back. */
  lemma CloseAt(s: string, q: nat, align: Option<string>, e: nat)
    requires align.Some? ==> PlainAlign(align.value)
    requires IsAt(s, AlignText(align), q) && e == q + |AlignText(align)| + 1
    requires e <= |s| && s[e - 1] == ']'
    ensures Close(s, q, align.Some?) == Some((align, e))
  {
    if align.Some? {
      AlignCloseAt(s, q, align.value);
    }
  }

  /** `MatchAt` puts together what the head, the close and the caption
      run find. */
  lemma MatchReads(s: string, i: nat, pat: Pattern, time: string, duration: Option<string>,
                   align: Option<string>, caption: string, q: nat, e: nat)
    requires i <= q <= e <= |s| && Head(s, i, pat.kind) == Some((time, duration, q))
    requires Close(s, q, pat.withAlign) == Some((align, e))
    requires RunEnd(s, e, NotOpenBracket) == |s| && s[e..|s|] == caption
    ensures MatchAt(s, i, pat) == Some(MarkerMatch(i, |s|, time, duration, align, caption))
  {
  }

  /** Where the pieces of a marker text lie. */
  lemma MarkerLayout(kind: MarkerKind, time: string, duration: string, align: Option<string>, caption: string)
    ensures var text := MarkerText(kind, time, duration, align, caption);
      var h, a := HeadText(kind, time, duration), AlignText(align);
      && IsAt(text, h, 0) && IsAt(text, a, |h|) && text[|h| + |a|] == ']'
      && IsAt(text, caption, |h| + |a| + 1) && |h| + |a| + 1 + |caption| == |text|
  {
    var text := MarkerText(kind, time, duration, align, caption);
    var h, a := HeadText(kind, time, duration), AlignText(align);
    assert IsAt(text, text, 0);
    IsAtParts(text, 0, h + a + "]", caption);
    IsAtParts(text, 0, h + a, "]");
    IsAtParts(text, 0, h, a);
  }

  /** A text laid out as a marker's pieces is matched as that marker. */
  lemma MatchesLaid(text: string, kind: MarkerKind, time: string, duration: string,
                    align: Option<string>, caption: string, q: nat, e: nat)
    requires Readable(kind, time, duration, align, caption)
    requires IsAt(text, HeadText(kind, time, duration), 0) && q == |HeadText(kind, time, duration)|
    requires IsAt(text, AlignText(align), q) && e == q + |AlignText(align)| + 1
    requires IsAt(text, caption, e) && e + |caption| == |text| && text[e - 1] == ']'
    ensures MatchAt(text, 0, Pattern(kind, align.Some?))
      == Some(MarkerMatch(0, |text|, time, if kind == Clip then Some(duration) else None, align, caption))
  {
    var duration' := if kind == Clip then Some(duration) else None;
    assert Head(text, 0, kind) == Some((time, duration', q)) by {
      HeadPieces(text, 0, kind, time, duration);
      HeadAt(text, 0, kind, time, duration, |Lead(kind)| + |AttributeText("timestamp", time)|, q);
    }
    assert Close(text, q, align.Some?) == Some((align, e)) by {
      CloseAt(text, q, align, e);
    }
    assert RunEnd(text, e, NotOpenBracket) == |text| && text[e..|text|] == caption by {
      CaptionAt(text, e, caption);
    }
    MatchReads(text, 0, Pattern(kind, align.Some?), time, duration', align, caption, q, e);
  }

  /** Every marker an author writes with readable pieces is matched, from
      its first character to the end of the text, by the pattern of its kind
      and align form, and the match gives the pieces back. */
  lemma MarkerTextMatches(kind: MarkerKind, time: string, duration: string, align: Option<string>, caption: string)
    requires Readable(kind, time, duration, align, caption)
    ensures var text := MarkerText(kind, time, duration, align, caption);
      MatchAt(text, 0, Pattern(kind, align.Some?))
      == Some(MarkerMatch(0, |text|, time, if kind == Clip then Some(duration) else None, align, caption))
  {
    var text := MarkerText(kind, time, duration, align, caption);
    var h, a := HeadText(kind, time, duration), AlignText(align);
    MarkerLayout(kind, time, duration, align, caption);
    MatchesLaid(text, kind, time, duration, align, caption, |h|, |h| + |a| + 1);
  }
}

=== FILE: example.dfy ===
/** `examples/highlight_reel_example.py`: a line-oriented reader of segment
    specifications. A line starting with `SEGMENT:` or `TITLE:` (any case)
    begins a simple segment, either with `|`-separated fields on the same
    line or with `TIME:` / `DURATION:` on the following lines; a line
    starting with `####` begins a Markdown segment whose body runs to the
    next blank line. Its `parse_timestamp` is the same function as the
    extractor's, and its `VideoSegment` the same record. */
module HighlightReelExample {
  import opened Wrappers
  import opened PyStr
  import opened PyInt
  import opened TimeParse
  import HighlightReelExtractor

  type VideoSegment = HighlightReelExtractor.VideoSegment

  const DefaultDuration := FieldText("DURATION", "2 minutes")

  /** A field written as `name: v`. */
  function FieldText(name: string, v: string): string { name + ": " + v }
  const StampLabel := "STARTING TIMESTAMP:"

  /** `s.upper().strip().startswith(prefix)` */
  predicate StartsUpper(s: string, prefix: string) {
    StartsWith(Strip(Upper(s)), prefix)
  }

  /** The first line of a simple segment (already stripped). */
  predicate IsSimpleHeader(line: string) {
    StartsWith(Upper(line), "SEGMENT:") || StartsWith(Upper(line), "TITLE:")
  }

  predicate IsTimeField(s: string) {
    StartsUpper(s, "TIME:") || StartsUpper(s, "TIMESTAMP:")
  }

  predicate IsDurationField(s: string) {
    StartsUpper(s, "DURATION:")
  }

  /** A line that ends the description of a simple segment. */
  predicate IsFieldLine(s: string) {
    || StartsUpper(s, "SEGMENT:") || StartsUpper(s, "TITLE:") || StartsUpper(s, "TIME:")
    || StartsUpper(s, "TIMESTAMP:") || StartsUpper(s, "DURATION:")
  }

  /** `str.upper` reads the dotless `ı` as `I`, so this line opens a
      segment. */
  lemma DotlessTitleHeader()
    ensures IsSimpleHeader("t\U{131}tle:")
  {
    DotlessUpper();
  }

  lemma DotlessUpper()
    ensures Upper("t\U{131}tle:") == "TITLE:"
  {
    var s := "t\U{131}tle:";
    assert s[1..] == "\U{131}tle:";
    assert s[1..][1..] == "tle:";
    TleUpper();
  }

  lemma TleUpper()
    ensures Upper("tle:") == "TLE:"
  {
  }

  /** The `st` ligature upper-cases to two letters, so this is a
      timestamp field. */
  lemma LigatureTimestamp()
    ensures IsTimeField("time" + "\U{FB06}amp:")
  {
    UpperAppend("time", "\U{FB06}amp:");
    TimeUpper();
    StampUpper();
    TimestampJoined();
  }

  lemma TimestampJoined()
    ensures StartsWith(Strip("TIME" + "STAMP:"), "TIMESTAMP:")
  {
    var u := "TIME" + "STAMP:";
    StripUnchanged(u);
    assert u == "TIMESTAMP:";
  }

  lemma TimeUpper()
    ensures Upper("time") == "TIME"
  {
  }

  lemma StampUpper()
    ensures Upper("\U{FB06}amp:") == "STAMP:"
  {
    var s := "\U{FB06}amp:";
    assert s[1..] == "amp:";
  }

  /** A stripped line that starts a segment of either form. */
  predicate IsSegmentStart(line: string) {
    IsSimpleHeader(line) || StartsWith(line, "####")
  }

  /** `part.split(':', 1)[1].strip() if ':' in part else default` */
  function ValueAfterColon(part: string, default: string): (r: string)
    ensures ':' !in part ==> r == default
    ensures ':' in part ==> r == Strip(AfterFirst(part, ':'))
  {
    if ':' in part then Strip(AfterFirst(part, ':')) else default
  }

  /** `next((p for p in parts if field(p)), default)`: the first part, as
      written, that `field` accepts. */
  function FirstField(parts: seq<string>, field: string -> bool, default: string): (r: string)
    ensures (forall k :: 0 <= k < |parts| ==> !field(parts[k])) ==> r == default
    ensures (exists k :: 0 <= k < |parts| && field(parts[k])) ==> field(r) && r in parts
  {
    if |parts| == 0 then default
    else if field(parts[0]) then parts[0]
    else
      assert forall k :: 1 <= k < |parts| ==> parts[k] == parts[1..][k - 1];
      FirstField(parts[1..], field, default)
  }

  // ---------------------------------------------------------------------
  // Duration of a simple segment: `(\d+)\s*minutes?`, else `int()`, else 120

  /** The digits of the first `N minute` / `N minutes` at or after `p`. A
      search starting inside a run of digits ends the run where a search
      from its first digit does, so only the run's start matters. */
  function MinutesFrom(s: string, p: nat): (r: Option<string>)
    requires p <= |s|
    ensures r.Some? ==> IsDigitStr(r.value)
    decreases |s| - p
  {
    if p == |s| then None
    else if IsDigit(s[p]) then
      var d := RunWhile(s, p, IsDigit);
      var w := RunWhile(s, d, IsSpace);
      if IsAt(s, "minute", w) then Some(s[p..d]) else MinutesFrom(s, p + 1)
    else MinutesFrom(s, p + 1)
  }

  /** The duration in seconds given by the text after `DURATION:`. */
  function DurationValue(v: string): (r: int)
    ensures MinutesFrom(v, 0).Some? ==> r == 60 * DigitsValue(MinutesFrom(v, 0).value)
    ensures MinutesFrom(v, 0).None? && ParseInt(Strip(v)).Ok? ==> r == ParseInt(Strip(v)).value
    ensures MinutesFrom(v, 0).None? && ParseInt(Strip(v)).Err? ==> r == 120
  {
    match MinutesFrom(v, 0)
    case Some(d) => DigitsValue(d) * 60
    case None =>
      match ParseInt(Strip(v))
      case Ok(n) => n
      case Err(_) => 120
  }

  lemma {:induction false} MinutesAbsent(s: string, p: nat)
    requires p <= |s| && forall k :: 0 <= k < |s| ==> IsDigit(s[k])
    ensures MinutesFrom(s, p) == None
    decreases |s| - p
  {
    if p < |s| {
      var d := RunWhile(s, p, IsDigit);
      assert d == |s|;
      MinutesAbsent(s, p + 1);
    }
  }

  /** A bare number of seconds is taken as it is. */
  lemma DurationOfSeconds(n: nat)
    ensures DurationValue(NatToString(n)) == n
  {
    var s := NatToString(n);
    MinutesAbsent(s, 0);
    StripOfDigits(s);
    ParseFormatPadded(n, 0);
  }

  lemma MinutesAt(s: string, digits: string)
    requires IsDigitStr(digits) && |s| == |digits| + 8
    requires s[..|digits|] == digits && s[|digits|..] == " minutes"
    ensures MinutesFrom(s, 0) == Some(digits)
  {
    var e := |digits|;
    forall j | 0 <= j < e ensures IsDigit(s[j]) {
      assert s[j] == digits[j];
    }
    assert s[e] == s[e..][0] == ' ';
    assert s[e + 1] == s[e..][1] == 'm';
    RunWhileStops(s, 0, e, IsDigit);
    RunWhileStops(s, e, e + 1, IsSpace);
    assert s[e + 1..e + 7] == s[e..][1..7];
  }

  /** `N minutes` is `60 * N` seconds. */
  lemma DurationOfMinutes(n: nat)
    ensures DurationValue(NatToString(n) + " minutes") == 60 * n
  {
    var d := NatToString(n);
    var s := d + " minutes";
    assert s[..|d|] == d && s[|d|..] == " minutes";
    MinutesAt(s, d);
    NatToStringValue(n);
  }

  /** A field `name: v` reads as `v` when `v` has no space at either end. */
  lemma FieldValue(name: string, v: string, default: string)
    requires ':' !in name && |v| > 0 && !IsSpace(v[0]) && !IsSpace(v[|v| - 1])
    ensures ValueAfterColon(FieldText(name, v), default) == v
  {
    var s := FieldText(name, v);
    assert s == name + ":" + (" " + v);
    assert s[|name|] == ':';
    AfterColonOfField(name, " " + v);
    StripOneSpace(v);
  }

  /** The default duration field reads as `2 minutes`, two minutes long. */
  lemma DefaultDurationText()
    ensures ValueAfterColon(DefaultDuration, "2 minutes") == "2 minutes"
    ensures DurationValue("2 minutes") == 120
  {
    var v := "2 minutes";
    assert v[0] == '2' && v[|v| - 1] == 's';
    FieldValue("DURATION", v, "2 minutes");
    TwoMinutes();
  }

  lemma TwoMinutes()
    ensures DurationValue("2 minutes") == 120
  {
    DurationOfMinutes(2);
    assert NatToString(2) + " minutes" == "2 minutes";
  }

  lemma AfterColonOfField(name: string, rest: string)
    requires ':' !in name
    ensures AfterFirst(name + ":" + rest, ':') == rest
  {
    var s := name + ":" + rest;
    var r := AfterFirst(s, ':');
    assert s[|name|] == ':';
    var k := |s| - |r| - 1;
    assert s[k] == ':';
    assert forall j :: 0 <= j < |name| ==> s[j] == name[j];
    assert forall j :: 0 <= j < k ==> s[..k][j] == s[j];
    assert k == |name|;
    assert r == s[|name| + 1..];
    assert s[|name| + 1..] == rest;
  }

  // ---------------------------------------------------------------------
  // The simple form

  /** What one step of the main loop produces: the next line index and the
      segment found, if any. */
  datatype Step = Step(next: nat, segment: Option<VideoSegment>)

  /** The description of a simple segment: the stripped lines from `j` up to
      the first blank line or field line. */
  function DescriptionRun(lines: seq<string>, j: nat): (r: (nat, seq<string>))
    requires j <= |lines|
    ensures j <= r.0 <= |lines| && |r.1| == r.0 - j
    ensures forall m :: 0 <= m < |r.1| ==> r.1[m] == Strip(lines[j + m])
    ensures forall k :: j <= k < r.0 ==> Strip(lines[k]) != [] && !IsFieldLine(lines[k])
    ensures r.0 < |lines| ==> Strip(lines[r.0]) == [] || IsFieldLine(lines[r.0])
    decreases |lines| - j
  {
    if j == |lines| || Strip(lines[j]) == [] || IsFieldLine(lines[j]) then (j, [])
    else
      var (e, rest) := DescriptionRun(lines, j + 1);
      var d := [Strip(lines[j])] + rest;
      assert forall m :: 0 < m < |d| ==> d[m] == rest[m - 1];
      (e, d)
  }

  /** The common tail of the simple form, once the title, time and duration
      texts are known and `k` is the index of the last line consumed: a
      timestamp that does not parse drops this segment only (the scan
      resumes on the next line); otherwise the description follows. */
  function Finish(lines: seq<string>, k: nat, titlePart: string, timePart: string, durationPart: string): (r: Step)
    requires k < |lines|
    ensures k < r.next <= |lines|
    ensures ParseTimestamp(ValueAfterColon(timePart, "")).Err? ==> r == Step(k + 1, None)
    ensures ParseTimestamp(ValueAfterColon(timePart, "")).Ok? ==>
      && r.segment.Some?
      && r.segment.value.startTime == ParseTimestamp(ValueAfterColon(timePart, "")).value
      && r.segment.value.title == ValueAfterColon(titlePart, Strip(titlePart))
      && r.segment.value.duration == DurationValue(ValueAfterColon(durationPart, "2 minutes"))
      && r.next == DescriptionRun(lines, k + 1).0
  {
    var title := ValueAfterColon(titlePart, Strip(titlePart));
    var timeValue := ValueAfterColon(timePart, "");
    var durationValue := ValueAfterColon(durationPart, "2 minutes");
    match ParseTimestamp(timeValue)
    case Err(_) => Step(k + 1, None)
    case Ok(ts) =>
      var (j, desc) := DescriptionRun(lines, k + 1);
      Step(j, Some(HighlightReelExtractor.VideoSegment(ts, DurationValue(durationValue), title, Join(desc, "\n"))))
  }

  /** The multi-line simple form: the next line must be a time field
      (otherwise nothing is emitted and the scan moves to the next line),
      and a duration field may follow it; without one the duration is two
      minutes. */
  function MultiLineStep(lines: seq<string>, i: nat, titlePart: string): (r: Step)
    requires i < |lines|
    ensures i < r.next <= |lines|
    ensures !(i + 1 < |lines| && IsTimeField(lines[i + 1])) ==> r == Step(i + 1, None)
    ensures !(i + 2 < |lines| && IsDurationField(lines[i + 2])) && r.segment.Some? ==> r.segment.value.duration == 120
  {
    if i + 1 < |lines| && IsTimeField(lines[i + 1]) then
      var timePart := Strip(lines[i + 1]);
      if i + 2 < |lines| && IsDurationField(lines[i + 2]) then
        Finish(lines, i + 2, titlePart, timePart, Strip(lines[i + 2]))
      else
        DefaultDurationText();
        Finish(lines, i + 1, titlePart, timePart, DefaultDuration)
    else Step(i + 1, None)
  }

  /** The one-line simple form: the fields are the first parts starting
      with `TIME:`/`TIMESTAMP:` and `DURATION:`; without a duration part the
      duration is two minutes. */
  function PipeStep(lines: seq<string>, i: nat, parts: seq<string>): (r: Step)
    requires i < |lines| && |parts| > 0
    ensures i < r.next <= |lines|
    ensures (forall k :: 0 <= k < |parts| ==> !IsDurationField(parts[k])) && r.segment.Some? ==> r.segment.value.duration == 120
  {
    var titlePart := Strip(parts[0]);
    var timePart := FirstField(parts, IsTimeField, "");
    var durationPart := FirstField(parts, IsDurationField, DefaultDuration);
    DefaultDurationText();
    Finish(lines, i, titlePart, timePart, durationPart)
  }

  /** The simple form at line `i` (whose stripped text is `line`): without
      `|` the fields are on the following lines, with it on this one. */
  function SimpleStep(lines: seq<string>, i: nat, line: string): (r: Step)
    requires i < |lines|
    ensures i < r.next <= |lines|
    ensures '|' !in line ==> r == MultiLineStep(lines, i, Strip(line))
    ensures '|' in line ==> r == PipeStep(lines, i, Split(line, "|"))
  {
    var parts := Split(line, "|");
    SplitBar(line);
    if |parts| == 1 then MultiLineStep(lines, i, Strip(parts[0]))
    else PipeStep(lines, i, parts)
  }

  /** `line.split('|')` has one part exactly when there is no `|`. */
  lemma SplitBar(line: string)
    ensures |Split(line, "|")| == 1 <==> '|' !in line
    ensures '|' !in line ==> Split(line, "|") == [line]
  {
    if '|' in line {
      SplitWith(line);
    } else {
      SplitWithout(line);
    }
  }

  lemma SplitWithout(line: string)
    requires '|' !in line
    ensures Split(line, "|") == [line]
  {
    SplitJoinCharFree([line], '|');
  }

  lemma SplitWith(line: string)
    requires '|' in line
    ensures |Split(line, "|")| > 1
  {
    ContainsChar(line, '|');
    var i := IndexOf(line, "|").value;
    SplitUnfold(line, "|", i);
  }

  // ---------------------------------------------------------------------
  // The Markdown form

  /** A body line carrying the start time. */
  predicate IsStampLine(line: string) {
    StartsWith(Strip(line), StampLabel)
  }

  /** `line.replace('STARTING TIMESTAMP:', '').strip()`, parsed. */
  function StampValue(line: string): (r: Result<int>)
    ensures r.Err? ==> r.error == ValueError
  {
    ParseTimestamp(Strip(Replace(line, StampLabel, "")))
  }

  /** A timestamp line that parses. */
  predicate StampOk(line: string) {
    IsStampLine(line) && StampValue(line).Ok?
  }

  /** Some line in `[a, b)` is a timestamp line that parses. */
  predicate AnyStamp(lines: seq<string>, a: nat, b: nat)
    requires b <= |lines|
  {
    AnyIn(lines, StampOk, a, b)
  }

  lemma AnyStampMeans(lines: seq<string>, a: nat, b: nat)
    requires b <= |lines|
    ensures AnyStamp(lines, a, b) <==> exists k :: a <= k < b && StampOk(lines[k])
  {
    AnyInMeans(lines, StampOk, a, b);
  }

  /** The body of a Markdown segment from line `j` to the next blank line:
      where it ends, the start time of the last timestamp line that parses
      (a line that does not parse is skipped), and the stripped other
      lines. */
  function MarkdownBody(lines: seq<string>, j: nat): (r: (nat, Option<int>, seq<string>))
    requires j <= |lines|
    ensures j <= r.0 <= |lines|
    ensures forall k :: j <= k < r.0 ==> Strip(lines[k]) != []
    ensures r.0 < |lines| ==> Strip(lines[r.0]) == []
    ensures r.1.Some? <==> AnyStamp(lines, j, r.0)
    ensures forall m :: 0 <= m < |r.2| ==> !StartsWith(r.2[m], StampLabel) && r.2[m] != []
    ensures (forall k :: j <= k < r.0 ==> !IsStampLine(lines[k])) ==>
      |r.2| == r.0 - j && forall m :: 0 <= m < |r.2| ==> r.2[m] == Strip(lines[j + m])
    decreases |lines| - j
  {
    if j == |lines| || Strip(lines[j]) == [] then (j, None, [])
    else
      var (e, ts, desc) := MarkdownBody(lines, j + 1);
      assert forall k :: j <= k < e ==> Strip(lines[k]) != [] by {
        assert Strip(lines[j]) != [];
      }
      assert AnyStamp(lines, j, e) <==> StampOk(lines[j]) || AnyStamp(lines, j + 1, e);
      if IsStampLine(lines[j]) then
        var here := StampValue(lines[j]);
        var t := if ts.Some? then ts else if here.Ok? then Some(here.value) else None;
        (e, t, desc)
      else
        var d := [Strip(lines[j])] + desc;
        assert forall m :: 0 < m < |d| ==> d[m] == desc[m - 1];
        (e, ts, d)
  }

  /** The Markdown form at line `i`: the title is the line without any
      `####`, the duration comes from `(N minutes)` in it (else 120), and
      a segment is emitted only when a timestamp parsed. */
  function MarkdownStep(lines: seq<string>, i: nat, line: string): (r: Step)
    requires i < |lines|
    ensures i < r.next <= |lines|
    ensures r.segment.Some? <==> MarkdownBody(lines, i + 1).1.Some?
    ensures r.segment.Some? ==>
      && r.segment.value.title == Strip(Replace(line, "####", ""))
      && r.segment.value.duration == HighlightReelExtractor.DurationOf(Strip(Replace(line, "####", "")))
  {
    var title := Strip(Replace(line, "####", ""));
    var duration := HighlightReelExtractor.DurationOf(title);
    var (j, ts, desc) := MarkdownBody(lines, i + 1);
    if ts.Some? then
      Step(j, Some(HighlightReelExtractor.VideoSegment(ts.value, duration, title, Join(desc, "\n"))))
    else Step(j, None)
  }

  // ---------------------------------------------------------------------
  // The main loop

  /** One iteration of the loop at line `i`. */
  function StepAt(lines: seq<string>, i: nat): (r: Step)
    requires i < |lines|
    ensures i < r.next <= |lines|
    ensures r.segment.Some? ==> IsSegmentStart(Strip(lines[i]))
    ensures !IsSegmentStart(Strip(lines[i])) ==> r == Step(i + 1, None)
  {
    var line := Strip(lines[i]);
    if line == [] then
      assert !IsSimpleHeader(line) && !StartsWith(line, "####");
      Step(i + 1, None)
    else if IsSimpleHeader(line) then SimpleStep(lines, i, line)
    else if StartsWith(line, "####") then MarkdownStep(lines, i, line)
    else Step(i + 1, None)
  }

  /** A segment found on a line. */
  datatype Found = Found(line: nat, segment: VideoSegment)

  /** The loop from line `i`: every step moves strictly forward, so the
      loop ends, and the segments come out in the order of the lines that
      start them. */
  function Scan(lines: seq<string>, i: nat): (r: seq<Found>)
    requires i <= |lines|
    ensures forall k :: 0 <= k < |r| ==> i <= r[k].line < |lines| && IsSegmentStart(Strip(lines[r[k].line]))
    ensures forall k :: 0 <= k < |r| ==> StepAt(lines, r[k].line).segment == Some(r[k].segment)
    ensures forall k :: 0 <= k < |r| - 1 ==> r[k].line < r[k + 1].line
    ensures |r| <= |lines| - i
    decreases |lines| - i
  {
    if i == |lines| then []
    else
      var s := StepAt(lines, i);
      var rest := Scan(lines, s.next);
      if s.segment.Some? then
        var r := [Found(i, s.segment.value)] + rest;
        assert r[0].line == i && forall k :: 0 < k < |r| ==> r[k] == rest[k - 1];
        r
      else rest
  }

  /** The lines of `text` that the segments found in it start on. */
  function SegmentLines(text: string): seq<nat>
  {
    var found := Scan(SplitLines(text), 0);
    seq(|found|, (k: int) requires 0 <= k < |found| => found[k].line)
  }

  /** `extract_segments_from_text(text)`: every segment is the one the
      loop's step builds at a segment-start line of the text, each line
      gives at most one, and they come out in document order. */
  function ExtractSegmentsFromText(text: string): (r: seq<VideoSegment>)
    ensures var lines, at := SplitLines(text), SegmentLines(text);
      && |r| == |at| <= |lines|
      && (forall k :: 0 <= k < |r| ==>
            at[k] < |lines| && IsSegmentStart(Strip(lines[at[k]])) && StepAt(lines, at[k]).segment == Some(r[k]))
      && (forall k :: 0 <= k < |r| - 1 ==> at[k] < at[k + 1])
  {
    var found := Scan(SplitLines(text), 0);
    seq(|found|, (k: int) requires 0 <= k < |found| => found[k].segment)
  }
}

=== FILE: extractor.dfy ===
/** `highlight_reel_extractor`: segment specifications are read out of a
    Markdown-like text (headers `# Segment N ...`, a `STARTING TIMESTAMP:`
    line, an optional `(N minutes)`), and the segments are cut from the
    source video and concatenated. The regular expressions of the source are
    written out as scanners; ffmpeg runs are oracles. */
module HighlightReelExtractor {
  import opened Wrappers
  import opened PyStr
  import opened PyInt
  import opened Paths
  import opened TimeParse
  import opened Utils

  /** A segment of the source video to put in the reel (seconds). */
  datatype VideoSegment = VideoSegment(startTime: int, duration: int, title: string, description: string)

  predicate IsHash(c: char) { c == '#' }
  predicate NotHash(c: char) { c != '#' }
  predicate IsClockChar(c: char) { IsDigit(c) || c == ':' }

  const SegmentWord := "Segment "
  const TimestampLabel := "STARTING TIMESTAMP:"

  // ---------------------------------------------------------------------
  // Segment blocks: `#{1,6}\s*(Segment \d+[^#]*?)(?=#{1,6}|\Z)`

  /** Where the header pattern matches when tried at `i`: the index of the
      `Segment` word, or None. A run of more than six hashes cannot start a
      match (after the sixth the next character is a hash again, so neither
      `\s*` nor `Segment` can follow); `\s*` takes the whole run of spaces
      since `S` is not a space. */
  function HeaderAt(t: string, i: nat): (r: Option<nat>)
    ensures r.Some? ==> i < r.value && r.value + |SegmentWord| < |t|
    ensures r.Some? ==> IsAt(t, SegmentWord, r.value) && IsDigit(t[r.value + |SegmentWord|])
    ensures r.Some? ==> t[i] == '#'
  {
    if i < |t| && t[i] == '#' then
      var h := RunWhile(t, i, IsHash);
      if h - i > 6 then None
      else
        var w := RunWhile(t, h, IsSpace);
        if IsAt(t, SegmentWord, w) && w + |SegmentWord| < |t| && IsDigit(t[w + |SegmentWord|]) then Some(w)
        else None
    else None
  }

  /** One match of the segment pattern: where it was tried (`hash`), where
      the captured text starts and where it ends. */
  datatype Span = Span(hash: nat, start: nat, end: nat)

  /** The captured text of a match starting at `w` runs to the first hash
      after the digit (the lazy `[^#]*?` stops at the first place the
      lookahead accepts, and it cannot pass a hash) or to the end. */
  function BlockEnd(t: string, w: nat): (r: nat)
    requires IsAt(t, SegmentWord, w) && w + |SegmentWord| < |t| && IsDigit(t[w + |SegmentWord|])
    ensures w + |SegmentWord| < r <= |t|
    ensures forall k :: w <= k < r ==> t[k] != '#'
    ensures r < |t| ==> t[r] == '#'
  {
    var r := RunWhile(t, w, NotHash);
    assert forall k :: w <= k < w + |SegmentWord| ==> t[k] == SegmentWord[k - w];
    r
  }

  /** `sp` is a match of the segment pattern tried at `sp.hash`. */
  predicate Matched(t: string, sp: Span) {
    HeaderAt(t, sp.hash) == Some(sp.start) && sp.end == BlockEnd(t, sp.start)
  }

  /** The pattern matches nowhere in `[a, b)`, position by position. */
  predicate NoHeader(t: string, a: nat, b: nat)
    decreases b - a
  {
    a >= b || (HeaderAt(t, a).None? && NoHeader(t, a + 1, b))
  }

  lemma {:induction false} NoHeaderMeans(t: string, a: nat, b: nat)
    ensures NoHeader(t, a, b) <==> forall q :: a <= q < b ==> HeaderAt(t, q).None?
    decreases b - a
  {
    if a < b {
      NoHeaderMeans(t, a + 1, b);
    }
  }

  /** `re.finditer(segment_pattern, text)` from position `p`: every position
      is tried in turn, and after a match the scan resumes where it ended. */
  function Spans(t: string, p: nat): (r: seq<Span>)
    requires p <= |t|
    ensures forall k :: 0 <= k < |r| ==> p <= r[k].hash && Matched(t, r[k])
    ensures forall k :: 0 <= k < |r| - 1 ==> r[k].end <= r[k + 1].hash
    decreases |t| - p
  {
    if p == |t| then []
    else match HeaderAt(t, p)
      case Some(w) =>
        var e := BlockEnd(t, w);
        var rest := Spans(t, e);
        var r := [Span(p, w, e)] + rest;
        assert forall j :: 0 < j < |r| ==> r[j] == rest[j - 1];
        r
      case None => Spans(t, p + 1)
  }

  /** No position from `p` that the scan passed over starts a match:
      before the first match, between two matches and after the last. */
  predicate Complete(t: string, p: nat, r: seq<Span>)
    decreases |r|
  {
    if |r| == 0 then NoHeader(t, p, |t| + 1)
    else NoHeader(t, p, r[0].hash) && Complete(t, r[0].end, r[1..])
  }

  lemma SpansUnfold(t: string, p: nat)
    requires p < |t|
    ensures HeaderAt(t, p).None? ==> Spans(t, p) == Spans(t, p + 1)
    ensures HeaderAt(t, p).Some? ==>
      Spans(t, p) == [Span(p, HeaderAt(t, p).value, BlockEnd(t, HeaderAt(t, p).value))] + Spans(t, BlockEnd(t, HeaderAt(t, p).value))
  {
  }

  lemma CompleteCons(t: string, sp: Span, rest: seq<Span>)
    requires Complete(t, sp.end, rest)
    ensures Complete(t, sp.hash, [sp] + rest)
  {
    assert ([sp] + rest)[1..] == rest;
  }

  lemma CompleteSkip(t: string, p: nat, r: seq<Span>)
    requires HeaderAt(t, p).None? && Complete(t, p + 1, r)
    requires |r| > 0 ==> p + 1 <= r[0].hash
    ensures Complete(t, p, r)
  {
  }

  /** No match is missed. */
  lemma {:induction false} SpansComplete(t: string, p: nat)
    requires p <= |t|
    ensures Complete(t, p, Spans(t, p))
    decreases |t| - p
  {
    if p == |t| {
      assert HeaderAt(t, p).None? && NoHeader(t, p + 1, |t| + 1);
      assert Spans(t, p) == [];
    } else if HeaderAt(t, p).Some? {
      var e := BlockEnd(t, HeaderAt(t, p).value);
      SpansComplete(t, e);
      SpansCompleteMatch(t, p, e);
    } else {
      SpansComplete(t, p + 1);
      SpansCompleteSkip(t, p);
    }
  }

  /** In particular the scan reports the first match from `p`: no position
      before it, and no position at all when there is none, matches. */
  lemma SpansFindFirst(t: string, p: nat)
    requires p <= |t|
    ensures var r := Spans(t, p);
      forall q :: p <= q < (if |r| == 0 then |t| + 1 else r[0].hash) ==> HeaderAt(t, q).None?
  {
    var r := Spans(t, p);
    SpansComplete(t, p);
    NoHeaderMeans(t, p, if |r| == 0 then |t| + 1 else r[0].hash);
  }

  lemma SpansCompleteMatch(t: string, p: nat, e: nat)
    requires p < |t| && HeaderAt(t, p).Some? && e == BlockEnd(t, HeaderAt(t, p).value)
    requires Complete(t, e, Spans(t, e))
    ensures Complete(t, p, Spans(t, p))
  {
    SpansUnfold(t, p);
    CompleteCons(t, Span(p, HeaderAt(t, p).value, e), Spans(t, e));
  }

  lemma SpansCompleteSkip(t: string, p: nat)
    requires p < |t| && HeaderAt(t, p).None?
    requires Complete(t, p + 1, Spans(t, p + 1))
    ensures Complete(t, p, Spans(t, p))
  {
    SpansUnfold(t, p);
    CompleteSkip(t, p, Spans(t, p + 1));
  }

  /** The stripped texts of all segment matches, in document order. */
  function Blocks(t: string): (r: seq<string>)
    ensures |r| == |Spans(t, 0)|
    ensures forall k :: 0 <= k < |r| ==> r[k] == Strip(t[Spans(t, 0)[k].start..Spans(t, 0)[k].end])
  {
    var spans := Spans(t, 0);
    seq(|spans|, (k: int) requires 0 <= k < |spans| => Strip(t[spans[k].start..spans[k].end]))
  }

  /** Stripping text that starts with a non-space keeps a prefix of it
      reaching past every non-space character. */
  lemma StripKeepsHead(raw: string, n: nat)
    requires n < |raw| && !IsSpace(raw[0]) && !IsSpace(raw[n])
    ensures n < |Strip(raw)| <= |raw| && Strip(raw) == raw[..|Strip(raw)|]
  {
    assert LStrip(raw) == raw;
    RStripFacts(raw);
  }

  lemma BlockTextShape(t: string, s: nat, e: nat)
    requires IsAt(t, SegmentWord, s) && s + |SegmentWord| < e <= |t| && IsDigit(t[s + |SegmentWord|])
    requires forall k :: s <= k < e ==> t[k] != '#'
    ensures var b := Strip(t[s..e]);
      && IsAt(b, SegmentWord, 0) && |b| > |SegmentWord| && IsDigit(b[|SegmentWord|])
      && '#' !in b
  {
    var raw := t[s..e];
    assert raw[..|SegmentWord|] == t[s..s + |SegmentWord|];
    assert raw[|SegmentWord|] == t[s + |SegmentWord|];
    StripKeepsHead(raw, |SegmentWord|);
    var b := Strip(raw);
    assert b[..|SegmentWord|] == raw[..|SegmentWord|];
    forall j | 0 <= j < |b| ensures b[j] != '#' {
      assert b[j] == raw[j] == t[s + j];
    }
  }

  /** Every block starts with `Segment ` and a digit and holds no hash. */
  lemma BlockShape(t: string, k: nat)
    requires k < |Blocks(t)|
    ensures var b := Blocks(t)[k];
      && IsAt(b, SegmentWord, 0) && |b| > |SegmentWord| && IsDigit(b[|SegmentWord|])
      && '#' !in b
  {
    var sp := Spans(t, 0)[k];
    assert Matched(t, sp);
    BlockTextShape(t, sp.start, sp.end);
  }

  // ---------------------------------------------------------------------
  // Title: `re.search(r'(.*?)(?:\(|$)', segment_text)`

  /** Where the lazy `.*?` tried at `p` stops: the first `(`, the end of the
      text, or a newline that is the last character (`$`); `.` does not
      cross any other newline, so the attempt fails there (`None`). */
  function TitleStop(t: string, p: nat): (r: Option<nat>)
    requires p <= |t|
    ensures r.Some? ==> p <= r.value <= |t| && '(' !in t[p..r.value] && '\n' !in t[p..r.value]
    ensures r.Some? ==> r.value == |t| || t[r.value] == '(' || r.value == |t| - 1
    decreases |t| - p
  {
    if p == |t| || t[p] == '(' then Some(p)
    else if t[p] == '\n' then (if p + 1 == |t| then Some(p) else None)
    else
      var r := TitleStop(t, p + 1);
      if r.Some? then
        assert t[p..r.value] == [t[p]] + t[p + 1..r.value];
        r
      else r
  }

  /** The captured title text of the search from `p`: the first position
      whose attempt succeeds. */
  function TitleFrom(t: string, p: nat): (r: string)
    requires p <= |t|
    ensures '(' !in r && '\n' !in r
    decreases |t| - p
  {
    match TitleStop(t, p)
    case Some(q) => t[p..q]
    case None => TitleFrom(t, p + 1)
  }

  /** `title_match.group(1).strip()`; the search always succeeds, since `$`
      matches at the end. */
  function Title(block: string): (r: string)
    ensures '(' !in r && '\n' !in r
  {
    var raw := TitleFrom(block, 0);
    StripFacts(raw);
    var r := Strip(raw);
    assert forall j :: 0 <= j < |r| ==> r[j] in raw;
    r
  }

  lemma {:induction false} TitleStopLine(head: string, tail: string, p: nat)
    requires '(' !in head && '\n' !in head && p <= |head|
    ensures TitleStop(head + "(" + tail, p) == Some(|head|)
    decreases |head| - p
  {
    var t := head + "(" + tail;
    assert t[|head|] == '(';
    if p < |head| {
      assert t[p] == head[p];
      TitleStopLine(head, tail, p + 1);
    }
  }

  /** When the first line contains a parenthesis, the title is the text
      before it. */
  lemma TitleBeforeParen(head: string, tail: string)
    requires '(' !in head && '\n' !in head
    ensures TitleFrom(head + "(" + tail, 0) == head
  {
    TitleStopLine(head, tail, 0);
    assert (head + "(" + tail)[..|head|] == head;
  }

  lemma {:induction false} TitleStopFails(line: string, rest: string, p: nat)
    requires '(' !in line && '\n' !in line && |rest| > 0 && p <= |line|
    ensures TitleStop(line + "\n" + rest, p) == None
    decreases |line| - p
  {
    var t := line + "\n" + rest;
    assert t[|line|] == '\n';
    if p < |line| {
      assert t[p] == line[p];
      TitleStopFails(line, rest, p + 1);
    }
  }

  lemma {:induction false} TitleStopShift(pre: string, t: string, p: nat)
    requires p <= |t|
    ensures TitleStop(pre + t, |pre| + p) == (match TitleStop(t, p) case Some(q) => Some(|pre| + q) case None => None)
    decreases |t| - p
  {
    var s := pre + t;
    if p < |t| {
      assert s[|pre| + p] == t[p];
      TitleStopShift(pre, t, p + 1);
    }
  }

  lemma {:induction false} TitleFromShift(pre: string, t: string, p: nat)
    requires p <= |t|
    ensures TitleFrom(pre + t, |pre| + p) == TitleFrom(t, p)
    decreases |t| - p
  {
    TitleStopShift(pre, t, p);
    match TitleStop(t, p)
    case Some(q) =>
      assert (pre + t)[|pre| + p..|pre| + q] == t[p..q];
    case None =>
      TitleFromShift(pre, t, p + 1);
  }

  lemma {:induction false} TitleSkipsFrom(line: string, rest: string, p: nat)
    requires '(' !in line && '\n' !in line && |rest| > 0 && p <= |line| + 1
    ensures TitleFrom(line + "\n" + rest, p) == TitleFrom(line + "\n" + rest, |line| + 1)
    decreases |line| + 1 - p
  {
    if p <= |line| {
      TitleStopFails(line, rest, p);
      TitleSkipsFrom(line, rest, p + 1);
    }
  }

  /** A first line with no parenthesis that is not the last line is passed
      over: the title comes from the following lines. */
  lemma TitleSkipsLine(line: string, rest: string)
    requires '(' !in line && '\n' !in line && |rest| > 0
    ensures TitleFrom(line + "\n" + rest, 0) == TitleFrom(rest, 0)
  {
    TitleSkipsFrom(line, rest, 0);
    assert line + "\n" + rest == (line + "\n") + rest;
    TitleFromShift(line + "\n", rest, 0);
  }

  /** A single line without a parenthesis is its own title. */
  lemma TitleOfPlainLine(line: string)
    requires '(' !in line && '\n' !in line
    ensures TitleFrom(line, 0) == line
  {
    TitleStopPlain(line, 0);
  }

  lemma {:induction false} TitleStopPlain(line: string, p: nat)
    requires '(' !in line && '\n' !in line && p <= |line|
    ensures TitleStop(line, p) == Some(|line|)
    decreases |line| - p
  {
    if p < |line| {
      TitleStopPlain(line, p + 1);
    }
  }

  // ---------------------------------------------------------------------
  // Starting timestamp: `STARTING TIMESTAMP:\s*([0-9:]+)`

  /** The first match of the timestamp pattern at or after `p`: the label,
      all the spaces after it, and a non-empty run of digits and colons
      (backtracking `\s*` cannot help, as a space is not a clock character). */
  function TimestampFrom(t: string, p: nat): (r: Option<string>)
    requires p <= |t|
    ensures r.Some? ==> |r.value| > 0 && forall k :: 0 <= k < |r.value| ==> IsClockChar(r.value[k])
    decreases |t| - p
  {
    if p == |t| then None
    else if IsAt(t, TimestampLabel, p) then
      var w := RunWhile(t, p + |TimestampLabel|, IsSpace);
      var e := RunWhile(t, w, IsClockChar);
      if w < e then Some(t[w..e]) else TimestampFrom(t, p + 1)
    else TimestampFrom(t, p + 1)
  }

  lemma {:induction false} TimestampSkip(t: string, k: nat, p: nat)
    requires k <= p < |t|
    requires forall j :: k <= j < p ==> !IsAt(t, TimestampLabel, j)
    ensures TimestampFrom(t, k) == TimestampFrom(t, p)
    decreases p - k
  {
    if k < p {
      TimestampSkip(t, k + 1, p);
    }
  }

  /** With a clock run after the first label, that run is the timestamp. */
  lemma TimestampAfterLabel(t: string, p: nat)
    requires IndexOf(t, TimestampLabel) == Some(p)
    ensures var w := RunWhile(t, p + |TimestampLabel|, IsSpace);
      var e := RunWhile(t, w, IsClockChar);
      w < e ==> TimestampFrom(t, 0) == Some(t[w..e])
  {
    TimestampSkip(t, 0, p);
  }

  lemma SplitFindsSep(s: string, c: char)
    requires |Split(s, [c])| > 1
    ensures c in s
  {
    match IndexOf(s, [c])
    case Some(i) =>
      assert s[i..i + 1] == [c];
      assert s[i] == c;
    case None =>
  }

  /** A clock run with more than two colons is rejected by `parse_timestamp`. */
  lemma TooManyParts(ts: string)
    requires |ts| > 0 && forall k :: 0 <= k < |ts| ==> IsClockChar(ts[k])
    requires |Split(ts, ":")| >= 4
    ensures ParseTimestamp(ts) == Err(ValueError)
  {
    SplitFindsSep(ts, ':');
    StripUnchanged(ts);
    var k :| 0 <= k < |ts| && ts[k] == ':';
    assert !IsDigit(ts[k]);
  }

  // ---------------------------------------------------------------------
  // Duration: `\((\d+)\s*minutes?\)`

  /** The digits of the first `(N minutes)` / `(N minute)` at or after `p`. */
  function DurationFrom(t: string, p: nat): (r: Option<string>)
    requires p <= |t|
    ensures r.Some? ==> IsDigitStr(r.value)
    decreases |t| - p
  {
    if p == |t| then None
    else if t[p] == '(' then
      var d := RunWhile(t, p + 1, IsDigit);
      var w := RunWhile(t, d, IsSpace);
      if d > p + 1 && IsAt(t, "minute", w) && (IsAt(t, ")", w + 6) || IsAt(t, "s)", w + 6)) then
        Some(t[p + 1..d])
      else DurationFrom(t, p + 1)
    else DurationFrom(t, p + 1)
  }

  /** The segment's duration in seconds: minutes times 60, or 120. */
  function DurationOf(block: string): (r: nat)
    ensures DurationFrom(block, 0).None? ==> r == 120
    ensures DurationFrom(block, 0).Some? ==> r == 60 * DigitsValue(DurationFrom(block, 0).value)
    ensures r % 60 == 0
  {
    match DurationFrom(block, 0)
    case Some(d) => DigitsValue(d) * 60
    case None => 120
  }

  lemma {:induction false} DurationSkip(pre: string, post: string, k: nat)
    requires '(' !in pre && k <= |pre|
    ensures DurationFrom(pre + post, k) == DurationFrom(pre + post, |pre|)
    decreases |pre| - k
  {
    if k < |pre| {
      assert (pre + post)[k] == pre[k];
      DurationSkip(pre, post, k + 1);
    }
  }

  /** At a `(` whose digit run ends at `e`, followed by one space and
      `minutes)`, the pattern matches and captures the digits. */
  lemma DurationAt(t: string, p: nat, e: nat)
    requires p < |t| && t[p] == '(' && p + 1 < e
    requires RunWhile(t, p + 1, IsDigit) == e && RunWhile(t, e, IsSpace) == e + 1
    requires IsAt(t, "minute", e + 1) && IsAt(t, "s)", e + 7)
    ensures DurationFrom(t, p) == Some(t[p + 1..e])
  {
  }

  lemma MinutesWord(t: string, e: nat)
    requires e + 9 <= |t| && t[e..e + 9] == " minutes)"
    ensures t[e] == ' ' && t[e + 1] == 'm' && IsAt(t, "minute", e + 1) && IsAt(t, "s)", e + 7)
  {
    var w := t[e..e + 9];
    assert forall j :: 0 <= j < 9 ==> t[e + j] == w[j];
    assert t[e + 1..e + 7] == "minute" by {
      forall j | 0 <= j < 6 ensures t[e + 1..e + 7][j] == "minute"[j] {
        assert t[e + 1..e + 7][j] == t[e + 1 + j] == w[j + 1];
      }
    }
    assert t[e + 7..e + 9] == "s)" by {
      assert t[e + 7..e + 9][0] == w[7] && t[e + 7..e + 9][1] == w[8];
    }
  }

  lemma DurationTextAt(t: string, p: nat, digits: string, e: nat)
    requires IsDigitStr(digits) && e == p + 1 + |digits| && e + 9 <= |t|
    requires t[p] == '(' && t[p + 1..e] == digits && t[e..e + 9] == " minutes)"
    ensures DurationFrom(t, p) == Some(digits)
  {
    forall j | p + 1 <= j < e ensures IsDigit(t[j]) {
      assert t[j] == digits[j - p - 1];
    }
    MinutesWord(t, e);
    RunWhileStops(t, p + 1, e, IsDigit);
    RunWhileStops(t, e, e + 1, IsSpace);
    DurationAt(t, p, e);
  }

  lemma MiddleSlice(pre: string, m: string, post: string, i: nat, j: nat)
    requires i <= j <= |m|
    ensures (pre + m + post)[|pre| + i..|pre| + j] == m[i..j]
  {
    var t := pre + m + post;
    assert forall k :: |pre| + i <= k < |pre| + j ==> t[k] == m[k - |pre|];
  }

  lemma ParenPieces(digits: string)
    ensures var m := "(" + digits + " minutes)";
      && |m| == |digits| + 10 && m[0] == '('
      && m[1..1 + |digits|] == digits && m[1 + |digits|..] == " minutes)"
  {
  }

  lemma DurationInText(t: string, pre: string, m: string, post: string, digits: string)
    requires t == pre + m + post && '(' !in pre && IsDigitStr(digits)
    requires |m| == |digits| + 10 && m[0] == '('
    requires m[1..1 + |digits|] == digits && m[1 + |digits|..] == " minutes)"
    ensures DurationFrom(t, 0) == Some(digits)
  {
    var p := |pre|;
    var e := p + 1 + |digits|;
    DurationSkip(pre, m + post, 0);
    assert pre + (m + post) == t;
    assert t[p] == m[0];
    MiddleSlice(pre, m, post, 1, 1 + |digits|);
    MiddleSlice(pre, m, post, 1 + |digits|, |m|);
    assert m[1 + |digits|..|m|] == m[1 + |digits|..];
    DurationTextAt(t, p, digits, e);
  }

  lemma DurationOfDigits(pre: string, digits: string, post: string)
    requires '(' !in pre && IsDigitStr(digits)
    ensures DurationOf(pre + "(" + digits + " minutes)" + post) == 60 * DigitsValue(digits)
  {
    ParenPieces(digits);
    DurationInText(pre + "(" + digits + " minutes)" + post, pre, "(" + digits + " minutes)", post, digits);
  }

  /** `(N minutes)` in a text with no earlier parenthesis gives `60 * N`. */
  lemma DurationOfText(pre: string, n: nat, post: string)
    requires '(' !in pre
    ensures DurationOf(pre + "(" + NatToString(n) + " minutes)" + post) == 60 * n
  {
    DurationOfDigits(pre, NatToString(n), post);
    NatToStringValue(n);
  }

  // ---------------------------------------------------------------------
  // Description

  predicate Keeps(line: string, title: string) {
    !Contains(line, title) && !Contains(line, TimestampLabel) && !IsBlank(line)
  }

  /** The stripped lines from position `i` kept for the description: those
      that do not contain the title or the timestamp label and are not
      blank. */
  function KeptLines(lines: seq<string>, title: string, i: nat): (r: seq<string>)
    requires i <= |lines|
    ensures |r| <= |lines| - i
    ensures forall k :: 0 <= k < |r| ==> r[k] != [] && !IsSpace(r[k][0]) && !IsSpace(r[k][|r[k]| - 1])
    ensures (forall k :: i <= k < |lines| ==> '\n' !in lines[k]) ==> forall k :: 0 <= k < |r| ==> '\n' !in r[k]
    decreases |lines| - i
  {
    if i == |lines| then []
    else
      var rest := KeptLines(lines, title, i + 1);
      var line := lines[i];
      if Contains(line, title) || Contains(line, TimestampLabel) || Strip(line) == [] then rest
      else
        StripFacts(line);
        var r := [Strip(line)] + rest;
        assert forall j :: 0 < j < |r| ==> r[j] == rest[j - 1];
        assert forall c :: c in Strip(line) ==> c in line;
        r
  }

  /** Indices from `i` of the lines the description keeps: an independent
      statement of the filter. */
  function Filtered(lines: seq<string>, title: string, i: nat): (r: seq<nat>)
    requires i <= |lines|
    ensures forall k :: 0 <= k < |r| ==> i <= r[k] < |lines| && Keeps(lines[r[k]], title)
    ensures forall k :: 0 <= k < |r| - 1 ==> r[k] < r[k + 1]
    ensures forall j :: i <= j < |lines| && Keeps(lines[j], title) ==> j in r
    decreases |lines| - i
  {
    if i == |lines| then []
    else
      var rest := Filtered(lines, title, i + 1);
      if Keeps(lines[i], title) then
        var r := [i] + rest;
        assert forall j :: 0 < j < |r| ==> r[j] == rest[j - 1];
        r
      else rest
  }

  /** The kept lines are exactly the filtered lines, stripped, in order. */
  lemma {:induction false} KeptLinesExact(lines: seq<string>, title: string, i: nat)
    requires i <= |lines|
    ensures var r := KeptLines(lines, title, i); var f := Filtered(lines, title, i);
      |r| == |f| && forall k :: 0 <= k < |r| ==> r[k] == Strip(lines[f[k]])
    decreases |lines| - i
  {
    if i < |lines| {
      KeptLinesExact(lines, title, i + 1);
      StripFacts(lines[i]);
      var rest := KeptLines(lines, title, i + 1);
      var f := Filtered(lines, title, i + 1);
      if Keeps(lines[i], title) {
        var r := KeptLines(lines, title, i);
        assert r == [Strip(lines[i])] + rest;
        assert Filtered(lines, title, i) == [i] + f;
        forall k | 0 < k < |r| ensures r[k] == Strip(lines[([i] + f)[k]]) {
          assert r[k] == rest[k - 1];
          assert ([i] + f)[k] == f[k - 1];
        }
      }
    }
  }

  /** `'\n'.join(description_lines)` over the lines of the block. */
  function Description(block: string, title: string): (r: string)
  {
    Join(KeptLines(Split(block, "\n"), title, 0), "\n")
  }

  /** The description splits back into exactly the kept lines. */
  lemma DescriptionSplitsBack(block: string, title: string)
    requires |KeptLines(Split(block, "\n"), title, 0)| > 0
    ensures Split(Description(block, title), "\n") == KeptLines(Split(block, "\n"), title, 0)
  {
    var lines := Split(block, "\n");
    SplitPiecesFree(block, "\n");
    forall k | 0 <= k < |lines| ensures '\n' !in lines[k] {
      ContainsChar(lines[k], '\n');
    }
    SplitJoinCharFree(KeptLines(lines, title, 0), '\n');
  }

  // ---------------------------------------------------------------------
  // Segments

  /** The segment described by one block: none without a timestamp (the
      block is skipped with a warning), ValueError when the timestamp does
      not parse. */
  function SegmentOf(block: string): (r: Result<Option<VideoSegment>>)
    ensures r.Err? ==> r.error == ValueError
    ensures r.Ok? && r.value.Some? ==> TimestampFrom(block, 0).Some? && r.value.value.duration == DurationOf(block)
    ensures r.Ok? && r.value.Some? ==> r.value.value.title == Title(block)
    ensures TimestampFrom(block, 0).None? ==> r == Ok(None)
  {
    var title := Title(block);
    match TimestampFrom(block, 0)
    case None => Ok(None)
    case Some(ts) =>
      match ParseTimestamp(ts)
      case Err(e) => Err(e)
      case Ok(start) => Ok(Some(VideoSegment(start, DurationOf(block), title, Description(block, title))))
  }

  /** What each block yields, in order. */
  function Outcomes(blocks: seq<string>): (r: seq<Result<Option<VideoSegment>>>)
    ensures |r| == |blocks| && forall k :: 0 <= k < |r| ==> r[k] == SegmentOf(blocks[k])
  {
    seq(|blocks|, (k: int) requires 0 <= k < |blocks| => SegmentOf(blocks[k]))
  }

  /** The loop over the blocks: skipped blocks add nothing, and the first
      failure aborts with its error. */
  function Collect(outs: seq<Result<Option<VideoSegment>>>): (r: Result<seq<VideoSegment>>)
    ensures r.Ok? <==> forall k :: 0 <= k < |outs| ==> outs[k].Ok?
    ensures r.Ok? ==> |r.value| <= |outs|
    ensures r.Ok? && (forall k :: 0 <= k < |outs| ==> outs[k].value.Some?) ==>
      |r.value| == |outs| && forall k :: 0 <= k < |outs| ==> r.value[k] == outs[k].value.value
    ensures r.Err? ==> exists k :: 0 <= k < |outs| && outs[k] == Err(r.error) && forall j :: 0 <= j < k ==> outs[j].Ok?
  {
    if |outs| == 0 then Ok([])
    else
      var tail := outs[1..];
      assert forall k :: 1 <= k < |outs| ==> outs[k] == tail[k - 1];
      match outs[0]
      case Err(e) => Err(e)
      case Ok(s) =>
        match Collect(tail)
        case Err(e) =>
          var k :| 0 <= k < |tail| && tail[k] == Err(e) && forall j :: 0 <= j < k ==> tail[j].Ok?;
          assert outs[k + 1] == Err(e);
          Err(e)
        case Ok(rest) =>
          var r := if s.Some? then [s.value] + rest else rest;
          assert s.Some? ==> forall j :: 0 < j < |r| ==> r[j] == rest[j - 1];
          Ok(r)
  }

  /** Collecting two runs of blocks is collecting each and concatenating:
      segments come out in document order. */
  lemma {:induction false} CollectAppend(a: seq<Result<Option<VideoSegment>>>, b: seq<Result<Option<VideoSegment>>>)
    requires Collect(a).Ok? && Collect(b).Ok?
    ensures Collect(a + b) == Ok(Collect(a).value + Collect(b).value)
  {
    if |a| > 0 {
      assert (a + b)[0] == a[0];
      assert (a + b)[1..] == a[1..] + b;
      assert a[0].Ok?;
      assert Collect(a[1..]).Ok? by {
        assert forall k :: 0 <= k < |a[1..]| ==> a[1..][k] == a[k + 1];
      }
      CollectAppend(a[1..], b);
      var x, y := Collect(a[1..]).value, Collect(b).value;
      if a[0].value.Some? {
        assert [a[0].value.value] + (x + y) == ([a[0].value.value] + x) + y;
      }
    } else {
      assert a + b == b;
      assert Collect(a).value + Collect(b).value == Collect(b).value;
    }
  }

  /** `extract_segments_from_text(text)`: the segments of the blocks with a
      timestamp, in document order; every failure is a ValueError from
      `parse_timestamp`. */
  function ExtractSegments(text: string): (r: Result<seq<VideoSegment>>)
    ensures r.Err? ==> r.error == ValueError
    ensures r.Ok? ==> |r.value| <= |Blocks(text)|
    ensures r.Ok? <==> forall k :: 0 <= k < |Blocks(text)| ==> SegmentOf(Blocks(text)[k]).Ok?
  {
    var outs := Outcomes(Blocks(text));
    var r := Collect(outs);
    assert r.Err? ==> r.error == ValueError by {
      if r.Err? {
        var k :| 0 <= k < |outs| && outs[k] == Err(r.error) && forall j :: 0 <= j < k ==> outs[j].Ok?;
        assert SegmentOf(Blocks(text)[k]) == Err(r.error);
      }
    }
    r
  }

  // ---------------------------------------------------------------------
  // create_highlight_reel

  /** `f"segment_{i + 1:03d}.mp4"` */
  function SegmentFileName(i: nat): (r: string)
  {
    "segment_" + FormatPadded(i + 1, 3) + ".mp4"
  }

  /** Reads a segment file name back to its list position. */
  function SegmentIndex(name: string): (r: Option<nat>)
  {
    if |name| >= 12 && name[..8] == "segment_" && name[|name| - 4..] == ".mp4" then
      match ParseInt(name[8..|name| - 4])
      case Ok(n) => if n >= 1 then Some(n - 1) else None
      case Err(_) => None
    else None
  }

  lemma SegmentFileNameRoundTrip(i: nat)
    ensures SegmentIndex(SegmentFileName(i)) == Some(i)
  {
    var d := FormatPadded(i + 1, 3);
    SegmentNameParts(d);
    ParseFormatPadded(i + 1, 3);
    SegmentIndexOfParts("segment_" + d + ".mp4", d, i + 1);
  }

  /** Where the pieces of `segment_<d>.mp4` sit. */
  lemma SegmentNameParts(d: string)
    requires |d| >= 3
    ensures var name := "segment_" + d + ".mp4";
      |name| >= 12 && name[..8] == "segment_" && name[|name| - 4..] == ".mp4" && name[8..|name| - 4] == d
  {
  }

  lemma SegmentIndexOfParts(name: string, d: string, v: int)
    requires |name| >= 12 && name[..8] == "segment_" && name[|name| - 4..] == ".mp4" && name[8..|name| - 4] == d
    requires ParseInt(d) == Ok(v) && v >= 1
    ensures SegmentIndex(name) == Some(v - 1)
  {
  }

  /** Different positions write different temporary files. */
  lemma SegmentFileNamesDistinct(i: nat, j: nat)
    requires SegmentFileName(i) == SegmentFileName(j)
    ensures i == j
  {
    SegmentFileNameRoundTrip(i);
    SegmentFileNameRoundTrip(j);
  }

  /** The checks of one segment: a negative start (ValueError from
      `validate_timestamps`), a non-positive duration (ValueError). */
  predicate ValidSegment(s: VideoSegment) {
    s.startTime >= 0 && s.duration > 0
  }

  /** One pass of the extraction loop for the segment at position `k`: the
      checks, then the ffmpeg cut (`extractOk(k)` says whether that run
      succeeds). */
  function SegmentStep(tempDir: string, s: VideoSegment, k: nat, extractOk: nat -> bool): (r: Result<string>)
    ensures r.Ok? <==> ValidSegment(s) && extractOk(k)
    ensures r.Ok? ==> r.value == PathJoin(tempDir, SegmentFileName(k))
    ensures r.Err? && !ValidSegment(s) ==> r.error == ValueError
    ensures r.Err? && ValidSegment(s) ==> r.error == RuntimeError
  {
    var v := ValidateTimestamps(Sequence([Number(s.startTime as real)]));
    assert v.Pass? <==> s.startTime >= 0 by {
      assert Values([Number(s.startTime as real)]) == [s.startTime as real];
    }
    if v.Fail? then Err(ValueError)
    else if s.duration <= 0 then Err(ValueError)
    else if !extractOk(k) then Err(RuntimeError)
    else Ok(PathJoin(tempDir, SegmentFileName(k)))
  }

  /** The extraction loop: each segment in turn, the first failure aborts. */
  function SegmentFiles(tempDir: string, segs: seq<VideoSegment>, extractOk: nat -> bool): (r: Result<seq<string>>)
    ensures r.Ok? <==> forall j :: 0 <= j < |segs| ==> ValidSegment(segs[j]) && extractOk(j)
    ensures r.Ok? ==> |r.value| == |segs| && forall j :: 0 <= j < |r.value| ==> r.value[j] == PathJoin(tempDir, SegmentFileName(j))
    ensures r.Err? ==> r.error == ValueError || r.error == RuntimeError
    ensures r.Err? && (forall j :: 0 <= j < |segs| ==> ValidSegment(segs[j])) ==> r.error == RuntimeError
    ensures r.Err? && (forall j :: 0 <= j < |segs| ==> extractOk(j)) ==> r.error == ValueError
  {
    var rs := seq(|segs|, k requires 0 <= k < |segs| => SegmentStep(tempDir, segs[k], k, extractOk));
    assert forall k :: 0 <= k < |segs| ==> rs[k] == SegmentStep(tempDir, segs[k], k, extractOk);
    var st := UntilError(rs);
    if st.error.None? then Ok(st.values)
    else
      var m := |st.values|;
      assert rs[m] == Err(st.error.value);
      Err(st.error.value)
  }

  /** `create_highlight_reel(video_path, segments, output_path)`: missing
      video, then the temporary directory (`tempDirMade` says whether
      `TemporaryDirectory()` is entered), the per-segment loop, the write
      of `segments.txt` (`listWritten`), the output's parent directory (`outDirMade`: whether `os.makedirs`
      returns) and the concatenation run (`concatOk`); success returns the
      output path. */
  function CreateHighlightReel(videoExists: bool, segs: seq<VideoSegment>, outputPath: string, tempDir: string,
                               tempDirMade: Outcome, extractOk: nat -> bool, listWritten: Outcome, outDirMade: Outcome,
                               concatOk: bool): (r: Result<string>)
    ensures !videoExists ==> r == Err(FileNotFoundError)
    ensures videoExists && tempDirMade.Fail? ==> r == Err(tempDirMade.error)
    ensures (videoExists && tempDirMade.Pass? && (forall j :: 0 <= j < |segs| ==> ValidSegment(segs[j]) && extractOk(j))
             && listWritten.Pass? && outDirMade.Fail?) ==> r == Err(outDirMade.error)
    ensures r.Ok? <==>
      && videoExists && tempDirMade.Pass? && listWritten.Pass? && outDirMade.Pass? && concatOk
      && forall j :: 0 <= j < |segs| ==> ValidSegment(segs[j]) && extractOk(j)
    ensures r.Ok? ==> r.value == outputPath
    ensures r.Err? ==> r.error in {FileNotFoundError, ValueError, RuntimeError} || Fail(r.error) in {tempDirMade, listWritten, outDirMade}
  {
    if !videoExists then Err(FileNotFoundError)
    else if tempDirMade.Fail? then Err(tempDirMade.error)
    else match SegmentFiles(tempDir, segs, extractOk)
      case Err(e) => Err(e)
      case Ok(_) =>
        if listWritten.Fail? then Err(listWritten.error)
        else if outDirMade.Fail? then Err(outDirMade.error)
        else if concatOk then Ok(outputPath) else Err(RuntimeError)
  }

  /** The files handed to the concat demuxer: one per segment, in order. */
  lemma ConcatListInOrder(tempDir: string, segs: seq<VideoSegment>, extractOk: nat -> bool, i: nat, j: nat)
    requires SegmentFiles(tempDir, segs, extractOk).Ok?
    requires i < j < |segs|
    ensures var files := SegmentFiles(tempDir, segs, extractOk).value;
      files[i] != files[j] && SegmentIndex(Basename(files[i])) == Some(i)
  {
    var files := SegmentFiles(tempDir, segs, extractOk).value;
    SegmentNameSlashFree(i);
    SegmentNameSlashFree(j);
    BasenameOfJoin(tempDir, SegmentFileName(i));
    BasenameOfJoin(tempDir, SegmentFileName(j));
    SegmentFileNameRoundTrip(i);
    SegmentFileNameRoundTrip(j);
  }

  lemma SegmentNameSlashFree(i: nat)
    ensures forall k :: 0 <= k < |SegmentFileName(i)| ==> SegmentFileName(i)[k] != '/'
  {
    var d := FormatPadded(i + 1, 3);
    assert IsDigitStr(d) by { assert i + 1 >= 0; }
  }
}

=== FILE: gui.dfy ===
/** The pure part of the desktop front end of the titled highlight reel: the
    segment dialog's `HH:MM:SS` / `MM:SS` texts and how it reads them back,
    and the JSON export and import of the segment list. Widgets, message
    boxes, file dialogs and the worker thread are not modelled. */
module HighlightReelGui {
  import opened Wrappers
  import opened PyStr
  import opened PyInt
  import opened TimeParse
  import opened SegmentJson
  import Titled = TitledHighlightReel

  // ---------------------------------------------------------------------
  // Formatting. The divisors are positive, so Dafny's `/` and `%` agree
  // with Python's floor `//` and `%` for every integer.

  /** `f"{h:02d}:{m:02d}:{s:02d}"` with `h = t // 3600`,
      `m = (t % 3600) // 60`, `s = t % 60`. */
  function FormatStart(t: int): (r: string)
    ensures Split(r, ":") == [FormatPadded(t / 3600, 2), FormatPadded((t % 3600) / 60, 2), FormatPadded(t % 60, 2)]
    ensures Strip(r) == r
  {
    Clock3Shape(t / 3600, (t % 3600) / 60, t % 60, 2, 2);
    Clock3(t / 3600, (t % 3600) / 60, t % 60, 2, 2)
  }

  /** `f"{m:02d}:{s:02d}"` with `m = d // 60`, `s = d % 60`: the minutes are
      not reduced modulo 60, so an hour-long duration shows 60 or more. */
  function FormatDuration(d: int): (r: string)
    ensures Split(r, ":") == [FormatPadded(d / 60, 2), FormatPadded(d % 60, 2)]
    ensures Strip(r) == r
  {
    Clock2Shape(d / 60, d % 60, 2);
    Clock2(d / 60, d % 60, 2)
  }

  /** The three clock fields put back together give the time. */
  lemma ClockFieldsRecombine(t: int, h: int, m: int, s: int)
    requires h == t / 3600 && m == (t % 3600) / 60 && s == t % 60
    ensures ClockSeconds(h, m, s) == t
  {
    ClockArith(t);
  }

  // ---------------------------------------------------------------------
  // Reading a clock text.

  /** `parts = text.split(':')`, then `map(int, parts)` for three or two
      pieces (an `int` failure is a ValueError); any other piece count is
      a ValueError. There is no plain-seconds form. */
  function ReadClock(text: string): (r: Result<int>)
    ensures r.Err? ==> r.error == ValueError
    ensures |Split(text, ":")| != 2 && |Split(text, ":")| != 3 ==> r == Err(ValueError)
  {
    var parts := Split(text, ":");
    if |parts| == 3 || |parts| == 2 then ClockValue(parts) else Err(ValueError)
  }

  /** A text without ':' is one piece and so never a time here. */
  lemma ColonFreeRejected(text: string)
    requires ':' !in text
    ensures ReadClock(text) == Err(ValueError)
  {
    ColonFreeSplit(text);
  }

  lemma ReadStart(t: int)
    ensures ReadClock(FormatStart(t)) == Ok(t)
  {
    var h, m, s := t / 3600, (t % 3600) / 60, t % 60;
    var parts := Split(FormatStart(t), ":");
    assert parts == [FormatPadded(h, 2), FormatPadded(m, 2), FormatPadded(s, 2)];
    ParsePieces(h, m, s, 2, 2);
    assert ClockValue(parts) == Ok(ClockSeconds(h, m, s));
    ClockFieldsRecombine(t, h, m, s);
  }

  lemma ReadDuration(d: int)
    ensures ReadClock(FormatDuration(d)) == Ok(d)
  {
    var m, s := d / 60, d % 60;
    var t, parts := Clock2Facts(m, s, 2);
    MinutesRecombine(d, m, s);
    ReadClockParts(t, parts, d);
    assert t == FormatDuration(d);
  }

  /** A text whose pieces give a clock value reads as that value. */
  lemma ReadClockParts(text: string, parts: seq<string>, v: int)
    requires parts == Split(text, ":") && (|parts| == 2 || |parts| == 3) && ClockValue(parts) == Ok(v)
    ensures ReadClock(text) == Ok(v)
  {
  }

  /** The two duration fields put back together give the duration. */
  lemma MinutesRecombine(d: int, m: int, s: int)
    requires m == d / 60 && s == d % 60
    ensures m * 60 + s == d
  {
  }

  // ---------------------------------------------------------------------
  // The segment dialog.

  /** `SegmentDialog.get_segment`: the stripped title must be non-empty,
      then the stripped start and duration texts are read; any failure shows
      a warning and gives `None`. */
  function GetSegment(title: string, startText: string, durationText: string): (r: Option<Titled.HighlightSegment>)
    ensures r.Some? <==> Strip(title) != [] && ReadClock(Strip(startText)).Ok? && ReadClock(Strip(durationText)).Ok?
    ensures r.Some? ==> r.value.title == Strip(title)
    ensures r.Some? ==> r.value.startTime == ReadClock(Strip(startText)).value
    ensures r.Some? ==> r.value.duration == ReadClock(Strip(durationText)).value
  {
    var t := Strip(title);
    if t == [] then None
    else
      match (ReadClock(Strip(startText)), ReadClock(Strip(durationText)))
      case (Ok(start), Ok(duration)) => Some(Titled.HighlightSegment(t, start, duration))
      case _ => None
  }

  /** The dialog opened on an existing segment and saved unchanged gives the
      segment back, whatever its times (the title loses surrounding
      whitespace only). */
  lemma DialogRoundTrip(seg: Titled.HighlightSegment)
    requires Strip(seg.title) != []
    ensures GetSegment(seg.title, FormatStart(seg.startTime), FormatDuration(seg.duration))
         == Some(Titled.HighlightSegment(Strip(seg.title), seg.startTime, seg.duration))
  {
    ReadStart(seg.startTime);
    ReadDuration(seg.duration);
  }

  /** An empty or blank title is refused. */
  lemma BlankTitleRefused(title: string, startText: string, durationText: string)
    requires forall k :: 0 <= k < |title| ==> IsSpace(title[k])
    ensures GetSegment(title, startText, durationText) == None
  {
    LStripFacts(title);
  }

  // ---------------------------------------------------------------------
  // Export.

  /** `{'title': …, 'start_time': "HH:MM:SS", 'duration': "MM:SS"}` */
  function ExportObject(seg: Titled.HighlightSegment): Json
  {
    JObject(ExportFields(seg))
  }

  function ExportFields(seg: Titled.HighlightSegment): map<string, Json>
  {
    map["title" := JString(seg.title), "start_time" := JString(FormatStart(seg.startTime)),
        "duration" := JString(FormatDuration(seg.duration))]
  }

  /** The exported list, one object per segment, in order. */
  function ExportList(segs: seq<Titled.HighlightSegment>): seq<Json>
  {
    seq(|segs|, k requires 0 <= k < |segs| => ExportObject(segs[k]))
  }

  /** `j` is the object written for `seg`: exactly the three keys, the
      title as it is, the start as `HH:MM:SS` and the duration as `MM:SS`. */
  predicate ExportedAs(j: Json, seg: Titled.HighlightSegment) {
    && j.JObject? && j.fields.Keys == {"title", "start_time", "duration"}
    && j.fields["title"] == JString(seg.title)
    && j.fields["start_time"] == JString(FormatStart(seg.startTime))
    && j.fields["duration"] == JString(FormatDuration(seg.duration))
  }

  lemma ExportObjectAs(seg: Titled.HighlightSegment)
    ensures ExportedAs(ExportObject(seg), seg)
  {
    var m := ExportFields(seg);
    assert m.Keys == {"title", "start_time", "duration"};
  }

  /** `_export_segments`: nothing is written for an empty list. */
  function Export(segs: seq<Titled.HighlightSegment>): (r: Option<Json>)
    ensures r.None? <==> |segs| == 0
    ensures r.Some? ==> r.value.JArray? && |r.value.items| == |segs|
    ensures r.Some? ==> forall k :: 0 <= k < |segs| ==> ExportedAs(r.value.items[k], segs[k])
  {
    assert forall k :: 0 <= k < |segs| ==> ExportedAs(ExportList(segs)[k], segs[k]) by {
      forall k | 0 <= k < |segs| ensures ExportedAs(ExportList(segs)[k], segs[k]) {
        ExportObjectAs(segs[k]);
      }
    }
    if |segs| == 0 then None else Some(JArray(ExportList(segs)))
  }

  // ---------------------------------------------------------------------
  // Import.

  /** A start time or duration as imported: a string of three or two
      ':'-pieces is read as a clock text, any other string is left as it
      is, and a non-string is kept. */
  function ImportTime(v: Json): (r: Result<Json>)
    ensures r.Err? ==> r.error == ValueError && v.JString?
    ensures !v.JString? ==> r == Ok(v)
    ensures v.JString? && |Split(v.s, ":")| != 2 && |Split(v.s, ":")| != 3 ==> r == Ok(v)
    ensures v.JString? && (|Split(v.s, ":")| == 2 || |Split(v.s, ":")| == 3) ==>
              (r.Ok? <==> ReadClock(v.s).Ok?) && (r.Ok? ==> r.value == JInt(ReadClock(v.s).value))
  {
    match v
    case JString(text) =>
      var parts := Split(text, ":");
      if |parts| == 3 || |parts| == 2 then
        var n :- ClockValue(parts);
        Ok(JInt(n))
      else Ok(v)
    case _ => Ok(v)
  }

  /** A string with no ':' is imported unparsed, still a string. */
  lemma ColonFreeKept(text: string)
    requires ':' !in text
    ensures ImportTime(JString(text)) == Ok(JString(text))
  {
    ColonFreeSplit(text);
  }

  function ImportEntry(d: map<string, Json>): (r: Result<Entry>)
    ensures r.Err? ==> r.error == ValueError
    ensures r.Ok? <==> ImportTime(StartOf(d)).Ok? && ImportTime(DurationOf(d)).Ok?
    ensures r.Ok? ==> r.value == Entry(TitleOf(d), ImportTime(StartOf(d)).value, ImportTime(DurationOf(d)).value)
  {
    var start :- ImportTime(StartOf(d));
    var duration :- ImportTime(DurationOf(d));
    Ok(Entry(TitleOf(d), start, duration))
  }

  /** The segment list after an import, and the error shown, if any. */
  datatype Imported = Imported(segments: seq<Entry>, error: Option<PyError>)

  /** The import loop over the dictionaries: entries are appended in
      order, and the first failing one stops the loop with the entries
      before it kept. */
  function ImportLoop(ds: seq<map<string, Json>>): (r: Imported)
    ensures r.error.Some? ==> r.error == Some(ValueError)
    ensures r.error.None? <==> forall k :: 0 <= k < |ds| ==> ImportEntry(ds[k]).Ok?
    ensures r.error.None? ==> |r.segments| == |ds|
    ensures r.error.Some? ==> |r.segments| < |ds| && ImportEntry(ds[|r.segments|]).Err?
    ensures forall k :: 0 <= k < |r.segments| ==> k < |ds| && ImportEntry(ds[k]) == Ok(r.segments[k])
  {
    var rs := seq(|ds|, k requires 0 <= k < |ds| => ImportEntry(ds[k]));
    assert forall k :: 0 <= k < |ds| ==> rs[k] == ImportEntry(ds[k]);
    var s := UntilError(rs);
    Imported(s.values, s.error)
  }

  /** One time cell of the segment table: `//`, `%` and the `:02d`
      format accept an integer or a boolean; a float passes the arithmetic
      and fails the `d` format with `ValueError`, and any other value fails
      the arithmetic with `TypeError`. */
  function TableTime(v: Json): (r: Outcome)
    ensures r.Pass? <==> Formattable(v)
    ensures r.Fail? ==> r.error == (if v.JFloat? then ValueError else TypeError)
  {
    match v
    case JInt(_) => Pass
    case JBool(_) => Pass
    case JFloat(_) => Fail(ValueError)
    case _ => Fail(TypeError)
  }

  /** A time the table can show: an integer or a boolean. */
  predicate Formattable(v: Json)
  {
    v.JInt? || v.JBool?
  }

  /** One row of the table: the start time is formatted before the
      duration. */
  function TableRow(e: Entry): Outcome
  {
    match TableTime(e.startTime)
    case Fail(err) => Fail(err)
    case Pass => TableTime(e.duration)
  }

  /** `_update_segments_table`: the rows in list order; the first cell that
      cannot be formatted raises. It succeeds exactly when every start and
      duration is an integer or a boolean, and a failure is the error of
      the first failing row. */
  function RefreshTable(es: seq<Entry>): (r: Outcome)
    ensures r.Pass? <==> forall k :: 0 <= k < |es| ==> Formattable(es[k].startTime) && Formattable(es[k].duration)
    ensures r.Fail? ==> exists k :: 0 <= k < |es| && TableRow(es[k]) == r
                                     && forall j :: 0 <= j < k ==> TableRow(es[j]).Pass?
    decreases |es|
  {
    if |es| == 0 then Pass
    else
      match TableRow(es[0])
      case Fail(err) => Fail(err)
      case Pass =>
        var r := RefreshTable(es[1..]);
        assert forall k :: 1 <= k < |es| ==> es[k] == es[1..][k - 1];
        assert r.Fail? ==> exists k :: 0 <= k < |es| && TableRow(es[k]) == r
                                       && forall j :: 0 <= j < k ==> TableRow(es[j]).Pass? by {
          if r.Fail? {
            var k :| 0 <= k < |es[1..]| && TableRow(es[1..][k]) == r && forall j :: 0 <= j < k ==> TableRow(es[1..][j]).Pass?;
            assert TableRow(es[k + 1]) == r;
            assert forall j :: 0 <= j < k + 1 ==> TableRow(es[j]).Pass? by {
              forall j | 0 <= j < k + 1 ensures TableRow(es[j]).Pass? {
                if j > 0 { assert es[j] == es[1..][j - 1]; }
              }
            }
          }
        }
        r
  }

  /** `_import_segments` on the result of reading the chosen file: a read or
      decode failure leaves the current list alone; once decoded, the list is
      cleared before the entries are imported, so a later failure leaves a
      partial list behind. When every entry imports, the table is refreshed
      inside the same `try`, and a time it cannot format (a string left
      unparsed, a float, null, an array or an object) is the error shown,
      with the imported list kept. */
  function Import(current: seq<Entry>, loaded: Result<Json>): (r: Imported)
    ensures loaded.Err? ==> r == Imported(current, Some(loaded.error))
    ensures loaded.Ok? && Dicts(loaded.value).Err? ==> r == Imported([], Some(TypeError))
    ensures loaded.Ok? && Dicts(loaded.value).Ok? ==> r.segments == ImportLoop(Dicts(loaded.value).value).segments
    ensures loaded.Ok? && Dicts(loaded.value).Ok? && ImportLoop(Dicts(loaded.value).value).error.Some? ==>
      r == ImportLoop(Dicts(loaded.value).value)
    ensures loaded.Ok? && Dicts(loaded.value).Ok? && ImportLoop(Dicts(loaded.value).value).error.None? ==>
      var es := ImportLoop(Dicts(loaded.value).value).segments;
      (r.error.None? <==> forall k :: 0 <= k < |es| ==> Formattable(es[k].startTime) && Formattable(es[k].duration))
      && (r.error.Some? ==> r.error.value in {ValueError, TypeError}
                            && exists k :: 0 <= k < |es| && TableRow(es[k]) == Fail(r.error.value))
  {
    match loaded
    case Err(e) => Imported(current, Some(e))
    case Ok(data) =>
      match Dicts(data)
      case Err(e) => Imported([], Some(e))
      case Ok(ds) =>
        var imported := ImportLoop(ds);
        if imported.error.Some? then imported
        else
          match RefreshTable(imported.segments)
          case Fail(e) => Imported(imported.segments, Some(e))
          case Pass => imported
  }

  /** A colon-free start text is imported as a string, and the table
      refresh then shows a `TypeError`, keeping the imported segment. */
  lemma UnparsedStartShown(current: seq<Entry>, title: string, start: string)
    requires ':' !in start
    ensures Import(current, Ok(JArray([JObject(map["title" := JString(title), "start_time" := JString(start)])])))
         == Imported([Entry(JString(title), JString(start), JInt(DefaultDuration))], Some(TypeError))
  {
    var d := map["title" := JString(title), "start_time" := JString(start)];
    ColonFreeKept(start);
    var items := [JObject(d)];
    assert items[..|items| - 1] == [];
    assert ObjectsIn(items) == [d];
    assert ImportEntry(d) == Ok(Entry(JString(title), JString(start), JInt(DefaultDuration)));
    ImportAll([d], [Entry(JString(title), JString(start), JInt(DefaultDuration))]);
  }

  /** The entry a dialog-made segment turns into on import. */
  function AsEntry(seg: Titled.HighlightSegment): Entry
  {
    Entry(JString(seg.title), JInt(seg.startTime), JInt(seg.duration))
  }

  lemma ImportClockText(text: string, n: int)
    requires ReadClock(text) == Ok(n)
    ensures ImportTime(JString(text)) == Ok(JInt(n))
  {
  }

  lemma ExportedObjectImports(seg: Titled.HighlightSegment)
    ensures ImportEntry(ExportFields(seg)) == Ok(AsEntry(seg))
  {
    var d := ExportFields(seg);
    assert StartOf(d) == JString(FormatStart(seg.startTime));
    assert DurationOf(d) == JString(FormatDuration(seg.duration));
    assert TitleOf(d) == JString(seg.title);
    ReadStart(seg.startTime);
    ReadDuration(seg.duration);
    ImportClockText(FormatStart(seg.startTime), seg.startTime);
    ImportClockText(FormatDuration(seg.duration), seg.duration);
  }

  /** Dictionaries that each import give their entries and no error. */
  lemma ImportAll(ms: seq<map<string, Json>>, es: seq<Entry>)
    requires |ms| == |es| && forall k :: 0 <= k < |ms| ==> ImportEntry(ms[k]) == Ok(es[k])
    ensures ImportLoop(ms) == Imported(es, None)
  {
    var r := ImportLoop(ms);
    assert forall k :: 0 <= k < |ms| ==> ImportEntry(ms[k]).Ok?;
    assert r.error.None?;
    assert forall k :: 0 <= k < |es| ==> r.segments[k] == es[k];
    assert r.segments == es;
  }

  function ExportedFields(segs: seq<Titled.HighlightSegment>): seq<map<string, Json>>
  {
    seq(|segs|, k requires 0 <= k < |segs| => ExportFields(segs[k]))
  }

  function AsEntries(segs: seq<Titled.HighlightSegment>): seq<Entry>
  {
    seq(|segs|, k requires 0 <= k < |segs| => AsEntry(segs[k]))
  }

  /** The exported file holds the segments' dictionaries, in order. */
  lemma ExportedDicts(segs: seq<Titled.HighlightSegment>)
    requires |segs| > 0
    ensures Dicts(Export(segs).value) == Ok(ExportedFields(segs))
  {
    ObjectsOfObjects(ExportedFields(segs), ExportList(segs));
  }

  /** Those dictionaries import without error as the segments' entries. */
  lemma ExportedEntries(segs: seq<Titled.HighlightSegment>)
    ensures ImportLoop(ExportedFields(segs)) == Imported(AsEntries(segs), None)
  {
    var ms, es := ExportedFields(segs), AsEntries(segs);
    forall k | 0 <= k < |segs| ensures ImportEntry(ms[k]) == Ok(es[k]) {
      ExportedObjectImports(segs[k]);
    }
    ImportAll(ms, es);
  }

  /** Exporting a non-empty list and importing the file gives back every
      segment, in order, with its start and duration as integers again. */
  lemma ExportImportRoundTrip(current: seq<Entry>, segs: seq<Titled.HighlightSegment>)
    requires |segs| > 0
    ensures var r := Import(current, Ok(Export(segs).value));
            && r.error == None && |r.segments| == |segs|
            && forall k :: 0 <= k < |segs| ==> r.segments[k] == AsEntry(segs[k])
  {
    ExportedDicts(segs);
    ExportedEntries(segs);
    AsEntriesFormattable(segs);
    ImportedClean(current, Export(segs).value, AsEntries(segs));
  }

  /** Entries made from dialog segments hold integer times. */
  lemma AsEntriesFormattable(segs: seq<Titled.HighlightSegment>)
    ensures RefreshTable(AsEntries(segs)).Pass?
  {
    var es := AsEntries(segs);
    assert forall k :: 0 <= k < |es| ==> Formattable(es[k].startTime) && Formattable(es[k].duration);
  }

  /** A decoded list whose entries all import and all show in the table
      replaces the current list with no error. */
  lemma ImportedClean(current: seq<Entry>, data: Json, es: seq<Entry>)
    requires Dicts(data).Ok? && ImportLoop(Dicts(data).value) == Imported(es, None) && RefreshTable(es).Pass?
    ensures Import(current, Ok(data)) == Imported(es, None)
  {
  }
}

=== FILE: html.dfy ===
/** The HTML generator: every marker's text in the blog is replaced by a
    `<figure>` holding its video or image, and the result is cut into
    paragraphs at blank lines, each wrapped in `<p>`. */
module HtmlGenerator {
  import opened Wrappers
  import opened PyStr
  import opened PyInt
  import opened Paths
  import opened DocxReader

  // ---------------------------------------------------------------------
  // Figure elements.

  /** The figure's class: empty for centred media, `align-<align>`
      otherwise. */
  function AlignClass(align: string): string
  {
    if align == "center" then "" else "align-" + align
  }

  /** Reads the alignment back from a figure class. */
  function AlignOfClass(cls: string): string
  {
    if cls == "" then "center"
    else if |cls| >= 6 && cls[..6] == "align-" then cls[6..]
    else cls
  }

  /** The class is empty exactly for centred media, and every alignment,
      centred or not, is recovered from its class. */
  lemma AlignClassRoundTrip(align: string)
    ensures AlignClass(align) == "" <==> align == "center"
    ensures AlignOfClass(AlignClass(align)) == align
  {
    if align != "center" {
      assert ("align-" + align)[..6] == "align-";
      assert ("align-" + align)[6..] == align;
    }
  }

  /** The concatenation of a list of pieces. */
  function Concat(pieces: seq<string>): string
  {
    if |pieces| == 0 then "" else pieces[0] + Concat(pieces[1..])
  }

  lemma ContainsMiddle(x: string, y: string, z: string)
    ensures Contains(x + y + z, y)
  {
    assert (x + y + z)[|x|..|x| + |y|] == y;
    assert IsAt(x + y + z, y, |x|);
  }

  lemma ContainsAfter(x: string, y: string, t: string)
    requires Contains(y, t)
    ensures Contains(x + y, t)
  {
    var j :| 0 <= j <= |y| && IsAt(y, t, j);
    assert (x + y)[|x| + j..|x| + j + |t|] == y[j..j + |t|];
    assert IsAt(x + y, t, |x| + j);
  }

  /** Every piece occurs in the concatenation. */
  lemma {:induction false} ConcatContains(pieces: seq<string>, k: nat)
    requires k < |pieces|
    ensures Contains(Concat(pieces), pieces[k])
  {
    if k == 0 {
      ContainsMiddle("", pieces[0], Concat(pieces[1..]));
      assert "" + pieces[0] + Concat(pieces[1..]) == Concat(pieces);
    } else {
      ConcatContains(pieces[1..], k - 1);
      ContainsAfter(pieces[0], Concat(pieces[1..]), pieces[k]);
    }
  }

  function Attr(name: string, value: string): string
  {
    name + "=\"" + value + "\""
  }

  function FigCaption(caption: string): string
  {
    "<figcaption>" + caption + "</figcaption>"
  }

  /** The pieces of a clip's `<video>` figure. */
  function VideoPieces(align: string, path: string, caption: string): seq<string>
  {
    [ "\n        <figure ", Attr("class", AlignClass(align)), ">\n",
      "            <video width=\"100%\" controls>\n",
      "                <source ", Attr("src", path), " type=\"video/mp4\">\n",
      "                Your browser does not support the video tag.\n",
      "            </video>\n",
      "            ", FigCaption(caption), "\n",
      "        </figure>\n        " ]
  }

  /** The pieces of a screenshot's `<img>` figure: the caption is also the
      alt text. */
  function ImagePieces(align: string, path: string, caption: string): seq<string>
  {
    [ "\n        <figure ", Attr("class", AlignClass(align)), ">\n",
      "            <img ", Attr("src", path), " ", Attr("alt", caption), ">\n",
      "            ", FigCaption(caption), "\n",
      "        </figure>\n        " ]
  }

  function VideoElement(align: string, path: string, caption: string): string
  {
    Concat(VideoPieces(align, path, caption))
  }

  function ImageElement(align: string, path: string, caption: string): string
  {
    Concat(ImagePieces(align, path, caption))
  }

  /** A clip's figure carries its class, its source path and its caption
      verbatim. */
  lemma VideoElementShows(align: string, path: string, caption: string)
    ensures var e := VideoElement(align, path, caption);
      && Contains(e, Attr("class", AlignClass(align)))
      && Contains(e, Attr("src", path))
      && Contains(e, FigCaption(caption))
  {
    var ps := VideoPieces(align, path, caption);
    ConcatContains(ps, 1);
    ConcatContains(ps, 5);
    ConcatContains(ps, 10);
  }

  /** A screenshot's figure carries its class, its source path, and its
      caption verbatim both as alt text and as figure caption. */
  lemma ImageElementShows(align: string, path: string, caption: string)
    ensures var e := ImageElement(align, path, caption);
      && Contains(e, Attr("class", AlignClass(align)))
      && Contains(e, Attr("src", path))
      && Contains(e, Attr("alt", caption))
      && Contains(e, FigCaption(caption))
  {
    var ps := ImagePieces(align, path, caption);
    ConcatContains(ps, 1);
    ConcatContains(ps, 4);
    ConcatContains(ps, 6);
    ConcatContains(ps, 9);
  }

  // ---------------------------------------------------------------------
  // Media file names.

  function MediaPrefix(kind: MarkerKind): string
  {
    match kind
    case Clip => "clip_"
    case Screenshot => "screenshot_"
  }

  function MediaSuffix(kind: MarkerKind): string
  {
    match kind
    case Clip => ".mp4"
    case Screenshot => ".jpg"
  }

  /** The file name of the marker at 0-based position `i` of the whole
      marker list: `clip_NNN.mp4` or `screenshot_NNN.jpg` with the 1-based
      position zero-padded to three digits. */
  function MediaFilename(kind: MarkerKind, i: nat): (r: string)
    ensures MediaIndexOf(r) == Some((kind, i))
  {
    MediaFilenameParts(kind, i);
    ParseFormatPadded(i + 1, 3);
    var name := MediaPrefix(kind) + FormatPadded(i + 1, 3) + MediaSuffix(kind);
    MediaIndexOfParts(name, kind, i + 1);
    name
  }

  /** Reads a media file name back as its kind and 0-based position. */
  function MediaIndexOf(name: string): (r: Option<(MarkerKind, nat)>)
  {
    var kind := if |name| > 0 && name[0] == 'c' then Clip else Screenshot;
    var p, x := |MediaPrefix(kind)|, MediaSuffix(kind);
    if |name| < p + |x| || name[..p] != MediaPrefix(kind) || name[|name| - |x|..] != x then None
    else
      match ParseInt(name[p..|name| - |x|])
      case Ok(v) => if v >= 1 then Some((kind, v - 1)) else None
      case Err(_) => None
  }

  /** Where the number sits in a media file name. */
  lemma MediaFilenameParts(kind: MarkerKind, i: nat)
    ensures var name, p, x := MediaPrefix(kind) + FormatPadded(i + 1, 3) + MediaSuffix(kind), |MediaPrefix(kind)|, MediaSuffix(kind);
      && |name| >= p + |x| && name[..p] == MediaPrefix(kind) && name[|name| - |x|..] == x
      && name[p..|name| - |x|] == FormatPadded(i + 1, 3)
      && name[0] == (if kind == Clip then 'c' else 's')
  {
    var pre, d, x := MediaPrefix(kind), FormatPadded(i + 1, 3), MediaSuffix(kind);
    var name := pre + d + x;
    assert name[..|pre|] == pre;
    assert name[|name| - |x|..] == x;
    assert name[|pre|..|name| - |x|] == d;
  }

  /** Reading a name laid out as `MediaFilenameParts` describes. */
  lemma MediaIndexOfParts(name: string, kind: MarkerKind, v: int)
    requires var p, x := |MediaPrefix(kind)|, MediaSuffix(kind);
      && |name| >= p + |x| && name[..p] == MediaPrefix(kind) && name[|name| - |x|..] == x
      && name[0] == (if kind == Clip then 'c' else 's')
      && ParseInt(name[p..|name| - |x|]) == Ok(v) && v >= 1
    ensures MediaIndexOf(name) == Some((kind, v - 1))
  {
    assert (if |name| > 0 && name[0] == 'c' then Clip else Screenshot) == kind;
  }

  /** Numbering is shared across kinds: markers at different positions of
      the list never get the same file name, whatever their kinds. */
  lemma MediaFilenamesDistinct(k1: MarkerKind, i: nat, k2: MarkerKind, j: nat)
    requires i != j || k1 != k2
    ensures MediaFilename(k1, i) != MediaFilename(k2, j)
  {
  }

  /** The element that replaces the marker at position `i`: it points at
      that position's media file in the media folder and shows the marker's
      caption and alignment. */
  function Element(folder: string, m: MediaMarker, i: nat): (r: string)
    ensures Contains(r, Attr("src", PathJoin(folder, MediaFilename(m.kind, i))))
    ensures Contains(r, FigCaption(m.caption))
    ensures Contains(r, Attr("class", AlignClass(m.align)))
  {
    var path := PathJoin(folder, MediaFilename(m.kind, i));
    VideoElementShows(m.align, path, m.caption);
    ImageElementShows(m.align, path, m.caption);
    match m.kind
    case Clip => VideoElement(m.align, path, m.caption)
    case Screenshot => ImageElement(m.align, path, m.caption)
  }

  // ---------------------------------------------------------------------
  // Replacing the markers.

  /** The replacement loop from position `i` on: each marker's text is
      replaced, everywhere it occurs in the text as it stands, by its
      element. */
  function ReplaceMarkers(content: string, markers: seq<MediaMarker>, folder: string, i: nat): string
    requires i <= |markers|
    decreases |markers| - i
  {
    if i == |markers| then content
    else
      var m := markers[i];
      ReplaceMarkers(Replace(content, m.originalText, Element(folder, m, i)), markers, folder, i + 1)
  }

  /** One replacement step keeps the text between the occurrences of the
      marker's text and puts the element where each occurrence was. */
  lemma ReplaceMarkersStep(content: string, markers: seq<MediaMarker>, folder: string, i: nat)
    requires i < |markers| && |markers[i].originalText| > 0
    ensures ReplaceMarkers(content, markers, folder, i)
      == ReplaceMarkers(Join(Split(content, markers[i].originalText), Element(folder, markers[i], i)),
                        markers, folder, i + 1)
  {
    ReplaceIsSplitJoin(content, markers[i].originalText, Element(folder, markers[i], i));
  }

  /** Splitting on a separator that occurs gives at least two pieces. */
  lemma SplitFound(s: string, sep: string)
    requires |sep| > 0 && Contains(s, sep)
    ensures |Split(s, sep)| >= 2
  {
    var i := IndexOf(s, sep).value;
    SplitUnfold(s, sep, i);
  }

  /** Joining two or more pieces puts the separator in the result. */
  lemma JoinContainsSep(parts: seq<string>, sep: string)
    requires |parts| >= 2
    ensures Contains(Join(parts, sep), sep)
  {
    JoinCons(parts[0], parts[1..], sep);
    assert [parts[0]] + parts[1..] == parts;
    ContainsMiddle(parts[0], sep, Join(parts[1..], sep));
  }

  /** A marker whose text occurs when its turn comes is replaced by its
      element, which then occurs in the text. */
  lemma ReplaceInsertsElement(content: string, m: MediaMarker, folder: string, i: nat)
    requires |m.originalText| > 0 && Contains(content, m.originalText)
    ensures Contains(Replace(content, m.originalText, Element(folder, m, i)), Element(folder, m, i))
  {
    ReplaceIsSplitJoin(content, m.originalText, Element(folder, m, i));
    SplitFound(content, m.originalText);
    JoinContainsSep(Split(content, m.originalText), Element(folder, m, i));
  }

  /** A marker whose text does not occur when its turn comes leaves the text
      unchanged. */
  lemma ReplaceMarkersAbsent(content: string, markers: seq<MediaMarker>, folder: string, i: nat)
    requires i < |markers| && |markers[i].originalText| > 0 && !Contains(content, markers[i].originalText)
    ensures ReplaceMarkers(content, markers, folder, i) == ReplaceMarkers(content, markers, folder, i + 1)
  {
    ReplaceAbsent(content, markers[i].originalText, Element(folder, markers[i], i));
  }

  // ---------------------------------------------------------------------
  // Paragraphs.

  const ParagraphBreak: string := "\n\n"

  /** `<p>` + the stripped chunk + `</p>` for every non-blank chunk, in
      order. */
  function Wrap(chunks: seq<string>): (r: seq<string>)
  {
    if |chunks| == 0 then []
    else
      var t := Strip(chunks[0]);
      (if t == "" then [] else ["<p>" + t + "</p>"]) + Wrap(chunks[1..])
  }

  /** The number of chunks that are not blank. */
  function CountNonBlank(chunks: seq<string>): nat
  {
    if |chunks| == 0 then 0
    else (if IsBlank(chunks[0]) then 0 else 1) + CountNonBlank(chunks[1..])
  }

  /** The text cut at blank lines, each non-blank chunk stripped and wrapped
      in `<p>`, joined by blank lines. */
  function Paragraphs(content: string): string
  {
    Join(Wrap(Split(content, ParagraphBreak)), ParagraphBreak)
  }

  /** `generate_html`: the markers replaced in list order, then the
      paragraphs wrapped. */
  function GenerateHtml(folder: string, blog: string, markers: seq<MediaMarker>): (r: string)
    ensures r == "" || forall p :: p in Split(r, ParagraphBreak) ==> IsParagraph(p)
  {
    var content := ReplaceMarkers(blog, markers, folder, 0);
    ParagraphsSplitBack(content);
    Paragraphs(content)
  }

  /** What a wrapped paragraph looks like: `<p>`, a stripped non-blank text
      without blank lines, `</p>`. */
  predicate IsParagraph(p: string) {
    && |p| > 7 && p[..3] == "<p>" && p[|p| - 4..] == "</p>"
    && var inner := p[3..|p| - 4];
      Strip(inner) == inner && !Contains(inner, ParagraphBreak)
  }

  /** A piece of a text without blank lines has none either. */
  lemma NoBreakInSlice(s: string, a: nat, b: nat)
    requires a <= b <= |s| && !Contains(s, ParagraphBreak)
    ensures !Contains(s[a..b], ParagraphBreak)
  {
    forall j | 0 <= j <= b - a ensures !IsAt(s[a..b], ParagraphBreak, j) {
      if j + 2 <= b - a {
        SliceInside(s, a, s[a..b], j, j + 2);
        assert !IsAt(s, ParagraphBreak, a + j);
      }
    }
  }

  /** Stripping a chunk without blank lines gives stripped text without blank
      lines. */
  lemma StrippedChunk(c: string)
    requires !Contains(c, ParagraphBreak) && Strip(c) != ""
    ensures Strip(Strip(c)) == Strip(c) && !Contains(Strip(c), ParagraphBreak)
  {
    StripFacts(c);
    var t := Strip(c);
    StripUnchanged(t);
    NoBreakInSlice(c, |c| - |LStrip(c)|, |c| - |LStrip(c)| + |t|);
  }

  lemma NotBreakAt(s: string, k: nat)
    requires k + 2 <= |s| && (s[k] != '\n' || s[k + 1] != '\n')
    ensures !IsAt(s, ParagraphBreak, k)
  {
    assert s[k..k + 2][0] == s[k] && s[k..k + 2][1] == s[k + 1];
  }

  /** A wrapped paragraph has no blank line, and a blank line written after
      it is the first one. */
  lemma WrappedClean(t: string)
    requires !Contains(t, ParagraphBreak)
    ensures var w := "<p>" + t + "</p>";
      !Contains(w, ParagraphBreak) && IndexOf(w + ParagraphBreak, ParagraphBreak) == Some(|w|)
  {
    var w := "<p>" + t + "</p>";
    var n := |w|;
    assert w[0] == '<' && w[1] == 'p' && w[2] == '>';
    assert w[n - 4] == '<' && w[n - 3] == '/' && w[n - 2] == 'p' && w[n - 1] == '>';
    forall k | 0 <= k <= n ensures !IsAt(w, ParagraphBreak, k) {
      if k + 2 <= n {
        if k < 3 {
          NotBreakAt(w, k);
        } else if k + 2 <= 3 + |t| {
          assert w[k..k + 2] == t[k - 3..k - 1];
          assert !IsAt(t, ParagraphBreak, k - 3);
        } else {
          NotBreakAt(w, k);
        }
      }
    }
    var y := w + ParagraphBreak;
    assert y[n..n + 2] == ParagraphBreak;
    forall k | 0 <= k < n ensures !IsAt(y, ParagraphBreak, k) {
      if k + 2 <= n {
        assert y[k..k + 2] == w[k..k + 2] && !IsAt(w, ParagraphBreak, k);
      } else {
        assert y[k] == '>';
        NotBreakAt(y, k);
      }
    }
    IndexOfLeast(y, ParagraphBreak, |w|);
  }

  /** There is one paragraph per non-blank chunk. */
  lemma {:induction false} WrapCount(chunks: seq<string>)
    ensures |Wrap(chunks)| == CountNonBlank(chunks)
  {
    if |chunks| > 0 {
      StripFacts(chunks[0]);
      WrapCount(chunks[1..]);
    }
  }

  /** Every wrapped paragraph is `<p>`, the stripped non-blank chunk without
      blank lines, `</p>`. */
  lemma {:induction false} WrapShape(chunks: seq<string>)
    requires forall k :: 0 <= k < |chunks| ==> !Contains(chunks[k], ParagraphBreak)
    ensures forall k :: 0 <= k < |Wrap(chunks)| ==> IsParagraph(Wrap(chunks)[k])
  {
    if |chunks| > 0 {
      var c := chunks[0];
      var t := Strip(c);
      WrapShape(chunks[1..]);
      var rest := Wrap(chunks[1..]);
      if t != "" {
        var w := "<p>" + t + "</p>";
        StrippedChunk(c);
        assert w[..3] == "<p>" && w[|w| - 4..] == "</p>" && w[3..|w| - 4] == t;
        assert IsParagraph(w);
        var r := [w] + rest;
        assert Wrap(chunks) == r;
        forall k | 0 <= k < |r| ensures IsParagraph(r[k]) {
          if k > 0 { assert r[k] == rest[k - 1]; }
        }
      }
    }
  }

  /** Wrapped chunks without blank lines join cleanly with blank lines. */
  lemma {:induction false} WrapJoinable(chunks: seq<string>)
    requires forall k :: 0 <= k < |chunks| ==> !Contains(chunks[k], ParagraphBreak)
    ensures CleanlyJoinable(Wrap(chunks), ParagraphBreak)
  {
    if |chunks| > 0 {
      var c := chunks[0];
      var t := Strip(c);
      WrapJoinable(chunks[1..]);
      var rest := Wrap(chunks[1..]);
      if t != "" {
        var w := "<p>" + t + "</p>";
        StrippedChunk(c);
        WrappedClean(t);
        var r := [w] + rest;
        assert Wrap(chunks) == r;
        forall k | 0 <= k < |r| - 1 ensures IndexOf(r[k] + ParagraphBreak, ParagraphBreak) == Some(|r[k]|) {
          if k == 0 { assert r[k] == w; } else { assert r[k] == rest[k - 1]; }
        }
        if |rest| > 0 { assert r[|r| - 1] == rest[|rest| - 1]; }
      }
    }
  }

  /** The generated text splits at blank lines back into exactly the
      wrapped paragraphs, one per non-blank chunk of the spliced text, each
      of paragraph shape; with no non-blank chunk the text is empty. */
  lemma ParagraphsSplitBack(content: string)
    ensures var ps := Wrap(Split(content, ParagraphBreak));
      && |ps| == CountNonBlank(Split(content, ParagraphBreak))
      && (forall k :: 0 <= k < |ps| ==> IsParagraph(ps[k]))
      && (|ps| == 0 ==> Paragraphs(content) == "")
      && (|ps| > 0 ==> Split(Paragraphs(content), ParagraphBreak) == ps)
  {
    var chunks := Split(content, ParagraphBreak);
    SplitPiecesFree(content, ParagraphBreak);
    WrapCount(chunks);
    WrapShape(chunks);
    var ps := Wrap(chunks);
    if |ps| > 0 {
      WrapJoinable(chunks);
      JoinSplit(ps, ParagraphBreak);
    }
  }

  // ---------------------------------------------------------------------
  // Style sheet.

  /** The style sheet, cut around its two alignment selectors. */
  const CssPieces: seq<string> := [
      "\n"
      + "        <style>\n"
      + "            figure {\n"
      + "                margin: 2em 0;\n"
      + "                text-align: center;\n"
      + "            }\n"
      + "\n"
      + "            ",
    "figure.align-left",
    " {\n"
      + "                text-align: left;\n"
      + "            }\n"
      + "\n"
      + "            ",
    "figure.align-right",
    " {\n"
      + "                text-align: right;\n"
      + "            }\n"
      + "\n"
      + "            figure img, figure video {\n"
      + "                max-width: 100%;\n"
      + "                height: auto;\n"
      + "            }\n"
      + "\n"
      + "            figcaption {\n"
      + "                color: #666;\n"
      + "                font-size: 0.9em;\n"
      + "                margin-top: 0.5em;\n"
      + "            }\n"
      + "        </style>\n"
      + "        " ]

  /** `generate_css`: the same style sheet every time, with a rule for the
      class of every left- or right-aligned figure. */
  function GenerateCss(): (r: string)
    ensures Contains(r, "figure." + AlignClass("left"))
    ensures Contains(r, "figure." + AlignClass("right"))
  {
    assert "figure." + AlignClass("left") == CssPieces[1];
    assert "figure." + AlignClass("right") == CssPieces[3];
    ConcatContains(CssPieces, 1);
    ConcatContains(CssPieces, 3);
    Concat(CssPieces)
  }
}

=== FILE: jsonsegments.dfy ===
/** Decoded JSON, as `json.load` hands it to the segment importers of the
    command-line tool and of the desktop front end, and the segment records
    those importers build from it. Reading JSON text is not modelled: the
    importers receive the decoded value. */
module SegmentJson {
  import opened Wrappers

  datatype Json =
    | JNull
    | JBool(b: bool)
    | JInt(i: int)
    | JFloat(f: real)
    | JString(s: string)
    | JArray(items: seq<Json>)
    | JObject(fields: map<string, Json>)

  /** `HighlightSegment(title=…, start_time=…, duration=…)` as the importers
      build it: the record checks no types, so every field holds whatever
      value the importer ends up with. */
  datatype Entry = Entry(title: Json, startTime: Json, duration: Json)

  const DefaultTitle: string := "Untitled"
  const DefaultStart: int := 0
  const DefaultDuration: int := 30

  /** `d.get(key, default)` */
  function Get(d: map<string, Json>, key: string, default: Json): Json
  {
    if key in d then d[key] else default
  }

  /** `segment.get('title', 'Untitled')` */
  function TitleOf(d: map<string, Json>): (r: Json)
    ensures "title" in d ==> r == d["title"]
    ensures "title" !in d ==> r == JString(DefaultTitle)
  {
    Get(d, "title", JString(DefaultTitle))
  }

  /** `segment.get('start_time', 0)` */
  function StartOf(d: map<string, Json>): (r: Json)
    ensures "start_time" in d ==> r == d["start_time"]
    ensures "start_time" !in d ==> r == JInt(DefaultStart)
  {
    Get(d, "start_time", JInt(DefaultStart))
  }

  /** `segment.get('duration', 30)` */
  function DurationOf(d: map<string, Json>): (r: Json)
    ensures "duration" in d ==> r == d["duration"]
    ensures "duration" !in d ==> r == JInt(DefaultDuration)
  {
    Get(d, "duration", JInt(DefaultDuration))
  }

  /** The dictionaries among `items`, in order: `if isinstance(segment, dict)`. */
  function ObjectsIn(items: seq<Json>): (r: seq<map<string, Json>>)
    ensures |r| <= |items|
    ensures forall m :: m in r <==> JObject(m) in items
  {
    if |items| == 0 then []
    else
      var last := items[|items| - 1];
      assert items == items[..|items| - 1] + [last];
      ObjectsIn(items[..|items| - 1]) + (if last.JObject? then [last.fields] else [])
  }

  /** Filtering distributes over concatenation, so the dictionaries keep
      their order in the list. */
  lemma {:induction false} ObjectsInAppend(a: seq<Json>, b: seq<Json>)
    ensures ObjectsIn(a + b) == ObjectsIn(a) + ObjectsIn(b)
    decreases |b|
  {
    if |b| == 0 {
      assert a + b == a;
    } else {
      var b' := b[..|b| - 1];
      assert (a + b)[..|a + b| - 1] == a + b';
      assert (a + b)[|a + b| - 1] == b[|b| - 1];
      ObjectsInAppend(a, b');
    }
  }

  /** A list of dictionaries is taken as it stands. */
  lemma {:induction false} ObjectsOfObjects(ms: seq<map<string, Json>>, items: seq<Json>)
    requires |items| == |ms|
    requires forall k :: 0 <= k < |ms| ==> items[k] == JObject(ms[k])
    ensures ObjectsIn(items) == ms
    decreases |ms|
  {
    if |ms| > 0 {
      ObjectsOfObjects(ms[..|ms| - 1], items[..|items| - 1]);
    }
  }

  /** `for segment in segments_data`, keeping the dictionaries. Iterating a
      string yields one-character strings and iterating an object yields its
      keys, so neither produces a dictionary; a number, boolean or null is
      not iterable and raises TypeError. */
  function Dicts(data: Json): (r: Result<seq<map<string, Json>>>)
    ensures r.Err? <==> data.JNull? || data.JBool? || data.JInt? || data.JFloat?
    ensures r.Err? ==> r.error == TypeError
    ensures data.JString? || data.JObject? ==> r == Ok([])
    ensures data.JArray? ==> r.Ok? && forall m :: m in r.value <==> JObject(m) in data.items
  {
    match data
    case JArray(items) => Ok(ObjectsIn(items))
    case JString(_) => Ok([])
    case JObject(_) => Ok([])
    case _ => Err(TypeError)
  }

  /** Entries that are not dictionaries are skipped wherever they stand. */
  lemma NonDictSkipped(a: seq<Json>, x: Json, b: seq<Json>)
    requires !x.JObject?
    ensures Dicts(JArray(a + [x] + b)) == Dicts(JArray(a + b))
  {
    ObjectsInAppend(a + [x], b);
    ObjectsInAppend(a, [x]);
    ObjectsInAppend(a, b);
    assert [x][..0] == [];
    assert ObjectsIn([x]) == [];
    assert ObjectsIn(a + [x] + b) == ObjectsIn(a + b);
  }
}

=== FILE: markdown.dfy ===
/** The markdown clean-up patched into the HTML generator: escaped headings
    `\#` … `\####` and escaped list numbers `\N.` are un-escaped, then
    single-asterisk emphasis becomes `<em>` and double-asterisk emphasis
    `<strong>`. Each step is one `re.sub`; every pattern is written out
    below as a matcher with Python's backtracking behaviour for that
    pattern, and `Sub` is `re.sub`'s left-to-right scan. */
module MarkdownFix {
  import opened Wrappers
  import opened PyStr
  import opened PyInt
  import DocxReader
  import HtmlGenerator

  /** The seven substitutions, in the order they are applied. */
  datatype Rule =
    | EscapedHeader(level: nat)  // `\\#{level}\s+(.+?)$` → `#{level} \1`, multi-line
    | EscapedNumber              // `\\(\d+)\.\s+(.+?)$` → `\1. \2`, multi-line
    | Emphasis                   // `(?<!\*)\*(?!\*)(.+?)(?<!\*)\*(?!\*)` → `<em>\1</em>`
    | Strong                     // `\*\*(.+?)\*\*` → `<strong>\1</strong>`

  const Passes: seq<Rule> := [EscapedHeader(1), EscapedHeader(2), EscapedHeader(3), EscapedHeader(4),
                              EscapedNumber, Emphasis, Strong]

  /** A match: where it ends in the text and what replaces it. */
  datatype Hit = Hit(end: nat, replacement: string)

  /** A line-tail match: the captured group is `t[groupStart..end]`. */
  datatype LineHit = LineHit(groupStart: nat, end: nat)

  function Hashes(n: nat): (r: string)
    ensures |r| == n && forall k :: 0 <= k < n ==> r[k] == '#'
  {
    seq(n, _ => '#')
  }

  /** The character every match of the rule starts with. */
  function Lead(rule: Rule): char
  {
    if rule.Emphasis? || rule.Strong? then '*' else '\\'
  }

  // ---------------------------------------------------------------------
  // `\s+(.+?)$` with `re.MULTILINE`

  /** The end of the whitespace run starting at `q`. */
  function SpaceRunEnd(t: string, q: nat): (w: nat)
    requires q <= |t|
    ensures q <= w <= |t|
    ensures forall k :: q <= k < w ==> IsSpace(t[k])
    ensures w == |t| || !IsSpace(t[w])
    decreases |t| - q
  {
    if q < |t| && IsSpace(t[q]) then SpaceRunEnd(t, q + 1) else q
  }

  /** The greedy `\s+` gives back characters until `.` can start: the
      largest start in `(lo, e]` that is inside the text and not a newline. */
  function BackOff(t: string, lo: nat, e: nat): (r: Option<nat>)
    ensures r.Some? ==> lo < r.value <= e && r.value < |t| && t[r.value] != '\n'
    ensures r.Some? ==> forall k :: r.value < k <= e && k < |t| ==> t[k] == '\n'
    ensures r.None? ==> forall k :: lo < k <= e && k < |t| ==> t[k] == '\n'
    decreases e
  {
    if e <= lo then None
    else if e < |t| && t[e] != '\n' then Some(e)
    else BackOff(t, lo, e - 1)
  }

  /** The end of the line that position `e` is on. */
  function LineEnd(t: string, e: nat): (i: nat)
    requires e <= |t|
    ensures e <= i <= |t|
    ensures i == |t| || t[i] == '\n'
    ensures forall k :: e <= k < i ==> t[k] != '\n'
    decreases |t| - e
  {
    if e == |t| || t[e] == '\n' then e else LineEnd(t, e + 1)
  }

  /** `\s+(.+?)$` at `q`: at least one whitespace character (newlines
      included), then the rest of a line, at least one character long. */
  function SpacesThenLine(t: string, q: nat): (r: Option<LineHit>)
    requires q <= |t|
    ensures r.Some? <==> q < |t| && IsSpace(t[q]) && exists k :: q < k < |t| && t[k] != '\n'
    ensures r.Some? ==> q < r.value.groupStart < r.value.end <= |t|
    ensures r.Some? ==> forall k :: q <= k < r.value.groupStart ==> IsSpace(t[k])
    ensures r.Some? ==> forall k :: r.value.groupStart <= k < r.value.end ==> t[k] != '\n'
    ensures r.Some? ==> r.value.end == |t| || t[r.value.end] == '\n'
    ensures r.Some? && SpaceRunEnd(t, q) < |t| ==> r.value.groupStart == SpaceRunEnd(t, q)
  {
    if q < |t| && IsSpace(t[q]) then
      var w := SpaceRunEnd(t, q);
      match BackOff(t, q, w)
      case None => None
      case Some(e) =>
        Some(LineHit(e, LineEnd(t, e)))
    else None
  }

  // ---------------------------------------------------------------------
  // The four patterns

  /** `\\#{n}\s+(.+?)$` at `p`. */
  function HeaderAt(t: string, p: nat, n: nat): (r: Option<Hit>)
    requires p <= |t|
    ensures r.Some? <==> p + 1 + n <= |t| && t[p] == '\\' && t[p + 1..p + 1 + n] == Hashes(n)
                         && SpacesThenLine(t, p + 1 + n).Some?
    ensures r.Some? ==> var h := SpacesThenLine(t, p + 1 + n).value;
                        r.value == Hit(h.end, Hashes(n) + " " + t[h.groupStart..h.end])
  {
    if p + 1 + n <= |t| && t[p] == '\\' && t[p + 1..p + 1 + n] == Hashes(n) then
      match SpacesThenLine(t, p + 1 + n)
      case None => None
      case Some(h) => Some(Hit(h.end, Hashes(n) + " " + t[h.groupStart..h.end]))
    else None
  }

  /** The end of the digit run starting at `q`. */
  function DigitRunEnd(t: string, q: nat): (d: nat)
    requires q <= |t|
    ensures q <= d <= |t|
    ensures forall k :: q <= k < d ==> IsDigit(t[k])
    ensures d == |t| || !IsDigit(t[d])
    decreases |t| - q
  {
    if q < |t| && IsDigit(t[q]) then DigitRunEnd(t, q + 1) else q
  }

  /** `\s+(.+?)$` after the digits `t[p + 1..d]` and their '.'. */
  function NumberTail(t: string, p: nat, d: nat): (r: Option<Hit>)
    requires p + 1 < d < |t|
    ensures r.Some? <==> SpacesThenLine(t, d + 1).Some?
    ensures r.Some? ==> var h := SpacesThenLine(t, d + 1).value;
                        r.value == Hit(h.end, t[p + 1..d] + ". " + t[h.groupStart..h.end])
  {
    match SpacesThenLine(t, d + 1)
    case None => None
    case Some(h) => Some(Hit(h.end, t[p + 1..d] + ". " + t[h.groupStart..h.end]))
  }

  /** `\\(\d+)\.\s+(.+?)$` at `p`: backing off the greedy `\d+` cannot help,
      since a digit is never '.'. */
  function NumberAt(t: string, p: nat): (r: Option<Hit>)
    requires p <= |t|
    ensures r.Some? ==> p < |t| && t[p] == '\\'
    ensures r.Some? ==> var d := DigitRunEnd(t, p + 1);
                        && p + 1 < d < |t| && t[d] == '.' && r == NumberTail(t, p, d)
  {
    if p < |t| && t[p] == '\\' then
      var d := DigitRunEnd(t, p + 1);
      if p + 1 < d < |t| && t[d] == '.' then NumberTail(t, p, d) else None
    else None
  }

  /** `(?<!\*)\*(?!\*)` at `j`: a lone asterisk. */
  predicate LoneStar(t: string, j: nat)
    requires 1 <= j < |t|
  {
    t[j] == '*' && t[j - 1] != '*' && (j + 1 == |t| || t[j + 1] != '*')
  }

  /** The lazy `(.+?)` followed by a lone asterisk: the first one at or
      after `j`, provided the group `t[..j]` so far has no newline. */
  function CloseEm(t: string, j: nat): (r: Option<nat>)
    requires 1 <= j
    ensures r.Some? ==> j <= r.value < |t| && LoneStar(t, r.value)
    ensures r.Some? ==> forall k :: j - 1 <= k < r.value ==> t[k] != '\n'
    ensures r.Some? ==> forall k :: j <= k < r.value ==> !LoneStar(t, k)
    decreases |t| - j
  {
    if j >= |t| || t[j - 1] == '\n' then None
    else if LoneStar(t, j) then Some(j)
    else CloseEm(t, j + 1)
  }

  /** `(?<!\*)\*(?!\*)(.+?)(?<!\*)\*(?!\*)` at `p`. */
  function EmphasisAt(t: string, p: nat): (r: Option<Hit>)
    requires p <= |t|
    ensures r.Some? ==> p + 1 < |t| && t[p] == '*' && (p == 0 || t[p - 1] != '*') && t[p + 1] != '*'
    ensures r.Some? ==> CloseEm(t, p + 2).Some? && var c := CloseEm(t, p + 2).value;
                        r.value == Hit(c + 1, "<em>" + t[p + 1..c] + "</em>")
  {
    if p + 1 < |t| && t[p] == '*' && (p == 0 || t[p - 1] != '*') && t[p + 1] != '*' then
      match CloseEm(t, p + 2)
      case None => None
      case Some(c) => Some(Hit(c + 1, "<em>" + t[p + 1..c] + "</em>"))
    else None
  }

  /** `**` at `j`. */
  predicate StarPair(t: string, j: nat)
    requires j + 1 < |t|
  {
    t[j] == '*' && t[j + 1] == '*'
  }

  /** The lazy `(.+?)` followed by `**`. */
  function CloseStrong(t: string, j: nat): (r: Option<nat>)
    requires 1 <= j
    ensures r.Some? ==> j <= r.value && r.value + 1 < |t| && StarPair(t, r.value)
    ensures r.Some? ==> forall k :: j - 1 <= k < r.value ==> t[k] != '\n'
    ensures r.Some? ==> forall k :: j <= k < r.value ==> !StarPair(t, k)
    decreases |t| - j
  {
    if j + 1 >= |t| || t[j - 1] == '\n' then None
    else if StarPair(t, j) then Some(j)
    else CloseStrong(t, j + 1)
  }

  /** `\*\*(.+?)\*\*` at `p`. */
  function StrongAt(t: string, p: nat): (r: Option<Hit>)
    requires p <= |t|
    ensures r.Some? ==> p + 1 < |t| && t[p] == '*' && t[p + 1] == '*'
    ensures r.Some? ==> CloseStrong(t, p + 3).Some? && var c := CloseStrong(t, p + 3).value;
                        r.value == Hit(c + 2, "<strong>" + t[p + 2..c] + "</strong>")
  {
    if p + 1 < |t| && t[p] == '*' && t[p + 1] == '*' then
      match CloseStrong(t, p + 3)
      case None => None
      case Some(c) => Some(Hit(c + 2, "<strong>" + t[p + 2..c] + "</strong>"))
    else None
  }

  /** The match of `rule` starting exactly at `p`, if any; lookbehinds see
      the text before `p`. */
  function MatchAt(rule: Rule, t: string, p: nat): (r: Option<Hit>)
    requires p <= |t|
    ensures r.Some? ==> p < r.value.end <= |t|
    ensures r.Some? ==> t[p] == Lead(rule)
  {
    match rule
    case EscapedHeader(n) => HeaderAt(t, p, n)
    case EscapedNumber => NumberAt(t, p)
    case Emphasis => EmphasisAt(t, p)
    case Strong => StrongAt(t, p)
  }

  /** `re.sub(pattern, repl, t)` from position `pos`: a match is replaced
      and the scan resumes after it; elsewhere one character is copied. */
  function Sub(rule: Rule, t: string, pos: nat): string
    requires pos <= |t|
    decreases |t| - pos
  {
    if pos == |t| then []
    else
      match MatchAt(rule, t, pos)
      case Some(h) => h.replacement + Sub(rule, t, h.end)
      case None => [t[pos]] + Sub(rule, t, pos + 1)
  }

  /** The passes one after the other. */
  function ApplyAll(passes: seq<Rule>, t: string): string
    decreases |passes|
  {
    if |passes| == 0 then t else ApplyAll(passes[1..], Sub(passes[0], t, 0))
  }

  /** `process_markdown_formatting`: text with no backslash and no
      asterisk is returned unchanged. */
  function ProcessMarkdown(t: string): (r: string)
    ensures '\\' !in t && '*' !in t ==> r == t
  {
    PlainPassesUnchanged(t);
    ApplyAll(Passes, t)
  }

  /** The patched `generate_html`: the markdown clean-up runs first, then the
      original marker replacement and paragraph wrapping. For text without
      a backslash or an asterisk it gives the original's page. */
  function NewGenerateHtml(folder: string, blog: string, markers: seq<DocxReader.MediaMarker>): (r: string)
    ensures '\\' !in blog && '*' !in blog ==> r == HtmlGenerator.GenerateHtml(folder, blog, markers)
  {
    HtmlGenerator.GenerateHtml(folder, ProcessMarkdown(blog), markers)
  }

  // ---------------------------------------------------------------------
  // Scanning

  /** Where no match starts, the scan copies one character. */
  lemma SubCopies(rule: Rule, t: string, pos: nat)
    requires pos < |t| && MatchAt(rule, t, pos).None?
    ensures Sub(rule, t, pos) == [t[pos]] + Sub(rule, t, pos + 1)
  {
  }

  lemma SubCopiesOn(rule: Rule, t: string, pos: nat, stop: nat)
    requires pos < stop <= |t| && MatchAt(rule, t, pos).None?
    requires Sub(rule, t, pos + 1) == t[pos + 1..stop] + Sub(rule, t, stop)
    ensures Sub(rule, t, pos) == t[pos..stop] + Sub(rule, t, stop)
  {
    SubCopies(rule, t, pos);
    ConsSlice(t, pos, stop, Sub(rule, t, stop));
  }

  lemma ConsSlice<T>(t: seq<T>, pos: nat, stop: nat, rest: seq<T>)
    requires pos < stop <= |t|
    ensures [t[pos]] + (t[pos + 1..stop] + rest) == t[pos..stop] + rest
  {
    assert t[pos..stop] == [t[pos]] + t[pos + 1..stop];
  }

  /** A stretch where no match starts is copied. */
  lemma {:induction false} SubNoMatch(rule: Rule, t: string, pos: nat, stop: nat)
    requires pos <= stop <= |t|
    requires forall k :: pos <= k < stop ==> t[k] != Lead(rule) || MatchAt(rule, t, k).None?
    ensures Sub(rule, t, pos) == t[pos..stop] + Sub(rule, t, stop)
    decreases stop - pos
  {
    if pos < stop {
      assert MatchAt(rule, t, pos).None?;
      SubNoMatch(rule, t, pos + 1, stop);
      SubCopiesOn(rule, t, pos, stop);
    } else {
      assert t[pos..stop] == [];
    }
  }

  /** Text without the rule's lead character is left alone by that rule. */
  lemma SubWithoutLead(rule: Rule, t: string)
    requires Lead(rule) !in t
    ensures Sub(rule, t, 0) == t
  {
    forall k | 0 <= k < |t|
      ensures t[k] != Lead(rule)
    {
      assert t[k] in t;
    }
    SubNoMatch(rule, t, 0, |t|);
    assert t[0..|t|] == t;
  }

  lemma {:induction false} ApplyAllWithoutLeads(passes: seq<Rule>, t: string)
    requires forall k :: 0 <= k < |passes| ==> Lead(passes[k]) !in t
    ensures ApplyAll(passes, t) == t
    decreases |passes|
  {
    if |passes| > 0 {
      SubWithoutLead(passes[0], t);
      ApplyAllWithoutLeads(passes[1..], t);
    }
  }

  /** No pass finds its lead character in text with no backslash and no
      asterisk. */
  lemma PlainPassesUnchanged(t: string)
    ensures '\\' !in t && '*' !in t ==> ApplyAll(Passes, t) == t
  {
    if '\\' !in t && '*' !in t {
      ApplyAllWithoutLeads(Passes, t);
    }
  }

  /** A match is replaced and the scan resumes after it. */
  lemma SubReplaces(rule: Rule, t: string, pos: nat, h: Hit)
    requires pos <= |t| && MatchAt(rule, t, pos) == Some(h)
    ensures Sub(rule, t, pos) == h.replacement + Sub(rule, t, h.end)
  {
  }

  lemma SubAtEnd(rule: Rule, t: string)
    ensures Sub(rule, t, |t|) == []
  {
  }

  /** Exactly one match, at `p`: the text around it is copied. */
  lemma SubAround(rule: Rule, t: string, p: nat, h: Hit)
    requires p <= |t| && MatchAt(rule, t, p) == Some(h)
    requires forall k :: 0 <= k < p ==> t[k] != Lead(rule)
    requires forall k :: h.end <= k < |t| ==> t[k] != Lead(rule)
    ensures Sub(rule, t, 0) == t[..p] + h.replacement + t[h.end..]
  {
    SubNoMatch(rule, t, 0, p);
    SubReplaces(rule, t, p, h);
    SubNoMatch(rule, t, h.end, |t|);
    SubAtEnd(rule, t);
    assert t[0..p] == t[..p];
    assert t[h.end..|t|] + [] == t[h.end..];
  }

  /** Passes that leave the text alone can be dropped from the front. */
  lemma {:induction false} ApplyAllSkip(passes: seq<Rule>, i: nat, t: string)
    requires i <= |passes|
    requires forall k :: 0 <= k < i ==> Sub(passes[k], t, 0) == t
    ensures ApplyAll(passes, t) == ApplyAll(passes[i..], t)
    decreases i
  {
    if i > 0 {
      ApplyAllSkip(passes[1..], i - 1, t);
      assert passes[1..][i - 1..] == passes[i..];
    }
  }

  /** When the passes before `i` leave the text alone, pass `i` turns it
      into a plain text, the result is that text. */
  lemma ApplyAllAt(passes: seq<Rule>, i: nat, t: string, u: string)
    requires i < |passes|
    requires forall k :: 0 <= k < i ==> Sub(passes[k], t, 0) == t
    requires Sub(passes[i], t, 0) == u && Plain(u)
    ensures ApplyAll(passes, t) == u
  {
    ApplyAllSkip(passes, i, t);
    assert passes[i..][1..] == passes[i + 1..];
    PlainAfter(passes[i + 1..], u);
  }

  /** Texts in which the remaining passes find nothing to do. */
  predicate Plain(x: string)
  {
    '\\' !in x && '*' !in x
  }

  lemma PlainAfter(passes: seq<Rule>, u: string)
    requires Plain(u)
    ensures ApplyAll(passes, u) == u
  {
    ApplyAllWithoutLeads(passes, u);
  }

  // ---------------------------------------------------------------------
  // Escaped headings

  /** The escaped heading line `\##…` followed by whitespace and text. */
  function EscapedHeading(n: nat, ws: string, x: string): string
  {
    "\\" + Hashes(n) + ws + x
  }

  /** `\s+(.+?)$` after `pre` takes all of the whitespace `ws` and all of
      the one-line text `x`. */
  lemma TailMatch(pre: string, ws: string, x: string)
    requires |ws| > 0 && forall k :: 0 <= k < |ws| ==> IsSpace(ws[k])
    requires |x| > 0 && !IsSpace(x[0]) && '\n' !in x
    ensures var t := pre + ws + x;
            SpacesThenLine(t, |pre|) == Some(LineHit(|pre| + |ws|, |t|))
  {
    var t := pre + ws + x;
    var q := |pre|;
    var g := |pre| + |ws|;
    assert forall k :: q <= k < g ==> t[k] == ws[k - q];
    assert forall k :: g <= k < |t| ==> t[k] == x[k - g];
    var w := SpaceRunEnd(t, q);
    assert t[g] == x[0];
    assert w == g;
    assert BackOff(t, q, w) == Some(g);
    assert forall k :: g <= k < |t| ==> t[k] != '\n' by {
      forall k | g <= k < |t|
        ensures t[k] != '\n'
      {
        assert x[k - g] in x;
      }
    }
    LineEndRun(t, g);
  }

  /** A line-free stretch runs to the end of the text. */
  lemma {:induction false} LineEndRun(t: string, e: nat)
    requires e <= |t|
    requires forall k :: e <= k < |t| ==> t[k] != '\n'
    ensures LineEnd(t, e) == |t|
    decreases |t| - e
  {
    if e < |t| {
      LineEndRun(t, e + 1);
    }
  }

  lemma HeadingMatches(n: nat, ws: string, x: string)
    requires |ws| > 0 && forall k :: 0 <= k < |ws| ==> IsSpace(ws[k])
    requires |x| > 0 && !IsSpace(x[0]) && '\n' !in x
    ensures var t := EscapedHeading(n, ws, x);
            MatchAt(EscapedHeader(n), t, 0) == Some(Hit(|t|, Hashes(n) + " " + x))
  {
    var t := EscapedHeading(n, ws, x);
    TailMatch("\\" + Hashes(n), ws, x);
    assert t[1..1 + n] == Hashes(n);
    assert t[1 + n + |ws|..|t|] == x;
  }

  /** Another level does not match at the start of the line. */
  lemma HeadingOtherLevel(n: nat, k: nat, ws: string, x: string)
    requires k != n
    requires |ws| > 0 && forall j :: 0 <= j < |ws| ==> IsSpace(ws[j])
    ensures MatchAt(EscapedHeader(k), EscapedHeading(n, ws, x), 0).None?
  {
    var t := EscapedHeading(n, ws, x);
    if k < n {
      assert t[1 + k] == '#';
    } else if 1 + k <= |t| {
      assert t[1 + n] == ws[0];
      assert t[1..1 + k][n] != '#';
    }
  }

  /** The whole clean-up on an escaped heading: `\## Title` becomes
      `## Title` for the four levels, and the whitespace after the hashes,
      newlines included, becomes one space. */
  lemma HeadingUnescaped(n: nat, ws: string, x: string)
    requires 1 <= n <= 4
    requires |ws| > 0 && forall k :: 0 <= k < |ws| ==> IsSpace(ws[k])
    requires |x| > 0 && !IsSpace(x[0]) && '\n' !in x && Plain(x)
    ensures ProcessMarkdown(EscapedHeading(n, ws, x)) == Hashes(n) + " " + x
  {
    var t := EscapedHeading(n, ws, x);
    var u := Hashes(n) + " " + x;
    forall k | 0 <= k < n - 1
      ensures Sub(Passes[k], t, 0) == t
    {
      assert Passes[k] == EscapedHeader(k + 1);
      HeadingOtherPassIdle(n, k + 1, ws, x);
    }
    assert Passes[n - 1] == EscapedHeader(n);
    HeadingMatches(n, ws, x);
    SubReplaces(EscapedHeader(n), t, 0, Hit(|t|, u));
    HeadingResultPlain(n, x);
    ApplyAllAt(Passes, n - 1, t, u);
  }

  lemma HeadingResultPlain(n: nat, x: string)
    requires Plain(x)
    ensures Plain(Hashes(n) + " " + x)
  {
    var u := Hashes(n) + " " + x;
    assert forall j :: 0 <= j < |u| ==> u[j] == '#' || u[j] == ' ' || u[j] in x;
  }

  /** After the backslash, an escaped heading has no backslash. */
  lemma HeadingRestPlain(n: nat, ws: string, x: string)
    requires forall k :: 0 <= k < |ws| ==> IsSpace(ws[k])
    requires Plain(x)
    ensures '\\' !in EscapedHeading(n, ws, x)[1..]
  {
    var t := EscapedHeading(n, ws, x);
    assert t[1..] == Hashes(n) + ws + x;
    forall j | 0 <= j < |t[1..]|
      ensures t[1..][j] != '\\'
    {
      if j >= n + |ws| {
        assert t[1..][j] == x[j - n - |ws|];
        assert x[j - n - |ws|] in x;
      }
    }
  }

  lemma HeadingOtherPassIdle(n: nat, k: nat, ws: string, x: string)
    requires k != n
    requires |ws| > 0 && forall j :: 0 <= j < |ws| ==> IsSpace(ws[j])
    requires Plain(x)
    ensures Sub(EscapedHeader(k), EscapedHeading(n, ws, x), 0) == EscapedHeading(n, ws, x)
  {
    HeadingOtherLevel(n, k, ws, x);
    HeadingRestPlain(n, ws, x);
    SkipFirst(EscapedHeader(k), EscapedHeading(n, ws, x));
  }

  /** A rule with no match at the first character of a text whose other
      characters are free of backslashes leaves it alone. */
  lemma SkipFirst(rule: Rule, t: string)
    requires |t| > 0 && MatchAt(rule, t, 0).None?
    requires Lead(rule) == '\\' && '\\' !in t[1..]
    ensures Sub(rule, t, 0) == t
  {
    SubCopies(rule, t, 0);
    forall k | 1 <= k < |t|
      ensures t[k] != Lead(rule)
    {
      assert t[k] == t[1..][k - 1];
    }
    SubNoMatch(rule, t, 1, |t|);
    assert t == [t[0]] + t[1..];
  }

  // ---------------------------------------------------------------------
  // Escaped list numbers

  /** The escaped list item `\N.` followed by whitespace and text. */
  function EscapedItem(d: string, ws: string, x: string): string
  {
    "\\" + d + "." + ws + x
  }

  lemma ItemMatches(d: string, ws: string, x: string)
    requires |d| > 0 && AllDigits(d)
    requires |ws| > 0 && forall k :: 0 <= k < |ws| ==> IsSpace(ws[k])
    requires |x| > 0 && !IsSpace(x[0]) && '\n' !in x
    ensures var t := EscapedItem(d, ws, x);
            MatchAt(EscapedNumber, t, 0) == Some(Hit(|t|, d + ". " + x))
  {
    var t := EscapedItem(d, ws, x);
    var e := 1 + |d|;
    assert forall k :: 1 <= k < e ==> t[k] == d[k - 1];
    assert t[e] == '.';
    assert DigitRunEnd(t, 1) == e;
    TailMatch("\\" + d + ".", ws, x);
    assert t[1..e] == d;
    assert t[e + 1 + |ws|..|t|] == x;
  }

  lemma ItemRestPlain(d: string, ws: string, x: string)
    requires AllDigits(d)
    requires forall k :: 0 <= k < |ws| ==> IsSpace(ws[k])
    requires Plain(x)
    ensures '\\' !in EscapedItem(d, ws, x)[1..]
  {
    var t := EscapedItem(d, ws, x);
    assert t[1..] == d + "." + ws + x;
    forall j | 0 <= j < |t[1..]|
      ensures t[1..][j] != '\\'
    {
      if j < |d| {
        assert t[1..][j] == d[j];
      } else if j >= |d| + 1 + |ws| {
        assert t[1..][j] == x[j - |d| - 1 - |ws|];
        assert x[j - |d| - 1 - |ws|] in x;
      }
    }
  }

  lemma ItemHeaderPassIdle(k: nat, d: string, ws: string, x: string)
    requires 1 <= k
    requires |d| > 0 && AllDigits(d)
    requires forall j :: 0 <= j < |ws| ==> IsSpace(ws[j])
    requires Plain(x)
    ensures Sub(EscapedHeader(k), EscapedItem(d, ws, x), 0) == EscapedItem(d, ws, x)
  {
    var t := EscapedItem(d, ws, x);
    assert t[1] == d[0];
    if 1 + k <= |t| {
      assert t[1..1 + k][0] != '#';
    }
    ItemRestPlain(d, ws, x);
    SkipFirst(EscapedHeader(k), t);
  }

  lemma ItemResultPlain(d: string, x: string)
    requires AllDigits(d) && Plain(x)
    ensures Plain(d + ". " + x)
  {
    var u := d + ". " + x;
    assert forall j :: 0 <= j < |u| ==> IsDigit(u[j]) || u[j] == '.' || u[j] == ' ' || u[j] in x;
  }

  /** `\3. Item` becomes `3. Item`. */
  lemma ItemUnescaped(d: string, ws: string, x: string)
    requires |d| > 0 && AllDigits(d)
    requires |ws| > 0 && forall k :: 0 <= k < |ws| ==> IsSpace(ws[k])
    requires |x| > 0 && !IsSpace(x[0]) && '\n' !in x && Plain(x)
    ensures ProcessMarkdown(EscapedItem(d, ws, x)) == d + ". " + x
  {
    var t := EscapedItem(d, ws, x);
    var u := d + ". " + x;
    forall k | 0 <= k < 4
      ensures Sub(Passes[k], t, 0) == t
    {
      assert Passes[k] == EscapedHeader(k + 1);
      ItemHeaderPassIdle(k + 1, d, ws, x);
    }
    assert Passes[4] == EscapedNumber;
    ItemMatches(d, ws, x);
    SubReplaces(EscapedNumber, t, 0, Hit(|t|, u));
    ItemResultPlain(d, x);
    ApplyAllAt(Passes, 4, t, u);
  }

  // ---------------------------------------------------------------------
  // Emphasis

  /** The first lone asterisk the lazy group reaches. */
  lemma {:induction false} CloseEmFinds(t: string, j: nat, c: nat)
    requires 1 <= j <= c < |t| && LoneStar(t, c)
    requires forall k :: j - 1 <= k < c ==> t[k] != '\n'
    requires forall k :: j <= k < c ==> t[k] != '*'
    ensures CloseEm(t, j) == Some(c)
    decreases c - j
  {
    if j < c {
      CloseEmFinds(t, j + 1, c);
    }
  }

  lemma CloseStrongFinds(t: string, j: nat, c: nat)
    requires 1 <= j <= c && c + 1 < |t| && StarPair(t, c)
    requires forall k :: j - 1 <= k < c ==> t[k] != '\n'
    requires forall k :: j <= k < c ==> t[k] != '*'
    ensures CloseStrong(t, j) == Some(c)
    decreases c - j
  {
    if j < c {
      CloseStrongFinds(t, j + 1, c);
    }
  }

  /** Text around a marked-up word: no asterisk, no backslash. */
  predicate Word(x: string)
  {
    |x| > 0 && '\n' !in x && Plain(x)
  }

  lemma PlainChars(x: string)
    requires Plain(x)
    ensures forall k :: 0 <= k < |x| ==> x[k] != '*' && x[k] != '\\'
  {
    forall k | 0 <= k < |x|
      ensures x[k] != '*' && x[k] != '\\'
    {
      assert x[k] in x;
    }
  }

  lemma WordChars(x: string)
    requires Word(x)
    ensures forall k :: 0 <= k < |x| ==> x[k] != '*' && x[k] != '\\' && x[k] != '\n'
  {
    PlainChars(x);
    forall k | 0 <= k < |x|
      ensures x[k] != '\n'
    {
      assert x[k] in x;
    }
  }

  lemma EmphasisMatches(a: string, x: string, b: string)
    requires Plain(a) && Word(x) && Plain(b)
    ensures var t := a + "*" + x + "*" + b;
            MatchAt(Emphasis, t, |a|) == Some(Hit(|a| + |x| + 2, "<em>" + x + "</em>"))
  {
    var t := a + "*" + x + "*" + b;
    var p, c := |a|, |a| + 1 + |x|;
    PlainChars(a);
    WordChars(x);
    PlainChars(b);
    assert forall k :: p + 1 <= k < c ==> t[k] == x[k - p - 1];
    assert t[p] == '*' && t[c] == '*';
    assert p == 0 || t[p - 1] == a[p - 1];
    assert c + 1 == |t| || t[c + 1] == b[0];
    CloseEmFinds(t, p + 2, c);
    assert t[p + 1..c] == x;
  }

  lemma EmphasisPass(a: string, x: string, b: string)
    requires Plain(a) && Word(x) && Plain(b)
    ensures Sub(Emphasis, a + "*" + x + "*" + b, 0) == a + "<em>" + x + "</em>" + b
  {
    var t := a + "*" + x + "*" + b;
    var e := |a| + |x| + 2;
    StarsAround(a, "*", x, "*", b);
    EmphasisMatches(a, x, b);
    SubAround(Emphasis, t, |a|, Hit(e, "<em>" + x + "</em>"));
    Spliced(Sub(Emphasis, t, 0), t, a, "<em>", x, "</em>", b, e);
  }

  /** Around a starred word in plain text there is no asterisk, and the
      text before and after it is `a` and `b`. */
  lemma StarsAround(a: string, open: string, x: string, close: string, b: string)
    requires Plain(a) && Plain(b)
    ensures var t := a + open + x + close + b;
            var e := |a| + |open| + |x| + |close|;
            && (forall k :: 0 <= k < |a| ==> t[k] != '*')
            && (forall k :: e <= k < |t| ==> t[k] != '*')
            && t[..|a|] == a && t[e..] == b
  {
    var t := a + open + x + close + b;
    var e := |a| + |open| + |x| + |close|;
    PlainChars(a);
    PlainChars(b);
    assert forall k :: 0 <= k < |a| ==> t[k] == a[k];
    assert forall k :: e <= k < |t| ==> t[k] == b[k - e];
    assert t[..|a|] == a;
    assert t[e..] == b;
  }

  /** Putting `open + x + close` between the text around a match. */
  lemma Spliced(r: string, t: string, a: string, open: string, x: string, close: string, b: string, e: nat)
    requires |a| <= e <= |t| && t[..|a|] == a && t[e..] == b
    requires r == t[..|a|] + (open + x + close) + t[e..]
    ensures r == a + open + x + close + b
  {
  }

  lemma TagsPlain(a: string, open: string, x: string, close: string, b: string)
    requires Plain(a) && Plain(open) && Plain(x) && Plain(close) && Plain(b)
    ensures Plain(a + open + x + close + b)
  {
    var u := a + open + x + close + b;
    assert forall j :: 0 <= j < |u| ==> u[j] in a || u[j] in open || u[j] in x || u[j] in close || u[j] in b;
  }

  /** A word between single asterisks, with no other asterisk around it,
      becomes `<em>word</em>`. */
  lemma EmphasisWord(a: string, x: string, b: string)
    requires Plain(a) && Word(x) && Plain(b)
    ensures ProcessMarkdown(a + "*" + x + "*" + b) == a + "<em>" + x + "</em>" + b
  {
    var t := a + "*" + x + "*" + b;
    var u := a + "<em>" + x + "</em>" + b;
    forall k | 0 <= k < 5
      ensures Sub(Passes[k], t, 0) == t
    {
      assert Lead(Passes[k]) == '\\';
      StarredPlain(a, "*", x, "*", b);
      SubWithoutLead(Passes[k], t);
    }
    assert Passes[5] == Emphasis;
    EmphasisPass(a, x, b);
    TagsPlain(a, "<em>", x, "</em>", b);
    ApplyAllAt(Passes, 5, t, u);
  }

  /** Asterisks added to backslash-free text leave it backslash-free. */
  lemma StarredPlain(a: string, open: string, x: string, close: string, b: string)
    requires Plain(a) && Plain(x) && Plain(b)
    requires forall j :: 0 <= j < |open| ==> open[j] == '*'
    requires forall j :: 0 <= j < |close| ==> close[j] == '*'
    ensures '\\' !in a + open + x + close + b
  {
    var u := a + open + x + close + b;
    assert forall j :: 0 <= j < |u| ==> u[j] in a || u[j] == '*' || u[j] in x || u[j] in b;
  }

  // ---------------------------------------------------------------------
  // Strong emphasis

  /** Around `**x**` no lone asterisk starts a match, so the emphasis pass
      runs first and leaves it alone. */
  lemma StrongSkipsEmphasis(a: string, x: string, b: string)
    requires Plain(a) && Word(x) && Plain(b)
    ensures Sub(Emphasis, a + "**" + x + "**" + b, 0) == a + "**" + x + "**" + b
  {
    var t := a + "**" + x + "**" + b;
    var p, c := |a|, |a| + 2 + |x|;
    PlainChars(a);
    WordChars(x);
    PlainChars(b);
    forall k | 0 <= k < |t|
      ensures t[k] != Lead(Emphasis) || MatchAt(Emphasis, t, k).None?
    {
      if k < p {
        assert t[k] == a[k];
      } else if k == p || k == c {
        assert t[k + 1] == '*';
      } else if k == p + 1 || k == c + 1 {
        assert t[k - 1] == '*';
      } else if k < c {
        assert t[k] == x[k - p - 2];
      } else {
        assert t[k] == b[k - c - 2];
      }
    }
    SubNoMatch(Emphasis, t, 0, |t|);
    assert t[0..|t|] == t;
  }

  lemma StrongMatches(a: string, x: string, b: string)
    requires Plain(a) && Word(x) && Plain(b)
    ensures var t := a + "**" + x + "**" + b;
            MatchAt(Strong, t, |a|) == Some(Hit(|a| + |x| + 4, "<strong>" + x + "</strong>"))
  {
    var t := a + "**" + x + "**" + b;
    var p, c := |a|, |a| + 2 + |x|;
    WordChars(x);
    assert forall k :: p + 2 <= k < c ==> t[k] == x[k - p - 2];
    assert StarPair(t, p) && StarPair(t, c);
    CloseStrongFinds(t, p + 3, c);
    assert t[p + 2..c] == x;
  }

  lemma StrongPass(a: string, x: string, b: string)
    requires Plain(a) && Word(x) && Plain(b)
    ensures Sub(Strong, a + "**" + x + "**" + b, 0) == a + "<strong>" + x + "</strong>" + b
  {
    var t := a + "**" + x + "**" + b;
    var e := |a| + |x| + 4;
    StarsAround(a, "**", x, "**", b);
    StrongMatches(a, x, b);
    SubAround(Strong, t, |a|, Hit(e, "<strong>" + x + "</strong>"));
    Spliced(Sub(Strong, t, 0), t, a, "<strong>", x, "</strong>", b, e);
  }

  /** `**word**` becomes `<strong>word</strong>`: the earlier emphasis pass
      does not take its asterisks. */
  lemma StrongWord(a: string, x: string, b: string)
    requires Plain(a) && Word(x) && Plain(b)
    ensures ProcessMarkdown(a + "**" + x + "**" + b) == a + "<strong>" + x + "</strong>" + b
  {
    var t := a + "**" + x + "**" + b;
    var u := a + "<strong>" + x + "</strong>" + b;
    forall k | 0 <= k < 5
      ensures Sub(Passes[k], t, 0) == t
    {
      assert Lead(Passes[k]) == '\\';
      StarredPlain(a, "**", x, "**", b);
      SubWithoutLead(Passes[k], t);
    }
    assert Passes[5] == Emphasis && Passes[6] == Strong;
    StrongSkipsEmphasis(a, x, b);
    StrongPass(a, x, b);
    TagsPlain(a, "<strong>", x, "</strong>", b);
    ApplyAllAt(Passes, 6, t, u);
  }
}

=== FILE: media.dfy ===
/** `MediaExtractor`: runs the screenshot and clip helpers for a document's
    markers, records the paths it believes were produced, and deletes the
    recorded paths on cleanup. The helpers are oracles: the screenshot
    batch either returns or raises, and the clip helper called for the
    clip at each position of the clip list returns a path or raises. The
    file system is the set of existing paths. */
module MediaExtractor {
  import opened Wrappers
  import opened PyStr
  import opened PyInt
  import opened Paths
  import opened TimeParse
  import opened DocxReader
  import opened Utils
  import ScreenshotExtractor
  import VideoClipper

  /** An extractor: its output directory and `extracted_files`, the
      recorded clip and screenshot paths. */
  datatype Extractor = Extractor(outputDir: string, clips: seq<string>, screenshots: seq<string>)

  /** What the helper calls do. */
  datatype Helpers = Helpers(screenshotBatch: Outcome, clip: nat -> Result<string>)

  /** A fresh extractor records nothing. */
  function NewExtractor(outputDir: string): (e: Extractor)
    ensures e.outputDir == outputDir && e.clips == [] && e.screenshots == []
  {
    Extractor(outputDir, [], [])
  }

  /** `[m for m in markers if m.type == kind]` */
  function OfKind(markers: seq<MediaMarker>, kind: MarkerKind): (r: seq<MediaMarker>)
    ensures |r| <= |markers|
    ensures forall m :: m in r <==> m in markers && m.kind == kind
  {
    if |markers| == 0 then []
    else
      var rest := OfKind(markers[1..], kind);
      assert forall m :: m in markers <==> m == markers[0] || m in markers[1..];
      if markers[0].kind == kind then [markers[0]] + rest else rest
  }

  /** The name recorded for the screenshot at position `i` of the
      screenshot list: `screenshot_NNN_at_H-MM-SS.jpg` directly under the
      output directory. */
  function TrackedScreenshotName(i: nat, timestamp: int): string
  {
    "screenshot_" + FormatPadded(i + 1, 3) + "_at_" + TimeTag(timestamp) + ".jpg"
  }

  /** The path recorded for the screenshot at position `i`. */
  function TrackedPath(outputDir: string, i: nat, timestamp: int): string
  {
    PathJoin(outputDir, TrackedScreenshotName(i, timestamp))
  }

  /** The path computed for every screenshot of the list from position
      `k` on, in order. */
  function TrackedPaths(outputDir: string, shots: seq<MediaMarker>, k: nat): (r: seq<string>)
    requires k <= |shots|
    ensures |r| == |shots| - k
    ensures forall j :: 0 <= j < |r| ==> r[j] == TrackedPath(outputDir, k + j, shots[k + j].timestamp)
    decreases |shots| - k
  {
    if k == |shots| then []
    else
      var rest := TrackedPaths(outputDir, shots, k + 1);
      TrackedCons(outputDir, shots, k, rest);
      [TrackedPath(outputDir, k, shots[k].timestamp)] + rest
  }

  lemma TrackedCons(outputDir: string, shots: seq<MediaMarker>, k: nat, rest: seq<string>)
    requires k < |shots| && |rest| == |shots| - k - 1
    requires forall j :: 0 <= j < |rest| ==> rest[j] == TrackedPath(outputDir, k + 1 + j, shots[k + 1 + j].timestamp)
    ensures var r := [TrackedPath(outputDir, k, shots[k].timestamp)] + rest;
      forall j :: 0 <= j < |r| ==> r[j] == TrackedPath(outputDir, k + j, shots[k + j].timestamp)
  {
    var r := [TrackedPath(outputDir, k, shots[k].timestamp)] + rest;
    forall j | 0 < j < |r|
      ensures r[j] == TrackedPath(outputDir, k + j, shots[k + j].timestamp)
    {
      assert r[j] == rest[j - 1];
      assert k + 1 + (j - 1) == k + j;
    }
  }

  /** The position of the first screenshot from `k` on whose timestamp
      `timedelta` cannot hold, or the list's length. */
  function FirstUnfit(shots: seq<MediaMarker>, k: nat): (n: nat)
    requires k <= |shots|
    ensures k <= n <= |shots|
    ensures forall i :: k <= i < n ==> TimedeltaFits(shots[i].timestamp)
    ensures n < |shots| ==> !TimedeltaFits(shots[n].timestamp)
    decreases |shots| - k
  {
    if k == |shots| || !TimedeltaFits(shots[k].timestamp) then k else FirstUnfit(shots, k + 1)
  }

  /** Every screenshot timestamp lies in `timedelta`'s range. */
  predicate AllFit(shots: seq<MediaMarker>)
  {
    forall i :: 0 <= i < |shots| ==> TimedeltaFits(shots[i].timestamp)
  }

  /** The paths the tracking loop records for a screenshot list: one per
      screenshot, in order, until `timedelta` raises `OverflowError` at
      the first timestamp outside its range; the paths appended before it
      stay recorded. The whole list is recorded exactly when every
      timestamp fits. */
  function TrackedScreenshots(outputDir: string, shots: seq<MediaMarker>): (r: seq<string>)
    ensures |r| <= |shots|
    ensures forall j :: 0 <= j < |r| ==>
      TimedeltaFits(shots[j].timestamp) && r[j] == TrackedPath(outputDir, j, shots[j].timestamp)
    ensures |r| < |shots| ==> !TimedeltaFits(shots[|r|].timestamp)
    ensures |r| == |shots| <==> AllFit(shots)
  {
    TrackedPaths(outputDir, shots, 0)[..FirstUnfit(shots, 0)]
  }

  /** The clip loop from position `k` of the clip list: each successful call
      records the path it returned; the first failure stops the loop.
      Returns whether every call succeeded and the recorded paths. */
  function ClipsFrom(clips: seq<MediaMarker>, h: Helpers, k: nat): (r: (bool, seq<string>))
    requires k <= |clips|
    ensures k + |r.1| <= |clips|
    ensures forall j :: 0 <= j < |r.1| ==> h.clip(k + j) == Ok(r.1[j])
    ensures r.0 <==> k + |r.1| == |clips|
    ensures !r.0 ==> h.clip(k + |r.1|).Err?
    decreases |clips| - k
  {
    if k == |clips| then (true, [])
    else
      match h.clip(k)
      case Err(_) => (false, [])
      case Ok(p) =>
        var (ok, rest) := ClipsFrom(clips, h, k + 1);
        var paths := [p] + rest;
        assert forall j :: 0 < j < |paths| ==> paths[j] == rest[j - 1];
        (ok, paths)
  }

  /** The clip loop records exactly the paths of the calls before the first
      failing one, and succeeds exactly when no call fails. */
  lemma {:induction false} ClipsTracked(clips: seq<MediaMarker>, h: Helpers, k: nat)
    requires k <= |clips|
    ensures ClipsFrom(clips, h, k).0 <==> forall i :: k <= i < |clips| ==> h.clip(i).Ok?
    decreases |clips| - k
  {
    if k < |clips| {
      ClipsTracked(clips, h, k + 1);
    }
  }

  /** The screenshot step: whether it returned, and the extractor after
      it. Nothing is recorded before the batch returns; then the tracking
      loop records one path per screenshot, whether or not its image was
      written, until a timestamp outside `timedelta`'s range raises. */
  function RecordScreenshots(e: Extractor, shots: seq<MediaMarker>, h: Helpers): (r: (bool, Extractor))
    ensures r.1.outputDir == e.outputDir && r.1.clips == e.clips
    ensures |shots| > 0 && h.screenshotBatch.Fail? ==> r == (false, e)
    ensures r.0 <==> |shots| == 0 || (h.screenshotBatch.Pass? && AllFit(shots))
    ensures r.0 ==> r.1 == e.(screenshots := e.screenshots + TrackedScreenshots(e.outputDir, shots))
    ensures h.screenshotBatch.Pass? ==> r.1 == e.(screenshots := e.screenshots + TrackedScreenshots(e.outputDir, shots))
  {
    if |shots| == 0 then (true, e)
    else if h.screenshotBatch.Fail? then (false, e)
    else
      var tracked := TrackedScreenshots(e.outputDir, shots);
      (|tracked| == |shots|, e.(screenshots := e.screenshots + tracked))
  }

  /** The clip step: clip paths are appended one per successful call, in
      order, up to the first failing call; it succeeds exactly when no call
      fails. */
  function RecordClips(e: Extractor, clips: seq<MediaMarker>, h: Helpers): (r: (bool, Extractor))
    ensures r.1.outputDir == e.outputDir && r.1.screenshots == e.screenshots
    ensures |e.clips| <= |r.1.clips| <= |e.clips| + |clips| && r.1.clips[..|e.clips|] == e.clips
    ensures forall j :: |e.clips| <= j < |r.1.clips| ==> h.clip(j - |e.clips|) == Ok(r.1.clips[j])
    ensures r.0 <==> |r.1.clips| == |e.clips| + |clips|
    ensures !r.0 ==> h.clip(|r.1.clips| - |e.clips|).Err?
  {
    if |clips| == 0 then (true, e)
    else
      var (ok, paths) := ClipsFrom(clips, h, 0);
      var cs := e.clips + paths;
      assert forall j :: |e.clips| <= j < |cs| ==> cs[j] == paths[j - |e.clips|];
      (ok, e.(clips := cs))
  }

  /** `extract_all_media`: returns whether everything succeeded and the
      extractor afterwards. It never raises: a missing video, an output
      directory that cannot be made (`dirMade` says whether `os.makedirs`
      returns) or a failing helper gives `false`. Screenshots are handled
      first; when their batch raises, no clip is attempted and nothing is
      recorded, and when their tracking overflows, no clip is attempted
      and the paths tracked before it stay. */
  function ExtractAllMedia(e: Extractor, videoExists: bool, dirMade: bool, markers: seq<MediaMarker>, h: Helpers): (r: (bool, Extractor))
    ensures r.1.outputDir == e.outputDir
    ensures !videoExists || !dirMade ==> r == (false, e)
    ensures videoExists && dirMade && |OfKind(markers, Screenshot)| > 0 && h.screenshotBatch.Fail? ==> r == (false, e)
    ensures (videoExists && dirMade && h.screenshotBatch.Pass? && !AllFit(OfKind(markers, Screenshot))) ==>
      r == (false, e.(screenshots := e.screenshots + TrackedScreenshots(e.outputDir, OfKind(markers, Screenshot))))
  {
    if !videoExists || !dirMade then (false, e)
    else
      var (ok, e1) := RecordScreenshots(e, OfKind(markers, Screenshot), h);
      if !ok then (false, e1)
      else RecordClips(e1, OfKind(markers, Clip), h)
  }

  /** `extract_all_media` succeeds exactly when the video exists, the
      output directory is made, the screenshot batch (if any) returns,
      every screenshot timestamp fits a `timedelta` and every clip call
      succeeds. */
  lemma ExtractionSucceeds(e: Extractor, videoExists: bool, dirMade: bool, markers: seq<MediaMarker>, h: Helpers)
    ensures ExtractAllMedia(e, videoExists, dirMade, markers, h).0 <==>
      && videoExists && dirMade
      && (|OfKind(markers, Screenshot)| > 0 ==> h.screenshotBatch.Pass? && AllFit(OfKind(markers, Screenshot)))
      && forall i :: 0 <= i < |OfKind(markers, Clip)| ==> h.clip(i).Ok?
  {
    ClipsTracked(OfKind(markers, Clip), h, 0);
  }

  /** Every marker is a clip or a screenshot. */
  lemma {:induction false} KindsPartition(markers: seq<MediaMarker>)
    ensures |OfKind(markers, Screenshot)| + |OfKind(markers, Clip)| == |markers|
  {
    if |markers| > 0 {
      KindsPartition(markers[1..]);
    }
  }

  /** The `duration` argument passed for a marker: `None` is not a number. */
  function DurationArg(d: Option<int>): Element
  {
    match d
    case Some(v) => Number(v as real)
    case None => NonNumber
  }

  /** A screenshot a billion days in makes extraction fail even when the
      batch returns (the helper skips a timestamp past the video's end):
      the tracking loop's `timedelta` overflows before anything is
      recorded, and no clip is attempted. */
  lemma HugeScreenshotFails(e: Extractor, m: MediaMarker, h: Helpers)
    requires m.kind == Screenshot && m.timestamp == 86_400_000_000_000 && h.screenshotBatch.Pass?
    ensures ExtractAllMedia(e, true, true, [m], h) == (false, e)
  {
    assert OfKind([m], Screenshot) == [m];
    assert !TimedeltaFits(m.timestamp);
    assert e.screenshots + [] == e.screenshots;
  }

  /** The two helpers as written, called on an existing video. */
  function HelpersAsWritten(videoPath: string, outputDir: string, markers: seq<MediaMarker>,
                            dirMade: Outcome, cap: ScreenshotExtractor.Capture, tools: VideoClipper.ClipTools): Helpers
  {
    var shots, clips := OfKind(markers, Screenshot), OfKind(markers, Clip);
    var timestamps := seq(|shots|, i requires 0 <= i < |shots| => Number(shots[i].timestamp as real));
    var batch := ScreenshotExtractor.ExtractScreenshotsAsWritten(true, videoPath, outputDir, Sequence(timestamps), dirMade, cap);
    Helpers(
      if batch.Ok? then Pass else Fail(batch.error),
      (i: nat) => if i < |clips| then
             VideoClipper.ExtractVideoClipAsWritten(true, videoPath, outputDir, Number(clips[i].timestamp as real),
                                                    DurationArg(clips[i].duration), tools)
           else Err(IndexError))
  }

  /** With the helpers as written, media extraction fails for every
      document that has a marker, and records nothing. */
  lemma MediaFailsAsWritten(e: Extractor, videoPath: string, markers: seq<MediaMarker>,
                            dirMade: Outcome, cap: ScreenshotExtractor.Capture, tools: VideoClipper.ClipTools)
    requires |markers| > 0
    ensures ExtractAllMedia(e, true, true, markers, HelpersAsWritten(videoPath, e.outputDir, markers, dirMade, cap, tools)) == (false, e)
  {
    KindsPartition(markers);
    var h := HelpersAsWritten(videoPath, e.outputDir, markers, dirMade, cap, tools);
    var clips := OfKind(markers, Clip);
    if |OfKind(markers, Screenshot)| == 0 {
      assert h.clip(0).Err?;
      var r := RecordClips(e, clips, h);
      assert |r.1.clips| == |e.clips|;
      assert r.1.clips == e.clips;
    }
  }

  /** A document without markers extracts nothing, and succeeds exactly
      when the video exists and the output directory is made. */
  lemma NoMarkersNoMedia(e: Extractor, videoExists: bool, dirMade: bool, h: Helpers)
    ensures ExtractAllMedia(e, videoExists, dirMade, [], h) == (videoExists && dirMade, e)
  {
    assert OfKind([], Screenshot) == [] && OfKind([], Clip) == [];
  }

  /** Deletes the existing paths among `paths`, one at a time, when every
      removal works: the reference for `RemoveEach`. */
  function RemoveAll(files: set<string>, paths: seq<string>): (r: set<string>)
    ensures forall f :: f in r <==> f in files && f !in paths
  {
    if |paths| == 0 then files
    else
      var rest := RemoveAll(if paths[0] in files then files - {paths[0]} else files, paths[1..]);
      assert forall f :: f in paths <==> f == paths[0] || f in paths[1..];
      rest
  }

  /** Every path of `paths` that exists can be removed. */
  predicate Removable(files: set<string>, paths: seq<string>, canRemove: string -> bool) {
    forall p :: p in paths && p in files ==> canRemove(p)
  }

  /** The loop over one tracked list: each path that exists is handed to
      `os.remove`, which deletes it when `canRemove` holds and raises
      otherwise. Returns the existing paths afterwards and, when a removal
      raised, the position of the path it raised on. */
  function RemoveEach(files: set<string>, paths: seq<string>, canRemove: string -> bool): (r: (set<string>, Option<nat>))
    ensures r.1.None? <==> Removable(files, paths, canRemove)
    ensures r.1.Some? ==> r.1.value < |paths| && paths[r.1.value] in r.0 && !canRemove(paths[r.1.value])
    ensures var n := if r.1.Some? then r.1.value else |paths|;
      n <= |paths| && Removable(files, paths[..n], canRemove) && forall f :: f in r.0 <==> f in files && f !in paths[..n]
  {
    if |paths| == 0 then (files, None)
    else if paths[0] in files && !canRemove(paths[0]) then (files, Some(0))
    else
      var rest := RemoveEach(if paths[0] in files then files - {paths[0]} else files, paths[1..], canRemove);
      var r := (rest.0, if rest.1.Some? then Some(rest.1.value + 1) else None);
      var n := if r.1.Some? then r.1.value else |paths|;
      assert paths[1..][..n - 1] == paths[1..n];
      assert forall f :: f in paths[..n] <==> f == paths[0] || f in paths[1..n];
      assert forall f :: f in paths <==> f == paths[0] || f in paths[1..];
      r
  }

  /** With every removal working, the loop is `RemoveAll`. */
  lemma {:induction false} RemoveEachAllRemovable(files: set<string>, paths: seq<string>, canRemove: string -> bool)
    requires forall p :: p in paths ==> canRemove(p)
    ensures RemoveEach(files, paths, canRemove) == (RemoveAll(files, paths), None)
  {
    if |paths| > 0 {
      RemoveEachAllRemovable(if paths[0] in files then files - {paths[0]} else files, paths[1..], canRemove);
    }
  }

  /** `cleanup_failed_extractions`: the clip list, then the screenshot list
      (the order of `extracted_files`); a list is forgotten once its loop
      finishes. A raising `os.remove` ends the whole cleanup inside its
      `try`: earlier deletions stay done, and the list it raised in and the
      lists after it stay tracked. Returns the existing paths afterwards and
      the extractor. */
  function Cleanup(e: Extractor, files: set<string>, canRemove: string -> bool): (r: (set<string>, Extractor))
    ensures r.0 <= files
    ensures forall f :: f in files && f !in e.clips && f !in e.screenshots ==> f in r.0
    ensures r.1.outputDir == e.outputDir
    ensures Removable(files, e.clips + e.screenshots, canRemove) <==> r.1 == NewExtractor(e.outputDir)
    ensures Removable(files, e.clips + e.screenshots, canRemove) ==>
      forall f :: f in r.0 <==> f in files && f !in e.clips && f !in e.screenshots
    ensures (exists p :: p in e.clips && p in files && !canRemove(p)) ==> r.1 == e
    ensures r.1 == e || r.1.clips == []
    ensures r.1.screenshots == [] || r.1.screenshots == e.screenshots
    ensures forall p :: p in e.clips + e.screenshots && p in files && !canRemove(p) ==> p in r.0
  {
    var (f1, s1) := RemoveEach(files, e.clips, canRemove);
    assert forall p :: p in e.clips + e.screenshots <==> p in e.clips || p in e.screenshots;
    if s1.Some? then (f1, e)
    else
      var (f2, s2) := RemoveEach(f1, e.screenshots, canRemove);
      if s2.Some? then (f2, e.(clips := []))
      else (f2, NewExtractor(e.outputDir))
  }

  /** A cleanup that was stopped by a failing removal can be repeated: once
      every removal works, the second cleanup deletes exactly the tracked
      paths that exist and forgets all of them, as one clean run would
      have. */
  lemma CleanupRetries(e: Extractor, files: set<string>, failing: string -> bool, working: string -> bool)
    requires forall p :: working(p)
    ensures var (f1, e1) := Cleanup(e, files, failing);
      var (f2, e2) := Cleanup(e1, f1, working);
      f2 == Cleanup(e, files, working).0 && e2 == NewExtractor(e.outputDir)
  {
    var (f1, e1) := Cleanup(e, files, failing);
    var (f2, e2) := Cleanup(e1, f1, working);
    var (g, _) := Cleanup(e, files, working);
    assert forall f :: f in f2 <==> f in g;
  }

  lemma NamesShareTail(stem: string, d: string, tag: string)
    ensures stem + "_screenshot_" + d + ("_at_" + tag + ".jpg") == stem + "_" + ("screenshot_" + d + "_at_" + tag + ".jpg")
  {
  }

  /** The helper's screenshot name is the recorded one behind the video's
      stem and an underscore. */
  lemma WrittenNameOfTracked(stem: string, i: nat, t: int)
    requires t >= 0
    ensures ScreenshotExtractor.ScreenshotName(stem, i, t as real) == stem + "_" + TrackedScreenshotName(i, t)
  {
    assert Trunc(t as real) == t;
    NamesShareTail(stem, FormatPadded(i + 1, 3), TimeTag(t));
  }

  lemma TrackedNameSlashFree(name: string, d: string, tag: string)
    requires name == "screenshot_" + d + "_at_" + tag + ".jpg"
    requires '/' !in d && '/' !in tag
    ensures '/' !in name
  {
  }

  lemma LongerBasename(outputDir: string, folder: string, name: string, full: string)
    requires '/' !in name && '/' !in full && |full| > |name|
    ensures Basename(PathJoin(outputDir, name)) != Basename(PathJoin(folder, full))
  {
    BasenameOfJoin(outputDir, name);
    BasenameOfJoin(folder, full);
  }

  /** The recorded screenshot path never names the file the screenshot
      helper writes for the same marker (that name starts with the video's
      stem and sits one folder deeper), so cleanup never deletes a
      screenshot that was actually written. */
  lemma TrackedScreenshotNotWritten(videoPath: string, outputDir: string, i: nat, t: int)
    requires 0 <= t < 86400
    ensures Basename(PathJoin(outputDir, TrackedScreenshotName(i, t)))
         != Basename(PathJoin(ScreenshotExtractor.ScreenshotFolder(videoPath, outputDir),
                              ScreenshotExtractor.ScreenshotName(FileStem(videoPath), i, t as real)))
  {
    var stem := FileStem(videoPath);
    var name := TrackedScreenshotName(i, t);
    WrittenNameOfTracked(stem, i, t);
    TagCharFree(t, '/');
    FileStemSlashFree(videoPath);
    DigitsFree(FormatPadded(i + 1, 3), '/');
    TrackedNameSlashFree(name, FormatPadded(i + 1, 3), TimeTag(t));
    LongerBasename(outputDir, ScreenshotExtractor.ScreenshotFolder(videoPath, outputDir), name, stem + "_" + name);
  }
}

=== FILE: paths.dfy ===
/** The POSIX `os.path` and `pathlib` operations the pipeline uses to name
    its output files. */
module Paths {
  import opened Wrappers

  /** Index of the last occurrence of `c` in `s`. */
  function LastIndexOf(s: string, c: char): (r: Option<nat>)
    ensures r.Some? ==> r.value < |s| && s[r.value] == c
    ensures r.Some? ==> forall j :: r.value < j < |s| ==> s[j] != c
    ensures r.None? ==> forall j :: 0 <= j < |s| ==> s[j] != c
  {
    if |s| == 0 then None
    else if s[|s| - 1] == c then Some(|s| - 1)
    else LastIndexOf(s[..|s| - 1], c)
  }

  /** `os.path.join(a, b)` on POSIX: an absolute `b` replaces `a`; otherwise
      a '/' is inserted unless `a` is empty or already ends in one. */
  function PathJoin(a: string, b: string): (r: string)
    ensures |b| > 0 && b[0] == '/' ==> r == b
    ensures (|b| == 0 || b[0] != '/') && |a| > 0 && a[|a| - 1] != '/' ==> r == a + "/" + b
    ensures (|b| == 0 || b[0] != '/') && (|a| == 0 || a[|a| - 1] == '/') ==> r == a + b
  {
    if |b| > 0 && b[0] == '/' then b
    else if |a| == 0 || a[|a| - 1] == '/' then a + b
    else a + "/" + b
  }

  /** `os.path.basename(p)`: everything after the last '/'. */
  function Basename(p: string): (r: string)
    ensures forall j :: 0 <= j < |r| ==> r[j] != '/'
    ensures |r| <= |p| && r == p[|p| - |r|..]
  {
    match LastIndexOf(p, '/')
    case None => p
    case Some(i) => p[i + 1..]
  }

  predicate AllDots(s: string) {
    forall j :: 0 <= j < |s| ==> s[j] == '.'
  }

  /** `os.path.splitext(name)[0]` for a name without '/': the text before the
      last '.', unless everything before that dot is itself dots (a leading
      dot starts a hidden name, not an extension). */
  function SplitextRoot(name: string): (r: string)
  {
    match LastIndexOf(name, '.')
    case None => name
    case Some(d) => if AllDots(name[..d]) then name else name[..d]
  }

  /** `os.path.splitext(os.path.basename(p))[0]`. */
  function FileStem(p: string): string
  {
    SplitextRoot(Basename(p))
  }

  /** `Path(p).name` on POSIX: trailing slashes and `.` components are
      dropped before the last component is taken. */
  function PathName(p: string): (r: string)
    ensures forall j :: 0 <= j < |r| ==> r[j] != '/'
    ensures r != "."
  {
    if |p| > 0 && p[|p| - 1] == '/' then PathName(p[..|p| - 1])
    else if Basename(p) == "." then PathName(p[..|p| - 1])
    else Basename(p)
  }

  /** A trailing `.` component does not change the name: `Path("a/.")`
      is named `a`. */
  lemma DotComponentDropped(p: string)
    ensures PathName(p + "/.") == PathName(p)
  {
    var q := p + "/.";
    assert LastIndexOf(q, '/') == Some(|p|) by {
      assert q[..|q| - 1] == p + "/";
    }
    assert Basename(q) == ".";
    assert q[..|q| - 1][..|p|] == p;
  }

  /** `Path(p).stem`: the name before its last '.', when that dot is neither
      the first nor the last character of the name. */
  function PathStem(p: string): string
  {
    var name := PathName(p);
    match LastIndexOf(name, '.')
    case None => name
    case Some(d) => if 0 < d < |name| - 1 then name[..d] else name
  }

  lemma LastIndexOfAt(s: string, c: char, k: nat)
    requires k < |s| && s[k] == c
    requires forall j :: k < j < |s| ==> s[j] != c
    ensures LastIndexOf(s, c) == Some(k)
  {
    if k < |s| - 1 {
      LastIndexOfAt(s[..|s| - 1], c, k);
    }
  }

  /** A '/'-free name after a directory part that ends in '/' is the
      basename. */
  lemma BasenameAfterSlash(pre: string, name: string)
    requires |pre| == 0 || pre[|pre| - 1] == '/'
    requires forall j :: 0 <= j < |name| ==> name[j] != '/'
    ensures Basename(pre + name) == name
  {
    var p := pre + name;
    if |pre| == 0 {
      assert p == name;
    } else {
      assert forall j :: |pre| - 1 < j < |p| ==> p[j] == name[j - |pre|];
      LastIndexOfAt(p, '/', |pre| - 1);
      assert p[|pre|..] == name;
    }
  }

  /** Joining a plain file name to a directory and taking the basename
      gives the file name back. */
  lemma BasenameOfJoin(dir: string, name: string)
    requires forall j :: 0 <= j < |name| ==> name[j] != '/'
    ensures Basename(PathJoin(dir, name)) == name
  {
    if |dir| == 0 || dir[|dir| - 1] == '/' {
      BasenameAfterSlash(dir, name);
    } else {
      assert dir + "/" + name == (dir + "/") + name;
      BasenameAfterSlash(dir + "/", name);
    }
  }

  /** In `stem + "." + ext` with a dot-free `ext`, the last dot is the one
      just after `stem`. */
  lemma LastDotOfExtension(stem: string, ext: string)
    requires forall j :: 0 <= j < |ext| ==> ext[j] != '.'
    ensures LastIndexOf(stem + "." + ext, '.') == Some(|stem|)
    ensures (stem + "." + ext)[..|stem|] == stem
  {
    var name := stem + "." + ext;
    assert name == stem + ("." + ext);
    assert name[|stem|] == '.';
    forall j | |stem| < j < |name| ensures name[j] != '.' {
      assert name[j] == ext[j - |stem| - 1];
    }
    LastIndexOfAt(name, '.', |stem|);
    assert name[..|stem|] == stem;
  }

  /** Adding an extension and splitting it off again gives the stem back,
      for every stem that has a character other than '.'. */
  lemma SplitextRootOfExtension(stem: string, ext: string)
    requires !AllDots(stem)
    requires forall j :: 0 <= j < |ext| ==> ext[j] != '.'
    ensures SplitextRoot(stem + "." + ext) == stem
  {
    LastDotOfExtension(stem, ext);
  }

  /** A file named `stem.ext` in any directory has that stem back. */
  lemma StemOfJoined(dir: string, name: string, stem: string, ext: string)
    requires name == stem + "." + ext
    requires forall j :: 0 <= j < |stem| ==> stem[j] != '/'
    requires forall j :: 0 <= j < |ext| ==> ext[j] != '.' && ext[j] != '/'
    requires !AllDots(stem)
    ensures Basename(PathJoin(dir, name)) == name
    ensures FileStem(PathJoin(dir, name)) == stem
  {
    forall j | 0 <= j < |name| ensures name[j] != '/' {
      if j < |stem| { assert name[j] == stem[j]; }
      else if j > |stem| { assert name[j] == ext[j - |stem| - 1]; }
    }
    BasenameOfJoin(dir, name);
    SplitextRootOfExtension(stem, ext);
  }

  /** The two ways the source derives a video's stem agree on names with a
      real extension and no trailing slash. */
  lemma StemsAgree(dir: string, stem: string, ext: string)
    requires forall j :: 0 <= j < |stem| ==> stem[j] != '/'
    requires forall j :: 0 <= j < |ext| ==> ext[j] != '.' && ext[j] != '/'
    requires |stem| > 0 && stem[0] != '.' && |ext| > 0
    ensures FileStem(PathJoin(dir, stem + "." + ext)) == stem
    ensures PathStem(PathJoin(dir, stem + "." + ext)) == stem
  {
    var name := stem + "." + ext;
    assert forall j :: 0 <= j < |name| ==> name[j] != '/' by {
      forall j | 0 <= j < |name| ensures name[j] != '/' {
        if j < |stem| { assert name[j] == stem[j]; }
        else if j > |stem| { assert name[j] == ext[j - |stem| - 1]; }
      }
    }
    BasenameOfJoin(dir, name);
    assert !AllDots(stem) by { assert stem[0] != '.'; }
    SplitextRootOfExtension(stem, ext);
    LastDotOfExtension(stem, ext);
    var p := PathJoin(dir, name);
    assert p[|p| - 1] == ext[|ext| - 1];
    assert PathName(p) == name;
  }

  /** A file stem never holds a '/'. */
  lemma FileStemSlashFree(p: string)
    ensures '/' !in FileStem(p)
  {
    var name := Basename(p);
    match LastIndexOf(name, '.')
    case None =>
    case Some(d) =>
      assert forall j :: 0 <= j < d ==> name[..d][j] == name[j];
  }
}

=== FILE: processor.dfy ===
/** `HighlightReelProcessor`: the tag-driven instruction parser
    (`[Title]`, `[Segment]`, `[Description]`, `[CLIP …]`) and the order in
    which `process_reel` makes its title cards and clips and assembles them.
    The card rendering and the video calls are moviepy's: their file names
    and order are modelled, and whether each call succeeds is an oracle. */
module HighlightReelProcessor {
  import opened Wrappers
  import opened PyStr
  import opened PyInt
  import opened Paths
  import opened TimeParse

  /** One `[Description]` + `[CLIP …]` pair: the description text, the raw
      `timestamp` attribute and the `duration` attribute's digits as a number. */
  datatype Clip = Clip(description: string, timestamp: string, duration: nat)

  datatype Segment = Segment(title: string, clips: seq<Clip>)

  /** The parser's variables between two lines: the segments kept so far,
      the open segment, the description of the clip being built (the
      dictionary `current_clip`) and the main title. */
  datatype ParseState = ParseState(segments: seq<Segment>, current: Option<Segment>, pending: Option<string>, mainTitle: Option<string>)

  const Initial := ParseState([], None, None, None)

  const TitleTag := "[Title]"
  const SegmentTag := "[Segment]"
  const DescriptionTag := "[Description]"
  const ClipTag := "[CLIP"
  const TimestampOpen := "timestamp=\""
  const DurationOpen := "\" duration=\""

  /** A clip as the parser can produce it: the timestamp capture
      `[^"]+` is non-empty and holds no quote. */
  predicate ClipOk(c: Clip) {
    |c.timestamp| > 0 && '"' !in c.timestamp
  }

  predicate ClipsOk(cs: seq<Clip>) {
    forall j :: 0 <= j < |cs| ==> ClipOk(cs[j])
  }

  /** Every kept segment has at least one clip, and every clip is well formed. */
  predicate SegmentsOk(segs: seq<Segment>) {
    forall k :: 0 <= k < |segs| ==> |segs[k].clips| > 0 && ClipsOk(segs[k].clips)
  }

  predicate StateOk(st: ParseState) {
    SegmentsOk(st.segments) && (st.current.Some? ==> ClipsOk(st.current.value.clips))
  }

  // ---------------------------------------------------------------------
  // `re.search(r'timestamp="([^"]+)" duration="(\d+)"', line)`

  predicate NotQuote(c: char) { c != '"' }

  /** The pattern anchored at `p`. Neither `[^"]+` nor `\d+` can give back
      a character and still be followed by the `"` the pattern needs next,
      so each run is taken whole and the match at `p` is unique. */
  function MatchAt(line: string, p: nat): (r: Option<(string, nat)>)
    ensures r.Some? ==> |r.value.0| > 0 && '"' !in r.value.0
    ensures r.Some? ==> IsAt(line, TimestampOpen, p)
  {
    if !IsAt(line, TimestampOpen, p) then None
    else
      var a := p + |TimestampOpen|;
      var e := RunWhile(line, a, NotQuote);
      if e == a || !IsAt(line, DurationOpen, e) then None
      else
        var b := e + |DurationOpen|;
        var d := RunWhile(line, b, IsDigit);
        if d == b || d == |line| || line[d] != '"' then None
        else
          assert forall k :: 0 <= k < e - a ==> line[a..e][k] == line[a + k];
          Some((line[a..e], DigitsValue(line[b..d])))
  }

  /** The leftmost match at or after `p`. */
  function ClipSearch(line: string, p: nat): (r: Option<(string, nat)>)
    ensures r.Some? ==> |r.value.0| > 0 && '"' !in r.value.0
    decreases |line| - p
  {
    if p >= |line| then None
    else match MatchAt(line, p)
      case Some(m) => Some(m)
      case None => ClipSearch(line, p + 1)
  }

  // ---------------------------------------------------------------------
  // The line loop

  /** The open segment goes to the kept list only when it has a clip. */
  function Close(st: ParseState): (r: seq<Segment>)
    ensures st.current.Some? && |st.current.value.clips| > 0 ==> r == st.segments + [st.current.value]
    ensures !(st.current.Some? && |st.current.value.clips| > 0) ==> r == st.segments
    ensures StateOk(st) ==> SegmentsOk(r)
  {
    if st.current.Some? && |st.current.value.clips| > 0 then st.segments + [st.current.value]
    else st.segments
  }

  /** One stripped, non-blank line of the loop; every other line leaves
      the state alone. A `[Description]` line outside a segment is
      ignored, inside one it replaces any pending description; a `[CLIP`
      line counts only with an open segment, a pending description and a
      match of the attribute pattern. */
  function StepLine(st: ParseState, line: string): (r: ParseState)
    ensures |st.segments| <= |r.segments| <= |st.segments| + 1 && r.segments[..|st.segments|] == st.segments
  {
    if line == [] then st
    else if StartsWith(line, TitleTag) then st.(mainTitle := Some(Strip(line[|TitleTag|..])))
    else if StartsWith(line, SegmentTag) then
      st.(segments := Close(st), current := Some(Segment(Strip(line[|SegmentTag|..]), [])))
    else if StartsWith(line, DescriptionTag) then
      if st.current.Some? then st.(pending := Some(Strip(line[|DescriptionTag|..]))) else st
    else if StartsWith(line, ClipTag) && st.current.Some? && st.pending.Some? then
      match ClipSearch(line, 0)
      case None => st
      case Some((ts, n)) =>
        var seg := st.current.value;
        st.(current := Some(seg.(clips := seg.clips + [Clip(st.pending.value, ts, n)])), pending := None)
    else st
  }

  /** The loop over the lines, each stripped first. Segments already closed
      stay as they are, and each line closes at most one more. */
  function Run(lines: seq<string>, st: ParseState): (r: ParseState)
    ensures |st.segments| <= |r.segments| <= |st.segments| + |lines|
    ensures r.segments[..|st.segments|] == st.segments
    decreases |lines|
  {
    if |lines| == 0 then st
    else
      var before := Run(lines[..|lines| - 1], st);
      var r := StepLine(before, Strip(lines[|lines| - 1]));
      assert r.segments[..|before.segments|] == before.segments;
      assert r.segments[..|st.segments|] == r.segments[..|before.segments|][..|st.segments|];
      r
  }

  /** Each line keeps the kept segments non-empty and every clip well formed. */
  lemma StepKeepsOk(st: ParseState, line: string)
    requires StateOk(st)
    ensures StateOk(StepLine(st, line))
  {
  }

  lemma {:induction false} RunKeepsOk(lines: seq<string>, st: ParseState)
    requires StateOk(st)
    ensures StateOk(Run(lines, st))
    decreases |lines|
  {
    if |lines| > 0 {
      RunKeepsOk(lines[..|lines| - 1], st);
      StepKeepsOk(Run(lines[..|lines| - 1], st), Strip(lines[|lines| - 1]));
    }
  }

  /** `_parse_instructions(instructions)`: the main title and the segments
      that have at least one clip; no such segment is a ValueError. */
  function ParseInstructions(instructions: string): (r: Result<(Option<string>, seq<Segment>)>)
    ensures r.Err? ==> r.error == ValueError
    ensures r.Ok? ==> |r.value.1| > 0 && SegmentsOk(r.value.1)
    ensures r.Err? <==> Close(Run(Split(Strip(instructions), "\n"), Initial)) == []
  {
    var st := Run(Split(Strip(instructions), "\n"), Initial);
    RunKeepsOk(Split(Strip(instructions), "\n"), Initial);
    var segs := Close(st);
    if |segs| == 0 then Err(ValueError) else Ok((st.mainTitle, segs))
  }

  lemma {:induction false} RunAppend(a: seq<string>, b: seq<string>, st: ParseState)
    ensures Run(a + b, st) == Run(b, Run(a, st))
    decreases |b|
  {
    if |b| == 0 {
      assert a + b == a;
    } else {
      var b' := b[..|b| - 1];
      var ab := a + b;
      assert ab[..|ab| - 1] == a + b';
      assert ab[|ab| - 1] == b[|b| - 1];
      RunAppend(a, b', st);
      RunLast(ab, st);
      RunLast(b, Run(a, st));
    }
  }

  /** The loop's last step, on its own. */
  lemma RunLast(lines: seq<string>, st: ParseState)
    requires |lines| > 0
    ensures Run(lines, st) == StepLine(Run(lines[..|lines| - 1], st), Strip(lines[|lines| - 1]))
  {
  }

  /** A line that starts with one tag does not start with another whose
      second character differs. */
  lemma TagsDiffer(line: string, a: string, b: string)
    requires StartsWith(line, a) && |a| > 1 && |b| > 1 && a[1] != b[1]
    ensures !StartsWith(line, b)
  {
    assert line[1] == line[..|a|][1] == a[1];
    if |b| <= |line| {
      assert line[..|b|][1] == line[1];
    }
  }

  /** What the loop ignores: a description outside a segment, and a clip
      line with no pending description. */
  lemma StepIgnores(st: ParseState, line: string)
    ensures StartsWith(line, DescriptionTag) && st.current.None? ==> StepLine(st, line) == st
    ensures StartsWith(line, ClipTag) && st.pending.None? ==> StepLine(st, line) == st
  {
    if StartsWith(line, DescriptionTag) {
      TagsDiffer(line, DescriptionTag, TitleTag);
      TagsDiffer(line, DescriptionTag, SegmentTag);
    }
    if StartsWith(line, ClipTag) {
      TagsDiffer(line, ClipTag, TitleTag);
      TagsDiffer(line, ClipTag, SegmentTag);
      TagsDiffer(line, ClipTag, DescriptionTag);
    }
  }

  // ---------------------------------------------------------------------
  // The last `[Title]` line wins

  predicate IsTitleLine(raw: string) {
    StartsWith(Strip(raw), TitleTag)
  }

  /** No line of `lines` is a title line. */
  predicate NoTitle(lines: seq<string>)
    decreases |lines|
  {
    |lines| == 0 || (!IsTitleLine(lines[|lines| - 1]) && NoTitle(lines[..|lines| - 1]))
  }

  lemma StepKeepsTitle(st: ParseState, line: string)
    requires !StartsWith(line, TitleTag)
    ensures StepLine(st, line).mainTitle == st.mainTitle
  {
  }

  /** Lines without a title line leave the main title as it was. */
  lemma {:induction false} RunKeepsTitle(lines: seq<string>, st: ParseState)
    requires NoTitle(lines)
    ensures Run(lines, st).mainTitle == st.mainTitle
    decreases |lines|
  {
    if |lines| > 0 {
      var init := lines[..|lines| - 1];
      RunKeepsTitle(init, st);
      StepKeepsTitle(Run(init, st), Strip(lines[|lines| - 1]));
    }
  }

  /** The main title comes from the last title line: when line `k` is a
      title line and none follows it, the result is that line's text. */
  lemma LastTitleWins(lines: seq<string>, st: ParseState, k: nat)
    requires k < |lines| && IsTitleLine(lines[k])
    requires NoTitle(lines[k + 1..])
    ensures Run(lines, st).mainTitle == Some(Strip(Strip(lines[k])[|TitleTag|..]))
  {
    var head, tail := lines[..k + 1], lines[k + 1..];
    assert lines == head + tail;
    RunAppend(head, tail, st);
    assert head[..k] == lines[..k] && head[k] == lines[k];
    RunKeepsTitle(tail, Run(head, st));
  }

  // ---------------------------------------------------------------------
  // Writing instructions: the text the parser reads back exactly

  /** Text the parser gives back as written: no line break, and no
      whitespace at either end. */
  predicate PlainText(v: string) {
    '\n' !in v && (v == [] || (!IsSpace(v[0]) && !IsSpace(v[|v| - 1])))
  }

  predicate ClipWritable(c: Clip) {
    PlainText(c.description) && ClipOk(c) && '\n' !in c.timestamp
  }

  predicate ClipsWritable(cs: seq<Clip>) {
    forall j :: 0 <= j < |cs| ==> ClipWritable(cs[j])
  }

  /** A main title and segments that instructions can express: plain
      texts, at least one segment, and at least one clip per segment. */
  predicate Writable(mainTitle: Option<string>, segs: seq<Segment>) {
    && (mainTitle.Some? ==> PlainText(mainTitle.value))
    && |segs| > 0
    && forall k :: 0 <= k < |segs| ==>
         PlainText(segs[k].title) && |segs[k].clips| > 0 && ClipsWritable(segs[k].clips)
  }

  function TaggedLine(tag: string, v: string): string {
    tag + " " + v
  }

  function ClipLine(c: Clip): string {
    ClipTag + " " + TimestampOpen + c.timestamp + DurationOpen + NatToString(c.duration) + "\"]"
  }

  function ClipLines(cs: seq<Clip>): seq<string>
    decreases |cs|
  {
    if |cs| == 0 then []
    else
      var c := cs[|cs| - 1];
      ClipLines(cs[..|cs| - 1]) + [TaggedLine(DescriptionTag, c.description), ClipLine(c)]
  }

  function SegmentLines(segs: seq<Segment>): seq<string>
    decreases |segs|
  {
    if |segs| == 0 then []
    else
      var s := segs[|segs| - 1];
      SegmentLines(segs[..|segs| - 1]) + ([TaggedLine(SegmentTag, s.title)] + ClipLines(s.clips))
  }

  function TitleLines(mainTitle: Option<string>): seq<string> {
    if mainTitle.Some? then [TaggedLine(TitleTag, mainTitle.value)] else []
  }

  /** Instructions for a reel: an optional `[Title]` line, then per
      segment a `[Segment]` line and a `[Description]` + `[CLIP …]` pair
      per clip. */
  function Instructions(mainTitle: Option<string>, segs: seq<Segment>): string {
    Join(TitleLines(mainTitle) + SegmentLines(segs), "\n")
  }

  /** A tagged line strips to a line starting with its tag whose rest
      strips to the value. */
  lemma TaggedRead(tag: string, v: string)
    requires |tag| > 1 && tag[0] == '[' && tag[|tag| - 1] == ']' && PlainText(v)
    ensures StartsWith(Strip(TaggedLine(tag, v)), tag)
    ensures Strip(Strip(TaggedLine(tag, v))[|tag|..]) == v
  {
    var t := TaggedLine(tag, v);
    if v == [] {
      assert t == tag + " ";
      StripTrailingSpace(tag);
      assert Strip(t)[|tag|..] == [];
    } else {
      assert t[0] == tag[0] && t[|t| - 1] == v[|v| - 1];
      StripUnchanged(t);
      assert t[..|tag|] == tag;
      assert t[|tag|..] == " " + v;
      StripOneSpace(v);
    }
  }

  lemma ReadTitleLine(st: ParseState, v: string)
    requires PlainText(v)
    ensures StepLine(st, Strip(TaggedLine(TitleTag, v))) == st.(mainTitle := Some(v))
  {
    TaggedRead(TitleTag, v);
  }

  lemma ReadSegmentLine(st: ParseState, v: string)
    requires PlainText(v)
    ensures StepLine(st, Strip(TaggedLine(SegmentTag, v))) == st.(segments := Close(st), current := Some(Segment(v, [])))
  {
    TaggedRead(SegmentTag, v);
    TagsDiffer(Strip(TaggedLine(SegmentTag, v)), SegmentTag, TitleTag);
  }

  lemma ReadDescriptionLine(st: ParseState, v: string)
    requires PlainText(v) && st.current.Some?
    ensures StepLine(st, Strip(TaggedLine(DescriptionTag, v))) == st.(pending := Some(v))
  {
    var line := Strip(TaggedLine(DescriptionTag, v));
    TaggedRead(DescriptionTag, v);
    TagsDiffer(line, DescriptionTag, TitleTag);
    TagsDiffer(line, DescriptionTag, SegmentTag);
  }

  /** A run of non-quotes laid at `a` and followed by a quote ends there. */
  lemma RunToQuote(line: string, a: nat, ts: string)
    requires IsAt(line, ts, a) && '"' !in ts
    requires a + |ts| < |line| && line[a + |ts|] == '"'
    ensures RunWhile(line, a, NotQuote) == a + |ts|
  {
    forall k | a <= k < a + |ts| ensures NotQuote(line[k]) {
      assert line[k] == line[a..a + |ts|][k - a] == ts[k - a];
    }
    RunWhileStops(line, a, a + |ts|, NotQuote);
  }

  /** A digit string laid at `b` and followed by a quote is the whole run. */
  lemma RunToDigitsEnd(line: string, b: nat, digits: string)
    requires IsAt(line, digits, b) && AllDigits(digits)
    requires b + |digits| < |line| && line[b + |digits|] == '"'
    ensures RunWhile(line, b, IsDigit) == b + |digits|
  {
    forall k | b <= k < b + |digits| ensures IsDigit(line[k]) {
      assert line[k] == line[b..b + |digits|][k - b] == digits[k - b];
    }
    RunWhileStops(line, b, b + |digits|, IsDigit);
  }

  /** The attribute pattern matches at `p` when both runs end where the
      laid-out text says. */
  lemma MatchAtLaid(line: string, p: nat, e: nat, d: nat)
    requires IsAt(line, TimestampOpen, p)
    requires p + |TimestampOpen| < e && RunWhile(line, p + |TimestampOpen|, NotQuote) == e
    requires IsAt(line, DurationOpen, e)
    requires e + |DurationOpen| < d < |line| && RunWhile(line, e + |DurationOpen|, IsDigit) == d
    requires line[d] == '"'
    ensures MatchAt(line, p) == Some((line[p + |TimestampOpen|..e], DigitsValue(line[e + |DurationOpen|..d])))
  {
  }

  /** The leftmost match is the first one after positions where the
      pattern cannot start. */
  lemma {:induction false} SearchSkips(line: string, p: nat, q: nat)
    requires p <= q < |line|
    requires forall k :: p <= k < q ==> !IsAt(line, TimestampOpen, k)
    requires MatchAt(line, q).Some?
    ensures ClipSearch(line, p) == MatchAt(line, q)
    decreases q - p
  {
    if p < q {
      SearchSkips(line, p + 1, q);
    }
  }

  lemma ClipLineLaid(c: Clip) returns (pre: string, digits: string)
    requires ClipOk(c)
    ensures pre == ClipTag + " " && digits == NatToString(c.duration)
    ensures ClipLine(c) == pre + TimestampOpen + c.timestamp + DurationOpen + digits + "\"]"
    ensures IsAt(ClipLine(c), TimestampOpen, |pre|)
    ensures IsAt(ClipLine(c), c.timestamp, |pre| + |TimestampOpen|)
    ensures IsAt(ClipLine(c), DurationOpen, |pre| + |TimestampOpen| + |c.timestamp|)
    ensures IsAt(ClipLine(c), digits, |pre| + |TimestampOpen| + |c.timestamp| + |DurationOpen|)
    ensures ClipLine(c)[|pre| + |TimestampOpen| + |c.timestamp| + |DurationOpen| + |digits|] == '"'
  {
    pre, digits := ClipTag + " ", NatToString(c.duration);
    var line := ClipLine(c);
    var a := |pre| + |TimestampOpen|;
    var e := a + |c.timestamp|;
    var b := e + |DurationOpen|;
    assert line[|pre|..a] == TimestampOpen;
    assert line[a..e] == c.timestamp;
    assert line[e..b] == DurationOpen;
    assert line[b..b + |digits|] == digits;
  }

  /** Where the pieces of a written clip line start: the timestamp at
      `a`, the duration digits at `b`; the closing quote is at `d`. */
  function TimestampStart(c: Clip): nat { |ClipTag| + 1 + |TimestampOpen| }
  function DigitsStart(c: Clip): nat { TimestampStart(c) + |c.timestamp| + |DurationOpen| }
  function DigitsEnd(c: Clip): nat { DigitsStart(c) + |NatToString(c.duration)| }

  lemma ClipLineQuoteRun(c: Clip)
    requires ClipOk(c)
    ensures RunWhile(ClipLine(c), TimestampStart(c), NotQuote) == TimestampStart(c) + |c.timestamp|
    ensures ClipLine(c)[TimestampStart(c)..TimestampStart(c) + |c.timestamp|] == c.timestamp
  {
    var line := ClipLine(c);
    var pre, digits := ClipLineLaid(c);
    var a := TimestampStart(c);
    var e := a + |c.timestamp|;
    assert line[e] == line[e..e + |DurationOpen|][0] == DurationOpen[0];
    RunToQuote(line, a, c.timestamp);
  }

  lemma ClipLineDigitRun(c: Clip)
    requires ClipOk(c)
    ensures RunWhile(ClipLine(c), DigitsStart(c), IsDigit) == DigitsEnd(c)
    ensures DigitsEnd(c) < |ClipLine(c)| && ClipLine(c)[DigitsEnd(c)] == '"'
    ensures DigitsValue(ClipLine(c)[DigitsStart(c)..DigitsEnd(c)]) == c.duration
  {
    var line := ClipLine(c);
    var pre, digits := ClipLineLaid(c);
    var b := DigitsStart(c);
    RunToDigitsEnd(line, b, digits);
    assert line[b..DigitsEnd(c)] == digits;
    NatToStringValue(c.duration);
  }

  /** A written clip line strips to itself, starts with `[CLIP` and its
      first match gives the clip's timestamp and duration back. */
  lemma ClipLineRead(c: Clip)
    requires ClipOk(c)
    ensures Strip(ClipLine(c)) == ClipLine(c)
    ensures StartsWith(ClipLine(c), ClipTag)
    ensures ClipSearch(ClipLine(c), 0) == Some((c.timestamp, c.duration))
  {
    ClipLineEnds(c);
    ClipLineSearch(c);
  }

  lemma ClipLineEnds(c: Clip)
    requires ClipOk(c)
    ensures Strip(ClipLine(c)) == ClipLine(c)
    ensures StartsWith(ClipLine(c), ClipTag)
  {
    var line := ClipLine(c);
    var pre, digits := ClipLineLaid(c);
    assert line[0] == '[' && line[|line| - 1] == ']';
    StripUnchanged(line);
    assert line[..|ClipTag|] == ClipTag;
  }

  lemma ClipLineSearch(c: Clip)
    requires ClipOk(c)
    ensures ClipSearch(ClipLine(c), 0) == Some((c.timestamp, c.duration))
  {
    var line := ClipLine(c);
    var pre, digits := ClipLineLaid(c);
    ClipLineQuoteRun(c);
    ClipLineDigitRun(c);
    MatchAtLaid(line, |pre|, TimestampStart(c) + |c.timestamp|, DigitsEnd(c));
    ClipPrefixFree();
    ClipSearchFromStart(line, pre);
  }

  /** The pattern cannot start at a character other than `t`. */
  lemma NoMatchAt(line: string, k: nat)
    requires k < |line| && line[k] != 't'
    ensures !IsAt(line, TimestampOpen, k)
  {
    if k + |TimestampOpen| <= |line| {
      assert line[k..k + |TimestampOpen|][0] == line[k];
    }
  }

  lemma ClipPrefixFree()
    ensures 't' !in ClipTag + " "
  {
  }

  /** No match can start inside a leading text without `t`. */
  lemma ClipSearchFromStart(line: string, pre: string)
    requires 't' !in pre && |pre| < |line|
    requires MatchAt(line, |pre|).Some?
    requires line[..|pre|] == pre
    ensures ClipSearch(line, 0) == MatchAt(line, |pre|)
  {
    forall k | 0 <= k < |pre| ensures !IsAt(line, TimestampOpen, k) {
      assert line[k] == line[..|pre|][k] == pre[k];
      NoMatchAt(line, k);
    }
    SearchSkips(line, 0, |pre|);
  }

  /** A matching `[CLIP` line with an open segment and a pending
      description appends the clip and clears the pending description. */
  lemma StepClipMatch(st: ParseState, line: string, ts: string, n: nat)
    requires StartsWith(line, ClipTag) && ClipSearch(line, 0) == Some((ts, n))
    requires st.current.Some? && st.pending.Some?
    ensures StepLine(st, line) ==
      st.(current := Some(st.current.value.(clips := st.current.value.clips + [Clip(st.pending.value, ts, n)])), pending := None)
  {
    TagsDiffer(line, ClipTag, TitleTag);
    TagsDiffer(line, ClipTag, SegmentTag);
    TagsDiffer(line, ClipTag, DescriptionTag);
  }

  lemma ReadClipLine(st: ParseState, c: Clip)
    requires ClipOk(c) && st.current.Some? && st.pending.Some?
    ensures StepLine(st, Strip(ClipLine(c))) ==
      st.(current := Some(st.current.value.(clips := st.current.value.clips + [Clip(st.pending.value, c.timestamp, c.duration)])), pending := None)
  {
    ClipLineRead(c);
    StepClipMatch(st, ClipLine(c), c.timestamp, c.duration);
  }

  /** The pairs of a segment's clips, read in order, append the clips. */
  lemma {:induction false} RunClips(cs: seq<Clip>, st: ParseState)
    requires st.current.Some? && st.pending.None? && ClipsWritable(cs)
    ensures Run(ClipLines(cs), st) == st.(current := Some(st.current.value.(clips := st.current.value.clips + cs)))
    decreases |cs|
  {
    if |cs| == 0 {
      assert st.current.value.clips + cs == st.current.value.clips;
    } else {
      var init := cs[..|cs| - 1];
      assert ClipsWritable(init) by {
        forall j | 0 <= j < |init| ensures ClipWritable(init[j]) {
          assert init[j] == cs[j];
        }
      }
      RunClips(init, st);
      RunClipsSnoc(cs, st);
      RunPairAfter(cs, st);
    }
  }

  /** The pair of the last clip runs after the lines of the others. */
  lemma RunClipsSnoc(cs: seq<Clip>, st: ParseState)
    requires |cs| > 0
    ensures Run(ClipLines(cs), st)
         == Run([TaggedLine(DescriptionTag, cs[|cs| - 1].description), ClipLine(cs[|cs| - 1])], Run(ClipLines(cs[..|cs| - 1]), st))
  {
    var c := cs[|cs| - 1];
    RunAppend(ClipLines(cs[..|cs| - 1]), [TaggedLine(DescriptionTag, c.description), ClipLine(c)], st);
  }

  /** The pair of the last clip after the others have been appended. */
  lemma RunPairAfter(cs: seq<Clip>, st: ParseState)
    requires |cs| > 0 && st.current.Some? && st.pending.None? && ClipWritable(cs[|cs| - 1])
    ensures Run([TaggedLine(DescriptionTag, cs[|cs| - 1].description), ClipLine(cs[|cs| - 1])],
                st.(current := Some(st.current.value.(clips := st.current.value.clips + cs[..|cs| - 1]))))
         == st.(current := Some(st.current.value.(clips := st.current.value.clips + cs)))
  {
    var seg := st.current.value;
    RunPair(st.(current := Some(seg.(clips := seg.clips + cs[..|cs| - 1]))), cs[|cs| - 1]);
    AppendLast(seg.clips, cs);
  }

  lemma AppendLast<T>(a: seq<T>, cs: seq<T>)
    requires |cs| > 0
    ensures a + cs[..|cs| - 1] + [cs[|cs| - 1]] == a + cs
  {
    assert cs[..|cs| - 1] + [cs[|cs| - 1]] == cs;
  }

  lemma RunTwo(a: string, b: string, st: ParseState)
    ensures Run([a, b], st) == StepLine(StepLine(st, Strip(a)), Strip(b))
  {
    assert [a, b][..1] == [a] && [a][..0] == [];
    assert Run([a], st) == StepLine(Run([], st), Strip(a));
    assert Run([a, b], st) == StepLine(Run([a], st), Strip(b));
  }

  /** One `[Description]` + `[CLIP …]` pair appends its clip. */
  lemma RunPair(st: ParseState, c: Clip)
    requires st.current.Some? && ClipWritable(c)
    ensures Run([TaggedLine(DescriptionTag, c.description), ClipLine(c)], st) ==
      st.(current := Some(st.current.value.(clips := st.current.value.clips + [c])), pending := None)
  {
    RunTwo(TaggedLine(DescriptionTag, c.description), ClipLine(c), st);
    ReadDescriptionLine(st, c.description);
    ReadClipLine(st.(pending := Some(c.description)), c);
  }

  /** A `[Segment]` line and its pairs close the open segment and leave
      the new one open with all its clips. */
  lemma RunOneSegment(s: Segment, st: ParseState)
    requires st.pending.None? && PlainText(s.title) && ClipsWritable(s.clips)
    ensures Run([TaggedLine(SegmentTag, s.title)] + ClipLines(s.clips), st) == ParseState(Close(st), Some(s), None, st.mainTitle)
  {
    var line := TaggedLine(SegmentTag, s.title);
    RunAppend([line], ClipLines(s.clips), st);
    assert [line][..0] == [];
    ReadSegmentLine(st, s.title);
    var st1 := st.(segments := Close(st), current := Some(Segment(s.title, [])));
    RunClips(s.clips, st1);
    assert [] + s.clips == s.clips;
  }

  predicate SegmentsWritable(segs: seq<Segment>) {
    forall k :: 0 <= k < |segs| ==> PlainText(segs[k].title) && |segs[k].clips| > 0 && ClipsWritable(segs[k].clips)
  }

  /** Written segments are read back in order; the last one stays open. */
  lemma {:induction false} RunSegments(segs: seq<Segment>, st: ParseState)
    requires st.pending.None? && |segs| > 0 && SegmentsWritable(segs)
    ensures Run(SegmentLines(segs), st) == ParseState(Close(st) + segs[..|segs| - 1], Some(segs[|segs| - 1]), None, st.mainTitle)
    decreases |segs|
  {
    var init, s := segs[..|segs| - 1], segs[|segs| - 1];
    if |init| == 0 {
      assert segs == [s];
      RunSegmentFirst(s, st);
    } else {
      SegmentsWritableInit(segs);
      RunSegments(init, st);
      RunSegmentsSnoc(segs, st);
      RunSegmentAfter(Close(st), init, s, st.mainTitle);
    }
  }

  lemma SegmentsWritableInit(segs: seq<Segment>)
    requires |segs| > 0 && SegmentsWritable(segs)
    ensures SegmentsWritable(segs[..|segs| - 1])
    ensures PlainText(segs[|segs| - 1].title) && |segs[|segs| - 1].clips| > 0 && ClipsWritable(segs[|segs| - 1].clips)
  {
    var init := segs[..|segs| - 1];
    forall k | 0 <= k < |init| ensures PlainText(init[k].title) && |init[k].clips| > 0 && ClipsWritable(init[k].clips) {
      assert init[k] == segs[k];
    }
  }

  /** The lines of a single segment leave it open after the kept ones. */
  lemma RunSegmentFirst(s: Segment, st: ParseState)
    requires st.pending.None? && PlainText(s.title) && ClipsWritable(s.clips)
    ensures Run(SegmentLines([s]), st) == ParseState(Close(st) + [s][..0], Some(s), None, st.mainTitle)
  {
    RunSegmentsSnoc([s], st);
    assert [s][..0] == [];
    RunOneSegment(s, st);
    assert Close(st) + [s][..0] == Close(st);
  }

  /** One more segment after an open segment with clips: the open one is
      kept and the new one is left open. */
  lemma RunSegmentAfter(kept: seq<Segment>, init: seq<Segment>, s: Segment, mainTitle: Option<string>)
    requires |init| > 0 && |init[|init| - 1].clips| > 0 && PlainText(s.title) && ClipsWritable(s.clips)
    ensures Run([TaggedLine(SegmentTag, s.title)] + ClipLines(s.clips), ParseState(kept + init[..|init| - 1], Some(init[|init| - 1]), None, mainTitle))
         == ParseState(kept + init, Some(s), None, mainTitle)
  {
    var st1 := ParseState(kept + init[..|init| - 1], Some(init[|init| - 1]), None, mainTitle);
    RunOneSegment(s, st1);
    CloseOpen(kept, init, mainTitle);
  }

  /** The lines of the last segment run after those of the others. */
  lemma RunSegmentsSnoc(segs: seq<Segment>, st: ParseState)
    requires |segs| > 0
    ensures Run(SegmentLines(segs), st)
         == Run([TaggedLine(SegmentTag, segs[|segs| - 1].title)] + ClipLines(segs[|segs| - 1].clips), Run(SegmentLines(segs[..|segs| - 1]), st))
  {
    var s := segs[|segs| - 1];
    RunAppend(SegmentLines(segs[..|segs| - 1]), [TaggedLine(SegmentTag, s.title)] + ClipLines(s.clips), st);
  }

  /** Closing a state whose open segment has clips keeps it after the others. */
  lemma CloseOpen(kept: seq<Segment>, init: seq<Segment>, mainTitle: Option<string>)
    requires |init| > 0 && |init[|init| - 1].clips| > 0
    ensures Close(ParseState(kept + init[..|init| - 1], Some(init[|init| - 1]), None, mainTitle)) == kept + init
  {
    assert kept + init[..|init| - 1] + [init[|init| - 1]] == kept + init;
  }

  /** A written line is non-empty, starts with `[` and has no line break. */
  predicate LineShape(line: string) {
    |line| > 0 && line[0] == '[' && '\n' !in line
  }

  lemma TaggedLineShape(tag: string, v: string)
    requires |tag| > 0 && tag[0] == '[' && '\n' !in tag && '\n' !in v
    ensures LineShape(TaggedLine(tag, v))
  {
  }

  lemma ClipLineShape(c: Clip)
    requires ClipWritable(c)
    ensures LineShape(ClipLine(c)) && ClipLine(c)[|ClipLine(c)| - 1] == ']'
  {
    var digits := NatToString(c.duration);
    DigitsFree(digits, '\n');
  }

  lemma {:induction false} ClipLinesShape(cs: seq<Clip>)
    requires ClipsWritable(cs)
    ensures forall k :: 0 <= k < |ClipLines(cs)| ==> LineShape(ClipLines(cs)[k])
    ensures |cs| > 0 ==> |ClipLines(cs)| > 0 && ClipLines(cs)[|ClipLines(cs)| - 1] == ClipLine(cs[|cs| - 1])
    decreases |cs|
  {
    if |cs| > 0 {
      var init, c := cs[..|cs| - 1], cs[|cs| - 1];
      assert ClipsWritable(init) by {
        forall j | 0 <= j < |init| ensures ClipWritable(init[j]) {
          assert init[j] == cs[j];
        }
      }
      ClipLinesShape(init);
      TaggedLineShape(DescriptionTag, c.description);
      ClipLineShape(c);
    }
  }

  lemma {:induction false} SegmentLinesShape(segs: seq<Segment>)
    requires SegmentsWritable(segs)
    ensures forall k :: 0 <= k < |SegmentLines(segs)| ==> LineShape(SegmentLines(segs)[k])
    ensures |segs| > 0 ==> (|SegmentLines(segs)| > 0 &&
      SegmentLines(segs)[|SegmentLines(segs)| - 1] == ClipLine(segs[|segs| - 1].clips[|segs[|segs| - 1].clips| - 1]))
    decreases |segs|
  {
    if |segs| > 0 {
      var init, s := segs[..|segs| - 1], segs[|segs| - 1];
      assert SegmentsWritable(init) by {
        forall k | 0 <= k < |init| ensures PlainText(init[k].title) && |init[k].clips| > 0 && ClipsWritable(init[k].clips) {
          assert init[k] == segs[k];
        }
      }
      SegmentLinesShape(init);
      TaggedLineShape(SegmentTag, s.title);
      ClipLinesShape(s.clips);
      var tail := [TaggedLine(SegmentTag, s.title)] + ClipLines(s.clips);
      assert forall k :: 0 <= k < |tail| ==> LineShape(tail[k]) by {
        forall k | 0 <= k < |tail| ensures LineShape(tail[k]) {
          if k > 0 { assert tail[k] == ClipLines(s.clips)[k - 1]; }
        }
      }
    }
  }

  lemma WrittenLinesShape(mainTitle: Option<string>, segs: seq<Segment>)
    requires Writable(mainTitle, segs)
    ensures var lines := TitleLines(mainTitle) + SegmentLines(segs);
      && |lines| > 0
      && (forall k :: 0 <= k < |lines| ==> LineShape(lines[k]))
      && lines[|lines| - 1][|lines[|lines| - 1]| - 1] == ']'
  {
    var tl, sl := TitleLines(mainTitle), SegmentLines(segs);
    assert SegmentsWritable(segs);
    SegmentLinesShape(segs);
    if mainTitle.Some? {
      TaggedLineShape(TitleTag, mainTitle.value);
    }
    var s := segs[|segs| - 1];
    ClipLineShape(s.clips[|s.clips| - 1]);
    var lines := tl + sl;
    forall k | 0 <= k < |lines| ensures LineShape(lines[k]) {
      if k >= |tl| { assert lines[k] == sl[k - |tl|]; }
    }
  }

  /** The written text is its own `strip()` and splits back into its lines. */
  lemma WrittenLines(mainTitle: Option<string>, segs: seq<Segment>)
    requires Writable(mainTitle, segs)
    ensures Split(Strip(Instructions(mainTitle, segs)), "\n") == TitleLines(mainTitle) + SegmentLines(segs)
  {
    var lines := TitleLines(mainTitle) + SegmentLines(segs);
    var text := Join(lines, "\n");
    WrittenLinesShape(mainTitle, segs);
    JoinFirst(lines, "\n");
    JoinLast(lines, "\n");
    StripUnchanged(text);
    SplitJoinCharFree(lines, '\n');
  }

  lemma RunTitleLines(mainTitle: Option<string>)
    requires mainTitle.Some? ==> PlainText(mainTitle.value)
    ensures Run(TitleLines(mainTitle), Initial) == Initial.(mainTitle := mainTitle)
  {
    if mainTitle.Some? {
      assert TitleLines(mainTitle)[..0] == [];
      ReadTitleLine(Initial, mainTitle.value);
    }
  }

  /** The title lines only set the main title before the segment lines run. */
  lemma RunAfterTitle(mainTitle: Option<string>, sl: seq<string>)
    requires mainTitle.Some? ==> PlainText(mainTitle.value)
    ensures Run(TitleLines(mainTitle) + sl, Initial) == Run(sl, Initial.(mainTitle := mainTitle))
  {
    RunAppend(TitleLines(mainTitle), sl, Initial);
    RunTitleLines(mainTitle);
  }

  /** Reading the written lines ends with the title set, every segment
      but the last kept, in order, and the last one open. */
  lemma RunWrittenState(mainTitle: Option<string>, segs: seq<Segment>)
    requires Writable(mainTitle, segs)
    ensures Run(TitleLines(mainTitle) + SegmentLines(segs), Initial)
         == ParseState(segs[..|segs| - 1], Some(segs[|segs| - 1]), None, mainTitle)
  {
    var st0 := Initial.(mainTitle := mainTitle);
    RunAfterTitle(mainTitle, SegmentLines(segs));
    assert SegmentsWritable(segs);
    RunSegments(segs, st0);
    assert Close(st0) == [];
  }

  /** Closing the final state keeps the last segment too. */
  lemma CloseLast(mainTitle: Option<string>, segs: seq<Segment>)
    requires |segs| > 0 && |segs[|segs| - 1].clips| > 0
    ensures Close(ParseState(segs[..|segs| - 1], Some(segs[|segs| - 1]), None, mainTitle)) == segs
  {
    assert segs[..|segs| - 1] + [segs[|segs| - 1]] == segs;
  }

  /** Reading the written lines ends with the title set and every segment
      kept, in order. */
  lemma RunWritten(mainTitle: Option<string>, segs: seq<Segment>)
    requires Writable(mainTitle, segs)
    ensures Run(TitleLines(mainTitle) + SegmentLines(segs), Initial).mainTitle == mainTitle
    ensures Close(Run(TitleLines(mainTitle) + SegmentLines(segs), Initial)) == segs
  {
    RunWrittenState(mainTitle, segs);
    assert SegmentsWritable(segs);
    CloseLast(mainTitle, segs);
  }

  /** Instructions written from a main title and segments parse back to
      exactly that title and those segments. */
  lemma ParseWritten(mainTitle: Option<string>, segs: seq<Segment>)
    requires Writable(mainTitle, segs)
    ensures ParseInstructions(Instructions(mainTitle, segs)) == Ok((mainTitle, segs))
  {
    WrittenLines(mainTitle, segs);
    RunWritten(mainTitle, segs);
  }

  // ---------------------------------------------------------------------
  // `process_reel`: the files it makes and the order it joins them in

  /** `if self.main_title:` holds for a present, non-empty title. */
  predicate HasMainTitle(mainTitle: Option<string>) {
    mainTitle.Some? && |mainTitle.value| > 0
  }

/** One file of the reel: a title card phase 1 renders, or a clip phase 2
      cuts. Segment and clip numbers count from 0. */
  datatype Part =
    | MainTitleCard
    | SegmentTitleCard(seg: nat)
    | DescriptionCard(seg: nat, clip: nat)
    | ClipFile(seg: nat, clip: nat)

  /** The file name each part is written to inside the temporary directory. */
  function PartName(p: Part): string {
    match p
    case MainTitleCard => "00_main_title.mp4"
    case SegmentTitleCard(i) => FormatPadded(i + 1, 2) + "_segment_title.mp4"
    case DescriptionCard(i, j) => FormatPadded(i + 1, 2) + "_" + FormatPadded(j + 1, 2) + "_description.mp4"
    case ClipFile(i, j) => FormatPadded(i + 1, 2) + "_" + FormatPadded(j + 1, 2) + "_clip.mp4"
  }

  /** How many of the clips from `j` on have a non-empty description. */
  function Described(clips: seq<Clip>, j: nat): (r: nat)
    requires j <= |clips|
    ensures r <= |clips| - j
    decreases |clips| - j
  {
    if j == |clips| then 0
    else (if |clips[j].description| > 0 then 1 else 0) + Described(clips, j + 1)
  }

  /** Every clip from `j` on has a non-empty description. */
  predicate AllDescribed(clips: seq<Clip>, j: nat)
    requires j <= |clips|
    decreases |clips| - j
  {
    j == |clips| || (|clips[j].description| > 0 && AllDescribed(clips, j + 1))
  }

  /** The description count falls short of the clip count exactly when
      some description is empty. */
  lemma {:induction false} DescribedAll(clips: seq<Clip>, j: nat)
    requires j <= |clips|
    ensures Described(clips, j) == |clips| - j <==> AllDescribed(clips, j)
    decreases |clips| - j
  {
    if j < |clips| {
      DescribedAll(clips, j + 1);
    }
  }

  /** Phase 1 for segment `i`'s clips from `j` on: a description card for
      each clip whose description is non-empty. */
  function DescriptionCards(i: nat, clips: seq<Clip>, j: nat): (r: seq<Part>)
    requires j <= |clips|
    ensures |r| == Described(clips, j)
    decreases |clips| - j
  {
    if j == |clips| then []
    else (if |clips[j].description| > 0 then [DescriptionCard(i, j)] else []) + DescriptionCards(i, clips, j + 1)
  }

  /** Cards a run of segments takes: its title card and one per clip as
      written; its title card and one per non-empty description as made. */
  function CardsWanted(segs: seq<Segment>, i: nat): nat
    requires i <= |segs|
    decreases |segs| - i
  {
    if i == |segs| then 0 else 1 + |segs[i].clips| + CardsWanted(segs, i + 1)
  }

  function CardsMade(segs: seq<Segment>, i: nat): (r: nat)
    requires i <= |segs|
    ensures r <= CardsWanted(segs, i)
    decreases |segs| - i
  {
    if i == |segs| then 0 else 1 + Described(segs[i].clips, 0) + CardsMade(segs, i + 1)
  }

  function ClipCount(segs: seq<Segment>, i: nat): nat
    requires i <= |segs|
    decreases |segs| - i
  {
    if i == |segs| then 0 else |segs[i].clips| + ClipCount(segs, i + 1)
  }

  predicate SegmentsDescribed(segs: seq<Segment>, i: nat)
    requires i <= |segs|
    decreases |segs| - i
  {
    i == |segs| || (AllDescribed(segs[i].clips, 0) && SegmentsDescribed(segs, i + 1))
  }

  /** The cards made match the cards the assembly takes exactly when every
      description is non-empty. */
  lemma {:induction false} CardsMatch(segs: seq<Segment>, i: nat)
    requires i <= |segs|
    ensures CardsMade(segs, i) == CardsWanted(segs, i) <==> SegmentsDescribed(segs, i)
    decreases |segs| - i
  {
    if i < |segs| {
      DescribedAll(segs[i].clips, 0);
      CardsMatch(segs, i + 1);
    }
  }

  /** Phase 1 for segments `i..`: per segment its title card, then its
      description cards. */
  function SegmentCards(segs: seq<Segment>, i: nat): (r: seq<Part>)
    requires i <= |segs|
    ensures |r| == CardsMade(segs, i)
    decreases |segs| - i
  {
    if i == |segs| then []
    else [SegmentTitleCard(i)] + DescriptionCards(i, segs[i].clips, 0) + SegmentCards(segs, i + 1)
  }

  /** `title_card_paths` after phase 1. */
  function TitleCards(mainTitle: Option<string>, segs: seq<Segment>): (r: seq<Part>)
    ensures |r| == (if HasMainTitle(mainTitle) then 1 else 0) + CardsMade(segs, 0)
  {
    (if HasMainTitle(mainTitle) then [MainTitleCard] else []) + SegmentCards(segs, 0)
  }

  function SegmentClipFiles(i: nat, clips: seq<Clip>, j: nat): (r: seq<Part>)
    requires j <= |clips|
    ensures |r| == |clips| - j
    decreases |clips| - j
  {
    if j == |clips| then [] else [ClipFile(i, j)] + SegmentClipFiles(i, clips, j + 1)
  }

  /** `video_clip_paths` after phase 2: one file per clip, in order. */
  function ClipFiles(segs: seq<Segment>, i: nat): (r: seq<Part>)
    requires i <= |segs|
    ensures |r| == ClipCount(segs, i)
    decreases |segs| - i
  {
    if i == |segs| then [] else SegmentClipFiles(i, segs[i].clips, 0) + ClipFiles(segs, i + 1)
  }

  /** What one stretch of phase 3 yields: the files joined so far, and the
      title-card and clip lists still to be read. */
  datatype Joined<T> = Joined(order: seq<T>, cardsLeft: seq<T>, videosLeft: seq<T>)

  /** Phase 3 over clips `j..` of one segment, as written: each clip takes
      the next title card as its description card, then the next clip
      file, whether or not a description card was made for it. Reading
      past the end of either list is an IndexError. */
  function ClipsAsWritten<T>(cards: seq<T>, videos: seq<T>, clips: seq<Clip>, j: nat): (r: Result<Joined<T>>)
    requires j <= |clips|
    ensures r.Ok? <==> |clips| - j <= |cards| && |clips| - j <= |videos|
    ensures r.Err? ==> r.error == IndexError
    ensures r.Ok? ==> (r.value.cardsLeft == cards[|clips| - j..] && r.value.videosLeft == videos[|clips| - j..])
    ensures r.Ok? ==> (|r.value.order| == 2 * (|clips| - j)
      && forall k :: 0 <= k < |clips| - j ==> r.value.order[2 * k] == cards[k] && r.value.order[2 * k + 1] == videos[k])
    decreases |clips| - j
  {
    if j == |clips| then Ok(Joined([], cards, videos))
    else if |cards| == 0 || |videos| == 0 then Err(IndexError)
    else
      var rest :- ClipsAsWritten(cards[1..], videos[1..], clips, j + 1);
      Ok(Joined([cards[0], videos[0]] + rest.order, rest.cardsLeft, rest.videosLeft))
  }

  /** Phase 3 over segments `i..` as written: a segment title card, then its
      clips as above. */
  function SegmentsAsWritten<T>(cards: seq<T>, videos: seq<T>, segs: seq<Segment>, i: nat): (r: Result<Joined<T>>)
    requires i <= |segs|
    ensures r.Ok? <==> CardsWanted(segs, i) <= |cards| && ClipCount(segs, i) <= |videos|
    ensures r.Err? ==> r.error == IndexError
    ensures r.Ok? ==> (r.value.cardsLeft == cards[CardsWanted(segs, i)..] && r.value.videosLeft == videos[ClipCount(segs, i)..])
    decreases |segs| - i
  {
    if i == |segs| then Ok(Joined([], cards, videos))
    else if |cards| == 0 then Err(IndexError)
    else
      var c :- ClipsAsWritten(cards[1..], videos, segs[i].clips, 0);
      var rest :- SegmentsAsWritten(c.cardsLeft, c.videosLeft, segs, i + 1);
      Ok(Joined([cards[0]] + c.order + rest.order, rest.cardsLeft, rest.videosLeft))
  }

  /** The whole of phase 3 as written: the main title card first when there
      is a main title, then every segment. */
  function AssembleAsWritten<T>(mainTitle: Option<string>, segs: seq<Segment>, cards: seq<T>, videos: seq<T>): (r: Result<seq<T>>)
    ensures r.Ok? <==> (if HasMainTitle(mainTitle) then 1 else 0) + CardsWanted(segs, 0) <= |cards| && ClipCount(segs, 0) <= |videos|
    ensures r.Err? ==> r.error == IndexError
  {
    if HasMainTitle(mainTitle) then
      if |cards| == 0 then Err(IndexError)
      else
        var s :- SegmentsAsWritten(cards[1..], videos, segs, 0);
        Ok([cards[0]] + s.order)
    else
      var s :- SegmentsAsWritten(cards, videos, segs, 0);
      Ok(s.order)
  }

  /** Phase 3 over clips `j..` as evidently intended: a clip takes a
      description card only when one was made for it. */
  function ClipsCorrected<T>(cards: seq<T>, videos: seq<T>, clips: seq<Clip>, j: nat): (r: Result<Joined<T>>)
    requires j <= |clips|
    ensures r.Ok? <==> Described(clips, j) <= |cards| && |clips| - j <= |videos|
    ensures r.Err? ==> r.error == IndexError
    ensures r.Ok? ==> (r.value.cardsLeft == cards[Described(clips, j)..] && r.value.videosLeft == videos[|clips| - j..]
      && |r.value.order| == Described(clips, j) + |clips| - j)
    decreases |clips| - j
  {
    if j == |clips| then Ok(Joined([], cards, videos))
    else if |clips[j].description| > 0 then
      if |cards| == 0 || |videos| == 0 then Err(IndexError)
      else
        var rest :- ClipsCorrected(cards[1..], videos[1..], clips, j + 1);
        Ok(Joined([cards[0], videos[0]] + rest.order, rest.cardsLeft, rest.videosLeft))
    else if |videos| == 0 then Err(IndexError)
    else
      var rest :- ClipsCorrected(cards, videos[1..], clips, j + 1);
      Ok(Joined([videos[0]] + rest.order, rest.cardsLeft, rest.videosLeft))
  }

  function SegmentsCorrected<T>(cards: seq<T>, videos: seq<T>, segs: seq<Segment>, i: nat): (r: Result<Joined<T>>)
    requires i <= |segs|
    ensures r.Ok? <==> CardsMade(segs, i) <= |cards| && ClipCount(segs, i) <= |videos|
    ensures r.Err? ==> r.error == IndexError
    ensures r.Ok? ==> (r.value.cardsLeft == cards[CardsMade(segs, i)..] && r.value.videosLeft == videos[ClipCount(segs, i)..])
    decreases |segs| - i
  {
    if i == |segs| then Ok(Joined([], cards, videos))
    else if |cards| == 0 then Err(IndexError)
    else
      var c :- ClipsCorrected(cards[1..], videos, segs[i].clips, 0);
      var rest :- SegmentsCorrected(c.cardsLeft, c.videosLeft, segs, i + 1);
      Ok(Joined([cards[0]] + c.order + rest.order, rest.cardsLeft, rest.videosLeft))
  }

  function AssembleCorrected<T>(mainTitle: Option<string>, segs: seq<Segment>, cards: seq<T>, videos: seq<T>): (r: Result<seq<T>>)
    ensures r.Ok? <==> (if HasMainTitle(mainTitle) then 1 else 0) + CardsMade(segs, 0) <= |cards| && ClipCount(segs, 0) <= |videos|
    ensures r.Err? ==> r.error == IndexError
  {
    if HasMainTitle(mainTitle) then
      if |cards| == 0 then Err(IndexError)
      else
        var s :- SegmentsCorrected(cards[1..], videos, segs, 0);
        Ok([cards[0]] + s.order)
    else
      var s :- SegmentsCorrected(cards, videos, segs, 0);
      Ok(s.order)
  }

  /** The reel's intended order, from the file names alone: the main title
      card, then per segment its title card and, per clip, its description
      card (when it has a description) followed by the clip itself. */
  function IntendedClips(i: nat, clips: seq<Clip>, j: nat): seq<Part>
    requires j <= |clips|
    decreases |clips| - j
  {
    if j == |clips| then []
    else
      (if |clips[j].description| > 0 then [DescriptionCard(i, j)] else [])
      + [ClipFile(i, j)] + IntendedClips(i, clips, j + 1)
  }

  function IntendedSegments(segs: seq<Segment>, i: nat): seq<Part>
    requires i <= |segs|
    decreases |segs| - i
  {
    if i == |segs| then []
    else [SegmentTitleCard(i)] + IntendedClips(i, segs[i].clips, 0) + IntendedSegments(segs, i + 1)
  }

  function IntendedOrder(mainTitle: Option<string>, segs: seq<Segment>): seq<Part> {
    (if HasMainTitle(mainTitle) then [MainTitleCard] else []) + IntendedSegments(segs, 0)
  }

  /** As written, phase 3 succeeds on the lists phases 1 and 2 made exactly
      when every clip has a non-empty description; otherwise it runs off
      the end of the title cards. */
  lemma AsWrittenNeedsDescriptions(mainTitle: Option<string>, segs: seq<Segment>)
    ensures AssembleAsWritten(mainTitle, segs, TitleCards(mainTitle, segs), ClipFiles(segs, 0)).Ok?
      <==> SegmentsDescribed(segs, 0)
    ensures !SegmentsDescribed(segs, 0) ==>
      AssembleAsWritten(mainTitle, segs, TitleCards(mainTitle, segs), ClipFiles(segs, 0)) == Err(IndexError)
  {
    CardsMatch(segs, 0);
  }

  lemma {:induction false} ClipsAgree<T>(cards: seq<T>, videos: seq<T>, clips: seq<Clip>, j: nat)
    requires j <= |clips| && AllDescribed(clips, j)
    ensures ClipsAsWritten(cards, videos, clips, j) == ClipsCorrected(cards, videos, clips, j)
    decreases |clips| - j
  {
    if j < |clips| && |cards| > 0 && |videos| > 0 {
      ClipsAgree(cards[1..], videos[1..], clips, j + 1);
    }
  }

  lemma {:induction false} SegmentsAgree<T>(cards: seq<T>, videos: seq<T>, segs: seq<Segment>, i: nat)
    requires i <= |segs| && SegmentsDescribed(segs, i)
    ensures SegmentsAsWritten(cards, videos, segs, i) == SegmentsCorrected(cards, videos, segs, i)
    decreases |segs| - i
  {
    if i < |segs| && |cards| > 0 {
      ClipsAgree(cards[1..], videos, segs[i].clips, 0);
      var c := ClipsCorrected(cards[1..], videos, segs[i].clips, 0);
      if c.Ok? {
        SegmentsAgree(c.value.cardsLeft, c.value.videosLeft, segs, i + 1);
      }
    }
  }

  /** When every description is non-empty the assembly as written is the
      intended one, on any lists. */
  lemma AssemblyAgrees<T>(mainTitle: Option<string>, segs: seq<Segment>, cards: seq<T>, videos: seq<T>)
    requires SegmentsDescribed(segs, 0)
    ensures AssembleAsWritten(mainTitle, segs, cards, videos) == AssembleCorrected(mainTitle, segs, cards, videos)
  {
    if |cards| > 0 {
      SegmentsAgree(cards[1..], videos, segs, 0);
    }
    SegmentsAgree(cards, videos, segs, 0);
  }

  /** One step of the corrected clip loop for a described clip: it takes
      the next card and the next clip file. */
  lemma ClipsCorrectedDescribed<T>(c: T, cs: seq<T>, v: T, vs: seq<T>, clips: seq<Clip>, j: nat, rest: Joined<T>)
    requires j < |clips| && |clips[j].description| > 0
    requires ClipsCorrected(cs, vs, clips, j + 1) == Ok(rest)
    ensures ClipsCorrected([c] + cs, [v] + vs, clips, j) == Ok(Joined([c, v] + rest.order, rest.cardsLeft, rest.videosLeft))
  {
    assert ([c] + cs)[1..] == cs && ([v] + vs)[1..] == vs;
  }

  /** One step of the corrected clip loop for a clip without description:
      it takes only the next clip file. */
  lemma ClipsCorrectedBare<T>(cs: seq<T>, v: T, vs: seq<T>, clips: seq<Clip>, j: nat, rest: Joined<T>)
    requires j < |clips| && |clips[j].description| == 0
    requires ClipsCorrected(cs, vs, clips, j + 1) == Ok(rest)
    ensures ClipsCorrected(cs, [v] + vs, clips, j) == Ok(Joined([v] + rest.order, rest.cardsLeft, rest.videosLeft))
  {
    assert ([v] + vs)[1..] == vs;
  }

  /** How phases 1 and 2 and the intended order each begin at clip `j`. */
  lemma ClipListsStep(i: nat, clips: seq<Clip>, j: nat, rc: seq<Part>, rv: seq<Part>)
    requires j < |clips|
    ensures SegmentClipFiles(i, clips, j) + rv == [ClipFile(i, j)] + (SegmentClipFiles(i, clips, j + 1) + rv)
    ensures |clips[j].description| > 0 ==>
      && DescriptionCards(i, clips, j) + rc == [DescriptionCard(i, j)] + (DescriptionCards(i, clips, j + 1) + rc)
      && IntendedClips(i, clips, j) == [DescriptionCard(i, j), ClipFile(i, j)] + IntendedClips(i, clips, j + 1)
    ensures |clips[j].description| == 0 ==>
      && DescriptionCards(i, clips, j) + rc == DescriptionCards(i, clips, j + 1) + rc
      && IntendedClips(i, clips, j) == [ClipFile(i, j)] + IntendedClips(i, clips, j + 1)
  {
    if |clips[j].description| == 0 {
      assert [] + DescriptionCards(i, clips, j + 1) == DescriptionCards(i, clips, j + 1);
      assert [] + [ClipFile(i, j)] == [ClipFile(i, j)];
    }
  }

  lemma {:induction false} ClipsInOrder(i: nat, clips: seq<Clip>, j: nat, rc: seq<Part>, rv: seq<Part>)
    requires j <= |clips|
    ensures ClipsCorrected(DescriptionCards(i, clips, j) + rc, SegmentClipFiles(i, clips, j) + rv, clips, j)
      == Ok(Joined(IntendedClips(i, clips, j), rc, rv))
    decreases |clips| - j
  {
    if j < |clips| {
      var cs := DescriptionCards(i, clips, j + 1) + rc;
      var vs := SegmentClipFiles(i, clips, j + 1) + rv;
      ClipsInOrder(i, clips, j + 1, rc, rv);
      ClipListsStep(i, clips, j, rc, rv);
      var rest := Joined(IntendedClips(i, clips, j + 1), rc, rv);
      if |clips[j].description| > 0 {
        ClipsCorrectedDescribed(DescriptionCard(i, j), cs, ClipFile(i, j), vs, clips, j, rest);
      } else {
        ClipsCorrectedBare(cs, ClipFile(i, j), vs, clips, j, rest);
      }
    }
  }

  lemma {:induction false} SegmentsInOrder(segs: seq<Segment>, i: nat, rc: seq<Part>, rv: seq<Part>)
    requires i <= |segs|
    ensures SegmentsCorrected(SegmentCards(segs, i) + rc, ClipFiles(segs, i) + rv, segs, i)
      == Ok(Joined(IntendedSegments(segs, i), rc, rv))
    decreases |segs| - i
  {
    if i < |segs| {
      var t := SegmentTitleCard(i);
      var cs := SegmentCards(segs, i + 1) + rc;
      var vs := ClipFiles(segs, i + 1) + rv;
      var cards := SegmentCards(segs, i) + rc;
      assert cards == [t] + (DescriptionCards(i, segs[i].clips, 0) + cs);
      assert cards[1..] == DescriptionCards(i, segs[i].clips, 0) + cs;
      assert ClipFiles(segs, i) + rv == SegmentClipFiles(i, segs[i].clips, 0) + vs;
      ClipsInOrder(i, segs[i].clips, 0, cs, vs);
      SegmentsInOrder(segs, i + 1, rc, rv);
    }
  }

  lemma AllSegmentsInOrder(segs: seq<Segment>)
    ensures SegmentsCorrected(SegmentCards(segs, 0), ClipFiles(segs, 0), segs, 0)
      == Ok(Joined(IntendedSegments(segs, 0), [], []))
  {
    var cards := SegmentCards(segs, 0);
    var videos := ClipFiles(segs, 0);
    SegmentsInOrder(segs, 0, [], []);
    assert cards + [] == cards && videos + [] == videos;
  }

  lemma AssembleWithMain<T>(mainTitle: Option<string>, segs: seq<Segment>, main: T, cards: seq<T>, videos: seq<T>, order: seq<T>)
    requires HasMainTitle(mainTitle)
    requires SegmentsCorrected(cards, videos, segs, 0) == Ok(Joined(order, [], []))
    ensures AssembleCorrected(mainTitle, segs, [main] + cards, videos) == Ok([main] + order)
  {
    assert ([main] + cards)[1..] == cards;
  }

  lemma AssembleWithoutMain<T>(mainTitle: Option<string>, segs: seq<Segment>, cards: seq<T>, videos: seq<T>, order: seq<T>)
    requires !HasMainTitle(mainTitle)
    requires SegmentsCorrected(cards, videos, segs, 0) == Ok(Joined(order, [], []))
    ensures AssembleCorrected(mainTitle, segs, cards, videos) == Ok(order)
  {
  }

  /** The corrected assembly joins the files phases 1 and 2 made in the
      intended order, whatever the descriptions. */
  lemma AssemblyInOrder(mainTitle: Option<string>, segs: seq<Segment>)
    ensures AssembleCorrected(mainTitle, segs, TitleCards(mainTitle, segs), ClipFiles(segs, 0))
      == Ok(IntendedOrder(mainTitle, segs))
  {
    AllSegmentsInOrder(segs);
    if HasMainTitle(mainTitle) {
      AssembleWithMain(mainTitle, segs, MainTitleCard, SegmentCards(segs, 0), ClipFiles(segs, 0), IntendedSegments(segs, 0));
    } else {
      AssembleWithoutMain(mainTitle, segs, SegmentCards(segs, 0), ClipFiles(segs, 0), IntendedSegments(segs, 0));
      assert TitleCards(mainTitle, segs) == SegmentCards(segs, 0);
      assert IntendedOrder(mainTitle, segs) == IntendedSegments(segs, 0);
    }
  }

  /** The cut `_extract_clip` takes from the source video, in seconds. */
  datatype Cut = Cut(start: int, end: int)

  /** `_extract_clip` on one clip: it starts at its `H:M:S` timestamp and
      runs for its duration; a timestamp that is not three ':'-separated
      integers is a ValueError. */
  function ClipCut(c: Clip): (r: Result<Cut>)
    ensures r.Err? ==> r.error == ValueError
    ensures r.Ok? ==> (ClipStartTime(c.timestamp) == Ok(r.value.start) && r.value.end - r.value.start == c.duration)
    ensures r.Ok? <==> ClipStartTime(c.timestamp).Ok?
  {
    var start :- ClipStartTime(c.timestamp);
    Ok(Cut(start, start + c.duration))
  }

  /** `_extract_clip` accepts a clip's timestamp. */
  predicate TimestampOk(c: Clip) {
    ClipCut(c).Ok?
  }

  /** A loop that stops at the first failing step: every value in order,
      or the first step's error. */
  function FirstError<T>(rs: seq<Result<T>>): (r: Result<seq<T>>)
    ensures r.Ok? <==> forall k :: 0 <= k < |rs| ==> rs[k].Ok?
    ensures r.Ok? ==> |r.value| == |rs| && forall k :: 0 <= k < |rs| ==> rs[k] == Ok(r.value[k])
    ensures r.Err? ==> exists k :: 0 <= k < |rs| && rs[k] == Err(r.error)
  {
    var s := UntilError(rs);
    if s.error.None? then Ok(s.values) else Err(s.error.value)
  }

  /** Phase 2 on the clips of one segment: their cuts in order, or the
      error of the first clip that has none. */
  function SegmentCuts(clips: seq<Clip>): (r: Result<seq<Cut>>)
    ensures r.Err? ==> r.error == ValueError
    ensures r.Ok? <==> forall k :: 0 <= k < |clips| ==> TimestampOk(clips[k])
    ensures r.Ok? ==> (|r.value| == |clips| && forall k :: 0 <= k < |clips| ==> ClipCut(clips[k]) == Ok(r.value[k]))
  {
    var rs := seq(|clips|, k requires 0 <= k < |clips| => ClipCut(clips[k]));
    assert forall k :: 0 <= k < |clips| ==> rs[k] == ClipCut(clips[k]);
    FirstError(rs)
  }

  /** Every clip of segments `i..` has a timestamp `_extract_clip` accepts. */
  predicate TimestampsOk(segs: seq<Segment>, i: nat)
    requires i <= |segs|
    decreases |segs| - i
  {
    i == |segs|
    || ((forall k :: 0 <= k < |segs[i].clips| ==> TimestampOk(segs[i].clips[k])) && TimestampsOk(segs, i + 1))
  }

  /** Phase 2's cuts over segments `i..`, one per clip, in reel order. */
  function Cuts(segs: seq<Segment>, i: nat): (r: Result<seq<Cut>>)
    requires i <= |segs|
    ensures r.Err? ==> r.error == ValueError
    ensures r.Ok? <==> TimestampsOk(segs, i)
    ensures r.Ok? ==> |r.value| == ClipCount(segs, i)
    decreases |segs| - i
  {
    if i == |segs| then Ok([])
    else
      var here :- SegmentCuts(segs[i].clips);
      var rest :- Cuts(segs, i + 1);
      Ok(here + rest)
  }

  /** What moviepy does with the parts, as far as `process_reel` can
      tell: whether the source video opens (`VideoFileClip` raises OSError
      on a missing or unreadable file) and what `write_videofile` does for
      each part. What it does when writing the finished reel is a separate
      outcome, `writeReel`. */
  datatype Movie = Movie(videoOpens: bool, write: Part -> Outcome)

  /** Every moviepy call on the parts succeeds. */
  ghost predicate Works(m: Movie) {
    m.videoOpens && forall p :: m.write(p).Pass?
  }

  /** The exceptions `process_reel` lets through, apart from the
      assembly's IndexError: a ValueError from parsing or a timestamp, the
      OSError of a video that does not open, or what a write raised. */
  ghost predicate ReelError(m: Movie, writeReel: Outcome, e: PyError) {
    e == ValueError || (e == OSError && !m.videoOpens) || (exists p :: m.write(p) == Fail(e)) || writeReel == Fail(e)
  }

  /** Phase 1's writes of the title cards, in order, up to the first that
      raises. */
  function WriteAll(parts: seq<Part>, m: Movie): (r: Outcome)
    ensures r.Pass? <==> forall p :: p in parts ==> m.write(p).Pass?
    ensures r.Fail? ==> exists p :: p in parts && m.write(p) == r
  {
    if |parts| == 0 then Pass
    else if m.write(parts[0]).Fail? then m.write(parts[0])
    else
      assert forall p :: p in parts <==> p == parts[0] || p in parts[1..];
      WriteAll(parts[1..], m)
  }

  /** Phase 2 on clip `j` of segment `i`: `_extract_clip` parses the
      timestamp and opens the video, then the cut is written. */
  function ClipStep(i: nat, j: nat, c: Clip, m: Movie): (r: Result<Cut>)
    ensures r.Ok? <==> TimestampOk(c) && m.videoOpens && m.write(ClipFile(i, j)).Pass?
    ensures r.Ok? ==> r == ClipCut(c)
    ensures r.Err? ==> r.error == ValueError || (r.error == OSError && !m.videoOpens) || m.write(ClipFile(i, j)) == Fail(r.error)
  {
    var cut :- ClipCut(c);
    if !m.videoOpens then Err(OSError)
    else
      :- m.write(ClipFile(i, j));
      Ok(cut)
  }

  /** Every clip file of segments `i..` is written without error. */
  predicate ClipsWritten(segs: seq<Segment>, i: nat, m: Movie)
    requires i <= |segs|
    decreases |segs| - i
  {
    i == |segs|
    || ((forall k :: 0 <= k < |segs[i].clips| ==> m.write(ClipFile(i, k)).Pass?) && ClipsWritten(segs, i + 1, m))
  }

  /** The clip steps of segment `i`, one per clip. */
  function Steps(i: nat, clips: seq<Clip>, m: Movie): (r: seq<Result<Cut>>)
    ensures |r| == |clips| && forall k :: 0 <= k < |clips| ==> r[k] == ClipStep(i, k, clips[k], m)
  {
    seq(|clips|, k requires 0 <= k < |clips| => ClipStep(i, k, clips[k], m))
  }

  /** Phase 2 on the clips of segment `i`, up to the first that fails. */
  function SegmentSteps(i: nat, clips: seq<Clip>, m: Movie): (r: Result<seq<Cut>>)
    ensures r.Err? ==> ReelError(m, Pass, r.error)
    ensures r.Ok? <==> ((forall k :: 0 <= k < |clips| ==> TimestampOk(clips[k]))
      && (|clips| == 0 || m.videoOpens)
      && (forall k :: 0 <= k < |clips| ==> m.write(ClipFile(i, k)).Pass?))
    ensures r.Ok? ==> r == SegmentCuts(clips)
  {
    StepsSucceed(i, clips, m);
    StepsFail(i, clips, m);
    StepsCut(i, clips, m);
    FirstError(Steps(i, clips, m))
  }

  /** A failing clip step fails with one of the reel's errors. */
  lemma StepsFail(i: nat, clips: seq<Clip>, m: Movie)
    ensures var r := FirstError(Steps(i, clips, m)); r.Err? ==> ReelError(m, Pass, r.error)
  {
    var rs := Steps(i, clips, m);
    var r := FirstError(rs);
    if r.Err? {
      var k :| 0 <= k < |rs| && rs[k] == Err(r.error);
      assert ClipStep(i, k, clips[k], m) == Err(r.error);
    }
  }

  /** Clip steps that all succeed give the cuts. */
  lemma StepsCut(i: nat, clips: seq<Clip>, m: Movie)
    ensures var r := FirstError(Steps(i, clips, m)); r.Ok? ==> r == SegmentCuts(clips)
  {
    var rs := Steps(i, clips, m);
    var r := FirstError(rs);
    if r.Ok? {
      forall k | 0 <= k < |clips|
        ensures ClipCut(clips[k]) == Ok(r.value[k])
      {
        assert rs[k] == ClipStep(i, k, clips[k], m) == Ok(r.value[k]);
      }
      var sc := SegmentCuts(clips);
      assert sc.Ok?;
      assert forall k :: 0 <= k < |clips| ==> sc.value[k] == r.value[k];
      assert sc.value == r.value;
    }
  }

  /** Every clip step of a segment succeeds exactly when every timestamp
      parses, the video opens (if there is a clip) and every file is
      written. */
  lemma StepsSucceed(i: nat, clips: seq<Clip>, m: Movie)
    ensures FirstError(Steps(i, clips, m)).Ok? <==>
      ((forall k :: 0 <= k < |clips| ==> TimestampOk(clips[k]))
      && (|clips| == 0 || m.videoOpens)
      && (forall k :: 0 <= k < |clips| ==> m.write(ClipFile(i, k)).Pass?))
  {
    forall k | 0 <= k < |clips|
      ensures ClipStep(i, k, clips[k], m).Ok? <==>
        TimestampOk(clips[k]) && m.videoOpens && m.write(ClipFile(i, k)).Pass?
    {
    }
    if |clips| > 0 && forall k :: 0 <= k < |clips| ==> ClipStep(i, k, clips[k], m).Ok? {
      assert ClipStep(i, 0, clips[0], m).Ok?;
    }
  }

  /** Phase 2 over segments `i..`: one cut per clip, in reel order, up to
      the first clip that fails. */
  function PhaseTwo(segs: seq<Segment>, i: nat, m: Movie): (r: Result<seq<Cut>>)
    requires i <= |segs|
    ensures r.Err? ==> ReelError(m, Pass, r.error)
    ensures r.Ok? ==> r == Cuts(segs, i)
    ensures r.Ok? <==> TimestampsOk(segs, i) && (ClipCount(segs, i) == 0 || m.videoOpens) && ClipsWritten(segs, i, m)
    decreases |segs| - i
  {
    if i == |segs| then Ok([])
    else
      PhaseTwoStep(segs, i);
      var here :- SegmentSteps(i, segs[i].clips, m);
      var rest :- PhaseTwo(segs, i + 1, m);
      Ok(here + rest)
  }

  predicate ClipTimesOk(clips: seq<Clip>) {
    forall k :: 0 <= k < |clips| ==> TimestampOk(clips[k])
  }

  predicate ClipFilesPass(i: nat, clips: seq<Clip>, m: Movie) {
    forall k :: 0 <= k < |clips| ==> m.write(ClipFile(i, k)).Pass?
  }

  /** One segment's share of `TimestampsOk`, `ClipsWritten` and
      `ClipCount`. */
  lemma PhaseTwoStep(segs: seq<Segment>, i: nat)
    requires i < |segs|
    ensures var clips := segs[i].clips;
      && (TimestampsOk(segs, i) <==> ClipTimesOk(clips) && TimestampsOk(segs, i + 1))
      && (forall m :: ClipsWritten(segs, i, m) <==> ClipFilesPass(i, clips, m) && ClipsWritten(segs, i + 1, m))
      && (ClipCount(segs, i) == 0 <==> |clips| == 0 && ClipCount(segs, i + 1) == 0)
  {
  }

  /** What `process_reel` makes of a video and its instructions: the parsed
      reel, the title cards of phase 1, the cuts and clip files of phase 2,
      the files phase 3 joins in order, and the output path. */
  datatype Plan = Plan(
    mainTitle: Option<string>,
    segments: seq<Segment>,
    cards: seq<Part>,
    cuts: seq<Cut>,
    clipFiles: seq<Part>,
    order: seq<Part>,
    output: string)

  function ReelOutput(videoPath: string): string {
    "highlight_reels/highlight_reel_" + PathStem(videoPath) + ".mp4"
  }

  /** `process_reel` as written: parsing, then the title cards, then the
      clips, then the assembly, which reads one title card per clip, then
      the final write. */
  function ProcessReel(videoPath: string, instructions: string, m: Movie, writeReel: Outcome): (r: Result<Plan>)
    ensures r.Err? ==> ReelError(m, writeReel, r.error) || r.error == IndexError
    ensures r.Ok? ==> (ParseInstructions(instructions) == Ok((r.value.mainTitle, r.value.segments))
      && SegmentsDescribed(r.value.segments, 0)
      && r.value.order == IntendedOrder(r.value.mainTitle, r.value.segments)
      && (forall p :: p in r.value.cards + r.value.clipFiles ==> m.write(p).Pass?)
      && writeReel.Pass?)
  {
    var parsed :- ParseInstructions(instructions);
    var (mainTitle, segs) := parsed;
    var cards := TitleCards(mainTitle, segs);
    :- WriteAll(cards, m);
    var cuts :- PhaseTwo(segs, 0, m);
    var files := ClipFiles(segs, 0);
    ClipFilesWritten(segs, 0, m);
    AsWrittenNeedsDescriptions(mainTitle, segs);
    var order :- AssembleAsWritten(mainTitle, segs, cards, files);
    AssemblyAgrees(mainTitle, segs, cards, files);
    AssemblyInOrder(mainTitle, segs);
    :- writeReel;
    Ok(Plan(mainTitle, segs, cards, cuts, files, order, ReelOutput(videoPath)))
  }

  /** The clip files of segments `i..` are the parts `ClipsWritten` speaks
      of. */
  lemma {:induction false} ClipFilesWritten(segs: seq<Segment>, i: nat, m: Movie)
    requires i <= |segs|
    ensures ClipsWritten(segs, i, m) <==> forall p :: p in ClipFiles(segs, i) ==> m.write(p).Pass?
    decreases |segs| - i
  {
    if i < |segs| {
      ClipFilesWritten(segs, i + 1, m);
      SegmentClipFilesAre(i, segs[i].clips, 0);
    }
  }

  lemma {:induction false} SegmentClipFilesAre(i: nat, clips: seq<Clip>, j: nat)
    requires j <= |clips|
    ensures forall p :: p in SegmentClipFiles(i, clips, j) <==> exists k :: j <= k < |clips| && p == ClipFile(i, k)
    decreases |clips| - j
  {
    if j < |clips| {
      SegmentClipFilesAre(i, clips, j + 1);
    }
  }

  /** `process_reel` with the corrected assembly. */
  function ProcessReelCorrected(videoPath: string, instructions: string, m: Movie, writeReel: Outcome): (r: Result<Plan>)
    ensures r.Err? ==> ReelError(m, writeReel, r.error)
    ensures r.Ok? <==> (ParseInstructions(instructions).Ok?
      && (var (mainTitle, segs) := ParseInstructions(instructions).value;
          && (forall p :: p in TitleCards(mainTitle, segs) ==> m.write(p).Pass?)
          && TimestampsOk(segs, 0) && m.videoOpens
          && (forall p :: p in ClipFiles(segs, 0) ==> m.write(p).Pass?)
          && writeReel.Pass?))
    ensures r.Ok? ==> (ParseInstructions(instructions) == Ok((r.value.mainTitle, r.value.segments))
      && r.value.order == IntendedOrder(r.value.mainTitle, r.value.segments)
      && |r.value.cuts| == |r.value.clipFiles|
      && r.value.output == ReelOutput(videoPath))
  {
    var parsed :- ParseInstructions(instructions);
    var (mainTitle, segs) := parsed;
    var cards := TitleCards(mainTitle, segs);
    ClipFilesWritten(segs, 0, m);
    ParsedHasClips(segs);
    :- WriteAll(cards, m);
    var cuts :- PhaseTwo(segs, 0, m);
    var files := ClipFiles(segs, 0);
    AssemblyInOrder(mainTitle, segs);
    var order := AssembleCorrected(mainTitle, segs, cards, files).value;
    :- writeReel;
    Ok(Plan(mainTitle, segs, cards, cuts, files, order, ReelOutput(videoPath)))
  }

  /** Parsed segments hold at least one clip each, so a parsed reel has a
      clip. */
  lemma ParsedHasClips(segs: seq<Segment>)
    requires |segs| > 0 && SegmentsOk(segs)
    ensures ClipCount(segs, 0) > 0
  {
    assert |segs[0].clips| > 0;
  }

  /** A video moviepy cannot open fails the reel, with the OSError or an
      error raised before the clips. */
  lemma MissingVideoFails(videoPath: string, instructions: string, m: Movie, writeReel: Outcome)
    requires !m.videoOpens
    ensures ProcessReelCorrected(videoPath, instructions, m, writeReel).Err?
    ensures ProcessReel(videoPath, instructions, m, writeReel).Err?
  {
    ProcessReelAgrees(videoPath, instructions, m, writeReel);
  }

  /** With moviepy working, the corrected reel is built exactly when the
      instructions parse and every timestamp is three integers; every
      failure is then a ValueError. */
  lemma WorkingMovie(videoPath: string, instructions: string, m: Movie)
    requires Works(m)
    ensures ProcessReelCorrected(videoPath, instructions, m, Pass).Ok? <==>
      ParseInstructions(instructions).Ok? && TimestampsOk(ParseInstructions(instructions).value.1, 0)
    ensures ProcessReelCorrected(videoPath, instructions, m, Pass).Err? ==>
      ProcessReelCorrected(videoPath, instructions, m, Pass).error == ValueError
  {
  }

  /** A failing final write fails a reel that would otherwise be built,
      with the error it raised. */
  lemma ReelWriteFails(videoPath: string, instructions: string, m: Movie, e: PyError)
    requires ProcessReelCorrected(videoPath, instructions, m, Pass).Ok?
    ensures ProcessReelCorrected(videoPath, instructions, m, Fail(e)) == Err(e)
  {
    if !PhasesPass(instructions, m) {
      AgreesOnFailure(videoPath, instructions, m, Pass);
    }
  }

  /** The two differ only where a clip without a description makes the
      code as written read past its title cards; that happens after every
      card and clip is written and before the final write. */
  lemma ProcessReelAgrees(videoPath: string, instructions: string, m: Movie, writeReel: Outcome)
    ensures var c := ProcessReelCorrected(videoPath, instructions, m, Pass);
      ProcessReel(videoPath, instructions, m, writeReel)
        == if c.Ok? && !SegmentsDescribed(c.value.segments, 0) then Err(IndexError)
           else ProcessReelCorrected(videoPath, instructions, m, writeReel)
  {
    if PhasesPass(instructions, m) {
      var (mainTitle, segs) := ParseInstructions(instructions).value;
      AgreesAfterPhases(videoPath, instructions, m, writeReel, mainTitle, segs);
    } else {
      AgreesOnFailure(videoPath, instructions, m, writeReel);
    }
  }

  /** Parsing, phase 1 and phase 2 all succeed. */
  predicate PhasesPass(instructions: string, m: Movie) {
    && ParseInstructions(instructions).Ok?
    && WriteAll(TitleCards(ParseInstructions(instructions).value.0, ParseInstructions(instructions).value.1), m).Pass?
    && PhaseTwo(ParseInstructions(instructions).value.1, 0, m).Ok?
  }

  /** Before the assembly the two run the same steps. */
  lemma AgreesOnFailure(videoPath: string, instructions: string, m: Movie, writeReel: Outcome)
    requires !PhasesPass(instructions, m)
    ensures ProcessReelCorrected(videoPath, instructions, m, Pass).Err?
    ensures ProcessReel(videoPath, instructions, m, writeReel) == ProcessReelCorrected(videoPath, instructions, m, writeReel)
  {
  }

  /** After phases 1 and 2 the code as written fails exactly on an
      undescribed clip, and otherwise assembles what the corrected code
      does. */
  lemma AgreesAfterPhases(videoPath: string, instructions: string, m: Movie, writeReel: Outcome,
                          mainTitle: Option<string>, segs: seq<Segment>)
    requires PhasesPass(instructions, m) && ParseInstructions(instructions) == Ok((mainTitle, segs))
    ensures var c := ProcessReelCorrected(videoPath, instructions, m, Pass);
      c.Ok? && c.value.segments == segs
      && ProcessReel(videoPath, instructions, m, writeReel)
        == if !SegmentsDescribed(segs, 0) then Err(IndexError)
           else ProcessReelCorrected(videoPath, instructions, m, writeReel)
  {
    var cards := TitleCards(mainTitle, segs);
    var files := ClipFiles(segs, 0);
    AsWrittenNeedsDescriptions(mainTitle, segs);
    AssemblyInOrder(mainTitle, segs);
    if SegmentsDescribed(segs, 0) {
      AssemblyAgrees(mainTitle, segs, cards, files);
    }
  }

  /** Instructions that give some clip an empty description, and are
      otherwise sound, make the code as written fail with an IndexError,
      while the corrected assembly builds the reel. */
  lemma UndescribedClipFails(videoPath: string, m: Movie, writeReel: Outcome, mainTitle: Option<string>, segs: seq<Segment>)
    requires Works(m) && writeReel.Pass?
    requires Writable(mainTitle, segs) && TimestampsOk(segs, 0) && !SegmentsDescribed(segs, 0)
    ensures ProcessReel(videoPath, Instructions(mainTitle, segs), m, writeReel) == Err(IndexError)
    ensures ProcessReelCorrected(videoPath, Instructions(mainTitle, segs), m, writeReel).Ok?
  {
    ParseWritten(mainTitle, segs);
    WorkingMovie(videoPath, Instructions(mainTitle, segs), m);
    ProcessReelAgrees(videoPath, Instructions(mainTitle, segs), m, writeReel);
  }

  /** One segment holding one clip whose description is empty. */
  lemma UndescribedClipWitness(videoPath: string, m: Movie, title: string, timestamp: string)
    requires Works(m)
    requires PlainText(title) && |timestamp| > 0 && '"' !in timestamp && '\n' !in timestamp
    requires TimestampOk(Clip("", timestamp, 10))
    ensures ProcessReel(videoPath, Instructions(None, [Segment(title, [Clip("", timestamp, 10)])]), m, Pass) == Err(IndexError)
  {
    var c := Clip("", timestamp, 10);
    var segs := [Segment(title, [c])];
    assert ClipWritable(c);
    assert !AllDescribed(segs[0].clips, 0);
    UndescribedClipFails(videoPath, m, Pass, None, segs);
  }
}

=== FILE: pyint.dfy ===
/** Python's integer parsing (`int(str)`), `%d`/`%0Nd` formatting and
    `str(timedelta(seconds=n))`, on ASCII digits. */
module PyInt {
  import opened Wrappers
  import opened PyStr

  predicate IsDigit(c: char) { '0' <= c <= '9' }

  function DigitValue(c: char): nat
    requires IsDigit(c)
  {
    c as int - '0' as int
  }

  function DigitChar(d: nat): (c: char)
    requires d < 10
    ensures IsDigit(c) && DigitValue(c) == d
  {
    ('0' as int + d) as char
  }

  predicate AllDigits(s: string) {
    forall i :: 0 <= i < |s| ==> IsDigit(s[i])
  }

  /** `s.isdigit()` on ASCII text: non-empty and every character a digit. */
  predicate IsDigitStr(s: string) {
    |s| > 0 && AllDigits(s)
  }

  function Pow10(k: nat): (r: nat)
    ensures r >= 1
  {
    if k == 0 then 1 else 10 * Pow10(k - 1)
  }

  /** The value of a string of decimal digits (leading zeros allowed). */
  function DigitsValue(s: string): nat
    requires AllDigits(s)
  {
    if |s| == 0 then 0 else DigitsValue(s[..|s| - 1]) * 10 + DigitValue(s[|s| - 1])
  }

  /** A string of `k` digits is worth less than `10^k`. */
  lemma {:induction false} DigitsBelow(s: string)
    requires AllDigits(s)
    ensures DigitsValue(s) < Pow10(|s|)
  {
    if |s| > 0 {
      DigitsBelow(s[..|s| - 1]);
    }
  }

  lemma {:induction false} Pow10Mono(i: nat, j: nat)
    requires i <= j
    ensures Pow10(i) <= Pow10(j)
    decreases j - i
  {
    if i < j {
      Pow10Mono(i, j - 1);
    }
  }

  lemma AllDigitsConcat(a: string, b: string)
    requires AllDigits(a) && AllDigits(b)
    ensures AllDigits(a + b)
  {
    forall i | 0 <= i < |a + b| ensures IsDigit((a + b)[i]) {
      if i < |a| { assert (a + b)[i] == a[i]; } else { assert (a + b)[i] == b[i - |a|]; }
    }
  }

  lemma DigitsValueLast(s: string, t: string, c: nat)
    requires IsDigitStr(s) && AllDigits(t)
    requires t == s[..|s| - 1] && c == DigitValue(s[|s| - 1])
    ensures DigitsValue(s) == DigitsValue(t) * 10 + c
  {
  }

  lemma ShiftArith(x: int, y: int, p: int, c: int)
    ensures (x * p + y) * 10 + c == x * (p * 10) + (y * 10 + c)
  {
  }

  lemma {:induction false} DigitsValueConcat(a: string, b: string)
    requires AllDigits(a) && AllDigits(b)
    ensures AllDigits(a + b)
    ensures DigitsValue(a + b) == DigitsValue(a) * Pow10(|b|) + DigitsValue(b)
    decreases |b|
  {
    AllDigitsConcat(a, b);
    if |b| == 0 {
      assert a + b == a;
    } else {
      var b' := b[..|b| - 1];
      var c := DigitValue(b[|b| - 1]);
      assert (a + b)[..|a + b| - 1] == a + b';
      assert (a + b)[|a + b| - 1] == b[|b| - 1];
      DigitsValueConcat(a, b');
      var x, y, p := DigitsValue(a), DigitsValue(b'), Pow10(|b'|);
      DigitsValueLast(a + b, a + b', c);
      DigitsValueLast(b, b', c);
      assert Pow10(|b|) == p * 10;
      ShiftArith(x, y, p, c);
    }
  }

  /** `str(n)` for a non-negative integer. */
  function NatToString(n: nat): (r: string)
    ensures IsDigitStr(r)
    ensures |r| > 1 ==> r[0] != '0'
  {
    if n < 10 then [DigitChar(n)] else NatToString(n / 10) + [DigitChar(n % 10)]
  }

  /** Reading back the decimal rendering gives the number. */
  lemma {:induction false} NatToStringValue(n: nat)
    ensures DigitsValue(NatToString(n)) == n
  {
    if n >= 10 {
      var p := NatToString(n / 10);
      var r := NatToString(n);
      assert r[..|r| - 1] == p;
      NatToStringValue(n / 10);
    }
  }

  /** `str(n)` for any integer. */
  function IntToString(n: int): string
  {
    if n < 0 then "-" + NatToString(-n) else NatToString(n)
  }

  function Zeros(k: nat): (r: string)
    ensures |r| == k && AllDigits(r) && DigitsValue(r) == 0
  {
    if k == 0 then "" else
      var z := Zeros(k - 1) + "0";
      assert z[..|z| - 1] == Zeros(k - 1);
      z
  }

  /** Left-pads a digit string with zeros to at least `width` characters. */
  function ZeroPad(digits: string, width: nat): (r: string)
    requires AllDigits(digits)
    ensures AllDigits(r) && |r| >= width && |r| >= |digits|
    ensures DigitsValue(r) == DigitsValue(digits)
  {
    if |digits| >= width then digits
    else
      var z := Zeros(width - |digits|);
      DigitsValueConcat(z, digits);
      z + digits
  }

  /** `f"{n:0{width}d}"`: the sign counts towards the width. */
  function FormatPadded(n: int, width: nat): (r: string)
  {
    if n < 0 then "-" + ZeroPad(NatToString(-n), if width > 0 then width - 1 else 0)
    else ZeroPad(NatToString(n), width)
  }

  /** Python 3 integer-literal body: digits with single underscores between
      digits. */
  predicate IsIntBody(b: string) {
    && |b| > 0
    && IsDigit(b[0]) && IsDigit(b[|b| - 1])
    && (forall i :: 0 <= i < |b| ==> IsDigit(b[i]) || b[i] == '_')
    && (forall i :: 0 <= i < |b| - 1 ==> b[i] == '_' ==> b[i + 1] != '_')
  }

  function RemoveUnderscores(b: string): (r: string)
    requires forall i :: 0 <= i < |b| ==> IsDigit(b[i]) || b[i] == '_'
    ensures AllDigits(r)
  {
    if |b| == 0 then ""
    else if b[0] == '_' then RemoveUnderscores(b[1..])
    else [b[0]] + RemoveUnderscores(b[1..])
  }

  lemma RemoveUnderscoresOfDigits(b: string)
    requires AllDigits(b)
    ensures RemoveUnderscores(b) == b
  {
    if |b| > 0 {
      RemoveUnderscoresOfDigits(b[1..]);
      assert [b[0]] + b[1..] == b;
    }
  }

  /** Splits an optional leading sign off `t`: (negative?, rest). */
  function SignSplit(t: string): (bool, string)
  {
    if |t| > 0 && t[0] == '-' then (true, t[1..])
    else if |t| > 0 && t[0] == '+' then (false, t[1..])
    else (false, t)
  }

  /** `int(s)` for a `str` argument: surrounding whitespace, an optional sign
      and underscores between digits are accepted; anything else raises
      ValueError. */
  function ParseInt(s: string): (r: Result<int>)
    ensures r.Err? ==> r.error == ValueError
  {
    var (neg, body) := SignSplit(Strip(s));
    if !IsIntBody(body) then Err(ValueError)
    else
      var v: int := DigitsValue(RemoveUnderscores(body));
      Ok(if neg then -v else v)
  }

  lemma StripOfDigits(s: string)
    requires |s| > 0 && (IsDigit(s[0]) || s[0] == '-') && IsDigit(s[|s| - 1])
    ensures Strip(s) == s
  {
    StripUnchanged(s);
  }

  lemma DigitStrIsIntBody(d: string)
    requires IsDigitStr(d)
    ensures IsIntBody(d) && RemoveUnderscores(d) == d
  {
    RemoveUnderscoresOfDigits(d);
  }

  /** `int(str(n)) == n` for every integer, and with zero padding too. */
  lemma ParseFormatPadded(n: int, width: nat)
    ensures ParseInt(FormatPadded(n, width)) == Ok(n)
    ensures ParseInt(IntToString(n)) == Ok(n)
  {
    var m := if n < 0 then -n else n;
    var d := NatToString(m);
    NatToStringValue(m);
    var w := if n < 0 then (if width > 0 then width - 1 else 0) else width;
    var p := ZeroPad(d, w);
    if n < 0 {
      ParseNegDigits(p);
      ParseNegDigits(d);
    } else {
      ParseDigits(p);
      ParseDigits(d);
    }
  }

  /** A digit string reads as its value. */
  lemma ParseDigits(p: string)
    requires IsDigitStr(p)
    ensures ParseInt(p) == Ok(DigitsValue(p))
  {
    DigitStrIsIntBody(p);
    StripOfDigits(p);
    assert SignSplit(p) == (false, p);
  }

  /** A '-' and a digit string read as the negated value. */
  lemma ParseNegDigits(p: string)
    requires IsDigitStr(p)
    ensures ParseInt("-" + p) == Ok(-(DigitsValue(p) as int))
  {
    var s := "-" + p;
    DigitStrIsIntBody(p);
    assert s[|s| - 1] == p[|p| - 1];
    StripOfDigits(s);
    assert s[1..] == p;
    assert SignSplit(s) == (true, p);
  }

  /** `str(timedelta(seconds=n))` for whole seconds: `H:MM:SS`, preceded by
      `"<d> day, "` / `"<d> days, "` when the day count is non-zero
      (Python normalises to a floored day count and 0 <= seconds < 86400). */
  function TimedeltaStr(n: int): string
  {
    var days := n / 86400;
    var rem := n % 86400;
    var clock := NatToString(rem / 3600) + ":" + FormatPadded(rem % 3600 / 60, 2)
                 + ":" + FormatPadded(rem % 60, 2);
    if days == 0 then clock
    else IntToString(days) + (if days == 1 || days == -1 then " day, " else " days, ") + clock
  }

  /** A `timedelta` holds at most 999,999,999 days either way:
      `timedelta(seconds=n)` raises `OverflowError` when the floored day
      count leaves that range. */
  predicate TimedeltaFits(n: int)
  {
    -999_999_999 <= n / 86400 <= 999_999_999
  }

  /** The `H-MM-SS` tag used in media file names:
      `str(timedelta(seconds=n)).replace(':', '-')`. */
  function TimeTag(n: int): (r: string)
    ensures ':' !in r
  {
    TagColonFree(n);
    Replace(TimedeltaStr(n), ":", "-")
  }

  lemma TagColonFree(n: int)
    ensures ':' !in Replace(TimedeltaStr(n), ":", "-")
  {
    ReplaceOneChar(TimedeltaStr(n), ':', "-");
    ReplaceCharOmits(TimedeltaStr(n), ':', "-");
  }

  /** `int(x)` for a float: truncation toward zero. */
  function Trunc(x: real): (r: int)
    ensures x >= 0.0 ==> 0 <= r && r as real <= x < r as real + 1.0
    ensures x < 0.0 ==> r <= 0 && r as real - 1.0 < x <= r as real
  {
    if x >= 0.0 then x.Floor else -((-x).Floor)
  }
}

=== FILE: pystr.dfy ===
/** The subset of Python's `str` methods the modelled code relies on,
    defined on `seq<char>` with their documented CPython semantics. */
module PyStr {
  import opened Wrappers

  /** `str.isspace()` for one character; the same set is what `\s` matches
      in a Python 3 `str` regular expression. */
  predicate IsSpace(c: char) {
    if c <= ' ' then '\t' <= c <= '\r' || '\U{1C}' <= c
    else if c < '\U{85}' then false
    else
      || c == '\U{85}' || c == '\U{A0}' || c == '\U{1680}'
      || ('\U{2000}' <= c <= '\U{200A}')
      || c == '\U{2028}' || c == '\U{2029}' || c == '\U{202F}'
      || c == '\U{205F}' || c == '\U{3000}'
  }

  predicate IsBlank(s: string) {
    forall i :: 0 <= i < |s| ==> IsSpace(s[i])
  }

  /** `s.lstrip()` */
  function LStrip(s: string): string
  {
    if |s| > 0 && IsSpace(s[0]) then LStrip(s[1..]) else s
  }

  /** `s.rstrip()` */
  function RStrip(s: string): string
  {
    if |s| > 0 && IsSpace(s[|s| - 1]) then RStrip(s[..|s| - 1]) else s
  }

  /** `s.strip()` */
  function Strip(s: string): string
  {
    RStrip(LStrip(s))
  }

  lemma {:induction false} LStripFacts(s: string)
    ensures |LStrip(s)| <= |s| && LStrip(s) == s[|s| - |LStrip(s)|..]
    ensures forall k :: 0 <= k < |s| - |LStrip(s)| ==> IsSpace(s[k])
    ensures LStrip(s) == [] || !IsSpace(LStrip(s)[0])
  {
    if |s| > 0 && IsSpace(s[0]) {
      LStripFacts(s[1..]);
      assert forall k :: 1 <= k < |s| ==> s[k] == s[1..][k - 1];
    }
  }

  lemma {:induction false} RStripFacts(s: string)
    ensures |RStrip(s)| <= |s| && RStrip(s) == s[..|RStrip(s)|]
    ensures forall k :: |RStrip(s)| <= k < |s| ==> IsSpace(s[k])
    ensures RStrip(s) == [] || !IsSpace(RStrip(s)[|RStrip(s)| - 1])
  {
    if |s| > 0 && IsSpace(s[|s| - 1]) {
      RStripFacts(s[..|s| - 1]);
    }
  }

  /** `strip()` keeps a contiguous piece of `s`, removes only whitespace
      around it, and leaves no whitespace at either end; it is empty exactly
      for blank text. */
  lemma StripFacts(s: string)
    ensures var r := Strip(s); var a := |s| - |LStrip(s)|;
      && 0 <= a && a + |r| <= |s| && r == s[a..a + |r|]
      && (forall k :: 0 <= k < a ==> IsSpace(s[k]))
      && (forall k :: a + |r| <= k < |s| ==> IsSpace(s[k]))
      && (r == [] || (!IsSpace(r[0]) && !IsSpace(r[|r| - 1])))
      && (r == [] <==> IsBlank(s))
  {
    StripSlice(s);
    StripEnds(s);
    StripBlank(s);
  }

  lemma StripSlice(s: string)
    ensures var r := Strip(s); var a := |s| - |LStrip(s)|;
      && 0 <= a && a + |r| <= |s| && r == s[a..a + |r|]
      && (forall k :: 0 <= k < a ==> IsSpace(s[k]))
      && (forall k :: a + |r| <= k < |s| ==> IsSpace(s[k]))
  {
    var l := LStrip(s);
    LStripFacts(s);
    RStripFacts(l);
    var r := Strip(s);
    var a := |s| - |l|;
    assert r == l[..|r|];
    assert r == s[a..a + |r|];
    forall k | a + |r| <= k < |s| ensures IsSpace(s[k]) {
      assert s[k] == l[k - a];
    }
  }

  lemma StripEnds(s: string)
    ensures var r := Strip(s); r == [] || (!IsSpace(r[0]) && !IsSpace(r[|r| - 1]))
  {
    var l := LStrip(s);
    LStripFacts(s);
    RStripFacts(l);
    var r := Strip(s);
    if r != [] {
      assert r == l[..|r|];
      assert r[0] == l[0];
    }
  }

  lemma StripBlank(s: string)
    ensures Strip(s) == [] <==> IsBlank(s)
  {
    StripSlice(s);
    StripEnds(s);
    var r := Strip(s);
    var a := |s| - |LStrip(s)|;
    if r != [] {
      assert s[a] == r[0];
    }
  }

  /** Text with no whitespace at either end is its own `strip()`. */
  lemma StripUnchanged(t: string)
    requires |t| > 0 && !IsSpace(t[0]) && !IsSpace(t[|t| - 1])
    ensures Strip(t) == t
  {
  }

  /** One leading space goes, and nothing else, from text with no
      whitespace at either end. */
  lemma StripOneSpace(v: string)
    requires |v| > 0 && !IsSpace(v[0]) && !IsSpace(v[|v| - 1])
    ensures Strip(" " + v) == v
  {
    assert (" " + v)[1..] == v;
    assert LStrip(" " + v) == LStrip(v) == v;
  }

  /** A trailing space is all that `strip()` removes from `t + " "` when `t`
      has no whitespace at either end. */
  lemma StripTrailingSpace(t: string)
    requires |t| > 0 && !IsSpace(t[0]) && !IsSpace(t[|t| - 1])
    ensures Strip(t + " ") == t
  {
    var u := t + " ";
    assert u[0] == t[0];
    assert LStrip(u) == u;
    assert u[..|u| - 1] == t;
    assert RStrip(u) == RStrip(t) == t;
  }

  predicate StartsWith(s: string, prefix: string) {
    |prefix| <= |s| && s[..|prefix|] == prefix
  }

  /** `sub` occurs in `s` at index `i`. */
  predicate IsAt(s: string, sub: string, i: int) {
    0 <= i && i + |sub| <= |s| && s[i..i + |sub|] == sub
  }

  /** Python's `sub in s`. */
  predicate Contains(s: string, sub: string) {
    exists i :: 0 <= i <= |s| && IsAt(s, sub, i)
  }

  /** `s.find(sub, i)`, with `None` for -1. */
  function FindFrom(s: string, sub: string, i: nat): (r: Option<nat>)
    decreases |s| - i
    ensures r.Some? ==> i <= r.value && IsAt(s, sub, r.value)
    ensures r.Some? ==> forall k :: i <= k < r.value ==> !IsAt(s, sub, k)
    ensures r.None? ==> forall k :: i <= k ==> !IsAt(s, sub, k)
  {
    if i + |sub| > |s| then None
    else if s[i..i + |sub|] == sub then Some(i)
    else FindFrom(s, sub, i + 1)
  }

  /** `s.find(sub)`: the first occurrence. */
  function IndexOf(s: string, sub: string): (r: Option<nat>)
    ensures r.Some? <==> Contains(s, sub)
    ensures r.Some? ==> IsAt(s, sub, r.value)
    ensures r.Some? ==> forall k :: 0 <= k < r.value ==> !IsAt(s, sub, k)
  {
    FindFrom(s, sub, 0)
  }

  /** The first occurrence is the least index at which `sub` occurs. */
  lemma IndexOfLeast(s: string, sub: string, j: nat)
    requires IsAt(s, sub, j)
    requires forall k :: 0 <= k < j ==> !IsAt(s, sub, k)
    ensures IndexOf(s, sub) == Some(j)
  {
  }

  lemma IsAtShift(s: string, sub: string, k: nat)
    requires |s| > 0
    ensures IsAt(s, sub, k + 1) <==> IsAt(s[1..], sub, k)
  {
    if k + 1 + |sub| <= |s| {
      assert s[1..][k..k + |sub|] == s[k + 1..k + 1 + |sub|];
    }
  }

  /** `sep.join(parts)` */
  function Join(parts: seq<string>, sep: string): string
  {
    if |parts| == 0 then ""
    else if |parts| == 1 then parts[0]
    else parts[0] + sep + Join(parts[1..], sep)
  }

  lemma JoinCons(a: string, rest: seq<string>, sep: string)
    requires |rest| > 0
    ensures Join([a] + rest, sep) == a + sep + Join(rest, sep)
  {
    assert ([a] + rest)[1..] == rest;
  }

  /** A join starts with the first piece. */
  lemma JoinFirst(parts: seq<string>, sep: string)
    requires |parts| > 0 && |parts[0]| > 0
    ensures |Join(parts, sep)| > 0 && Join(parts, sep)[0] == parts[0][0]
  {
    if |parts| > 1 {
      JoinCons(parts[0], parts[1..], sep);
      assert [parts[0]] + parts[1..] == parts;
    }
  }

  /** A join ends with the last piece. */
  lemma {:induction false} JoinLast(parts: seq<string>, sep: string)
    requires |parts| > 0 && |parts[|parts| - 1]| > 0
    ensures |Join(parts, sep)| > 0
    ensures Join(parts, sep)[|Join(parts, sep)| - 1] == parts[|parts| - 1][|parts[|parts| - 1]| - 1]
    decreases |parts|
  {
    if |parts| > 1 {
      var rest := parts[1..];
      JoinLast(rest, sep);
      assert rest[|rest| - 1] == parts[|parts| - 1];
    }
  }

  /** `s.split(sep)` for a non-empty separator. */
  function Split(s: string, sep: string): (r: seq<string>)
    requires |sep| > 0
    ensures |r| >= 1
    decreases |s|
  {
    match IndexOf(s, sep)
    case None => [s]
    case Some(i) => [s[..i]] + Split(s[i + |sep|..], sep)
  }

  lemma SplitUnfold(s: string, sep: string, i: nat)
    requires |sep| > 0 && IndexOf(s, sep) == Some(i)
    ensures Split(s, sep) == [s[..i]] + Split(s[i + |sep|..], sep)
  {
  }

  lemma SplitAround(s: string, sep: string, i: nat)
    requires IsAt(s, sep, i)
    ensures s == s[..i] + sep + s[i + |sep|..]
  {
    assert s[i..i + |sep|] == sep;
    assert s == s[..i] + s[i..i + |sep|] + s[i + |sep|..];
  }

  /** Splitting and re-joining with the same separator gives the text back. */
  lemma {:induction false} SplitJoin(s: string, sep: string)
    requires |sep| > 0
    ensures Join(Split(s, sep), sep) == s
    decreases |s|
  {
    var idx := IndexOf(s, sep);
    if idx.Some? {
      var i := idx.value;
      var rest := s[i + |sep|..];
      SplitUnfold(s, sep, i);
      SplitAround(s, sep, i);
      SplitJoin(rest, sep);
      JoinCons(s[..i], Split(rest, sep), sep);
    }
  }

  /** No piece produced by `split` contains the separator. */
  lemma {:induction false} SplitPiecesFree(s: string, sep: string)
    requires |sep| > 0
    ensures forall k :: 0 <= k < |Split(s, sep)| ==> !Contains(Split(s, sep)[k], sep)
    decreases |s|
  {
    var idx := IndexOf(s, sep);
    if idx.Some? {
      var i := idx.value;
      var rest := s[i + |sep|..];
      SplitUnfold(s, sep, i);
      SplitPiecesFree(rest, sep);
      var pieces := Split(s, sep);
      forall k | 0 <= k < |pieces|
        ensures !Contains(pieces[k], sep)
      {
        if k == 0 {
          PrefixBeforeFirst(s, sep, i);
        } else {
          assert pieces[k] == Split(rest, sep)[k - 1];
        }
      }
    }
  }

  /** The text before the first occurrence does not contain the separator. */
  lemma PrefixBeforeFirst(s: string, sub: string, i: nat)
    requires |sub| > 0 && i <= |s|
    requires forall k :: 0 <= k < i ==> !IsAt(s, sub, k)
    ensures !Contains(s[..i], sub)
  {
    forall j | 0 <= j <= i
      ensures !IsAt(s[..i], sub, j)
    {
      if j + |sub| <= i {
        assert s[..i][j..j + |sub|] == s[j..j + |sub|];
        assert !IsAt(s, sub, j);
      }
    }
  }

  /** Joining pieces where the separator first occurs right after each
      non-final piece, and not at all in the last one. */
  ghost predicate CleanlyJoinable(parts: seq<string>, sep: string) {
    && (forall k :: 0 <= k < |parts| - 1 ==> IndexOf(parts[k] + sep, sep) == Some(|parts[k]|))
    && (|parts| > 0 ==> !Contains(parts[|parts| - 1], sep))
  }

  lemma IndexOfOfPrefixed(a: string, sep: string, b: string)
    requires |sep| > 0
    requires IndexOf(a + sep, sep) == Some(|a|)
    ensures IndexOf(a + sep + b, sep) == Some(|a|)
  {
    var y := a + sep + b;
    assert y[|a|..|a| + |sep|] == sep;
    forall k | 0 <= k < |a|
      ensures !IsAt(y, sep, k)
    {
      if IsAt(y, sep, k) {
        assert (a + sep)[k..k + |sep|] == y[k..k + |sep|];
        assert IsAt(a + sep, sep, k);
      }
    }
    IndexOfLeast(y, sep, |a|);
  }

  /** Splitting a clean join gives the pieces back. */
  lemma {:induction false} JoinSplit(parts: seq<string>, sep: string)
    requires |sep| > 0 && |parts| > 0
    requires CleanlyJoinable(parts, sep)
    ensures Split(Join(parts, sep), sep) == parts
    decreases |parts|
  {
    if |parts| == 1 {
      assert IndexOf(parts[0], sep).None?;
    } else {
      var a := parts[0];
      var rest := parts[1..];
      JoinCons(a, rest, sep);
      var s := a + sep + Join(rest, sep);
      IndexOfOfPrefixed(a, sep, Join(rest, sep));
      assert s[..|a|] == a;
      assert s[|a| + |sep|..] == Join(rest, sep);
      assert CleanlyJoinable(rest, sep) by {
        forall k | 0 <= k < |rest| - 1
          ensures IndexOf(rest[k] + sep, sep) == Some(|rest[k]|)
        {
          assert rest[k] == parts[k + 1];
        }
      }
      JoinSplit(rest, sep);
      assert [a] + rest == parts;
    }
  }

  lemma IndexOfCharFree(a: string, c: char)
    requires c !in a
    ensures IndexOf(a + [c], [c]) == Some(|a|)
    ensures !Contains(a, [c])
  {
    var y := a + [c];
    assert y[|a|..|a| + 1] == [c];
    forall k | 0 <= k < |a| ensures !IsAt(y, [c], k) {
      assert y[k..k + 1] == [a[k]];
    }
    IndexOfLeast(y, [c], |a|);
    forall k | 0 <= k < |a| ensures !IsAt(a, [c], k) {
      assert a[k..k + 1] == [a[k]];
    }
  }

  /** Pieces free of a one-character separator are split back apart. */
  lemma SplitJoinCharFree(parts: seq<string>, c: char)
    requires |parts| > 0
    requires forall k :: 0 <= k < |parts| ==> c !in parts[k]
    ensures Split(Join(parts, [c]), [c]) == parts
  {
    forall k | 0 <= k < |parts| ensures IndexOf(parts[k] + [c], [c]) == Some(|parts[k]|) && !Contains(parts[k], [c]) {
      IndexOfCharFree(parts[k], c);
    }
    JoinSplit(parts, [c]);
  }


  lemma Join3(a: string, b: string, c: string, sep: string)
    ensures Join([a, b], sep) == a + sep + b
    ensures Join([a, b, c], sep) == a + sep + b + sep + c
  {
    var two, three := [b, c], [a, b, c];
    assert two[1..] == [c];
    assert Join(two, sep) == b + sep + c;
    assert three[1..] == two;
    assert Join(three, sep) == a + sep + Join(two, sep);
    assert [a, b][1..] == [b];
  }

  /** `(a + c + b).split(c) == [a, b]` and likewise for three pieces, when
      no piece contains the one-character separator `c`. */
  lemma SplitCharFree3(a: string, b: string, d: string, c: char)
    requires c !in a && c !in b && c !in d
    ensures Split(a + [c] + b + [c] + d, [c]) == [a, b, d]
  {
    Join3(a, b, d, [c]);
    SplitJoinCharFree([a, b, d], c);
  }

  lemma SplitCharFree2(a: string, b: string, c: char)
    requires c !in a && c !in b
    ensures Split(a + [c] + b, [c]) == [a, b]
  {
    Join3(a, b, "", [c]);
    SplitJoinCharFree([a, b], c);
  }

  /** `c in s` for a one-character string `[c]`. */
  lemma ContainsChar(s: string, c: char)
    ensures Contains(s, [c]) <==> c in s
  {
    if c in s {
      var k :| 0 <= k < |s| && s[k] == c;
      assert s[k..k + 1] == [c];
      assert IsAt(s, [c], k);
    }
    forall k | 0 <= k < |s| ensures IsAt(s, [c], k) ==> s[k] == c {
      assert s[k..k + 1] == [s[k]];
    }
  }

  /** `s.replace("", rep)`: `rep` around every character. */
  function ReplaceEmpty(s: string, rep: string): string
  {
    if |s| == 0 then rep else rep + [s[0]] + ReplaceEmpty(s[1..], rep)
  }

  /** `s.replace(pat, rep)`: CPython's left-to-right scan replacing every
      non-overlapping occurrence. */
  function Replace(s: string, pat: string, rep: string): string
    decreases |s|
  {
    if |pat| == 0 then ReplaceEmpty(s, rep)
    else if |s| < |pat| then s
    else if s[..|pat|] == pat then rep + Replace(s[|pat|..], pat, rep)
    else [s[0]] + Replace(s[1..], pat, rep)
  }

  lemma IndexOfStep(s: string, sub: string)
    requires |s| > 0 && !IsAt(s, sub, 0)
    ensures IndexOf(s[1..], sub).None? ==> IndexOf(s, sub).None?
    ensures IndexOf(s[1..], sub).Some? ==> IndexOf(s, sub) == Some(IndexOf(s[1..], sub).value + 1)
  {
    match IndexOf(s[1..], sub)
    case None =>
      forall k: nat ensures !IsAt(s, sub, k) {
        if k > 0 { IsAtShift(s, sub, k - 1); }
      }
    case Some(j) =>
      IsAtShift(s, sub, j);
      forall k | 0 <= k < j + 1 ensures !IsAt(s, sub, k) {
        if k > 0 { IsAtShift(s, sub, k - 1); }
      }
      IndexOfLeast(s, sub, j + 1);
  }

  lemma ReplaceAtMatch(s: string, pat: string, rep: string)
    requires |pat| > 0 && |pat| <= |s| && s[..|pat|] == pat
    requires Replace(s[|pat|..], pat, rep) == Join(Split(s[|pat|..], pat), rep)
    ensures Replace(s, pat, rep) == Join(Split(s, pat), rep)
  {
    assert IsAt(s, pat, 0);
    IndexOfLeast(s, pat, 0);
    SplitUnfold(s, pat, 0);
    var rest := s[|pat|..];
    JoinCons(s[..0], Split(rest, pat), rep);
    assert s[..0] == "";
  }

  lemma ReplaceSkipChar(s: string, pat: string, rep: string)
    requires |pat| > 0 && |pat| <= |s| && s[..|pat|] != pat
    requires Replace(s[1..], pat, rep) == Join(Split(s[1..], pat), rep)
    ensures Replace(s, pat, rep) == Join(Split(s, pat), rep)
  {
    assert !IsAt(s, pat, 0);
    IndexOfStep(s, pat);
    var t := s[1..];
    assert Replace(s, pat, rep) == [s[0]] + Replace(t, pat, rep);
    var idx := IndexOf(t, pat);
    if idx.Some? {
      ReplaceSkipCharFound(s, pat, rep, idx.value);
    } else {
      assert Split(s, pat) == [s];
      assert Split(t, pat) == [t];
      assert [s[0]] + t == s;
    }
  }

  lemma ReplaceSkipCharFound(s: string, pat: string, rep: string, j: nat)
    requires |pat| > 0 && |s| > 0
    requires IndexOf(s[1..], pat) == Some(j) && IndexOf(s, pat) == Some(j + 1)
    ensures Join(Split(s, pat), rep) == [s[0]] + Join(Split(s[1..], pat), rep)
  {
    var t := s[1..];
    var tail := s[j + 1 + |pat|..];
    var rest := Split(tail, pat);
    assert t[j + |pat|..] == tail;
    SplitUnfold(t, pat, j);
    SplitUnfold(s, pat, j + 1);
    var hs := s[..j + 1];
    var ht := t[..j];
    assert Split(s, pat) == [hs] + rest;
    assert Split(t, pat) == [ht] + rest;
    JoinCons(hs, rest, rep);
    JoinCons(ht, rest, rep);
    HeadSlice(s, j);
    ConsAssoc(s[0], ht, rep, Join(rest, rep));
  }

  lemma HeadSlice(s: string, j: nat)
    requires j + 1 <= |s|
    ensures s[..j + 1] == [s[0]] + s[1..][..j]
  {
  }

  lemma ConsAssoc(c: char, a: string, b: string, d: string)
    ensures ([c] + a) + b + d == [c] + (a + b + d)
  {
  }

  /** `replace` keeps the text between occurrences and puts `rep` where
      each occurrence was: it is `rep.join(s.split(pat))`. */
  lemma {:induction false} ReplaceIsSplitJoin(s: string, pat: string, rep: string)
    requires |pat| > 0
    ensures Replace(s, pat, rep) == Join(Split(s, pat), rep)
    decreases |s|
  {
    if |s| < |pat| {
      assert IndexOf(s, pat).None?;
    } else if s[..|pat|] == pat {
      ReplaceIsSplitJoin(s[|pat|..], pat, rep);
      ReplaceAtMatch(s, pat, rep);
    } else {
      ReplaceIsSplitJoin(s[1..], pat, rep);
      ReplaceSkipChar(s, pat, rep);
    }
  }

  /** Text without any occurrence of `pat` is returned unchanged. */
  lemma ReplaceAbsent(s: string, pat: string, rep: string)
    requires |pat| > 0 && !Contains(s, pat)
    ensures Replace(s, pat, rep) == s
  {
    ReplaceIsSplitJoin(s, pat, rep);
  }

  /** Every `c` of `s` replaced by `rep`, one character at a time. */
  function ReplaceChar(s: string, c: char, rep: string): string
  {
    if |s| == 0 then [] else (if s[0] == c then rep else [s[0]]) + ReplaceChar(s[1..], c, rep)
  }

  /** `replace` of a one-character pattern is a per-character rewrite. */
  lemma {:induction false} ReplaceOneChar(s: string, c: char, rep: string)
    ensures Replace(s, [c], rep) == ReplaceChar(s, c, rep)
    decreases |s|
  {
    if |s| > 0 {
      ReplaceOneChar(s[1..], c, rep);
      assert s[..1] == [s[0]];
    }
  }

  /** Replacing `c` by text without it leaves no `c`. */
  lemma {:induction false} ReplaceCharOmits(s: string, c: char, rep: string)
    requires c !in rep
    ensures c !in ReplaceChar(s, c, rep)
    decreases |s|
  {
    if |s| > 0 {
      ReplaceCharOmits(s[1..], c, rep);
    }
  }

  lemma {:induction false} ReplaceCharAppend(a: string, b: string, c: char, rep: string)
    ensures ReplaceChar(a + b, c, rep) == ReplaceChar(a, c, rep) + ReplaceChar(b, c, rep)
    decreases |a|
  {
    if |a| > 0 {
      assert (a + b)[0] == a[0] && (a + b)[1..] == a[1..] + b;
      ReplaceCharAppend(a[1..], b, c, rep);
    } else {
      assert a + b == b;
    }
  }

  lemma {:induction false} ReplaceCharAbsent(s: string, c: char, rep: string)
    requires c !in s
    ensures ReplaceChar(s, c, rep) == s
    decreases |s|
  {
    if |s| > 0 {
      assert c !in s[1..] by { assert forall k :: 0 <= k < |s| - 1 ==> s[1..][k] == s[k + 1]; }
      ReplaceCharAbsent(s[1..], c, rep);
      assert [s[0]] + s[1..] == s;
    }
  }

  /** ASCII upper-casing of one character. */
  function UpperChar(c: char): char
  {
    if 'a' <= c <= 'z' then (c as int - 32) as char else c
  }

  /** `c.upper()` as far as a comparison with ASCII text can tell. ASCII
      letters are upper-cased; the characters outside ASCII whose uppercase
      starts with an ASCII letter map to it in full: dotless `ı` and long
      `ſ`, the special casings `ß` and the `ﬀ`…`ﬆ` ligatures, and the
      letters whose uppercase is an ASCII letter followed by a combining
      mark. Every other character is kept: its uppercase, if it has one,
      starts with a character outside ASCII, which no ASCII text matches
      either. No character is mapped to or from whitespace. */
  function UpperText(c: char): (r: string)
    ensures |r| > 0
    ensures c < '\U{80}' ==> r == [UpperChar(c)]
  {
    match c
    case '\U{DF}' => "SS"
    case '\U{131}' => "I"
    case '\U{17F}' => "S"
    case '\U{1F0}' => "J\U{30C}"
    case '\U{1E96}' => "H\U{331}"
    case '\U{1E97}' => "T\U{308}"
    case '\U{1E98}' => "W\U{30A}"
    case '\U{1E99}' => "Y\U{30A}"
    case '\U{1E9A}' => "A\U{2BE}"
    case '\U{FB00}' => "FF"
    case '\U{FB01}' => "FI"
    case '\U{FB02}' => "FL"
    case '\U{FB03}' => "FFI"
    case '\U{FB04}' => "FFL"
    case '\U{FB05}' => "ST"
    case '\U{FB06}' => "ST"
    case _ => [UpperChar(c)]
  }

  /** `s.upper()`, character by character through `UpperText`. */
  function Upper(s: string): (r: string)
    ensures |r| >= |s|
    ensures (forall i :: 0 <= i < |s| ==> s[i] < '\U{80}') ==>
      |r| == |s| && forall i :: 0 <= i < |s| ==> r[i] == UpperChar(s[i])
  {
    if |s| == 0 then []
    else
      var rest := Upper(s[1..]);
      assert forall i :: 1 <= i < |s| ==> s[1..][i - 1] == s[i];
      UpperText(s[0]) + rest
  }

  /** Upper-casing distributes over concatenation. */
  lemma {:induction false} UpperAppend(a: string, b: string)
    ensures Upper(a + b) == Upper(a) + Upper(b)
    decreases |a|
  {
    if |a| > 0 {
      assert (a + b)[1..] == a[1..] + b;
      UpperAppend(a[1..], b);
      assert Upper(a + b) == UpperText(a[0]) + (Upper(a[1..]) + Upper(b));
    } else {
      assert a + b == b;
    }
  }

  /** The characters `str.splitlines` treats as line boundaries. */
  predicate IsLineBoundary(c: char) {
    || c == '\n' || c == '\r' || c == '\U{0B}' || c == '\U{0C}'
    || c == '\U{1C}' || c == '\U{1D}' || c == '\U{1E}'
    || c == '\U{85}' || c == '\U{2028}' || c == '\U{2029}'
  }

  /** Index of the first line boundary at or after `i`, or `|s|`. */
  function LineEnd(s: string, i: nat): (r: nat)
    requires i <= |s|
    ensures i <= r <= |s|
    ensures forall k :: i <= k < r ==> !IsLineBoundary(s[k])
    ensures r < |s| ==> IsLineBoundary(s[r])
    decreases |s| - i
  {
    if i == |s| || IsLineBoundary(s[i]) then i else LineEnd(s, i + 1)
  }

  /** `s.splitlines()`: no line contains a boundary, `\r\n` counts as one
      boundary, and a trailing boundary does not start an empty line. */
  function SplitLines(s: string): (r: seq<string>)
    ensures forall k, j :: 0 <= k < |r| && 0 <= j < |r[k]| ==> !IsLineBoundary(r[k][j])
    decreases |s|
  {
    if |s| == 0 then []
    else
      var e := LineEnd(s, 0);
      if e == |s| then [s]
      else
        var skip := if s[e] == '\r' && e + 1 < |s| && s[e + 1] == '\n' then 2 else 1;
        [s[..e]] + SplitLines(s[e + skip..])
  }

  /** `s.split(c, 1)[1]` when `c in s`: the text after the first `c`. */
  function AfterFirst(s: string, c: char): (r: string)
    requires c in s
    ensures |r| < |s| && r == s[|s| - |r|..]
    ensures s[|s| - |r| - 1] == c && c !in s[..|s| - |r| - 1]
  {
    if s[0] == c then s[1..]
    else
      var r := AfterFirst(s[1..], c);
      assert s[1..][..|s[1..]| - |r| - 1] == s[1..|s| - |r| - 1];
      r
  }

  /** End of the maximal run of characters satisfying `p` from `i`: what a
      greedy `[...]*` takes when nothing after it needs the characters
      back. */
  function RunWhile(s: string, i: nat, p: char -> bool): (r: nat)
    requires i <= |s|
    ensures i <= r <= |s|
    ensures forall k :: i <= k < r ==> p(s[k])
    ensures r < |s| ==> !p(s[r])
    decreases |s| - i
  {
    if i == |s| || !p(s[i]) then i else RunWhile(s, i + 1, p)
  }

  /** A run that holds up to `e` and stops there ends at `e`. */
  lemma {:induction false} RunWhileStops(s: string, i: nat, e: nat, p: char -> bool)
    requires i <= e < |s|
    requires forall k :: i <= k < e ==> p(s[k])
    requires !p(s[e])
    ensures RunWhile(s, i, p) == e
    decreases e - i
  {
    if i < e {
      RunWhileStops(s, i + 1, e, p);
    }
  }
}

=== FILE: screenshots.dfy ===
/** `extract_screenshots_at_times`: the checks it makes, the sub-folder and
    file name of every screenshot, and which timestamps produce one. The
    video itself is a `Capture`: its duration and, per position of the
    timestamp list, whether the frame could be read. */
module ScreenshotExtractor {
  import opened Wrappers
  import opened PyStr
  import opened PyInt
  import opened Paths
  import opened TimeParse
  import opened Utils

  /** The opened video: whether OpenCV reports a non-zero frame rate (it
      reports 0 for a file it cannot decode, and the duration division
      then raises `ZeroDivisionError`), the duration in whole seconds, an
      opaque bound on the timestamps, and whether reading the frame for the
      timestamp at each position of the list succeeds. */
  datatype Capture = Capture(hasFps: bool, duration: int, readOk: nat -> bool)

  /** A saved screenshot: the 0-based position of its timestamp in the
      list, and the path of the written image. */
  datatype Screenshot = Screenshot(position: nat, path: string)

  /** The keyword the helpers pass to `validate_timestamps`. */
  const AllowDuplicatesKeyword: seq<string> := ["allow_duplicates"]

  /** `<stem>_screenshot_NNN_at_H-MM-SS.jpg` for the timestamp at 0-based
      position `i`; the number is the 1-based position in the whole list,
      and it reads back as the position. */
  function ScreenshotName(stem: string, i: nat, t: real): (r: string)
    ensures ScreenshotPosition(stem, r) == Some(i)
  {
    var d := FormatPadded(i + 1, 3);
    var name := stem + "_screenshot_" + d + ("_at_" + TimeTag(Trunc(t)) + ".jpg");
    DigitsFree(d, '_');
    NumberAfterPrefix(name, stem + "_screenshot_", d, "_at_" + TimeTag(Trunc(t)) + ".jpg");
    ParseFormatPadded(i + 1, 3);
    ScreenshotPositionOf(stem, name, d, i + 1);
    name
  }

  /** The per-video sub-folder `output_dir/<video stem>`. */
  function ScreenshotFolder(videoPath: string, outputDir: string): string
  {
    PathJoin(outputDir, FileStem(videoPath))
  }

  /** The timestamp at position `i` yields an image: it is within the
      video and its frame was read. */
  predicate Saved(ts: seq<real>, cap: Capture, i: nat)
    requires i < |ts|
  {
    ts[i] <= cap.duration as real && cap.readOk(i)
  }

  /** The image saved for the timestamp at position `i`. */
  function ShotAt(folder: string, stem: string, ts: seq<real>, i: nat): Screenshot
    requires i < |ts|
  {
    Screenshot(i, PathJoin(folder, ScreenshotName(stem, i, ts[i])))
  }

  /** The loop from position `k` on: timestamps past the end are skipped
      with a warning, unreadable frames with a message. */
  function ShotsFrom(folder: string, stem: string, ts: seq<real>, cap: Capture, k: nat): (r: seq<Screenshot>)
    requires k <= |ts|
    ensures forall j :: 0 <= j < |r| ==>
      k <= r[j].position < |ts| && Saved(ts, cap, r[j].position) && r[j] == ShotAt(folder, stem, ts, r[j].position)
    ensures forall j1, j2 :: 0 <= j1 < j2 < |r| ==> r[j1].position < r[j2].position
    decreases |ts| - k
  {
    if k == |ts| then []
    else
      var rest := ShotsFrom(folder, stem, ts, cap, k + 1);
      if Saved(ts, cap, k) then
        ShotsCons(folder, stem, ts, cap, k, rest);
        ShotsConsOrdered(ShotAt(folder, stem, ts, k), rest);
        [ShotAt(folder, stem, ts, k)] + rest
      else rest
  }

  /** With the image of position `k` in front of the later ones, every
      image is still the one saved for its position. */
  lemma ShotsCons(folder: string, stem: string, ts: seq<real>, cap: Capture, k: nat, rest: seq<Screenshot>)
    requires k < |ts| && Saved(ts, cap, k)
    requires forall j :: 0 <= j < |rest| ==>
      k + 1 <= rest[j].position < |ts| && Saved(ts, cap, rest[j].position) && rest[j] == ShotAt(folder, stem, ts, rest[j].position)
    ensures var r := [ShotAt(folder, stem, ts, k)] + rest;
      forall j :: 0 <= j < |r| ==>
        k <= r[j].position < |ts| && Saved(ts, cap, r[j].position) && r[j] == ShotAt(folder, stem, ts, r[j].position)
  {
    var r := [ShotAt(folder, stem, ts, k)] + rest;
    assert r[0].position == k;
    forall j | 0 < j < |r|
      ensures r[j] == rest[j - 1]
    {
    }
  }

  /** Positions still increase along the list with one more in front. */
  lemma ShotsConsOrdered(x: Screenshot, rest: seq<Screenshot>)
    requires forall j :: 0 <= j < |rest| ==> x.position < rest[j].position
    requires forall j1, j2 :: 0 <= j1 < j2 < |rest| ==> rest[j1].position < rest[j2].position
    ensures forall j1, j2 :: 0 <= j1 < j2 < |[x] + rest| ==> ([x] + rest)[j1].position < ([x] + rest)[j2].position
  {
    var r := [x] + rest;
    forall j | 0 < j < |r|
      ensures r[j] == rest[j - 1]
    {
    }
  }


  /** Some screenshot in `r` was taken for position `i`. */
  predicate HasPosition(r: seq<Screenshot>, i: nat)
  {
    exists j :: 0 <= j < |r| && r[j].position == i
  }

  lemma HasPositionCons(x: Screenshot, rest: seq<Screenshot>, i: nat)
    requires x.position == i || HasPosition(rest, i)
    ensures HasPosition([x] + rest, i)
  {
    if x.position != i {
      var j :| 0 <= j < |rest| && rest[j].position == i;
      assert ([x] + rest)[j + 1] == rest[j];
    } else {
      assert ([x] + rest)[0] == x;
    }
  }

  /** Every timestamp from position `k` on that yields an image has one in
      the loop's result. */
  lemma {:induction false} ShotsFromComplete(folder: string, stem: string, ts: seq<real>, cap: Capture, k: nat)
    requires k <= |ts|
    ensures forall i :: k <= i < |ts| && Saved(ts, cap, i) ==> HasPosition(ShotsFrom(folder, stem, ts, cap, k), i)
    decreases |ts| - k
  {
    if k < |ts| {
      ShotsFromComplete(folder, stem, ts, cap, k + 1);
      var rest := ShotsFrom(folder, stem, ts, cap, k + 1);
      var r := ShotsFrom(folder, stem, ts, cap, k);
      forall i | k <= i < |ts| && Saved(ts, cap, i)
        ensures HasPosition(r, i)
      {
        if Saved(ts, cap, k) {
          HasPositionCons(ShotAt(folder, stem, ts, k), rest, i);
        }
      }
    }
  }

  /** The loop as written: the failure message names `time_str`, which is
      only bound once a frame has been saved, so a failed read before any
      saved frame raises `UnboundLocalError`. `timeSet` says whether
      `time_str` is bound. */
  function ShotsAsWritten(folder: string, stem: string, ts: seq<real>, cap: Capture, k: nat, timeSet: bool): (r: Result<seq<Screenshot>>)
    requires k <= |ts|
    ensures r.Err? ==> r.error == UnboundLocalError
    decreases |ts| - k
  {
    if k == |ts| then Ok([])
    else if ts[k] > cap.duration as real then ShotsAsWritten(folder, stem, ts, cap, k + 1, timeSet)
    else if cap.readOk(k) then
      match ShotsAsWritten(folder, stem, ts, cap, k + 1, true)
      case Ok(rest) => Ok([ShotAt(folder, stem, ts, k)] + rest)
      case Err(e) => Err(e)
    else if timeSet then ShotsAsWritten(folder, stem, ts, cap, k + 1, timeSet)
    else Err(UnboundLocalError)
  }

  /** The first timestamp from position `k` on that lies within the video
      has an unreadable frame. */
  predicate FirstReadFails(ts: seq<real>, cap: Capture, k: nat)
  {
    exists i :: k <= i < |ts| && ts[i] <= cap.duration as real && !cap.readOk(i)
      && forall j :: k <= j < i ==> ts[j] > cap.duration as real
  }

  /** Once `time_str` is bound the as-written loop is the loop. */
  lemma {:induction false} AsWrittenOnceBound(folder: string, stem: string, ts: seq<real>, cap: Capture, k: nat)
    requires k <= |ts|
    ensures ShotsAsWritten(folder, stem, ts, cap, k, true) == Ok(ShotsFrom(folder, stem, ts, cap, k))
    decreases |ts| - k
  {
    if k < |ts| {
      AsWrittenOnceBound(folder, stem, ts, cap, k + 1);
    }
  }

  /** The as-written loop raises exactly when the first timestamp within
      the video cannot be read; otherwise it saves what the loop saves. */
  lemma {:induction false} AsWrittenRaises(folder: string, stem: string, ts: seq<real>, cap: Capture, k: nat)
    requires k <= |ts|
    ensures ShotsAsWritten(folder, stem, ts, cap, k, false)
      == if FirstReadFails(ts, cap, k) then Err(UnboundLocalError) else Ok(ShotsFrom(folder, stem, ts, cap, k))
    decreases |ts| - k
  {
    if k < |ts| {
      if ts[k] > cap.duration as real {
        AsWrittenRaises(folder, stem, ts, cap, k + 1);
        if FirstReadFails(ts, cap, k + 1) {
          var i :| k + 1 <= i < |ts| && ts[i] <= cap.duration as real && !cap.readOk(i)
            && forall j :: k + 1 <= j < i ==> ts[j] > cap.duration as real;
          assert forall j :: k <= j < i ==> ts[j] > cap.duration as real;
          assert FirstReadFails(ts, cap, k);
        }
        if FirstReadFails(ts, cap, k) {
          var i :| k <= i < |ts| && ts[i] <= cap.duration as real && !cap.readOk(i)
            && forall j :: k <= j < i ==> ts[j] > cap.duration as real;
          assert i != k;
          assert FirstReadFails(ts, cap, k + 1);
        }
      } else if cap.readOk(k) {
        AsWrittenOnceBound(folder, stem, ts, cap, k + 1);
        assert !FirstReadFails(ts, cap, k) by {
          forall i | k <= i < |ts| && ts[i] <= cap.duration as real && !cap.readOk(i)
            ensures exists j :: k <= j < i && ts[j] <= cap.duration as real
          {
            assert i != k;
          }
        }
      } else {
        assert FirstReadFails(ts, cap, k);
      }
    }
  }

  /** Reads the position back from a screenshot name of a known video. */
  function ScreenshotPosition(stem: string, name: string): (r: Option<nat>)
  {
    var p := stem + "_screenshot_";
    if |name| < |p| || name[..|p|] != p then None
    else
      var rest := name[|p|..];
      match IndexOf(rest, "_")
      case None => None
      case Some(j) =>
        match ParseInt(rest[..j])
        case Ok(v) => if v >= 1 then Some(v - 1) else None
        case Err(_) => None
  }

  /** A name with prefix `p`, then an underscore-free numeral `d`, then
      text starting with an underscore. */
  lemma NumberAfterPrefix(name: string, p: string, d: string, u: string)
    requires name == p + d + u && '_' !in d && |u| > 0 && u[0] == '_'
    ensures |name| >= |p| && name[..|p|] == p
    ensures IndexOf(name[|p|..], "_") == Some(|d|)
    ensures name[|p|..][..|d|] == d
  {
    var rest := name[|p|..];
    assert rest == d + "_" + u[1..];
    IndexOfCharFree(d, '_');
    IndexOfOfPrefixed(d, "_", u[1..]);
  }

  /** Reading a name whose numeral `d` after the prefix reads as `v`. */
  lemma ScreenshotPositionOf(stem: string, name: string, d: string, v: int)
    requires |name| >= |stem + "_screenshot_"| && name[..|stem + "_screenshot_"|] == stem + "_screenshot_"
    requires IndexOf(name[|stem + "_screenshot_"|..], "_") == Some(|d|)
    requires name[|stem + "_screenshot_"|..][..|d|] == d
    requires ParseInt(d) == Ok(v) && v >= 1
    ensures ScreenshotPosition(stem, name) == Some(v - 1)
  {
  }

  /** Screenshots of one video at different positions never share a file
      name, even when their timestamps are equal. */
  lemma ScreenshotNamesDistinct(stem: string, i1: nat, t1: real, i2: nat, t2: real)
    requires ScreenshotName(stem, i1, t1) == ScreenshotName(stem, i2, t2)
    ensures i1 == i2
  {
  }

  /** The timestamp argument passes `validate_timestamps` with duplicates
      allowed. */
  predicate ValidTimestamps(arg: TimestampsArg)
  {
    arg.Sequence? && |arg.items| > 0 && AllNonNegative(arg.items)
  }

  /** The steps between the argument checks and the first screenshot:
      the sub-folder (`dirMade` says whether `os.makedirs` returns), the
      frame-rate division and the printed `timedelta` of the duration. */
  function Prepare(dirMade: Outcome, cap: Capture): Outcome
  {
    if dirMade.Fail? then dirMade
    else if !cap.hasFps then Fail(ZeroDivisionError)
    else if !TimedeltaFits(cap.duration) then Fail(OverflowError)
    else Pass
  }

  /** What follows the argument checks in the intended function. */
  function SaveShots(videoPath: string, outputDir: string, ts: seq<real>, dirMade: Outcome, cap: Capture): Result<seq<Screenshot>>
  {
    match Prepare(dirMade, cap)
    case Fail(e) => Err(e)
    case Pass =>
      Ok(ShotsFrom(ScreenshotFolder(videoPath, outputDir), FileStem(videoPath), ts, cap, 0))
  }

  /** `extract_screenshots_at_times` with the duplicate-tolerant validation
      its comments ask for: a missing video first, then the argument
      checks, then the sub-folder, the frame rate and the duration, then
      one image per timestamp within the video whose frame was read, in
      list order, named after its position in the list. */
  function ExtractScreenshots(videoExists: bool, videoPath: string, outputDir: string, arg: TimestampsArg,
                              dirMade: Outcome, cap: Capture): (r: Result<seq<Screenshot>>)
    ensures !videoExists ==> r == Err(FileNotFoundError)
    ensures videoExists && !ValidTimestamps(arg) ==> r == Err(ValueError)
    ensures videoExists && ValidTimestamps(arg) && dirMade.Fail? ==> r == Err(dirMade.error)
    ensures videoExists && ValidTimestamps(arg) && dirMade.Pass? && !cap.hasFps ==> r == Err(ZeroDivisionError)
    ensures r.Ok? <==> videoExists && ValidTimestamps(arg) && dirMade.Pass? && cap.hasFps && TimedeltaFits(cap.duration)
    ensures r.Err? ==> r.error in {FileNotFoundError, ValueError, ZeroDivisionError, OverflowError} || dirMade == Fail(r.error)
    ensures r.Ok? ==>
      var ts := Values(arg.items);
      var folder := ScreenshotFolder(videoPath, outputDir);
      && (forall j :: 0 <= j < |r.value| ==>
            && r.value[j].position < |ts| && Saved(ts, cap, r.value[j].position)
            && r.value[j] == ShotAt(folder, FileStem(videoPath), ts, r.value[j].position))
      && (forall j1, j2 :: 0 <= j1 < j2 < |r.value| ==> r.value[j1].position < r.value[j2].position)
      && (forall i :: 0 <= i < |ts| && Saved(ts, cap, i) ==> HasPosition(r.value, i))
  {
    if !videoExists then Err(FileNotFoundError)
    else
      match ValidateTimestampsAllowing(arg, true)
      case Fail(e) => Err(e)
      case Pass =>
        ShotsFromComplete(ScreenshotFolder(videoPath, outputDir), FileStem(videoPath), Values(arg.items), cap, 0);
        SaveShots(videoPath, outputDir, Values(arg.items), dirMade, cap)
  }

  /** What follows the checks in the as-written function. */
  function SaveAsWritten(videoPath: string, outputDir: string, arg: TimestampsArg, dirMade: Outcome, cap: Capture): Result<seq<Screenshot>>
  {
    match arg
    case Sequence(items) =>
      if !AllNonNegative(items) then Err(ValueError)
      else
        (match Prepare(dirMade, cap)
         case Fail(e) => Err(e)
         case Pass => ShotsAsWritten(ScreenshotFolder(videoPath, outputDir), FileStem(videoPath), Values(items), cap, 0, false))
    case Other(_) => Err(ValueError)
  }

  /** `extract_screenshots_at_times` as written: the validator is called
      with a keyword it does not take, so every call on an existing video
      raises `TypeError` and no screenshot is ever saved. */
  function ExtractScreenshotsAsWritten(videoExists: bool, videoPath: string, outputDir: string, arg: TimestampsArg,
                                       dirMade: Outcome, cap: Capture): (r: Result<seq<Screenshot>>)
    ensures r == Err(if videoExists then TypeError else FileNotFoundError)
  {
    if !videoExists then Err(FileNotFoundError)
    else
      match CallValidateTimestamps(arg, AllowDuplicatesKeyword)
      case Fail(e) => Err(e)
      case Pass => SaveAsWritten(videoPath, outputDir, arg, dirMade, cap)
  }

  /** One concrete call where the two differ: a single timestamp at the
      start of an existing video. */
  lemma AllowDuplicatesRejected(cap: Capture)
    requires cap.hasFps && TimedeltaFits(cap.duration) && cap.duration >= 0 && cap.readOk(0)
    ensures ExtractScreenshotsAsWritten(true, "talk.mp4", "shots", Sequence([Number(0.0)]), Pass, cap) == Err(TypeError)
    ensures ExtractScreenshots(true, "talk.mp4", "shots", Sequence([Number(0.0)]), Pass, cap).Ok?
    ensures |ExtractScreenshots(true, "talk.mp4", "shots", Sequence([Number(0.0)]), Pass, cap).value| == 1
  {
    var ts := Values([Number(0.0)]);
    assert Saved(ts, cap, 0);
  }
}

=== FILE: timeparse.dfy ===
/** The time-string parsers of the repository: `DocxReader.parse_time`
    (which also accepts decimal seconds), the `parse_timestamp` /
    `parse_time` function shared verbatim by the highlight-reel extractor,
    its example script and the command-line tool, and the `H:M:S` reader of
    the processor's `_extract_clip`. */
module TimeParse {
  import opened Wrappers
  import opened PyStr
  import opened PyInt

  /** The seconds of an `H:M:S` clock. */
  function ClockSeconds(h: int, m: int, s: int): int
  {
    h * 3600 + m * 60 + s
  }

  /** `h, m, s = map(int, [a, b, c])`: the pieces are converted left to
      right and the first one `int` rejects raises ValueError. */
  function Clock3Value(a: string, b: string, c: string): (r: Result<int>)
    ensures r.Err? ==> r.error == ValueError
    ensures r.Ok? <==> ParseInt(a).Ok? && ParseInt(b).Ok? && ParseInt(c).Ok?
  {
    var h :- ParseInt(a);
    var m :- ParseInt(b);
    var s :- ParseInt(c);
    Ok(ClockSeconds(h, m, s))
  }

  /** `m, s = map(int, [a, b])` */
  function Clock2Value(a: string, b: string): (r: Result<int>)
    ensures r.Err? ==> r.error == ValueError
    ensures r.Ok? <==> ParseInt(a).Ok? && ParseInt(b).Ok?
  {
    var m :- ParseInt(a);
    var s :- ParseInt(b);
    Ok(m * 60 + s)
  }

  /** Seconds denoted by `[H, M, S]` or `[M, S]` pieces. */
  function ClockValue(parts: seq<string>): (r: Result<int>)
    requires |parts| == 2 || |parts| == 3
    ensures r.Err? ==> r.error == ValueError
  {
    if |parts| == 3 then Clock3Value(parts[0], parts[1], parts[2])
    else Clock2Value(parts[0], parts[1])
  }

  /** `parse_timestamp(s)`: strip; a plain digit string is seconds; otherwise
      exactly three or two ':'-separated integers; anything else is a
      ValueError. */
  function ParseTimestamp(text: string): (r: Result<int>)
    ensures r.Err? ==> r.error == ValueError
    ensures r.Ok? && ':' !in Strip(text) ==> IsDigitStr(Strip(text)) && r.value == DigitsValue(Strip(text))
  {
    var t := Strip(text);
    if IsDigitStr(t) then Ok(DigitsValue(t))
    else
      var parts := Split(t, ":");
      if ':' !in t then
        ColonFreeSplit(t);
        Err(ValueError)
      else if |parts| == 3 || |parts| == 2 then ClockValue(parts)
      else Err(ValueError)
  }

  lemma ColonFreeSplit(t: string)
    requires ':' !in t
    ensures Split(t, ":") == [t]
  {
    SplitJoinCharFree([t], ':');
  }

  /** The smallest magnitude that `float()` rounds to infinity: halfway
      between the largest finite double, 2^1024 - 2^971, and 2^1024, where
      round-half-to-even goes up. As this bound is an integer, a decimal
      literal reaches it exactly when its integer part does. */
  const FloatInfinity: int := 179769313486231580793728971405303415079934132710037826936173778980444968292764750946649017977587207096330286416692887910946555547851940402630657488671505820681908902000708383676273854845817711531764475730270069855571366959622842914819860834936475292719074168444365510704342711559699508093042880177904174497792

  /** The errors the document reader's `parse_time` lets out: its own
      ValueError, and the OverflowError of `int(float(s))` on a literal that
      `float()` turns into an infinity, which its `except ValueError` does
      not catch. */
  predicate ParseTimeError(e: PyError) {
    e == ValueError || e == OverflowError
  }

  /** The integer part of a decimal literal `[sign] int '.' frac` (either side
      may be empty, not both): `int(float(s))` truncates toward zero, and an
      integer part of at least `FloatInfinity` makes `float()` infinite and
      `int()` raise OverflowError. */
  function ParseDecimalTrunc(s: string): (r: Result<int>)
    ensures r.Err? ==> ParseTimeError(r.error)
    ensures r.Ok? ==> -FloatInfinity < r.value < FloatInfinity
  {
    var (neg, body) := SignSplit(Strip(s));
    match IndexOf(body, ".")
    case None =>
      if IsIntBody(body) then
        var v: int := DigitsValue(RemoveUnderscores(body));
        if v >= FloatInfinity then Err(OverflowError)
        else Ok(if neg then -v else v)
      else Err(ValueError)
    case Some(i) =>
      var whole := body[..i];
      var frac := body[i + 1..];
      if (|whole| == 0 || IsIntBody(whole)) && (|frac| == 0 || IsIntBody(frac))
         && |whole| + |frac| > 0 then
        var v: int := if |whole| == 0 then 0 else DigitsValue(RemoveUnderscores(whole));
        if v >= FloatInfinity then Err(OverflowError)
        else Ok(if neg then -v else v)
      else Err(ValueError)
  }

  /** `DocxReader.parse_time`: a text containing '.' goes through `float`;
      otherwise two or three ':'-separated integers; otherwise `int(s)`.
      Only the `float` branch can overflow. */
  function DocxParseTime(text: string): (r: Result<int>)
    ensures r.Err? ==> ParseTimeError(r.error)
    ensures r == Err(OverflowError) ==> Contains(text, ".")
  {
    if Contains(text, ".") then ParseDecimalTrunc(text)
    else
      var parts := Split(Strip(text), ":");
      if |parts| == 2 || |parts| == 3 then ClockValue(parts)
      else ParseInt(text)
  }

  /** The processor's `h, m, s = map(int, timestamp.split(':'))`: exactly
      three integers, no stripping of the whole text. */
  function ClipStartTime(timestamp: string): (r: Result<int>)
    ensures r.Err? ==> r.error == ValueError
  {
    var parts := Split(timestamp, ":");
    if |parts| == 3 then ClockValue(parts) else Err(ValueError)
  }

  // ---------------------------------------------------------------------
  // Round trips: the clock texts the parsers are documented to accept.

  lemma FormatPaddedShape(n: int, w: nat)
    ensures ':' !in FormatPadded(n, w) && '.' !in FormatPadded(n, w)
    ensures |FormatPadded(n, w)| > 0
    ensures !IsSpace(FormatPadded(n, w)[0])
    ensures !IsSpace(FormatPadded(n, w)[|FormatPadded(n, w)| - 1])
  {
    var d := ZeroPad(NatToString(if n < 0 then -n else n), if n < 0 then (if w > 0 then w - 1 else 0) else w);
    assert AllDigits(d) && |d| > 0;
    if n < 0 {
      assert FormatPadded(n, w) == "-" + d;
      assert forall k :: 1 <= k < |"-" + d| ==> ("-" + d)[k] == d[k - 1];
    }
  }

  /** `f"{h:0{wh}d}:{m:0{w}d}:{s:0{w}d}"`; width 0 is plain `str`. */
  function Clock3(h: int, m: int, s: int, wh: nat, w: nat): string
  {
    FormatPadded(h, wh) + ":" + FormatPadded(m, w) + ":" + FormatPadded(s, w)
  }

  /** `f"{m:0{w}d}:{s:0{w}d}"` */
  function Clock2(m: int, s: int, w: nat): string
  {
    FormatPadded(m, w) + ":" + FormatPadded(s, w)
  }

  lemma NoSpaceEnds(x: string, y: string)
    requires |x| > 0 && |y| > 0 && !IsSpace(x[0]) && !IsSpace(y[|y| - 1])
    ensures var t := x + ":" + y; |t| > 0 && !IsSpace(t[0]) && !IsSpace(t[|t| - 1])
  {
    var t := x + ":" + y;
    assert t[0] == x[0];
    assert t[|t| - 1] == y[|y| - 1];
  }

  lemma Clock3Strip(h: int, m: int, s: int, wh: nat, w: nat)
    ensures Strip(Clock3(h, m, s, wh, w)) == Clock3(h, m, s, wh, w)
  {
    var a, b, c := FormatPadded(h, wh), FormatPadded(m, w), FormatPadded(s, w);
    FormatPaddedShape(h, wh);
    FormatPaddedShape(m, w);
    FormatPaddedShape(s, w);
    NoSpaceEnds(a, b);
    NoSpaceEnds(a + ":" + b, c);
    StripUnchanged(Clock3(h, m, s, wh, w));
  }

  lemma Clock3Split(h: int, m: int, s: int, wh: nat, w: nat)
    ensures Split(Clock3(h, m, s, wh, w), ":") == [FormatPadded(h, wh), FormatPadded(m, w), FormatPadded(s, w)]
  {
    var a, b, c := FormatPadded(h, wh), FormatPadded(m, w), FormatPadded(s, w);
    FormatPaddedShape(h, wh);
    FormatPaddedShape(m, w);
    FormatPaddedShape(s, w);
    SplitCharFree3(a, b, c, ':');
  }

  lemma Clock3Chars(h: int, m: int, s: int, wh: nat, w: nat)
    ensures ':' in Clock3(h, m, s, wh, w) && !Contains(Clock3(h, m, s, wh, w), ".")
  {
    var a, b, c := FormatPadded(h, wh), FormatPadded(m, w), FormatPadded(s, w);
    FormatPaddedShape(h, wh);
    FormatPaddedShape(m, w);
    FormatPaddedShape(s, w);
    var t := Clock3(h, m, s, wh, w);
    assert t[|a|] == ':';
    ContainsChar(t, '.');
  }

  lemma Clock3Shape(h: int, m: int, s: int, wh: nat, w: nat)
    ensures Strip(Clock3(h, m, s, wh, w)) == Clock3(h, m, s, wh, w)
    ensures Split(Clock3(h, m, s, wh, w), ":") == [FormatPadded(h, wh), FormatPadded(m, w), FormatPadded(s, w)]
    ensures ':' in Clock3(h, m, s, wh, w) && !Contains(Clock3(h, m, s, wh, w), ".")
  {
    Clock3Strip(h, m, s, wh, w);
    Clock3Split(h, m, s, wh, w);
    Clock3Chars(h, m, s, wh, w);
  }

  lemma Clock2Strip(m: int, s: int, w: nat)
    ensures Strip(Clock2(m, s, w)) == Clock2(m, s, w)
  {
    FormatPaddedShape(m, w);
    FormatPaddedShape(s, w);
    NoSpaceEnds(FormatPadded(m, w), FormatPadded(s, w));
    StripUnchanged(Clock2(m, s, w));
  }

  lemma Clock2Split(m: int, s: int, w: nat)
    ensures Split(Clock2(m, s, w), ":") == [FormatPadded(m, w), FormatPadded(s, w)]
  {
    var a, b := FormatPadded(m, w), FormatPadded(s, w);
    FormatPaddedShape(m, w);
    FormatPaddedShape(s, w);
    SplitCharFree2(a, b, ':');
  }

  lemma Clock2Chars(m: int, s: int, w: nat)
    ensures ':' in Clock2(m, s, w) && !Contains(Clock2(m, s, w), ".")
  {
    FormatPaddedShape(m, w);
    FormatPaddedShape(s, w);
    var t := Clock2(m, s, w);
    assert t[|FormatPadded(m, w)|] == ':';
    ContainsChar(t, '.');
  }

  lemma Clock2Shape(m: int, s: int, w: nat)
    ensures Strip(Clock2(m, s, w)) == Clock2(m, s, w)
    ensures Split(Clock2(m, s, w), ":") == [FormatPadded(m, w), FormatPadded(s, w)]
    ensures ':' in Clock2(m, s, w) && !Contains(Clock2(m, s, w), ".")
  {
    Clock2Strip(m, s, w);
    Clock2Split(m, s, w);
    Clock2Chars(m, s, w);
  }

  /** `"H:M:S"` and `"M:S"` texts read back as `H*3600 + M*60 + S` and
      `M*60 + S`, for all integers (a leading '-' is accepted by `int`). */
  lemma ParseTimestampClock(h: int, m: int, s: int, wh: nat, w: nat)
    ensures ParseTimestamp(Clock3(h, m, s, wh, w)) == Ok(ClockSeconds(h, m, s))
    ensures ParseTimestamp(Clock2(m, s, w)) == Ok(m * 60 + s)
  {
    ParseTimestampClock3(h, m, s, wh, w);
    ParseTimestampClock2(m, s, w);
  }

  lemma ParseTimestampClock3(h: int, m: int, s: int, wh: nat, w: nat)
    ensures ParseTimestamp(Clock3(h, m, s, wh, w)) == Ok(ClockSeconds(h, m, s))
  {
    var t, parts, v := Clock3Facts(h, m, s, wh, w);
    ParseClockText(t, parts, v);
  }

  lemma ParseTimestampClock2(m: int, s: int, w: nat)
    ensures ParseTimestamp(Clock2(m, s, w)) == Ok(m * 60 + s)
  {
    var t, parts := Clock2Facts(m, s, w);
    ParseClockText(t, parts, m * 60 + s);
  }

  /** What the parsers see of a three-piece clock text. */
  lemma Clock3Facts(h: int, m: int, s: int, wh: nat, w: nat) returns (t: string, parts: seq<string>, v: int)
    ensures t == Clock3(h, m, s, wh, w) && Strip(t) == t && ':' in t
    ensures parts == Split(t, ":") && |parts| == 3
    ensures v == ClockSeconds(h, m, s) && ClockValue(parts) == Ok(v)
  {
    v := ClockSeconds(h, m, s);
    t := Clock3(h, m, s, wh, w);
    parts := [FormatPadded(h, wh), FormatPadded(m, w), FormatPadded(s, w)];
    Clock3Shape(h, m, s, wh, w);
    ParsePieces(h, m, s, wh, w);
  }

  /** What the parsers see of a two-piece clock text. */
  lemma Clock2Facts(m: int, s: int, w: nat) returns (t: string, parts: seq<string>)
    ensures t == Clock2(m, s, w) && Strip(t) == t && ':' in t
    ensures parts == Split(t, ":") && |parts| == 2
    ensures ClockValue(parts) == Ok(m * 60 + s)
  {
    t := Clock2(m, s, w);
    parts := [FormatPadded(m, w), FormatPadded(s, w)];
    Clock2Shape(m, s, w);
    ParsePieces(0, m, s, 0, w);
  }

  /** A stripped text with a ':' is read through its pieces. */
  lemma ParseClockText(t: string, parts: seq<string>, v: int)
    requires Strip(t) == t && ':' in t && parts == Split(t, ":")
    requires |parts| == 2 || |parts| == 3
    requires ClockValue(parts) == Ok(v)
    ensures ParseTimestamp(t) == Ok(v)
  {
    var k :| 0 <= k < |t| && t[k] == ':';
    assert !IsDigit(t[k]);
  }

  lemma ParsePieces(h: int, m: int, s: int, wh: nat, w: nat)
    ensures Clock3Value(FormatPadded(h, wh), FormatPadded(m, w), FormatPadded(s, w)) == Ok(ClockSeconds(h, m, s))
    ensures Clock2Value(FormatPadded(m, w), FormatPadded(s, w)) == Ok(m * 60 + s)
  {
    var a, b, c := FormatPadded(h, wh), FormatPadded(m, w), FormatPadded(s, w);
    ParseFormatPadded(h, wh);
    ParseFormatPadded(m, w);
    ParseFormatPadded(s, w);
    ClockValuesOf(a, b, c, h, m, s);
  }

  lemma ClockValuesOf(a: string, b: string, c: string, h: int, m: int, s: int)
    requires ParseInt(a) == Ok(h) && ParseInt(b) == Ok(m) && ParseInt(c) == Ok(s)
    ensures Clock3Value(a, b, c) == Ok(ClockSeconds(h, m, s))
    ensures Clock2Value(b, c) == Ok(m * 60 + s)
  {
  }

  /** The docx parser reads the same clock texts the same way. */
  lemma DocxParseTimeClock(h: int, m: int, s: int, wh: nat, w: nat)
    ensures DocxParseTime(Clock3(h, m, s, wh, w)) == Ok(ClockSeconds(h, m, s))
    ensures DocxParseTime(Clock2(m, s, w)) == Ok(m * 60 + s)
  {
    DocxParseTimeClock3(h, m, s, wh, w);
    DocxParseTimeClock2(m, s, w);
  }

  lemma DocxParseTimeClock3(h: int, m: int, s: int, wh: nat, w: nat)
    ensures DocxParseTime(Clock3(h, m, s, wh, w)) == Ok(ClockSeconds(h, m, s))
  {
    Clock3Shape(h, m, s, wh, w);
    ParsePieces(h, m, s, wh, w);
  }

  lemma DocxParseTimeClock2(m: int, s: int, w: nat)
    ensures DocxParseTime(Clock2(m, s, w)) == Ok(m * 60 + s)
  {
    Clock2Shape(m, s, w);
    ParsePieces(0, m, s, 0, w);
  }

  /** The processor reads only three-piece clock texts. */
  lemma ClipStartTimeClock(h: int, m: int, s: int, wh: nat, w: nat)
    ensures ClipStartTime(Clock3(h, m, s, wh, w)) == Ok(ClockSeconds(h, m, s))
    ensures ClipStartTime(Clock2(m, s, w)) == Err(ValueError)
  {
    Clock3Split(h, m, s, wh, w);
    Clock2Split(m, s, w);
    ParsePieces(h, m, s, wh, w);
  }

  /** Plain seconds: zero-padded digit strings read back as their value. */
  lemma ParseTimestampSeconds(n: nat, width: nat)
    ensures ParseTimestamp(ZeroPad(NatToString(n), width)) == Ok(n)
  {
    var t := ZeroPad(NatToString(n), width);
    NatToStringValue(n);
    assert IsDigitStr(t);
    StripOfDigits(t);
  }

  /** `int(s)` is the fall-back branch of the docx parser. */
  lemma DocxParseTimeSeconds(n: int, w: nat)
    ensures DocxParseTime(FormatPadded(n, w)) == Ok(n)
  {
    var t := FormatPadded(n, w);
    FormatPaddedShape(n, w);
    ContainsChar(t, '.');
    StripUnchanged(t);
    ColonFreeSplit(t);
    ParseFormatPadded(n, w);
  }

  lemma DigitsFree(x: string, c: char)
    requires AllDigits(x) && !IsDigit(c)
    ensures c !in x
  {
  }

  lemma DecimalStrip(x: string, y: string)
    requires IsDigitStr(x) && IsDigitStr(y)
    ensures Strip(x + "." + y) == x + "." + y
    ensures SignSplit(x + "." + y) == (false, x + "." + y)
  {
    var t := x + "." + y;
    assert t[0] == x[0];
    assert t[|t| - 1] == y[|y| - 1];
    StripUnchanged(t);
  }

  lemma DecimalDot(x: string, y: string)
    requires IsDigitStr(x) && IsDigitStr(y)
    ensures IndexOf(x + "." + y, ".") == Some(|x|)
    ensures (x + "." + y)[..|x|] == x
    ensures (x + "." + y)[|x| + 1..] == y
    ensures Contains(x + "." + y, ".")
  {
    DigitsFree(x, '.');
    IndexOfCharFree(x, '.');
    IndexOfOfPrefixed(x, ".", y);
    var t := x + "." + y;
    assert t[..|x|] == x;
    assert t[|x| + 1..] == y;
  }

  /** A decimal number of seconds is truncated by the docx parser and
      rejected by `parse_timestamp`. With at most 15 significant digits the
      literal is within half a unit in the last place of the nearest double
      without reaching `a + 1`, so `int(float(...))` and exact truncation
      agree. */
  lemma DecimalSeconds(a: nat, b: nat)
    requires |NatToString(a)| + |NatToString(b)| <= 15
    ensures DocxParseTime(NatToString(a) + "." + NatToString(b)) == Ok(a)
    ensures ParseTimestamp(NatToString(a) + "." + NatToString(b)) == Err(ValueError)
  {
    DecimalTruncated(a, b);
    DecimalRejected(a, b);
  }

  lemma DecimalTruncated(a: nat, b: nat)
    requires |NatToString(a)| <= 15
    ensures DocxParseTime(NatToString(a) + "." + NatToString(b)) == Ok(a)
  {
    DecimalLiteral(a, b);
    DigitsBelow(NatToString(a));
    NatToStringValue(a);
    Pow10Mono(|NatToString(a)|, 15);
    assert Pow10(15) == 1000000000000000;
  }

  /** `A.B` reads as its integer part `A`, or overflows once `A` is at
      least `FloatInfinity`. */
  lemma DecimalLiteral(a: nat, b: nat)
    ensures DocxParseTime(NatToString(a) + "." + NatToString(b))
         == if a < FloatInfinity then Ok(a) else Err(OverflowError)
  {
    var x, y := NatToString(a), NatToString(b);
    DecimalStrip(x, y);
    DecimalDot(x, y);
    NatToStringValue(a);
    DigitStrIsIntBody(x);
    DigitStrIsIntBody(y);
  }

  /** A decimal literal too large for a double escapes `parse_time` as an
      OverflowError rather than its ValueError. */
  lemma DecimalOverflows(a: nat, b: nat)
    requires a >= FloatInfinity
    ensures DocxParseTime(NatToString(a) + "." + NatToString(b)) == Err(OverflowError)
  {
    DecimalLiteral(a, b);
  }

  lemma DecimalRejected(a: nat, b: nat)
    ensures ParseTimestamp(NatToString(a) + "." + NatToString(b)) == Err(ValueError)
  {
    var x, y := NatToString(a), NatToString(b);
    var t := x + "." + y;
    DecimalStrip(x, y);
    assert !IsDigitStr(t) by { assert t[|x|] == '.'; }
    DigitsFree(x, ':');
    DigitsFree(y, ':');
    ColonFreeSplit(t);
  }

  // ---------------------------------------------------------------------
  // `str(timedelta(seconds=n))` and the `H-MM-SS` file-name tag.

  /** Under a day, `str(timedelta(seconds=n))` is the `H:MM:SS` clock text. */
  lemma TimedeltaIsClock(n: int)
    requires 0 <= n < 86400
    ensures TimedeltaStr(n) == Clock3(n / 3600, n % 3600 / 60, n % 60, 0, 2)
  {
    assert n / 86400 == 0 && n % 86400 == n;
    assert NatToString(n / 3600) == FormatPadded(n / 3600, 0);
  }

  /** Euclidean `//` and `%` split any number of seconds into clock fields. */
  lemma ClockArith(n: int)
    ensures ClockSeconds(n / 3600, n % 3600 / 60, n % 60) == n
  {
    var h, r := n / 3600, n % 3600;
    var m, s := r / 60, r % 60;
    assert n == (h * 60 + m) * 60 + s;
    DivMod60(n, h * 60 + m, s);
  }

  /** Division by 60 is determined by quotient and remainder. */
  lemma DivMod60(n: int, q: int, s: int)
    requires 0 <= s < 60 && n == q * 60 + s
    ensures n / 60 == q && n % 60 == s
  {
  }

  /** The highlight-reel parser reads a sub-day timedelta text back to the
      same number of seconds. */
  lemma TimedeltaParsesBack(n: int)
    requires 0 <= n < 86400
    ensures ParseTimestamp(TimedeltaStr(n)) == Ok(n)
  {
    TimedeltaIsClock(n);
    ParseTimestampClock3(n / 3600, n % 3600 / 60, n % 60, 0, 2);
    ClockArith(n);
  }

  /** Reads an `H-MM-SS` tag back: the inverse of `TimeTag` below a day. */
  function ParseTimeTag(tag: string): (r: Result<int>)
    ensures r.Err? ==> r.error == ValueError
  {
    var parts := Split(tag, "-");
    if |parts| == 3 then Clock3Value(parts[0], parts[1], parts[2]) else Err(ValueError)
  }

  lemma TimeTagIsDashed(n: int)
    requires 0 <= n < 86400
    ensures TimeTag(n) == FormatPadded(n / 3600, 0) + "-" + FormatPadded(n % 3600 / 60, 2) + "-" + FormatPadded(n % 60, 2)
  {
    var a, b, c := FormatPadded(n / 3600, 0), FormatPadded(n % 3600 / 60, 2), FormatPadded(n % 60, 2);
    TimedeltaIsClock(n);
    FormatPaddedShape(n / 3600, 0);
    FormatPaddedShape(n % 3600 / 60, 2);
    FormatPaddedShape(n % 60, 2);
    SplitCharFree3(a, b, c, ':');
    ReplaceIsSplitJoin(TimedeltaStr(n), ":", "-");
    Join3(a, b, c, "-");
  }

  lemma ParseTimeTagOf(tag: string, a: string, b: string, c: string, h: int, m: int, s: int, v: int)
    requires tag == a + "-" + b + "-" + c
    requires '-' !in a && '-' !in b && '-' !in c
    requires ParseInt(a) == Ok(h) && ParseInt(b) == Ok(m) && ParseInt(c) == Ok(s)
    requires v == ClockSeconds(h, m, s)
    ensures ParseTimeTag(tag) == Ok(v)
  {
    SplitCharFree3(a, b, c, '-');
    ClockValuesOf(a, b, c, h, m, s);
  }

  /** The three dash-free numerals of a sub-day tag and what they read as. */
  lemma TagPieces(n: int) returns (a: string, b: string, c: string)
    requires 0 <= n < 86400
    ensures TimeTag(n) == a + "-" + b + "-" + c
    ensures '-' !in a && '-' !in b && '-' !in c
    ensures ParseInt(a) == Ok(n / 3600) && ParseInt(b) == Ok(n % 3600 / 60) && ParseInt(c) == Ok(n % 60)
  {
    a, b, c := FormatPadded(n / 3600, 0), FormatPadded(n % 3600 / 60, 2), FormatPadded(n % 60, 2);
    TimeTagIsDashed(n);
    DashFreePadded(n / 3600, 0);
    DashFreePadded(n % 3600 / 60, 2);
    DashFreePadded(n % 60, 2);
    ParseFormatPadded(n / 3600, 0);
    ParseFormatPadded(n % 3600 / 60, 2);
    ParseFormatPadded(n % 60, 2);
  }

  lemma TagReadsAsClock(n: int, tag: string, h: int, m: int, s: int, v: int)
    requires 0 <= n < 86400
    requires tag == TimeTag(n) && h == n / 3600 && m == n % 3600 / 60 && s == n % 60
    requires v == ClockSeconds(h, m, s)
    ensures ParseTimeTag(tag) == Ok(v)
  {
    var a, b, c := TagPieces(n);
    ParseTimeTagOf(tag, a, b, c, h, m, s, v);
  }

  /** Below a day, the file-name tag determines the timestamp: reading it
      back gives `n`, so distinct timestamps get distinct tags. */
  lemma TimeTagParsesBack(n: int)
    requires 0 <= n < 86400
    ensures ParseTimeTag(TimeTag(n)) == Ok(n)
  {
    ClockArith(n);
    TagReadsAsClock(n, TimeTag(n), n / 3600, n % 3600 / 60, n % 60, n);
  }

  lemma DashFreePadded(n: nat, w: nat)
    ensures '-' !in FormatPadded(n, w)
  {
    DigitsFree(FormatPadded(n, w), '-');
  }

  lemma TimeTagInjective(n1: int, n2: int)
    requires 0 <= n1 < 86400 && 0 <= n2 < 86400 && TimeTag(n1) == TimeTag(n2)
    ensures n1 == n2
  {
    TimeTagParsesBack(n1);
    TimeTagParsesBack(n2);
  }

  /** Below a day, a tag holds nothing but digits and dashes. */
  lemma TagCharFree(n: int, c: char)
    requires 0 <= n < 86400 && !IsDigit(c) && c != '-'
    ensures c !in TimeTag(n)
  {
    TimeTagIsDashed(n);
    DigitsFree(FormatPadded(n / 3600, 0), c);
    DigitsFree(FormatPadded(n % 3600 / 60, 2), c);
    DigitsFree(FormatPadded(n % 60, 2), c);
  }
}

=== FILE: titled.dfy ===
/** `src/titled_highlight_reel.py`: a highlight reel cut with ffmpeg in
    which every video segment is preceded by a title card. The ffmpeg and
    ffprobe runs are oracles; what is modelled is the text handed to them —
    the escaped title, the concat list, the filter graph — the order of the
    intermediate files, the reported duration, and the order of the checks. */
module TitledHighlightReel {
  import opened Wrappers
  import opened PyStr
  import opened PyInt
  import opened Paths
  import opened ConcatDemuxer

  /** One segment of the reel: the text of its title card, and where and
      for how long to cut the source video, in seconds. */
  datatype HighlightSegment = HighlightSegment(title: string, startTime: int, duration: int)

  // ---------------------------------------------------------------------
  // The title card's drawtext text

  const QuoteEscape := "'\\''"

  /** `_create_title_card`'s escape: each `'` becomes `'\''` — close the
      quoted text, an escaped quote, reopen the quoted text. Between quotes
      the escaped title reads back as the title. */
  function EscapeTitle(title: string): (r: string)
    ensures ReadQuotedWord("'" + r + "'", false) == Some((title, ""))
  {
    ReplaceOneChar(title, '\'', QuoteEscape);
    EscapedCharsRead(title, "");
    var r := Replace(title, "'", QuoteEscape);
    assert ("'" + r + "'")[1..] == ReplaceChar(title, '\'', QuoteEscape) + "'" + "";
    r
  }

  /** Reads one word in the quoting the escape is written for: inside single
      quotes every character stands for itself up to the closing quote;
      outside them a quote opens a quoted stretch and a backslash takes the
      next character literally. The word ends at the first other character
      outside quotes; the result is its text and what follows it. */
  function ReadQuotedWord(s: string, quoted: bool): (r: Option<(string, string)>)
    ensures r.Some? ==> |r.value.1| <= |s|
    decreases |s|
  {
    if |s| == 0 then (if quoted then None else Some(([], [])))
    else if quoted then
      if s[0] == '\'' then ReadQuotedWord(s[1..], false)
      else
        var w :- ReadQuotedWord(s[1..], true);
        Some(([s[0]] + w.0, w.1))
    else if s[0] == '\'' then ReadQuotedWord(s[1..], true)
    else if s[0] == '\\' then
      if |s| < 2 then None
      else
        var w :- ReadQuotedWord(s[2..], false);
        Some(([s[1]] + w.0, w.1))
    else Some(([], s))
  }

  /** A text that cannot continue a word: empty, or starting with a
      character other than a quote or a backslash. */
  predicate EndsWord(rest: string) {
    rest == [] || (rest[0] != '\'' && rest[0] != '\\')
  }

  /** Inside quotes, `'\''` reads as one quote and stays inside quotes. */
  lemma QuoteEscapeRead(x: string, w: string, rest: string)
    requires ReadQuotedWord(x, true) == Some((w, rest))
    ensures ReadQuotedWord(QuoteEscape + x, true) == Some(("'" + w, rest))
  {
    var s := QuoteEscape + x;
    assert s[1..] == "\\''" + x;
    var s1 := s[1..];
    assert s1[0] == '\\' && s1[1] == '\'';
    assert s1[2..] == "'" + x;
    assert ("'" + x)[1..] == x;
    assert ReadQuotedWord("'" + x, false) == Some((w, rest));
    assert ReadQuotedWord(s1, false) == Some(("'" + w, rest));
    assert s[0] == '\'';
  }

  /** Inside quotes, any other character stands for itself. */
  lemma PlainCharRead(c: char, x: string, w: string, rest: string)
    requires c != '\'' && ReadQuotedWord(x, true) == Some((w, rest))
    ensures ReadQuotedWord([c] + x, true) == Some(([c] + w, rest))
  {
    assert ([c] + x)[1..] == x;
  }

  /** One escaped character, read inside quotes, gives that character. */
  lemma EscapedCharRead(c: char, x: string, w: string, rest: string)
    requires ReadQuotedWord(x, true) == Some((w, rest))
    ensures ReadQuotedWord(ReplaceChar([c], '\'', QuoteEscape) + x, true) == Some(([c] + w, rest))
  {
    assert ReplaceChar([c], '\'', QuoteEscape) == (if c == '\'' then QuoteEscape else [c]) + ReplaceChar([], '\'', QuoteEscape);
    if c == '\'' {
      assert ReplaceChar([c], '\'', QuoteEscape) + x == QuoteEscape + x;
      assert [c] + w == "'" + w;
      QuoteEscapeRead(x, w, rest);
    } else {
      PlainCharRead(c, x, w, rest);
    }
  }

  lemma {:induction false} EscapedCharsRead(title: string, rest: string)
    requires EndsWord(rest)
    ensures ReadQuotedWord(ReplaceChar(title, '\'', QuoteEscape) + "'" + rest, true) == Some((title, rest))
    decreases |title|
  {
    var t := title;
    if |t| == 0 {
      assert ReplaceChar(t, '\'', QuoteEscape) + "'" + rest == "'" + rest;
      assert ("'" + rest)[1..] == rest;
    } else {
      var x := ReplaceChar(t[1..], '\'', QuoteEscape) + "'" + rest;
      EscapedCharsRead(t[1..], rest);
      assert t == [t[0]] + t[1..];
      ReplaceCharAppend([t[0]], t[1..], '\'', QuoteEscape);
      assert ReplaceChar(t, '\'', QuoteEscape) + "'" + rest == ReplaceChar([t[0]], '\'', QuoteEscape) + x;
      EscapedCharRead(t[0], x, t[1..], rest);
    }
  }

  /** Put between quotes, the escaped title reads back as the title. */
  lemma EscapedTitleReads(title: string, rest: string)
    requires EndsWord(rest)
    ensures ReadQuotedWord("'" + EscapeTitle(title) + "'" + rest, false) == Some((title, rest))
  {
    ReplaceOneChar(title, '\'', QuoteEscape);
    var s := "'" + EscapeTitle(title) + "'" + rest;
    assert s[1..] == ReplaceChar(title, '\'', QuoteEscape) + "'" + rest;
    EscapedCharsRead(title, rest);
  }

  const DrawTextStart := "drawtext=text="

  /** The `-vf` argument of the title card: the escaped title between
      quotes, then colour, size and centring. */
  function DrawText(title: string, textColor: string, fontSize: int): string {
    DrawTextStart + "'" + EscapeTitle(title) + "'" + DrawTextOptions(textColor, fontSize)
  }

  function DrawTextOptions(textColor: string, fontSize: int): (r: string)
    ensures EndsWord(r)
  {
    ":fontcolor=" + textColor + ":fontsize=" + IntToString(fontSize) + ":x=(w-text_w)/2:y=(h-text_h)/2"
  }

  /** Whatever the title, the `text=` option of the filter reads back as
      exactly that title, followed by the remaining options. */
  lemma DrawTextCarriesTitle(title: string, textColor: string, fontSize: int)
    ensures var d := DrawText(title, textColor, fontSize);
      |DrawTextStart| <= |d| && d[..|DrawTextStart|] == DrawTextStart
      && ReadQuotedWord(d[|DrawTextStart|..], false) == Some((title, DrawTextOptions(textColor, fontSize)))
  {
    var word := "'" + EscapeTitle(title) + "'" + DrawTextOptions(textColor, fontSize);
    DrawTextShape(title, textColor, fontSize);
    SplitAt(DrawTextStart, word);
    EscapedTitleReads(title, DrawTextOptions(textColor, fontSize));
  }

  lemma DrawTextShape(title: string, textColor: string, fontSize: int)
    ensures DrawText(title, textColor, fontSize)
      == DrawTextStart + ("'" + EscapeTitle(title) + "'" + DrawTextOptions(textColor, fontSize))
  {
    var e, o := EscapeTitle(title), DrawTextOptions(textColor, fontSize);
    assert DrawText(title, textColor, fontSize) == DrawTextStart + "'" + e + "'" + o;
  }

  /** Cutting `a + b` after `a` gives back `a` and `b`. */
  lemma SplitAt(a: string, b: string)
    ensures (a + b)[..|a|] == a && (a + b)[|a|..] == b
  {
  }

  // ---------------------------------------------------------------------
  // The concat list

  /** `_create_concat_file`'s escape: backslashes doubled first, then each
      quote written as backslash-quote. */
  function EscapeConcatPath(path: string): (r: string)
    ensures r == EscapeConcatChars(path)
  {
    ReplaceOneChar(path, '\\', "\\\\");
    ReplaceOneChar(ReplaceChar(path, '\\', "\\\\"), '\'', "\\'");
    TwoPassesChars(path);
    Replace(Replace(path, "\\", "\\\\"), "'", "\\'")
  }

  /** The two passes amount to one: each backslash or quote gets a
      backslash in front, every other character is kept. */
  function EscapeConcatChars(path: string): (r: string)
  {
    if |path| == 0 then []
    else (if path[0] == '\\' || path[0] == '\'' then ['\\', path[0]] else [path[0]]) + EscapeConcatChars(path[1..])
  }

  lemma {:induction false} TwoPassesChars(path: string)
    ensures ReplaceChar(ReplaceChar(path, '\\', "\\\\"), '\'', "\\'") == EscapeConcatChars(path)
    decreases |path|
  {
    if |path| > 0 {
      var c := path[0];
      var head := if c == '\\' then "\\\\" else [c];
      assert ReplaceChar(path, '\\', "\\\\") == head + ReplaceChar(path[1..], '\\', "\\\\");
      ReplaceCharAppend(head, ReplaceChar(path[1..], '\\', "\\\\"), '\'', "\\'");
      TwoPassesChars(path[1..]);
      if c == '\\' {
        ReplaceCharAbsent(head, '\'', "\\'");
      } else {
        assert ReplaceChar([c], '\'', "\\'") == (if c == '\'' then "\\'" else [c]) + ReplaceChar([], '\'', "\\'");
      }
    }
  }

  const ConcatLineStart := "file '"

  /** One line of the concat list: `file '<escaped path>'`. */
  function ConcatLine(path: string): string {
    ConcatLineStart + EscapeConcatPath(path) + "'\n"
  }

  /** `_create_concat_file`'s text: one line per path, in order. A list of
      plain paths reads back as the paths it was written from. */
  function ConcatList(paths: seq<string>): (r: string)
    ensures (forall k :: 0 <= k < |paths| ==> PlainPath(paths[k])) ==> ReadConcatList(r) == Some(paths)
  {
    if |paths| == 0 then []
    else
      var rest := ConcatList(paths[1..]);
      assert forall k :: 1 <= k < |paths| ==> paths[1..][k - 1] == paths[k];
      ConcatListStep(paths[0], paths[1..], rest);
      assert [paths[0]] + paths[1..] == paths;
      ConcatLine(paths[0]) + rest
  }

  // ---------------------------------------------------------------------
  // The list's quoting

  /** `'\''` is a closing quote, an escaped quote and an opening quote. */
  lemma QuoteEscapeSplice(a: string, rb: string)
    ensures "'" + (a + QuoteEscape + rb) + "'" == "'" + a + "'" + ("\\'" + ("'" + rb + "'"))
  {
    assert QuoteEscape == "'" + "\\'" + "'";
  }

  /** The first quote of `p` is written `'\''`; the rest reads back by
      the induction hypothesis `rest`. */
  lemma QuoteThenRest(a: string, b: string)
    requires '\'' !in a
    requires ScriptToken("'" + ReplaceChar(b, '\'', QuoteEscape) + "'") == b
    ensures ScriptToken("'" + ReplaceChar(a + "'" + b, '\'', QuoteEscape) + "'") == a + "'" + b
  {
    var rb := ReplaceChar(b, '\'', QuoteEscape);
    var x := "'" + rb + "'";
    ReplaceAtQuote(a, b);
    QuoteEscapeSplice(a, rb);
    QuotedRunStep(a, "\\'" + x);
    EscapedQuoteStep(x);
  }

  /** The first quote, after a stretch with none, becomes `'\''`. */
  lemma ReplaceAtQuote(a: string, b: string)
    requires '\'' !in a
    ensures ReplaceChar(a + "'" + b, '\'', QuoteEscape) == a + QuoteEscape + ReplaceChar(b, '\'', QuoteEscape)
  {
    ReplaceCharAppend(a, "'" + b, '\'', QuoteEscape);
    ReplaceCharAppend("'", b, '\'', QuoteEscape);
    ReplaceCharAbsent(a, '\'', QuoteEscape);
    assert ReplaceChar("'", '\'', QuoteEscape) == QuoteEscape + ReplaceChar([], '\'', QuoteEscape);
    assert a + "'" + b == a + ("'" + b);
  }

  /** Between quotes, text whose quotes are written `'\''` reads back with
      those quotes. */
  lemma {:induction false} QuotedRunsRead(p: string)
    ensures ScriptToken("'" + ReplaceChar(p, '\'', QuoteEscape) + "'") == p
    decreases |p|
  {
    var q := RunWhile(p, 0, NotQuote);
    var a := p[..q];
    assert '\'' !in a by { assert forall k :: 0 <= k < q ==> a[k] == p[k]; }
    if q == |p| {
      assert a == p;
      ReplaceCharAbsent(p, '\'', QuoteEscape);
      QuotedWordRead(p);
    } else {
      var b := p[q + 1..];
      assert p == a + "'" + b;
      QuotedRunsRead(b);
      QuoteThenRest(a, b);
    }
  }

  /** Quotes written `'\''` leave no line end where there was none. */
  lemma {:induction false} EscapedOnOneLine(p: string)
    requires OnOneLine(p)
    ensures OnOneLine(ReplaceChar(p, '\'', QuoteEscape))
    decreases |p|
  {
    if |p| > 0 {
      assert OnOneLine(p[1..]) by { assert forall k :: 0 <= k < |p| - 1 ==> p[1..][k] == p[k + 1]; }
      EscapedOnOneLine(p[1..]);
    }
  }

  // The list as written

  /** Paths the escape leaves alone and that fit on one line. */
  predicate PlainPath(p: string) {
    '\'' !in p && '\\' !in p && OnOneLine(p)
  }

  lemma {:induction false} PlainEscapeChars(p: string)
    requires '\'' !in p && '\\' !in p
    ensures EscapeConcatChars(p) == p
    decreases |p|
  {
    if |p| > 0 {
      assert '\'' !in p[1..] && '\\' !in p[1..] by { assert forall k :: 0 <= k < |p| - 1 ==> p[1..][k] == p[k + 1]; }
      PlainEscapeChars(p[1..]);
      assert [p[0]] + p[1..] == p;
    }
  }

  /** The line `file '<e>'` ends its text with a line feed, sits on one
      line when `e` does, and is read as the word between its quotes. */
  lemma WrittenLineRead(e: string, p: string)
    requires OnOneLine(e) && ScriptToken("'" + e + "'") == p
    ensures var line := ConcatLineStart + e + "'";
      ConcatLineStart + e + "'\n" == line + "\n" && OnOneLine(line) && ReadConcatLine(line) == Some(Some(p))
  {
    WrittenLineShape(e);
    FileLineRead("'" + e + "'");
  }

  lemma WrittenLineShape(e: string)
    requires OnOneLine(e)
    ensures var line := ConcatLineStart + e + "'";
      ConcatLineStart + e + "'\n" == line + "\n" && OnOneLine(line) && line == "file " + ("'" + e + "'")
  {
    assert OnOneLine(ConcatLineStart) && OnOneLine("'");
  }

  /** A plain path's line reads as the path. */
  lemma PlainLineRead(p: string)
    requires PlainPath(p)
    ensures var line := ConcatLineStart + p + "'";
      ConcatLine(p) == line + "\n" && OnOneLine(line) && ReadConcatLine(line) == Some(Some(p))
  {
    PlainEscapeChars(p);
    QuotedWordRead(p);
    WrittenLineRead(p, p);
  }

  /** A plain path's line in front of a list that reads back. */
  lemma ConcatListStep(p: string, tail: seq<string>, rest: string)
    ensures PlainPath(p) && ReadConcatList(rest) == Some(tail) ==> ReadConcatList(ConcatLine(p) + rest) == Some([p] + tail)
  {
    if PlainPath(p) && ReadConcatList(rest) == Some(tail) {
      var line := ConcatLineStart + p + "'";
      PlainLineRead(p);
      assert ConcatLine(p) + rest == line + "\n" + rest;
      LineThenRest(line, rest, p);
    }
  }

  /** A list of one path whose line holds `e` between the quotes. */
  lemma OneLineList(x: string, e: string, p: string)
    requires EscapeConcatPath(x) == e && OnOneLine(e) && ScriptToken("'" + e + "'") == p
    ensures ReadConcatList(ConcatList([x])) == Some([p])
  {
    var line := ConcatLineStart + e + "'";
    WrittenLineRead(e, p);
    assert ConcatList([x]) == line + "\n" + [];
    LineThenRest(line, [], p);
    assert [p] + [] == [p];
  }

  /** Within the quotes ffmpeg copies backslashes as they are, so the
      escape of `_create_concat_file` changes a path with a quote in it:
      `a'b` reads back as `a\b`. */
  lemma QuoteMangled()
    ensures ReadConcatList(ConcatList(["a'b"])) == Some(["a\\b"])
  {
    assert EscapeConcatChars("a'b") == "a\\'b";
    assert OnOneLine("a\\'b");
    EscapedQuoteToken();
    OneLineList("a'b", "a\\'b", "a\\b");
  }

  lemma EscapedQuoteToken()
    ensures ScriptToken("'" + "a\\'b" + "'") == "a\\b"
  {
    QuotedRunStep("a\\", "b'");
    assert "'" + "a\\" + "'" + "b'" == "'" + "a\\'b" + "'";
    assert ScriptToken("b'") == "b" + ScriptToken("'");
  }

  /** A path with a backslash reads back with the backslash doubled:
      `a\b` as `a\\b`. */
  lemma BackslashMangled()
    ensures ReadConcatList(ConcatList(["a\\b"])) == Some(["a\\\\b"])
  {
    assert EscapeConcatChars("a\\b") == "a\\\\b";
    assert OnOneLine("a\\\\b");
    QuotedWordRead("a\\\\b");
    OneLineList("a\\b", "a\\\\b", "a\\\\b");
  }

  // The list with ffmpeg's quoting

  /** A line of the list with each quote of the path written `'\''`, the
      quoting the title cards use: it needs no other escape. */
  function QuotedConcatLine(path: string): string {
    ConcatLineStart + EscapeTitle(path) + "'\n"
  }

  function QuotedConcatList(paths: seq<string>): string {
    if |paths| == 0 then [] else QuotedConcatLine(paths[0]) + QuotedConcatList(paths[1..])
  }

  /** A line written with ffmpeg's quoting reads as its path. */
  lemma QuotedLineRead(p: string)
    requires OnOneLine(p)
    ensures var line := ConcatLineStart + ReplaceChar(p, '\'', QuoteEscape) + "'";
      QuotedConcatLine(p) == line + "\n" && OnOneLine(line) && ReadConcatLine(line) == Some(Some(p))
  {
    var e := ReplaceChar(p, '\'', QuoteEscape);
    ReplaceOneChar(p, '\'', QuoteEscape);
    EscapedOnOneLine(p);
    QuotedRunsRead(p);
    WrittenLineRead(e, p);
  }

  /** Written with ffmpeg's quoting, the concat list reads back as the list
      of paths it was written from, whatever characters the paths hold
      short of a line end. */
  lemma {:induction false} QuotedConcatListReads(paths: seq<string>)
    requires forall k :: 0 <= k < |paths| ==> OnOneLine(paths[k])
    ensures ReadConcatList(QuotedConcatList(paths)) == Some(paths)
    decreases |paths|
  {
    if |paths| > 0 {
      var p, rest := paths[0], QuotedConcatList(paths[1..]);
      var line := ConcatLineStart + ReplaceChar(p, '\'', QuoteEscape) + "'";
      QuotedLineRead(p);
      assert QuotedConcatList(paths) == line + "\n" + rest;
      LineThenRest(line, rest, p);
      QuotedConcatListReads(paths[1..]);
      assert [p] + paths[1..] == paths;
    }
  }

  // ---------------------------------------------------------------------
  // The intermediate files

  /** An intermediate file: title card `i` or video segment `i`, counted
      from 0. */
  datatype Piece = TitleCard(index: nat) | SegmentClip(index: nat)

  /** The file name of each piece: `title_NNN.mp4` and `segment_NNN.mp4`
      with a 1-based, 3-digit-padded number. */
  function PieceName(p: Piece): string {
    match p
    case TitleCard(i) => "title_" + FormatPadded(i + 1, 3) + ".mp4"
    case SegmentClip(i) => "segment_" + FormatPadded(i + 1, 3) + ".mp4"
  }

  lemma DigitsOnOneLine(d: string)
    requires AllDigits(d)
    ensures OnOneLine(d)
  {
    forall c | c in d ensures NotScriptLineEnd(c) {
      var k :| 0 <= k < |d| && d[k] == c;
      assert IsDigit(d[k]);
    }
  }

  lemma JoinOnOneLine(a: string, b: string)
    requires OnOneLine(a) && OnOneLine(b)
    ensures OnOneLine(PathJoin(a, b))
  {
    assert OnOneLine("/");
  }

  /** A piece's path in a directory named on one line is on one line. */
  lemma PiecePathOnOneLine(dir: string, p: Piece)
    requires OnOneLine(dir)
    ensures OnOneLine(PathJoin(dir, PieceName(p)))
  {
    var d := FormatPadded(p.index + 1, 3);
    DigitsOnOneLine(d);
    assert OnOneLine("title_") && OnOneLine("segment_") && OnOneLine(".mp4");
    JoinOnOneLine(dir, PieceName(p));
  }

  function PiecePaths(dir: string, ps: seq<Piece>): (r: seq<string>)
    ensures |r| == |ps|
    ensures forall k :: 0 <= k < |ps| ==> r[k] == PathJoin(dir, PieceName(ps[k]))
  {
    if |ps| == 0 then [] else [PathJoin(dir, PieceName(ps[0]))] + PiecePaths(dir, ps[1..])
  }

  /** `all_segment_files` for the first `n` segments: each segment's title
      card followed by its video segment. */
  function Pieces(n: nat): (r: seq<Piece>)
    ensures |r| == 2 * n
    ensures forall k :: 0 <= k < n ==> r[2 * k] == TitleCard(k) && r[2 * k + 1] == SegmentClip(k)
  {
    if n == 0 then [] else Pieces(n - 1) + [TitleCard(n - 1), SegmentClip(n - 1)]
  }

  // ---------------------------------------------------------------------
  // The filter graph

  /** `[k:v:0][k:a:0]`: the video and audio stream of input `k`. */
  function StreamPair(k: nat): string {
    "[" + NatToString(k) + ":v:0][" + NatToString(k) + ":a:0]"
  }

  function StreamPairs(k: nat, n: nat): string
    decreases n - k
  {
    if k >= n then [] else StreamPair(k) + StreamPairs(k + 1, n)
  }

  const ConcatStart := "concat=n="
  const ConcatEnd := ":v=1:a=1[outv][outa]"

  /** `filter_complex` for `n` inputs: it takes the video and the audio
      stream of every input `0 … n - 1`, each exactly once and in input
      order, and concatenates `n` of them. */
  function FilterComplex(n: nat): (r: string)
    ensures ReadFilter(r) == Some((SamePairs(0, n), n))
  {
    var tail := ConcatStart + NatToString(n) + ConcatEnd;
    assert tail[0] == 'c';
    StreamPairsRead(0, n, tail);
    ConcatCountRead(StreamPairs(0, n), SamePairs(0, n), n);
    StreamPairs(0, n) + tail
  }

  /** Reads a decimal number off the front of a text. */
  function ReadNumber(s: string): (r: Option<(nat, string)>)
    ensures r.Some? ==> |r.value.1| < |s|
  {
    var e := RunWhile(s, 0, IsDigit);
    if e == 0 then None else Some((DigitsValue(s[..e]), s[e..]))
  }

  const VideoThenAudio := ":v:0]["
  const AudioEnd := ":a:0]"

  /** Reads one `[a:v:0][b:a:0]` label pair as `(a, b)`. */
  function ReadStreamPair(s: string): (r: Option<((nat, nat), string)>)
    ensures r.Some? ==> |r.value.1| < |s|
  {
    if |s| == 0 || s[0] != '[' then None
    else
      var a :- ReadNumber(s[1..]);
      if !StartsWith(a.1, VideoThenAudio) then None
      else
        var b :- ReadNumber(a.1[|VideoThenAudio|..]);
        if !StartsWith(b.1, AudioEnd) then None
        else Some(((a.0, b.0), b.1[|AudioEnd|..]))
  }

  /** Reads label pairs as long as the text starts with `[`. */
  function ReadStreamPairs(s: string): (r: Option<(seq<(nat, nat)>, string)>)
    decreases |s|
  {
    if |s| == 0 || s[0] != '[' then Some(([], s))
    else
      var p :- ReadStreamPair(s);
      var rest :- ReadStreamPairs(p.1);
      Some(([p.0] + rest.0, rest.1))
  }

  /** Reads a filter graph back as its label pairs and its concat count. */
  function ReadFilter(s: string): (r: Option<(seq<(nat, nat)>, nat)>)
  {
    var pairs :- ReadStreamPairs(s);
    if !StartsWith(pairs.1, ConcatStart) then None
    else
      var n :- ReadNumber(pairs.1[|ConcatStart|..]);
      if n.1 != ConcatEnd then None else Some((pairs.0, n.0))
  }

  lemma NumberRead(n: nat, rest: string)
    requires rest == [] || !IsDigit(rest[0])
    ensures ReadNumber(NatToString(n) + rest) == Some((n, rest))
  {
    var d := NatToString(n);
    var s := d + rest;
    forall k | 0 <= k < |d| ensures IsDigit(s[k]) {
      assert s[k] == d[k];
    }
    if rest != [] {
      assert s[|d|] == rest[0];
      RunWhileStops(s, 0, |d|, IsDigit);
    }
    assert s[..|d|] == d && s[|d|..] == rest;
    NatToStringValue(n);
  }

  lemma StreamPairRead(k: nat, rest: string)
    ensures ReadStreamPair(StreamPair(k) + rest) == Some(((k, k), rest))
  {
    var d := NatToString(k);
    var s := StreamPair(k) + rest;
    var tail2 := AudioEnd + rest;
    var tail1 := VideoThenAudio + (d + tail2);
    assert s == "[" + (d + tail1);
    assert s[1..] == d + tail1;
    NumberRead(k, tail1);
    assert tail1[|VideoThenAudio|..] == d + tail2;
    NumberRead(k, tail2);
    assert tail2[|AudioEnd|..] == rest;
  }

  /** The pairs `(k, k), (k + 1, k + 1), …, (n - 1, n - 1)`. */
  function SamePairs(k: nat, n: nat): (r: seq<(nat, nat)>)
    ensures |r| == if k <= n then n - k else 0
    ensures forall j :: 0 <= j < |r| ==> r[j] == (k + j, k + j)
    decreases n - k
  {
    if k >= n then [] else [(k, k)] + SamePairs(k + 1, n)
  }

  lemma {:induction false} StreamPairsRead(k: nat, n: nat, rest: string)
    requires rest == [] || rest[0] != '['
    ensures ReadStreamPairs(StreamPairs(k, n) + rest) == Some((SamePairs(k, n), rest))
    decreases n - k
  {
    if k < n {
      var tail := StreamPairs(k + 1, n) + rest;
      assert StreamPairs(k, n) + rest == StreamPair(k) + tail;
      StreamPairRead(k, tail);
      StreamPairsRead(k + 1, n, rest);
      assert (StreamPair(k) + tail)[0] == '[';
    } else {
      assert StreamPairs(k, n) + rest == rest;
    }
  }

  /** Once the label pairs are read, the rest of a filter graph gives its
      count. */
  lemma ConcatCountRead(labels: string, pairs: seq<(nat, nat)>, n: nat)
    requires ReadStreamPairs(labels + (ConcatStart + NatToString(n) + ConcatEnd))
      == Some((pairs, ConcatStart + NatToString(n) + ConcatEnd))
    ensures ReadFilter(labels + (ConcatStart + NatToString(n) + ConcatEnd)) == Some((pairs, n))
  {
    var count := NatToString(n) + ConcatEnd;
    var tail := ConcatStart + count;
    assert ConcatStart + NatToString(n) + ConcatEnd == tail;
    assert StartsWith(tail, ConcatStart);
    assert tail[|ConcatStart|..] == count;
    assert ConcatEnd[0] == ':';
    NumberRead(n, ConcatEnd);
  }

  /** `inputs`: `-i <file>` for each file, in order. */
  function InputArgs(files: seq<string>): (r: seq<string>)
    ensures |r| == 2 * |files|
    ensures forall k :: 0 <= k < |files| ==> r[2 * k] == "-i" && r[2 * k + 1] == files[k]
  {
    if |files| == 0 then [] else InputArgs(files[..|files| - 1]) + ["-i", files[|files| - 1]]
  }

  // ---------------------------------------------------------------------
  // Durations

  function SumDurations(segs: seq<HighlightSegment>): int {
    if |segs| == 0 then 0 else SumDurations(segs[..|segs| - 1]) + segs[|segs| - 1].duration
  }

  /** The reported total: the segment durations plus one title card per
      segment. */
  function TotalDuration(segs: seq<HighlightSegment>, titleDuration: int): int {
    SumDurations(segs) + |segs| * titleDuration
  }

  /** How long each piece runs: a title card the title duration, a video
      segment its own duration. */
  function PieceDuration(p: Piece, segs: seq<HighlightSegment>, titleDuration: int): int {
    match p
    case TitleCard(_) => titleDuration
    case SegmentClip(i) => if i < |segs| then segs[i].duration else 0
  }

  function PiecesDuration(ps: seq<Piece>, segs: seq<HighlightSegment>, titleDuration: int): int {
    if |ps| == 0 then 0 else PiecesDuration(ps[..|ps| - 1], segs, titleDuration) + PieceDuration(ps[|ps| - 1], segs, titleDuration)
  }

  lemma {:induction false} PiecesDurationPrefix(segs: seq<HighlightSegment>, n: nat, titleDuration: int)
    requires n <= |segs|
    ensures PiecesDuration(Pieces(n), segs, titleDuration) == SumDurations(segs[..n]) + n * titleDuration
  {
    if n > 0 {
      PiecesDurationPrefix(segs, n - 1, titleDuration);
      var before := Pieces(n - 1);
      var withTitle := before + [TitleCard(n - 1)];
      var ps := withTitle + [SegmentClip(n - 1)];
      assert Pieces(n) == ps;
      assert ps[..|ps| - 1] == withTitle && ps[|ps| - 1] == SegmentClip(n - 1);
      assert withTitle[..|withTitle| - 1] == before && withTitle[|withTitle| - 1] == TitleCard(n - 1);
      assert PiecesDuration(withTitle, segs, titleDuration) == PiecesDuration(before, segs, titleDuration) + titleDuration;
      assert PiecesDuration(ps, segs, titleDuration) == PiecesDuration(withTitle, segs, titleDuration) + segs[n - 1].duration;
      var pre := segs[..n];
      assert pre[..n - 1] == segs[..n - 1] && pre[n - 1] == segs[n - 1];
      assert SumDurations(pre) == SumDurations(segs[..n - 1]) + segs[n - 1].duration;
      assert n * titleDuration == (n - 1) * titleDuration + titleDuration;
    }
  }

  /** The reported total is the running time of the files joined, piece by
      piece. */
  lemma TotalIsPieces(segs: seq<HighlightSegment>, titleDuration: int)
    ensures TotalDuration(segs, titleDuration) == PiecesDuration(Pieces(|segs|), segs, titleDuration)
  {
    PiecesDurationPrefix(segs, |segs|, titleDuration);
    assert segs[..|segs|] == segs;
  }

  // ---------------------------------------------------------------------
  // `create_highlight_reel` and `create_titled_highlight_reel`

  /** What the external programs do, as far as the reel is concerned. */
  datatype Tools = Tools(
    videoExists: bool,          // `os.path.exists(video_path)`
    probe: Outcome,             // `_get_video_properties`: ffprobe and the parse of its output
    reelDirMade: Outcome,       // `os.makedirs` of the output's parent directory
    tempDirMade: Outcome,       // entering `tempfile.TemporaryDirectory()`
    titleCardMade: nat -> bool, // the ffmpeg run rendering title card `i`
    segmentCut: nat -> bool,    // `_extract_video_segment` for segment `i`, by either method
    listWritten: Outcome,       // `_create_concat_file` writing `concat.txt`
    filterConcat: bool,         // the `filter_complex` concatenation
    demuxerConcat: bool)        // the concat-demuxer fallback

  datatype Method = FilterGraph | ConcatDemuxer

  /** A finished reel: the intermediate files in order, the concat list
      written for them, the filter graph, how they were joined, the total
      duration reported (only the filter-graph path reports one) and the
      output path. */
  datatype Reel = Reel(
    files: seq<string>,
    concatList: string,
    filter: string,
    joinedBy: Method,
    reported: Option<int>,
    output: string)

  /** The segment loop from segment `i`: a title card that ffmpeg fails to
      render propagates its CalledProcessError; a segment that cannot be
      cut becomes a RuntimeError. */
  function MakePieces(tools: Tools, i: nat, n: nat): (r: Outcome)
    requires i <= n
    ensures r.Fail? ==> r.error == CalledProcessError || r.error == RuntimeError
    ensures r.Pass? <==> forall k :: i <= k < n ==> tools.titleCardMade(k) && tools.segmentCut(k)
    decreases n - i
  {
    if i == n then Pass
    else if !tools.titleCardMade(i) then Fail(CalledProcessError)
    else if !tools.segmentCut(i) then Fail(RuntimeError)
    else MakePieces(tools, i + 1, n)
  }

  /** The files of `n` segments, in order, as the concat list and the
      filter graph see them. */
  lemma PlannedFiles(dir: string, n: nat)
    ensures var files := PiecePaths(dir, Pieces(n));
      && |files| == 2 * n
      && (forall k :: 0 <= k < n ==>
            files[2 * k] == PathJoin(dir, PieceName(TitleCard(k)))
            && files[2 * k + 1] == PathJoin(dir, PieceName(SegmentClip(k))))
      && (OnOneLine(dir) ==> ReadConcatList(QuotedConcatList(files)) == Some(files))
      && ReadFilter(FilterComplex(|files|)) == Some((SamePairs(0, 2 * n), 2 * n))
  {
    var files := PiecePaths(dir, Pieces(n));
    if OnOneLine(dir) {
      forall k | 0 <= k < |files| ensures OnOneLine(files[k]) {
        PiecePathOnOneLine(dir, Pieces(n)[k]);
      }
      QuotedConcatListReads(files);
    }
  }

  /** `TitledHighlightReel.create_highlight_reel`, with `dir` the temporary
      directory. */
  function CreateHighlightReel(tools: Tools, dir: string, segs: seq<HighlightSegment>, output: string, titleDuration: int): (r: Result<Reel>)
    ensures !tools.videoExists ==> r == Err(FileNotFoundError)
    ensures tools.videoExists && |segs| == 0 ==> r == Err(ValueError)
    ensures tools.videoExists && |segs| > 0 && tools.probe.Fail? ==> r == Err(tools.probe.error)
    ensures tools.videoExists && |segs| > 0 && tools.probe.Pass? && tools.reelDirMade.Fail? ==> r == Err(tools.reelDirMade.error)
    ensures (tools.videoExists && |segs| > 0 && tools.probe.Pass? && tools.reelDirMade.Pass? && tools.tempDirMade.Fail?)
            ==> r == Err(tools.tempDirMade.error)
    ensures r.Ok? <==>
      && tools.videoExists && |segs| > 0 && tools.probe.Pass? && tools.reelDirMade.Pass? && tools.tempDirMade.Pass?
      && (forall k :: 0 <= k < |segs| ==> tools.titleCardMade(k) && tools.segmentCut(k))
      && tools.listWritten.Pass? && (tools.filterConcat || tools.demuxerConcat)
    ensures r.Ok? ==> (
      && |r.value.files| == 2 * |segs|
      && (forall k :: 0 <= k < |segs| ==>
            r.value.files[2 * k] == PathJoin(dir, PieceName(TitleCard(k)))
            && r.value.files[2 * k + 1] == PathJoin(dir, PieceName(SegmentClip(k))))
      && (OnOneLine(dir) ==> ReadConcatList(r.value.concatList) == Some(r.value.files))
      && ReadFilter(r.value.filter) == Some((SamePairs(0, 2 * |segs|), 2 * |segs|))
      && (r.value.joinedBy == FilterGraph <==> tools.filterConcat)
      && (r.value.reported.Some? <==> tools.filterConcat)
      && (r.value.reported.Some? ==> r.value.reported.value == PiecesDuration(Pieces(|segs|), segs, titleDuration))
      && r.value.output == output)
  {
    if !tools.videoExists then Err(FileNotFoundError)
    else if |segs| == 0 then Err(ValueError)
    else
      :- tools.probe;
      :- tools.reelDirMade;
      :- tools.tempDirMade;
      :- MakePieces(tools, 0, |segs|);
      :- tools.listWritten;
      var files := PiecePaths(dir, Pieces(|segs|));
      var list := QuotedConcatList(files);
      var filter := FilterComplex(|files|);
      PlannedFiles(dir, |segs|);
      TotalIsPieces(segs, titleDuration);
      if tools.filterConcat then Ok(Reel(files, list, filter, FilterGraph, Some(TotalDuration(segs, titleDuration)), output))
      else if tools.demuxerConcat then Ok(Reel(files, list, filter, ConcatDemuxer, None, output))
      else Err(RuntimeError)
  }

  const TitledSuffix := "_titled_highlight"

  /** `output_dir/<stem>_titled_highlight.mp4`. */
  function TitledOutput(outputDir: string, videoPath: string): string {
    PathJoin(outputDir, FileStem(videoPath) + TitledSuffix + ".mp4")
  }

  /** The reel is named after the video: its stem is the video's stem with
      `_titled_highlight` appended, in `output_dir`. */
  lemma TitledOutputStem(outputDir: string, videoPath: string)
    ensures Basename(TitledOutput(outputDir, videoPath)) == FileStem(videoPath) + TitledSuffix + ".mp4"
    ensures FileStem(TitledOutput(outputDir, videoPath)) == FileStem(videoPath) + TitledSuffix
  {
    var v := FileStem(videoPath);
    FileStemSlashFree(videoPath);
    NamedInDir(outputDir, v, v + TitledSuffix + ".mp4");
  }

  lemma NamedInDir(dir: string, v: string, name: string)
    requires '/' !in v && name == v + TitledSuffix + ".mp4"
    ensures Basename(PathJoin(dir, name)) == name
    ensures FileStem(PathJoin(dir, name)) == v + TitledSuffix
  {
    var stem := v + TitledSuffix;
    SuffixedStem(v, TitledSuffix);
    assert name == stem + "." + "mp4";
    StemOfJoined(dir, name, stem, "mp4");
  }

  lemma SuffixedStem(v: string, suffix: string)
    requires '/' !in v && suffix == TitledSuffix
    ensures forall j :: 0 <= j < |v + suffix| ==> (v + suffix)[j] != '/'
    ensures !AllDots(v + suffix)
  {
    var s := v + suffix;
    forall j | 0 <= j < |s| ensures s[j] != '/' {
      if j < |v| { assert s[j] == v[j]; } else { assert s[j] == suffix[j - |v|]; }
    }
    assert s[|v|] == '_';
  }

  /** `create_titled_highlight_reel`: the existence check, then the
      output directory (`outputDirMade`: whether `os.makedirs(output_dir)`
      returns), then ffmpeg's availability (the constructor's
      RuntimeError), then the reel. */
  function CreateTitledHighlightReel(tools: Tools, outputDirMade: Outcome, ffmpegAvailable: bool, videoPath: string,
                                     segs: seq<HighlightSegment>, outputDir: string, titleDuration: int, dir: string): (r: Result<Reel>)
    ensures !tools.videoExists ==> r == Err(FileNotFoundError)
    ensures tools.videoExists && outputDirMade.Fail? ==> r == Err(outputDirMade.error)
    ensures tools.videoExists && outputDirMade.Pass? && !ffmpegAvailable ==> r == Err(RuntimeError)
    ensures tools.videoExists && outputDirMade.Pass? && ffmpegAvailable ==>
      r == CreateHighlightReel(tools, dir, segs, TitledOutput(outputDir, videoPath), titleDuration)
  {
    if !tools.videoExists then Err(FileNotFoundError)
    else if outputDirMade.Fail? then Err(outputDirMade.error)
    else if !ffmpegAvailable then Err(RuntimeError)
    else CreateHighlightReel(tools, dir, segs, TitledOutput(outputDir, videoPath), titleDuration)
  }
}

=== FILE: utils.dfy ===
/** `validate_timestamps`: the argument checks shared by the screenshot and
    clip helpers. Python values are reduced to what the checks look at. */
module Utils {
  import opened Wrappers

  /** One element of the argument: an `int` or `float` (Python's `bool` is
      an `int` too), or a value of any other type. */
  datatype Element = Number(value: real) | NonNumber

  /** The argument: a list or tuple of elements, or a value of any other
      type, of which only its truthiness matters. */
  datatype TimestampsArg = Sequence(items: seq<Element>) | Other(truthy: bool)

  /** `bool(timestamps)`: a list or tuple is true when it is non-empty. */
  predicate Truthy(arg: TimestampsArg)
  {
    match arg
    case Sequence(items) => |items| > 0
    case Other(t) => t
  }

  /** `isinstance(t, (int, float)) and t >= 0` */
  predicate NonNegativeNumber(e: Element)
  {
    e.Number? && e.value >= 0.0
  }

  predicate AllNonNegative(items: seq<Element>)
  {
    forall i :: 0 <= i < |items| ==> NonNegativeNumber(items[i])
  }

  /** The numbers of a list whose elements are all numbers. */
  function Values(items: seq<Element>): (r: seq<real>)
    requires forall i :: 0 <= i < |items| ==> items[i].Number?
    ensures |r| == |items|
    ensures forall i :: 0 <= i < |items| ==> r[i] == items[i].value
  {
    seq(|items|, i requires 0 <= i < |items| => items[i].value)
  }

  /** `set(values)` */
  function Elements(s: seq<real>): set<real>
  {
    if |s| == 0 then {} else Elements(s[..|s| - 1]) + {s[|s| - 1]}
  }

  /** No value occurs twice (numbers compare by value, so `1` and `1.0`
      are the same timestamp). */
  predicate Distinct(s: seq<real>)
  {
    forall i, j :: 0 <= i < j < |s| ==> s[i] != s[j]
  }

  lemma {:induction false} ElementsMembers(s: seq<real>)
    ensures forall x :: x in Elements(s) <==> exists k :: 0 <= k < |s| && s[k] == x
  {
    if |s| > 0 {
      var t := s[..|s| - 1];
      ElementsMembers(t);
      forall x ensures x in Elements(s) <==> exists k :: 0 <= k < |s| && s[k] == x {
        if x in Elements(t) {
          var k :| 0 <= k < |t| && t[k] == x;
          assert s[k] == x;
        }
        if exists k :: 0 <= k < |s| && s[k] == x {
          var k :| 0 <= k < |s| && s[k] == x;
          if k < |t| { assert t[k] == x; }
        }
      }
    }
  }

  /** `len(set(values)) == len(values)` holds exactly when no value repeats;
      otherwise the set is strictly smaller. */
  lemma {:induction false} DistinctIffFullSet(s: seq<real>)
    ensures |Elements(s)| <= |s|
    ensures |Elements(s)| == |s| <==> Distinct(s)
  {
    if |s| > 0 {
      var t, x := s[..|s| - 1], s[|s| - 1];
      DistinctIffFullSet(t);
      ElementsMembers(t);
      if x in Elements(t) {
        var k :| 0 <= k < |t| && t[k] == x;
        assert s[k] == s[|s| - 1];
        assert !Distinct(s);
      } else {
        assert |Elements(s)| == |Elements(t)| + 1;
        if Distinct(t) {
          forall i, j | 0 <= i < j < |s| ensures s[i] != s[j] {
            if j < |t| {
              assert s[i] == t[i] && s[j] == t[j];
            } else {
              assert s[i] == t[i];
            }
          }
        } else {
          var i, j :| 0 <= i < j < |t| && t[i] == t[j];
          assert s[i] == s[j];
        }
      }
    }
  }

  /** `validate_timestamps(timestamps)`: every failure is a `ValueError`;
      the checks run in the order emptiness, type, element values,
      duplicates. */
  function ValidateTimestamps(arg: TimestampsArg): (r: Outcome)
    ensures r == Pass <==>
      && arg.Sequence? && |arg.items| > 0 && AllNonNegative(arg.items)
      && Distinct(Values(arg.items))
    ensures r.Fail? ==> r.error == ValueError
    ensures !Truthy(arg) ==> r.Fail?
  {
    if !Truthy(arg) then Fail(ValueError)
    else if !arg.Sequence? then Fail(ValueError)
    else if !AllNonNegative(arg.items) then Fail(ValueError)
    else
      var v := Values(arg.items);
      DistinctIffFullSet(v);
      if |Elements(v)| != |v| then Fail(ValueError) else Pass
  }

  /** The validator as the two video helpers intend to call it: with
      `allowDuplicates` the duplicate check is skipped. */
  function ValidateTimestampsAllowing(arg: TimestampsArg, allowDuplicates: bool): (r: Outcome)
    ensures r == Pass <==>
      && arg.Sequence? && |arg.items| > 0 && AllNonNegative(arg.items)
      && (allowDuplicates || Distinct(Values(arg.items)))
    ensures r.Fail? ==> r.error == ValueError
    ensures !allowDuplicates ==> r == ValidateTimestamps(arg)
  {
    if allowDuplicates then
      if !Truthy(arg) || !arg.Sequence? || !AllNonNegative(arg.items) then Fail(ValueError) else Pass
    else ValidateTimestamps(arg)
  }

  /** A Python call of `validate_timestamps` with the given keyword
      arguments: the function takes none, so any keyword is a `TypeError`
      raised before its body runs. */
  function CallValidateTimestamps(arg: TimestampsArg, keywords: seq<string>): (r: Outcome)
    ensures |keywords| > 0 ==> r == Fail(TypeError)
    ensures |keywords| == 0 ==> r == ValidateTimestamps(arg)
  {
    if |keywords| > 0 then Fail(TypeError) else ValidateTimestamps(arg)
  }
}

=== FILE: videoclipper.dfy ===
/** `extract_video_clip`: the checks it makes and the path of the clip it
    writes. Running ffmpeg is an oracle that succeeds or fails. */
module VideoClipper {
  import opened Wrappers
  import opened PyStr
  import opened PyInt
  import opened Paths
  import opened TimeParse
  import opened Utils

  /** `<stem>_clip_from_<H-MM-SS>_duration_<H-MM-SS>.mp4`, with start and
      duration truncated to whole seconds. Below a day, the name reads back
      as those whole seconds. */
  function ClipName(stem: string, start: real, duration: real): (r: string)
    ensures 0 <= Trunc(start) < 86400 && 0 <= Trunc(duration) < 86400 ==>
      ClipTimes(stem, r) == Some((Trunc(start), Trunc(duration)))
  {
    var name := stem + "_clip_from_" + TimeTag(Trunc(start)) + "_duration_" + TimeTag(Trunc(duration)) + ".mp4";
    ClipNameReads(stem, name, Trunc(start), Trunc(duration));
    name
  }

  /** `output_dir/<clip name>`; the stem is the video's file name without
      its extension. */
  function ClipPath(videoPath: string, outputDir: string, start: real, duration: real): string
  {
    PathJoin(outputDir, ClipName(FileStem(videoPath), start, duration))
  }

  /** What the clip cut depends on besides its arguments: whether
      `os.makedirs(output_dir)` returns, whether the ffmpeg executable is
      found (a missing one raises `FileNotFoundError` from the process
      launch, which `except ffmpeg.Error` does not catch) and whether the
      ffmpeg run succeeds. */
  datatype ClipTools = ClipTools(dirMade: Outcome, ffmpegFound: bool, ffmpegOk: bool)

  /** Everything after the argument checks: the duration check, the output
      directory, the two `timedelta` conversions, then the ffmpeg run and
      the path. */
  function ClipAfterChecks(videoPath: string, outputDir: string, start: Element, duration: Element, tools: ClipTools): (r: Result<string>)
  {
    match start
    case NonNumber => Err(ValueError)
    case Number(s) =>
      match duration
      case NonNumber => Err(TypeError)
      case Number(d) =>
        if d <= 0.0 then Err(ValueError)
        else if tools.dirMade.Fail? then Err(tools.dirMade.error)
        else if !TimedeltaFits(Trunc(s)) || !TimedeltaFits(Trunc(d)) then Err(OverflowError)
        else if !tools.ffmpegFound then Err(FileNotFoundError)
        else if !tools.ffmpegOk then Err(RuntimeError)
        else Ok(ClipPath(videoPath, outputDir, s, d))
  }

  /** The arguments pass every check of `extract_video_clip`. */
  predicate ValidClipArgs(start: Element, duration: Element)
  {
    NonNegativeNumber(start) && duration.Number? && duration.value > 0.0
  }

  /** `extract_video_clip` with the duplicate-tolerant validation its
      comment asks for. A missing video is reported first; a start that is
      not a non-negative number is a `ValueError`, a duration that is not a
      number a `TypeError` (the `<=` comparison fails), a duration that is
      not positive a `ValueError`. With valid arguments, a failing
      `os.makedirs` raises its own error, a start or duration of a billion
      days or more an `OverflowError`, a missing ffmpeg a
      `FileNotFoundError` and a failed ffmpeg run a `RuntimeError`. On
      success the derived path is returned. */
  function ExtractVideoClip(videoExists: bool, videoPath: string, outputDir: string, start: Element, duration: Element, tools: ClipTools): (r: Result<string>)
    ensures !videoExists ==> r == Err(FileNotFoundError)
    ensures videoExists && !NonNegativeNumber(start) ==> r == Err(ValueError)
    ensures videoExists && NonNegativeNumber(start) && duration.NonNumber? ==> r == Err(TypeError)
    ensures videoExists && NonNegativeNumber(start) && duration.Number? && duration.value <= 0.0 ==> r == Err(ValueError)
    ensures videoExists && ValidClipArgs(start, duration) && tools.dirMade.Fail? ==> r == Err(tools.dirMade.error)
    ensures (videoExists && ValidClipArgs(start, duration) && tools.dirMade.Pass?
             && !(TimedeltaFits(Trunc(start.value)) && TimedeltaFits(Trunc(duration.value)))) ==> r == Err(OverflowError)
    ensures r.Ok? <==>
      && videoExists && ValidClipArgs(start, duration) && tools.dirMade.Pass?
      && TimedeltaFits(Trunc(start.value)) && TimedeltaFits(Trunc(duration.value))
      && tools.ffmpegFound && tools.ffmpegOk
    ensures r.Ok? ==> r.value == ClipPath(videoPath, outputDir, start.value, duration.value)
    ensures (videoExists && ValidClipArgs(start, duration) && tools.dirMade.Pass?
             && TimedeltaFits(Trunc(start.value)) && TimedeltaFits(Trunc(duration.value))) ==>
      r == if !tools.ffmpegFound then Err(FileNotFoundError)
           else if !tools.ffmpegOk then Err(RuntimeError)
           else Ok(ClipPath(videoPath, outputDir, start.value, duration.value))
  {
    if !videoExists then Err(FileNotFoundError)
    else
      assert [start][0] == start;
      match ValidateTimestampsAllowing(Sequence([start]), true)
      case Fail(e) => Err(e)
      case Pass => ClipAfterChecks(videoPath, outputDir, start, duration, tools)
  }

  /** `extract_video_clip` as written: the validator is called with a
      keyword it does not take, so every call on an existing video raises
      `TypeError` and no clip is ever cut. */
  function ExtractVideoClipAsWritten(videoExists: bool, videoPath: string, outputDir: string, start: Element, duration: Element, tools: ClipTools): (r: Result<string>)
    ensures r == Err(if videoExists then TypeError else FileNotFoundError)
  {
    if !videoExists then Err(FileNotFoundError)
    else
      match CallValidateTimestamps(Sequence([start]), ["allow_duplicates"])
      case Fail(e) => Err(e)
      case Pass => ClipAfterChecks(videoPath, outputDir, start, duration, tools)
  }

  /** One concrete call where the two differ: a ten-second clip from the
      start of an existing video. */
  lemma ClipKeywordRejected()
    ensures ExtractVideoClipAsWritten(true, "talk.mp4", "clips", Number(0.0), Number(10.0), ClipTools(Pass, true, true)) == Err(TypeError)
    ensures ExtractVideoClip(true, "talk.mp4", "clips", Number(0.0), Number(10.0), ClipTools(Pass, true, true)).Ok?
  {
  }

  /** Reads start and duration back from a clip name of a known video. */
  function ClipTimes(stem: string, name: string): (r: Option<(int, int)>)
  {
    var p := stem + "_clip_from_";
    if |name| < |p| + 4 || name[..|p|] != p || name[|name| - 4..] != ".mp4" then None
    else
      var rest := name[|p|..|name| - 4];
      match IndexOf(rest, "_")
      case None => None
      case Some(j) =>
        var after := rest[j..];
        if !StartsWith(after, "_duration_") then None
        else
          match (ParseTimeTag(rest[..j]), ParseTimeTag(after[10..]))
          case (Ok(a), Ok(b)) => Some((a, b))
          case _ => None
  }

  /** Where the two tags sit in a clip name. */
  lemma ClipNamePieces(name: string, p: string, t1: string, t2: string)
    requires name == p + t1 + "_duration_" + t2 + ".mp4" && '_' !in t1
    ensures |name| >= |p| + 4 && name[..|p|] == p && name[|name| - 4..] == ".mp4"
    ensures var rest := name[|p|..|name| - 4];
      && IndexOf(rest, "_") == Some(|t1|) && rest[..|t1|] == t1
      && StartsWith(rest[|t1|..], "_duration_") && rest[|t1|..][10..] == t2
  {
    var rest := name[|p|..|name| - 4];
    assert rest == t1 + "_" + ("duration_" + t2);
    IndexOfCharFree(t1, '_');
    IndexOfOfPrefixed(t1, "_", "duration_" + t2);
    assert rest[|t1|..] == "_duration_" + t2;
  }

  /** Reading a name whose two tags sit where `ClipNamePieces` puts them. */
  lemma ClipTimesOf(stem: string, name: string, t1: string, t2: string, a: int, b: int)
    requires var p := stem + "_clip_from_";
      && |name| >= |p| + 4 && name[..|p|] == p && name[|name| - 4..] == ".mp4"
      && var rest := name[|p|..|name| - 4];
      && IndexOf(rest, "_") == Some(|t1|) && rest[..|t1|] == t1
      && StartsWith(rest[|t1|..], "_duration_") && rest[|t1|..][10..] == t2
    requires ParseTimeTag(t1) == Ok(a) && ParseTimeTag(t2) == Ok(b)
    ensures ClipTimes(stem, name) == Some((a, b))
  {
  }

  /** Below a day, a name built from the tags of `a` and `b` reads back as
      `a` and `b`. */
  lemma ClipNameReads(stem: string, name: string, a: int, b: int)
    requires name == stem + "_clip_from_" + TimeTag(a) + "_duration_" + TimeTag(b) + ".mp4"
    ensures 0 <= a < 86400 && 0 <= b < 86400 ==> ClipTimes(stem, name) == Some((a, b))
  {
    if 0 <= a < 86400 && 0 <= b < 86400 {
      var t1, t2 := TimeTag(a), TimeTag(b);
      TagCharFree(a, '_');
      ClipNamePieces(name, stem + "_clip_from_", t1, t2);
      TimeTagParsesBack(a);
      TimeTagParsesBack(b);
      ClipTimesOf(stem, name, t1, t2, a, b);
    }
  }

  /** Below a day, two clips of one video get the same file name only when
      their whole-second start and duration agree; ffmpeg overwrites in
      that case only. */
  lemma ClipNamesDistinct(stem: string, s1: real, d1: real, s2: real, d2: real)
    requires 0 <= Trunc(s1) < 86400 && 0 <= Trunc(d1) < 86400
    requires 0 <= Trunc(s2) < 86400 && 0 <= Trunc(d2) < 86400
    requires ClipName(stem, s1, d1) == ClipName(stem, s2, d2)
    ensures Trunc(s1) == Trunc(s2) && Trunc(d1) == Trunc(d2)
  {
  }

  lemma ClipNameSlashFree(name: string, stem: string, t1: string, t2: string)
    requires name == stem + "_clip_from_" + t1 + "_duration_" + t2 + ".mp4"
    requires '/' !in stem && '/' !in t1 && '/' !in t2
    ensures forall j :: 0 <= j < |name| ==> name[j] != '/'
  {
    assert '/' !in name;
  }

  /** Below a day, the returned path's last component is the clip name. */
  lemma ClipPathName(videoPath: string, outputDir: string, start: real, duration: real)
    requires 0 <= Trunc(start) < 86400 && 0 <= Trunc(duration) < 86400
    ensures Basename(ClipPath(videoPath, outputDir, start, duration)) == ClipName(FileStem(videoPath), start, duration)
  {
    FileStemSlashFree(videoPath);
    TagCharFree(Trunc(start), '/');
    TagCharFree(Trunc(duration), '/');
    var name := ClipName(FileStem(videoPath), start, duration);
    ClipNameSlashFree(name, FileStem(videoPath), TimeTag(Trunc(start)), TimeTag(Trunc(duration)));
    BasenameOfJoin(outputDir, name);
  }
}

=== FILE: wrappers.dfy ===
/** Failure-compatible result types shared by every module of the model.
    Python exceptions become `Err(kind)`; only the exception class is kept,
    never the message text. */
module Wrappers {

  datatype Option<+T> = None | Some(value: T) {
    predicate IsFailure() { None? }

    function PropagateFailure<U>(): Option<U>
      requires None?
    {
      None
    }

    function Extract(): T
      requires Some?
    {
      value
    }

    function GetOr(default: T): T {
      match this
      case Some(v) => v
      case None => default
    }
  }

  /** The Python exception classes that the modelled code can raise. */
  datatype PyError =
    | ValueError
    | TypeError
    | FileNotFoundError
    | RuntimeError
    | IndexError
    | UnboundLocalError
    | OverflowError
    | CalledProcessError
    | OSError
    | ZeroDivisionError

  datatype Result<+T> = Ok(value: T) | Err(error: PyError) {
    predicate IsFailure() { Err? }

    function PropagateFailure<U>(): Result<U>
      requires Err?
    {
      Err(error)
    }

    function Extract(): T
      requires Ok?
    {
      value
    }
  }

  /** A result without a value: a Python call made only for its checks. */
  datatype Outcome = Pass | Fail(error: PyError) {
    predicate IsFailure() { Fail? }

    function PropagateFailure<U>(): Result<U>
      requires Fail?
    {
      Err(error)
    }
  }

  /** What a loop over steps that stops at the first failure leaves: the
      values of the steps before it, and its error if one failed. */
  datatype Stopped<T> = Stopped(values: seq<T>, error: Option<PyError>)

  function UntilError<T>(rs: seq<Result<T>>): (r: Stopped<T>)
    ensures r.error.None? <==> forall k :: 0 <= k < |rs| ==> rs[k].Ok?
    ensures r.error.None? ==> |r.values| == |rs|
    ensures r.error.Some? ==> |r.values| < |rs| && rs[|r.values|] == Err(r.error.value)
    ensures |r.values| <= |rs| && forall k :: 0 <= k < |r.values| ==> rs[k] == Ok(r.values[k])
    decreases |rs|
  {
    if |rs| == 0 then Stopped([], None)
    else if rs[0].Err? then Stopped([], Some(rs[0].error))
    else
      var rest := UntilError(rs[1..]);
      var values := [rs[0].value] + rest.values;
      assert forall k :: 1 <= k < |rs| ==> rs[1..][k - 1] == rs[k];
      assert forall k :: 1 <= k < |values| ==> values[k] == rest.values[k - 1];
      Stopped(values, rest.error)
  }

  /** Some element of `xs[a..b]` satisfies `p`, searched from `a` upward. */
  predicate AnyIn<T>(xs: seq<T>, p: T -> bool, a: nat, b: nat)
    requires b <= |xs|
    decreases b - a
  {
    a < b && (p(xs[a]) || AnyIn(xs, p, a + 1, b))
  }

  /** The search finds an element exactly when one exists. */
  lemma AnyInMeans<T>(xs: seq<T>, p: T -> bool, a: nat, b: nat)
    requires b <= |xs|
    ensures AnyIn(xs, p, a, b) <==> exists k :: a <= k < b && p(xs[k])
  {
    if AnyIn(xs, p, a, b) {
      var k := AnyInWitness(xs, p, a, b);
    } else {
      forall k | a <= k < b && p(xs[k]) ensures false {
        AnyInFrom(xs, p, a, b, k);
      }
    }
  }

  lemma {:induction false} AnyInFrom<T>(xs: seq<T>, p: T -> bool, a: nat, b: nat, k: nat)
    requires b <= |xs| && a <= k < b && p(xs[k])
    ensures AnyIn(xs, p, a, b)
    decreases k - a
  {
    if a < k {
      AnyInFrom(xs, p, a + 1, b, k);
    }
  }

  lemma {:induction false} AnyInWitness<T>(xs: seq<T>, p: T -> bool, a: nat, b: nat) returns (k: nat)
    requires b <= |xs| && AnyIn(xs, p, a, b)
    ensures a <= k < b && p(xs[k])
    decreases b - a
  {
    if p(xs[a]) {
      k := a;
    } else {
      k := AnyInWitness(xs, p, a + 1, b);
    }
  }
}
